=== FILE: README.md ===
# Term frequency, twenty ways — a Dafny model

The repository solves one problem again and again, in a different programming style each time.
It reads a text file and the comma-separated stop-word file `../stop_words.txt`. It cuts the text
into words, lower-cases them, drops one-letter words and stop words, counts what is left, and
prints the 25 most frequent words with their counts. The styles include:

- a monolithic loop;
- an association list with a bubble sort;
- globals mutated by procedures;
- a pipeline of functions;
- closed maps and letterboxes;
- publish/subscribe;
- continuation passing and "the one" monad;
- Java with reflection-driven managers;
- lazy iterators;
- constructivist, tantrum and quarantine error handling;
- actors, dataspaces and map-reduce on threads;
- a numpy bigram counter.

## Shared modules

Each variant rebuilds the same few operations. They are defined once here:

- `Text`: ASCII character classes, lower-casing, splitting at a separator class, joining, the
  lines of a text, the "countable word" filter and the stop-word line.
- `Frequencies`: the word-count table (a `map` to `nat`), its increment, counting a list of words
  (the fold of increments), counting into an existing table, and merging tables.
- `Ranking`: the entries listed from a table, sorting by decreasing count (a stable insertion sort
  on sequences), truncation, and the two properties the output must have:
  - `IsRanking`: every entry of the table once, in non-increasing order of count;
  - `IsTop`: the first n of some ranking, so a word left out never outnumbers a word printed.
- `ListCounter`: the `Vec<(String, usize)>` counter of `week2/four.rs`, searched linearly.
- `Decimal`, `StringOrder`, `JsText`, `JavaText`: number printing and parsing, the word order used
  to break ties, JavaScript's regular-expression replace and object-as-map counting, and Java's
  `Scanner` tokens and `int` comparison.
- `Seqs` and `Wrappers`: sequence helpers and `Option`/`Outcome`.

## Per-variant modules

Each core source file has a module named after it (`Week1Main`, `Week2Four`, …, `Week9Bigrams`),
modelled in its own form:

- Code that updates objects or globals in place becomes a `class` whose methods have `modifies`
  clauses. Examples: the closed-map counter, the letterbox managers, the pub/sub handlers, the Java
  managers and the actors.
- Loops become methods with invariants.
- Pure pipelines become functions.

Every entry point that finds its files is proved to print a correct top 25 of the count of the
countable words of its input, with two exceptions:

- `week9/week9.py` prints a top 5 of the counts of neighbouring word pairs (bigrams), after
  filtering stop words and translating letters to leet;
- `week8/29-1.rs` hangs when a file is missing, because the actor that panics leaves the others
  waiting; `Week8Actors.Run` proves the hang.

Where the source fixes the order of ties, the exact output is proved too:

- `week1/main.rs` sorts by count and then by word;
- `week2/four.rs` uses a stable bubble sort;
- `week6/28.rs` uses a stable sort;
- `week9/week9.py` counts with `np.unique`, which lists the pairs in sorted order, and then uses
  the stable `sorted` by decreasing count. `Week9Bigrams.Run` prints the first five rows of
  that order, which `Week9Bigrams.OrderedRowsUnique` shows is the only one.

Files, arguments and the stop-word file are inputs: a `map` from path to contents, and a sequence of
arguments. A panic, an `unwrap` of an error or a thrown exception is an `Outcome.Panic` with its
message. Threads run on an explicit schedule.

## Model

| member | source | states |
|---|---|---|
| Week1Main.PrecedesTotal | week1/main.rs:66-70 | the output order (count descending, then word ascending) puts exactly one of two entries with different words first |
| Week1Main.PrecedesTransitive | week1/main.rs:66-70 | the output order is transitive |
| Week1Main.PrecedesAsymmetric | week1/main.rs:66-70 | no two entries come before each other |
| Week1Main.InsertOrdered | week1/main.rs:70 | inserting an entry with a new word into an ordered list keeps it ordered and adds exactly that entry |
| Week1Main.SortEntries | week1/main.rs:66-70 | the sort of entries with distinct words is ordered by the comparator and a permutation of them |
| Week1Main.OrderedUnique | week1/main.rs:70 | two ordered permutations of the same entries are equal, so the comparator fixes one output |
| Week1Main.SortDeterministic | week1/main.rs:66-70 | whatever order the hash map lists its entries in, the sorted list is the same |
| Week1Main.CountLines | week1/main.rs:51-64 | the line loop leaves the table counting every lower-cased piece longer than one letter that is no stop word |
| Week1Main.CountPiece | week1/main.rs:57-63 | one more piece raises its lower-cased word's count by one when it passes the length and stop-word test, and changes nothing otherwise |
| Week1Main.Run | week1/main.rs:15-76 | a missing stop-word file or text file exits with the open-file code, a wrong argument count exits with the argument code, no arguments at all panics; otherwise the printed rows are a correct top 25, ordered, and every word left out comes after every row |
| Week1Main.TopOrdered | week1/main.rs:70-72 | the first 25 of the ordered list are a correct top 25 in comparator order |
| Week1Main.OrderedNonIncreasing | week1/main.rs:70 | a list in comparator order has non-increasing counts |
| Week1Main.LeftOutComeAfter | week1/main.rs:70-72 | every entry cut off by the truncation comes after every row kept |
| Week2Four.StopSet | week2/four.rs:19-35 | every non-empty run of letters in the stop-word line is a stop word, and every stop word is such a run (or an empty piece) made of ASCII letters only |
| Week2Four.ParseStopWords | week2/four.rs:23-35 | the stop-word scan yields the runs between non-letters, with a trailing empty run dropped |
| Week2Four.ScanLine | week2/four.rs:49-90 | scanning a line character by character adds to the counter exactly the words of the line that are longer than one letter and no stop word |
| Week2Four.TokensAfterLetter | week2/four.rs:54-58 | a letter extends the word being built by its lower-case form |
| Week2Four.TokensAfterSeparator | week2/four.rs:60-89 | a non-letter ends the word being built and starts an empty one |
| Week2Four.CountStep | week2/four.rs:73-86 | flushing a word adds it to the counter exactly when it is countable |
| Week2Four.SwapKeepsTies | week2/four.rs:97-100 | swapping two neighbours with different counts keeps the relative order of every count's entries |
| Week2Four.BubbleUp | week2/four.rs:96-101 | one inner pass leaves the sorted prefix alone, brings a largest remaining count to position i and keeps ties in order |
| Week2Four.KeepsTiesTrans | week2/four.rs:94-102 | keeping ties in order composes over passes |
| Week2Four.TiesKeptSorted | week2/four.rs:94-102 | a non-increasing rearrangement that keeps ties in order is the stable sort |
| Week2Four.BubbleSort | week2/four.rs:94-102 | the array ends sorted by decreasing count and is the stable sort of its old contents |
| Week2Four.Run | week2/four.rs:17-110 | the printed rows are the first 25 of the stable sort of the counter and a correct top 25 of the counted words |
| Week2Five.Cookbook.constructor | week2/five.rs:23-26 | all three shared lists start empty |
| Week2Five.Cookbook.ReadStopWords | week2/five.rs:32-38 | the stop words are the pieces of the first line cut at ','; nothing else changes |
| Week2Five.Cookbook.ReadInputFile | week2/five.rs:41-57 | the words of every line, cut at non-letters and lower-cased, are appended in order |
| Week2Five.Cookbook.Filter | week2/five.rs:66-86 | the words become the lower-cased words longer than one letter that are no stop word, in order |
| Week2Five.Cookbook.LowerWords | week2/five.rs:67-69 | every word is lower-cased in place |
| Week2Five.Cookbook.RejectedPositions | week2/five.rs:70-82 | the positions collected ascend and are exactly those of the short words and stop words |
| Week2Five.Cookbook.RemoveAll | week2/five.rs:83-85 | removing the collected positions back to front removes exactly those positions |
| Week2Five.Positions | week2/five.rs:70 | the set of collected positions holds exactly the listed ones |
| Week2Five.Cookbook.Count | week2/five.rs:91-105 | the counter list gains one for each word, a new word going at the end |
| Week2Five.Cookbook.Sort | week2/five.rs:110-112 | the counter list becomes a permutation of itself with non-increasing counts |
| Week2Five.Cookbook.Print | week2/five.rs:117-124 | the rows shown are the first min(25, size) entries of the counter list |
| Week2Five.Run | week2/five.rs:21-127 | the rows printed are a correct top 25 of the counted words |
| Week2Six.Pipe | week2/six.rs:56-60 | piping a value through a stage wraps the stage's result on that value |
| Week2Six.PipeChain | week2/six.rs:52-60 | piping a value through two stages is piping it through their composition |
| Week2Six.GetWords | week2/six.rs:79-89 | the words are the pieces of each line cut at non-letters, empty pieces included, in order |
| Week2Six.Filter | week2/six.rs:96-107 | exactly the words longer than one character that are no stop word stay, in order |
| Week2Six.CountWords | week2/six.rs:109-115 | the items listed are the entries of the count of the words, each once |
| Week2Six.Run | week2/six.rs:133-142 | the rows printed are a correct top 25 of the counted words |
| Week3ClosedMaps.LowerAllKeepLong | week3/13.js:13-14 | lower-casing and keeping words longer than one letter commute |
| Week3ClosedMaps.WordsCounted | week3/13.js:9-15 | the words the data object hands out, filtered by the stop-word object, are the counted words of the text |
| Week3ClosedMaps.DataStorage.constructor | week3/13.js:4-5 | the data object starts with no text |
| Week3ClosedMaps.DataStorage.Init | week3/13.js:6-8 | the text is read when the file exists and kept unchanged otherwise |
| Week3ClosedMaps.DataStorage.Words | week3/13.js:9-15 | every word handed out is lower-case and longer than one character |
| Week3ClosedMaps.StopWords.constructor | week3/13.js:19 | the stop-word set starts empty |
| Week3ClosedMaps.StopWords.Init | week3/13.js:20-25 | the ','-separated stop words are added when the file exists |
| Week3ClosedMaps.Counter.constructor | week3/13.js:32 | the counter starts empty |
| Week3ClosedMaps.Counter.CountWord | week3/13.js:33-35 | one more occurrence of the word is counted (the corrected member of the finding below) |
| Week3ClosedMaps.Counter.Top | week3/13.js:36-48 | the entries returned are a correct top of the given size of the counter |
| Week3ClosedMaps.CountNonStopWords | week3/13.js:54-58 | the counter counts exactly the words that are no stop word |
| Week3ClosedMaps.Run | week3/13.js:52-61 | the program succeeds exactly when both files exist, and then prints a correct top 25 of the counted words |
| Week3Letterbox.DataStorageManager.constructor | week3/12-1.rs:96-100 | the word store starts empty |
| Week3Letterbox.DataStorageManager.Init | week3/12-1.rs:102-113 | "init" succeeds exactly when the file exists and then appends its stored words |
| Week3Letterbox.DataStorageManager.AppendLines | week3/12-1.rs:105-112 | the words of each line longer than one letter are appended, line by line |
| Week3Letterbox.DataStorageManager.Dispatch | week3/12-1.rs:118-135 | "init" loads the file or panics, "words" returns the store unchanged, any other message panics |
| Week3Letterbox.StopWordsManager.constructor | week3/12-1.rs:137-140 | the stop-word set starts empty |
| Week3Letterbox.StopWordsManager.Dispatch | week3/12-1.rs:141-162 | "init" loads the stop-word file or panics, "is_stop_word" answers membership without a change, any other message panics |
| Week3Letterbox.WordFrequencyManager.constructor | week3/12-1.rs:164-167 | the table starts empty |
| Week3Letterbox.WordFrequencyManager.Dispatch | week3/12-1.rs:168-190 | "incr" counts one more occurrence, "top" answers a correct top of the parsed size or panics on a bad number, other messages panic and leave the table alone |
| Week3Letterbox.WordFrequencyController.constructor | week3/12-1.rs:33-38 | the controller starts with no managers |
| Week3Letterbox.WordFrequencyController.Dispatch | week3/12-1.rs:42-92 | "init" builds three fresh managers loaded from both files or panics; "run" before "init" panics; "run" counts every stored non-stop word and answers a correct top 25; other messages panic |
| Week3Letterbox.WordFrequencyController.Init | week3/12-1.rs:45-57 | the managers are built and loaded exactly when both files exist |
| Week3Letterbox.WordFrequencyController.Run | week3/12-1.rs:58-87 | the stored words are left alone, the table gains every stored word that is no stop word, and the answer is a correct top 25 of the table |
| Week3Letterbox.WordFrequencyController.CountNonStop | week3/12-1.rs:64-76 | asking the stop-word manager word by word, the table gains exactly the words that are no stop word |
| Week3Letterbox.ParseTwentyFive | week3/12-1.rs:81-82 | the message "25" parses to the size 25 |
| Week3Letterbox.Start | week3/12-1.rs:192-197 | a missing argument or file panics; otherwise the rows are a correct top 25 of the stored words that are no stop word |
| Week3PubSub.Kind | week3/16.rs:77-87 | each event has the kind of its own variant and of no other |
| Week3PubSub.ZWords | week3/16.rs:284-288 | the z-word count never exceeds the number of words |
| Week3PubSub.ZWordsCountsPositions | week3/16.rs:284-288 | the z-word count is the number of positions holding a word with a 'z' |
| Week3PubSub.Counted | week3/16.rs:245-246 | one valid word raises its count by one and the z-word count when it holds a 'z'; nothing else changes |
| Week3PubSub.CountedOverSnoc | week3/16.rs:217-221 | one more published word changes the state exactly when it is no stop word |
| Week3PubSub.WiringShape | week3/16.rs:125-131 | every kind has one or two subscribers, each of which accepts the kind |
| Week3PubSub.Bulletin.constructor | week3/16.rs:97-101 | no handler is subscribed and every handler's state is empty |
| Week3PubSub.Bulletin.Subscribe | week3/16.rs:115-117 | the handler goes at the end of its kind's list; no other list changes |
| Week3PubSub.Bulletin.Publish | week3/16.rs:103-110 | with no subscribers nothing happens; wired as in main, publishing succeeds exactly when the needed files exist, and the whole cascade has the effect the event promises |
| Week3PubSub.Bulletin.Handle | week3/16.rs:134-297 | a handler panics on a kind it has no branch for; otherwise it succeeds exactly when its files exist, with its own effect |
| Week3PubSub.Bulletin.HandleApplication | week3/16.rs:134-145 | Run loads and starts, Eof prints, anything else panics |
| Week3PubSub.Bulletin.HandleDataStorage | week3/16.rs:163-188 | Load stores the words of the file, Start publishes all of them and Eof, anything else panics |
| Week3PubSub.Bulletin.HandleStopWordsFilter | week3/16.rs:205-225 | Load adds the ','-separated stop words, Word passes on exactly the non-stop words, anything else panics |
| Week3PubSub.Bulletin.HandleWordCounter | week3/16.rs:242-264 | ValidWord counts the word, Print prints a correct top 25, anything else panics |
| Week3PubSub.Bulletin.PrintTop | week3/16.rs:248-259 | the report printed is a correct top 25 of the table |
| Week3PubSub.Bulletin.HandleZWordHolic | week3/16.rs:281-298 | ValidWord counts a word with a 'z', Print prints that count, anything else panics |
| Week3PubSub.Bulletin.LoadWords | week3/16.rs:166-178 | a missing file panics; otherwise the file's stored words are appended |
| Week3PubSub.Bulletin.AppendLines | week3/16.rs:170-177 | the words of each line longer than one letter are appended, lower-cased, line by line; nothing else changes |
| Week3PubSub.Bulletin.PublishWords | week3/16.rs:179-184 | publishing every stored word and then Eof counts the non-stop words and prints both reports |
| Week3PubSub.PanicCause | week3/16.rs:167 | in the wiring, a handler panics only for a missing file |
| Week3PubSub.Advance | week3/16.rs:105-108 | after the last subscriber the effect of the event is complete |
| Week3PubSub.BothReports | week3/16.rs:248-294 | the word counter's report followed by the z-word count makes both reports |
| Week3PubSub.Wire | week3/16.rs:302-308 | building the five handlers in order wires every kind to its subscribers |
| Week3PubSub.WiringBuilt | week3/16.rs:302-308 | the subscriptions of main, one after the other, build the wiring |
| Week3PubSub.Launch | week3/16.rs:302-313 | a missing argument or file panics; otherwise exactly two reports are printed: a correct top 25 of the counted words and the number of those with a 'z' |
| Week3PubSub.RunFromScratch | week3/16.rs:137-141 | a Run on a fresh board prints the top 25 of the counted words and their z-word count |
| Week4Kick.ScannedWords | week4/9-1.js:21-31 | at least one piece comes out, and no piece holds a space or an upper-case letter |
| Week4Kick.RemoveStopWords | week4/9-1.js:33-40 | exactly the words longer than one character that are no stop word stay, in order |
| Week4Kick.KeptWords | week4/9-1.js:21-40 | the words left after scanning and filtering are the counted words of the text |
| Week4Kick.CountWords | week4/9-1.js:42-48 | every word is counted once per occurrence (the corrected member of the finding below) |
| Week4Kick.Sort | week4/9-1.js:50-54 | the entries come out as a ranking of the table |
| Week4Kick.Print | week4/9-1.js:57-65 | the first 25 entries are printed |
| Week4Kick.Run | week4/9-1.js:16-69 | the program succeeds exactly when both files exist, and then prints a correct top 25 of the counted words |
| Week4TheOne.Bind | week4/10-1.rs:12-17 | the bound value is the stage applied to the wrapped value |
| Week4TheOne.Normalize | week4/10-1.rs:43-45 | lower-casing keeps the length, keeps spaces and letters-or-digits where they were, and leaves no upper-case letter |
| Week4TheOne.BindChain | week4/10-1.rs:12-21 | binding wraps the stage's result, and two binds in a row are one bind of the composed stage |
| Week4TheOne.FilterChars | week4/10-1.rs:36-41 | the text keeps its length, every ASCII letter or digit stays and every other character becomes a space |
| Week4TheOne.Scan | week4/10-1.rs:47-49 | there is at least one piece and no piece holds a space |
| Week4TheOne.ScanJoin | week4/10-1.rs:47-49 | joining the pieces with single spaces gives the text back, and space-free pieces come back from scanning their join |
| Week4TheOne.ScanFiltered | week4/10-1.rs:36-49 | blanking out non-alphanumerics and cutting at spaces cuts exactly at the non-alphanumerics of the text |
| Week4TheOne.ScanNormalized | week4/10-1.rs:36-49 | the words scan hands on are the lower-cased pieces of the text cut at non-alphanumerics |
| Week4TheOne.RemoveStopWords | week4/10-1.rs:51-60 | exactly the words longer than one character that are none of the ','-separated stop words stay, in order |
| Week4TheOne.KeptWords | week4/10-1.rs:86-91 | the words reaching `frequencies` are the counted words of the text line by line |
| Week4TheOne.KeptPlain | week4/10-1.rs:36-60 | every counted word is lower-case letters and digits only |
| Week4TheOne.LowerAlnumPlain | week4/10-1.rs:43-45 | lower-casing letters and digits leaves letters and digits without spaces or breaks |
| Week4TheOne.WordFrequencies | week4/10-1.rs:62-68 | each distinct word is a key whose value is its number of occurrences, and there is no other key |
| Week4TheOne.Sort | week4/10-1.rs:70-74 | the entries come out as a ranking of the table: each entry once, counts non-increasing |
| Week4TheOne.Top25Freq | week4/10-1.rs:76-83 | the report is the line "word - count" of each of the first 25 entries, in order |
| Week4TheOne.Row | week4/10-1.rs:80 | a row is the word, then " - ", then only digits |
| Week4TheOne.Report | week4/10-1.rs:76-83 | the report is empty exactly when there are no entries, otherwise ends in a line break, and holds at least five characters per entry |
| Week4TheOne.Rows | week4/10-1.rs:79-81 | there is one row per entry |
| Week4TheOne.RowHasNoBreak | week4/10-1.rs:80 | a row of a plain word holds no line break |
| Week4TheOne.ReportJoin | week4/10-1.rs:79-81 | a non-empty report is its rows joined by line breaks plus a final line break |
| Week4TheOne.ReportSplit | week4/10-1.rs:79-81 | cutting the report at its line breaks gives one row per entry and an empty tail |
| Week4TheOne.ReportReadsBack | week4/10-1.rs:76-83 | the report has one line per entry, and each line cut at spaces is the word, a dash and the count in decimal, which parses back to the count |
| Week4TheOne.RowSplit | week4/10-1.rs:80 | a row cut at its spaces is the word, the dash and the count's digits |
| Week4TheOne.Run | week4/10-1.rs:85-96 | a missing argument or file panics; otherwise the text printed is the report of a correct top 25 of the counted words, one line per row |
| Week4TheOne.ReportOfTop | week4/10-1.rs:91-95 | the report of the ranked entries cut to 25 is the report of a correct top 25 of the counted words |
| Week4TheOne.ReportLines | week4/10-1.rs:76-83 | the report of entries of plain words has exactly one line per entry |
| JavaText.ScanPieces | week5/app2/App.java:19-23 | no token holds the delimiter, every token is a piece of the text cut at it, and an empty text yields no token |
| JavaText.JavaSplit | week5/app1/App.java:20 | without the delimiter the text comes back whole; otherwise the pieces are the cut pieces in order with the trailing empty ones dropped, and none holds the delimiter |
| JavaText.JavaSplitRuns | week5/app1/App.java:28 | a text of letters and digits only comes back whole; otherwise every piece is letters and digits and only the first may be empty |
| JavaText.ScanRuns | week5/Eleven.java:72-75 | every token the scanner hands out is a non-empty piece of the text between non-alphanumerics |
| JavaText.DropTrailingEmpty | week5/app1/App.java:20 | `String.split` drops exactly the trailing empty pieces and keeps everything before them |
| JavaText.CountedWithoutEmpty | week5/app1/App.java:28-30 | empty pieces never pass the length test, so leaving them out changes no counted word |
| JavaText.CountedAppend | week5/app1/App.java:27-33 | the filter of two lists joined is the join of their filters |
| JavaText.CountedWithoutTrailing | week5/app1/App.java:28-30 | dropping trailing empty pieces changes no counted word |
| JavaText.JavaSplitRunsCounted | week5/app1/App.java:28-32 | the words kept from a line split at runs of non-alphanumerics are the counted words of the line |
| JavaText.ScanRunsCounted | week5/app2/App.java:26-33 | the words kept from the scanner's tokens are the counted words of the text line by line |
| JavaText.SplitSameWords | week5/app2/App.java:19-23 | splitting or scanning at ',' yields the same non-empty pieces as cutting at every ',' |
| JavaText.SameLongStopWords | week5/app1/App.java:30 | two stop-word sets that agree on words longer than one letter keep the same words |
| JavaText.Reverse | week5/Eleven.java:137 | `Collections.reverse` leaves the array holding its old contents reversed |
| JavaText.Wrap | week5/Eleven.java:177 | 32-bit wrap-around: the result is an `int`, congruent to the input modulo 2^32, and equal to it when it fits |
| JavaText.SubtractNonNegative | week5/app1/App.java:48 | for counts that fit in an `int`, the comparator's subtraction does not wrap and its sign is the comparison of the counts |
| Week5Eleven.ScannedWords | week5/Eleven.java:70-75 | one word per scanned token, each the token lower-cased, in order |
| Week5Eleven.KeptWords | week5/Eleven.java:41-44 | every word kept is a scanned word that is no listed stop word and no single lower-case letter; KeptWordsExact adds that nothing else is dropped |
| Week5Eleven.KeptWordsExact | week5/Eleven.java:41-44 | the kept words are the scanned words with exactly the positions of stop words deleted, in order: each non-stop word, a lone digit included, keeps all its occurrences |
| Week5Eleven.StopSet | week5/Eleven.java:90-107 | the stop words are exactly the ','-separated tokens of the stop-word file and the single letters 'a' to 'z' |
| Week5Eleven.KeptShortWords | week5/Eleven.java:41-44 | the only words of one character that are counted are single digits |
| Week5Eleven.ScannedShortWord | week5/Eleven.java:72-74 | a scanned word of at most one character is one lower-case letter or one digit |
| Week5Eleven.LowerLetterOrDigit | week5/Eleven.java:74 | a lower-cased letter or digit is a lower-case letter or a digit |
| Week5Eleven.KeptLongWords | week5/Eleven.java:41-44 | the counted words longer than one character are the counted words of the text line by line |
| Week5Eleven.CompareTo | week5/Eleven.java:176-178 | for frequencies that fit in an `int`, the sign of the result is the comparison of the frequencies |
| Week5Eleven.SortAscending | week5/Eleven.java:136 | the pairs are permuted into non-decreasing order of `compareTo` |
| Week5Eleven.ReverseOfAscending | week5/Eleven.java:136-137 | reversing the ascending pairs gives non-increasing frequencies |
| Week5Eleven.DataStorageManager.constructor | week5/Eleven.java:67-79 | the words are the scanner's tokens of the file, lower-cased |
| Week5Eleven.StopWordManager.constructor | week5/Eleven.java:90-107 | the stop words are the ','-separated tokens plus every single letter |
| Week5Eleven.WordFrequencyManager.constructor | week5/Eleven.java:118-120 | the table starts empty |
| Week5Eleven.WordFrequencyManager.IncrementCount | week5/Eleven.java:122-129 | an unseen word goes to 1, a seen one gains 1, no other entry changes |
| Week5Eleven.WordFrequencyManager.Sorted | week5/Eleven.java:131-139 | one pair per table entry, in non-increasing frequency order |
| Week5Eleven.PrintPairs | week5/Eleven.java:51-59 | the loop prints the first 25 pairs, or all of them when there are fewer |
| Week5Eleven.WordFrequencyController.constructor | week5/Eleven.java:30-34 | the three managers are built from the text and the stop-word file, with an empty table |
| Week5Eleven.WordFrequencyController.CountNonStopWords | week5/Eleven.java:41-45 | the table gains exactly the stored words that are no stop word |
| Week5Eleven.WordFrequencyController.Run | week5/Eleven.java:36-60 | the table counts exactly the non-stop words and the pairs printed are a correct top 25 of it |
| Week5Eleven.Start | week5/Eleven.java:209-219 | no argument or a missing file fails; otherwise the rows are a correct top 25 of the counted words |
| Week5App1.StopWordsOfLinesPieces | week5/app1/App.java:18-24 | a word longer than one letter is a stop word exactly when it is a ','-separated piece of some line |
| Week5App1.WordsCounted | week5/app1/App.java:25-36 | the words `getWords` returns are the counted words of the text |
| Week5App1.LineWords | week5/app1/App.java:28-33 | a line contributes its lower-cased pieces longer than one letter that are no stop word, in order |
| Week5App1.StopWordsOfLinesSnoc | week5/app1/App.java:19-23 | one more line adds the pieces of that line to the stop words |
| Week5App1.AddPieces | week5/app1/App.java:20-22 | the set gains exactly the pieces of the line |
| Week5App1.ReadStopWords | week5/app1/App.java:17-24 | the stop words are the ','-separated pieces of all lines |
| Week5App1.ReadWords | week5/app1/App.java:25-36 | the words kept are the counted words of the text, in order |
| Week5App1.App.constructor | week5/app1/App.java:12-14 | the app remembers its file name |
| Week5App1.App.GetWords | week5/app1/App.java:16-37 | fails exactly when a file is missing; otherwise returns the counted words |
| Week5App1.Print | week5/app1/App.java:39-53 | the rows printed are a correct top 25 of the counts of the words |
| Week5App1.Start | week5/app1/App.java:55-60 | fails exactly when a file is missing; otherwise reports the number of words and a correct top 25 |
| Week5App2.StopWords | week5/app2/App.java:18-24 | the stop words are exactly the scanner's ','-separated tokens |
| Week5App2.WordsCounted | week5/app2/App.java:25-36 | the words `getWords` returns are the counted words of the text |
| Week5App2.App.constructor | week5/app2/App.java:13-15 | the app remembers its file name |
| Week5App2.App.GetWords | week5/app2/App.java:17-37 | a missing file fails; otherwise returns the counted words |
| Week5App2.CountWords | week5/app2/App.java:40-48 | each word's count is its number of occurrences |
| Week5App2.Print | week5/app2/App.java:39-59 | the rows printed are a correct top 25: the loop stops after index 24 |
| Week5App2.Start | week5/app2/App.java:61-66 | a missing file fails; otherwise reports the number of words and a correct top 25 |
| Week6LazyRivers.AllLines | week6/28.rs:25-32 | fails exactly when the file is missing; the lines hold no line break and joined by line breaks give the text back, up to a final break |
| Week6LazyRivers.AllWords | week6/28.rs:34-44 | fails exactly when the file is missing; the words are the lower-cased pieces of each line cut at non-alphanumerics, empty pieces included, in order |
| Week6LazyRivers.NonStopWords | week6/28.rs:46-54 | fails exactly when a file is missing; otherwise exactly the words longer than one character that are no stop word stay, in order, each as often as in the text |
| Week6LazyRivers.StableOrderDetermined | week6/28.rs:62 | a list with non-increasing counts that keeps each count's entries in listed order is the stable sort of the list |
| Week6LazyRivers.CountAndSort | week6/28.rs:56-64 | the entries are a ranking of the count of the non-stop words, and entries with equal counts stay in the order the table listed them |
| Week6LazyRivers.Run | week6/28.rs:66-72 | a missing argument panics, a missing file is returned as an error; otherwise the rows are a correct top 25 and the first 25 of the stable sort |
| Week7Constructivist.TextPath | week7/21.rs:84-97 | the argument names the text file when there is one, otherwise the default text does |
| Week7Constructivist.TextRead | week7/21.rs:25-35 | a present file is read, a missing one falls back to the default text, and whatever comes back is the contents of some file or empty |
| Week7Constructivist.StopWordsText | week7/21.rs:52-60 | a present stop-word file is read; a missing one gives the empty text, whose only stop word is the empty word |
| Week7Constructivist.LowerWordChar | week7/21.rs:42-43 | a lower-cased letter or digit is still a letter or digit and not upper-case |
| Week7Constructivist.LineTokensWordChars | week7/21.rs:42-43 | the lower-cased pieces of a line hold only lower-case letters and digits |
| Week7Constructivist.WordCharsAppend | week7/21.rs:41-47 | lists of such words stay so when joined |
| Week7Constructivist.TokensAreWordChars | week7/21.rs:37-47 | every word extracted from the lines holds only lower-case letters and digits |
| Week7Constructivist.LineWords | week7/21.rs:36-48 | the words are the lower-cased pieces of each line cut at non-alphanumerics, empty pieces included, in order |
| Week7Constructivist.ExtractWords | week7/21.rs:25-49 | a missing file falls back to the default text, and when that is missing too the result is empty |
| Week7Constructivist.OnlyLengthFilter | week7/21.rs:60-65 | with only the empty stop word the filter keeps exactly the words longer than one character |
| Week7Constructivist.EmptyStopText | week7/21.rs:52-65 | an unreadable stop-word file leaves only the length test |
| Week7Constructivist.RemoveStopWords | week7/21.rs:51-68 | exactly the words longer than one character that are no stop word stay, in order; a missing stop-word file keeps every long word |
| Week7Constructivist.GetFreq | week7/21.rs:70-76 | each distinct word is a key whose value is its number of occurrences, and there is no other key |
| Week7Constructivist.SortFreq | week7/21.rs:78-82 | the entries come out as a ranking of the table |
| Week7Constructivist.Run | week7/21.rs:84-97 | the rows are a correct top 25 of the counted words of the text chosen, or of the default text, and nothing is printed when neither opens |
| Week7Tantrum.ExtractWords | week7/22.rs:25-40 | fails exactly when the file is missing; otherwise the lower-cased pieces of each line, in order |
| Week7Tantrum.RemoveStopWords | week7/22.rs:42-60 | fails exactly when the stop-word file is missing; otherwise keeps exactly the long non-stop words, in order |
| Week7Tantrum.Run | week7/22.rs:76-86 | succeeds exactly when the argument and both files are there, with the panic message of the first failure otherwise; the rows are a correct top 25 of the counted words |
| Week7Quarantine.GetFilepath | week7/25.rs:74-79 | succeeds exactly when there is an argument, with that argument, and fails with `InvalidInput` otherwise |
| Week7Quarantine.ReadFile | week7/25.rs:82-87 | succeeds exactly when the file exists, with its contents, and fails with `NotFound` otherwise |
| Week7Quarantine.BindUnwrap | week7/25.rs:50-58 | a pure result or a successful I/O result is wrapped; an I/O error panics, and only then |
| Week7Quarantine.MyUnwrap | week7/25.rs:31-44 | a pure value passes through, an I/O result is unwrapped, and only an I/O error panics |
| Week7Quarantine.BindUnwrapAgrees | week7/25.rs:50-58 | binding a pure stage is the plain bind; binding an I/O stage panics exactly on its error and otherwise wraps its value |
| Week7Quarantine.RemoveStopWordsIo | week7/25.rs:105-115 | fails exactly when the stop-word file is missing; otherwise is the pure stop-word filter |
| Week7Quarantine.Run | week7/25.rs:140-152 | succeeds exactly when the argument and both files are there; the text printed is the report of a correct top 25 of the counted words, one line per row |
| Week8MapReduce.Groups | week8/32-1.rs:39-58 | there are no groups exactly when there are no lines |
| Week8MapReduce.GroupsShape | week8/32-1.rs:39-58 | the groups, put back together, are the lines in order; no group is empty and every group but the last holds exactly the chunk count of lines |
| Week8MapReduce.WholeSnoc | week8/32-1.rs:46-49 | appending a full group keeps the lines cut into full groups only |
| Week8MapReduce.GroupsSnoc | week8/32-1.rs:43-56 | after full groups, one more group of lines forms one more chunk |
| Week8MapReduce.ChunksSnoc | week8/32-1.rs:43-56 | after full groups, one more group of lines adds its '\n'-joined text as one more chunk |
| Week8MapReduce.JoinExtend | week8/32-1.rs:45-51 | adding a line to a chunk appends it after a '\n', or starts the chunk |
| Week8MapReduce.StepFull | week8/32-1.rs:46-49 | when the line count reaches `chunk_size - 1` the chunk is pushed and a new one starts |
| Week8MapReduce.StepPartial | week8/32-1.rs:50-52 | otherwise the line and a '\n' are added to the chunk |
| Week8MapReduce.StepLast | week8/32-1.rs:54-56 | after the last line a non-empty chunk is pushed, which completes the chunks |
| Week8MapReduce.Partition | week8/32-1.rs:39-58 | the chunks are the lines in order, cut into groups of `chunk_size - 1`; a full group is its lines joined by '\n', and a final shorter group, present only when the line count is not a multiple of `chunk_size - 1`, ends in one more '\n' |
| Week8MapReduce.SplitWords | week8/32-1.rs:63-75 | no more pairs than pieces of the chunk, each pair a countable word with the count 1 |
| Week8MapReduce.Ones | week8/32-1.rs:73 | one pair (w, 1) per word, in order |
| Week8MapReduce.OnesAppend | week8/32-1.rs:73 | the pairs of two word lists joined are their pairs joined |
| Week8MapReduce.SplitEach | week8/32-1.rs:111 | `split_words` is applied to every chunk, in order |
| Week8MapReduce.TokensOfLinesAppend | week8/32-1.rs:70-71 | the pieces of two runs of lines joined are their pieces joined |
| Week8MapReduce.CountedWordsAppend | week8/32-1.rs:70-72 | the counted words of two runs of lines joined are their counted words joined |
| Week8MapReduce.ChunkWords | week8/32-1.rs:63-75 | the words of a chunk are the counted words of its lines, since a '\n' is a separator |
| Week8MapReduce.ChunksCons | week8/32-1.rs:43-53 | the first chunk is the first `chunk_size - 1` lines when there are more |
| Week8MapReduce.SplitEachCons | week8/32-1.rs:111 | mapping over a chunk list maps its head and then its tail |
| Week8MapReduce.MappedWords | week8/32-1.rs:39-75 | splitting the chunks in order gives one (w, 1) per counted word of the whole text, in text order |
| Week8MapReduce.Carrying | week8/32-1.rs:92-95 | the pairs carrying a word all carry that word |
| Week8MapReduce.CarryingSnoc | week8/32-1.rs:91-96 | one more pair is carried by its own word only |
| Week8MapReduce.MentionsSnoc | week8/32-1.rs:92 | a word is mentioned after one more pair exactly when it was before or the pair carries it |
| Week8MapReduce.CarryingNone | week8/32-1.rs:92 | a word no pair mentions carries nothing |
| Week8MapReduce.RegroupStep | week8/32-1.rs:91-96 | one more pair keeps the map a regrouping of the pairs seen |
| Week8MapReduce.Regroup | week8/32-1.rs:86-100 | a word is a key exactly when some pair carries it, and its list is exactly those pairs, in encounter order |
| Week8MapReduce.CountWords | week8/32-1.rs:105-107 | the key is kept, and on pairs that all carry 1 the total is the number of pairs |
| Week8MapReduce.SumOfOnes | week8/32-1.rs:106 | the sum of pairs that all carry 1 is their number |
| Week8MapReduce.SumTimesSnoc | week8/32-1.rs:106 | the fold adds each pair's second component |
| Week8MapReduce.MentionsOnes | week8/32-1.rs:73 | a word is mentioned in the pairs exactly when it is one of the words |
| Week8MapReduce.SumCarried | week8/32-1.rs:91-106 | the sum of the pairs carrying a word is its number of occurrences |
| Week8MapReduce.RegroupedCount | week8/32-1.rs:86-107 | reducing every group of a regrouping gives the count of the words |
| Week8MapReduce.Reduce | week8/32-1.rs:114 | one entry per regrouped word, with its total |
| Week8MapReduce.Run | week8/32-1.rs:109-121 | a missing argument panics and a missing file is an error; `split_words` panics when there is a chunk and no stop-word file; otherwise the rows are a correct top 25 of the counted words |
| Week8Dataspaces.DataSpaces.constructor | week8/30-1.rs:28-29 | both spaces start empty |
| Week8Dataspaces.DataSpaces.PushWord | week8/30-1.rs:45 | the word goes at the back of the word space; the table space is unchanged |
| Week8Dataspaces.DataSpaces.TakeWord | week8/30-1.rs:58 | an empty word space gives nothing; otherwise its front word is removed and returned |
| Week8Dataspaces.DataSpaces.PushTable | week8/30-1.rs:68 | the table goes at the back of the table space |
| Week8Dataspaces.DataSpaces.DrainTables | week8/30-1.rs:76 | every table is handed out in order and the table space is left empty |
| Week8Dataspaces.FillWordSpace | week8/30-1.rs:39-47 | the word space gains every lower-cased piece of every line in file order, empty and one-letter pieces included |
| Week8Dataspaces.Turn | week8/30-1.rs:50 | every turn names one of the five workers |
| Week8Dataspaces.FlattenPush | week8/30-1.rs:58-63 | a word taken by one worker adds exactly that word to all the words taken |
| Week8Dataspaces.FlattenEmpty | week8/30-1.rs:56 | workers that took nothing hold no words |
| Week8Dataspaces.KeepCountableFront | week8/30-1.rs:61 | the front word is counted exactly when it is countable |
| Week8Dataspaces.TakeCounted | week8/30-1.rs:60-63 | a countable word taken raises only the taking worker's count of it by one |
| Week8Dataspaces.TakeDropped | week8/30-1.rs:61 | a word that is not countable changes no table |
| Week8Dataspaces.SharingDone | week8/30-1.rs:57-67 | when the word space is empty, each table counts the words its worker kept, and together they kept exactly the countable words |
| Week8Dataspaces.TakeAll | week8/30-1.rs:50-73 | whatever the order of turns, every queued word is taken exactly once, the space ends empty, and the five tables count between them exactly the countable words |
| Week8Dataspaces.PushTables | week8/30-1.rs:68 | each worker's table goes at the back of the table space |
| Week8Dataspaces.RunWorkers | week8/30-1.rs:49-73 | the word space ends empty and the table space gains five tables counting between them exactly the countable words |
| Week8Dataspaces.MergeMove | week8/30-1.rs:77-79 | adding one entry of a table and then the rest is adding the whole table |
| Week8Dataspaces.AddTable | week8/30-1.rs:77-79 | each count of the table is added to the total, key by key |
| Week8Dataspaces.MergeNothing | week8/30-1.rs:77 | adding an empty table changes nothing |
| Week8Dataspaces.MergeTables | week8/30-1.rs:75-80 | the total is the key-wise sum of all the tables |
| Week8Dataspaces.WorkersCount | week8/30-1.rs:49-80 | the merged total of the workers' tables is the count of the counted words, however the words were shared |
| Week8Dataspaces.Rank | week8/30-1.rs:82-87 | the rows are a correct top 25 of the total |
| Week8Dataspaces.Run | week8/30-1.rs:26-89 | a missing stop-word file or text file is an error and a missing argument panics; otherwise the rows are a correct top 25 of the counted words, for every schedule of the workers |
| Week8Actors.With | week8/29-1.rs:62-72 | replacing one mailbox leaves every other mailbox as it was |
| Week8Actors.SameQueues | week8/29-1.rs:62-72 | the four mailboxes determine the whole state of the queues |
| Week8Actors.Address | week8/29-1.rs:59 | letters addressed to one actor reach no other |
| Week8Actors.AddressAppend | week8/29-1.rs:59 | addressing two runs of messages is addressing them one after the other |
| Week8Actors.DeliverAppend | week8/29-1.rs:59-60 | delivering two runs of letters is delivering one and then the other |
| Week8Actors.DeliverElsewhere | week8/29-1.rs:59-60 | letters to other actors leave a mailbox alone and commute with replacing it |
| Week8Actors.DeliverAddress | week8/29-1.rs:59-60 | sending messages to one actor appends them to its mailbox, in order |
| Week8Actors.Channels.constructor | week8/29-1.rs:67-72 | every mailbox starts empty |
| Week8Actors.Channels.Send | week8/29-1.rs:130 | a letter goes at the back of its addressee's mailbox |
| Week8Actors.Channels.Receive | week8/29-1.rs:148-150 | an empty mailbox yields nothing; otherwise its front message is removed and returned |
| Week8Actors.Initial | week8/29-1.rs:166-172 | each actor starts in the state of its own role |
| Week8Actors.ControllerStep | week8/29-1.rs:125-146 | crashes exactly on an unknown command, with its message; init hands the path to the data manager and init to the stop-word manager; nothing goes to the controller or the counter |
| Week8Actors.DataStep | week8/29-1.rs:182-215 | crashes exactly on an unknown command or init with a missing file; init stores the file's words; run sends one filter per stored word then finish; only the stop-word manager is written to |
| Week8Actors.StopWordsStep | week8/29-1.rs:242-272 | crashes exactly on an unknown command or init with a missing stop-word file; filter forwards exactly the non-stop words to the counter; only the counter is written to |
| Week8Actors.CounterStep | week8/29-1.rs:289-312 | crashes exactly on an unknown command; word adds one to that word only; top25 reports the table; nothing is sent |
| Week8Actors.Step | week8/29-1.rs:125-313 | a dispatch keeps the actor's role and never sends to itself; the controller forwards init, run and end, the data manager stores words and sends filter messages then one finish, the stop-word manager passes on the non-stop words, the counter counts and reports; every other command panics |
| Week8Actors.Commands | week8/29-1.rs:127-143 | the command names differ, so each message meets exactly one branch |
| Week8Actors.Drive | week8/29-1.rs:91-97 | an actor handles at most the messages in its mailbox |
| Week8Actors.DriveFacts | week8/29-1.rs:91-97 | the run loop handles messages in order and stops right after "end" or at a panic, or waits when the mailbox runs dry |
| Week8Actors.DriveFactsStep | week8/29-1.rs:92-96 | a message other than "end" that does not panic lets the loop go on with the rest |
| Week8Actors.DriveAppend | week8/29-1.rs:91-97 | a loop still waiting after one run of messages goes on with the next as if they had come together |
| Week8Actors.FilterMessagesSnoc | week8/29-1.rs:200-202 | one more stored word adds one filter message at the end |
| Week8Actors.WordMessagesSnoc | week8/29-1.rs:256 | one more word adds one word message at the end |
| Week8Actors.WordMessagesAppend | week8/29-1.rs:256 | the word messages of two word lists joined are their messages joined |
| Week8Actors.DriveOneFilter | week8/29-1.rs:254-258 | a filter message forwards the word to the counter exactly when it is no stop word |
| Week8Actors.DriveOneWord | week8/29-1.rs:291-293 | a word message adds one to that word's count and sends nothing |
| Week8Actors.DriveFilters | week8/29-1.rs:254-258 | the filter messages of a word list forward exactly its non-stop words to the counter, in order |
| Week8Actors.DriveWords | week8/29-1.rs:291-293 | the word messages of a word list add its counts to the table |
| Week8Actors.ReadWords | week8/29-1.rs:186-197 | the stored words are the words of each line longer than one letter, lower-cased, in order |
| Week8Actors.ReadStopWords | week8/29-1.rs:246-252 | the stop words are the ','-separated pieces of every line |
| Week8Actors.Top25 | week8/29-1.rs:294-307 | the report is a correct top 25 of the table |
| Week8Actors.Actor.constructor | week8/29-1.rs:110-121 | the actor starts in its role's initial state with nothing printed |
| Week8Actors.Actor.Dispatch | week8/29-1.rs:81 | a dispatch panics with the step's reason and changes nothing, or takes the step's state and sends its letters |
| Week8Actors.Actor.DispatchController | week8/29-1.rs:125-146 | the controller's dispatch is its step |
| Week8Actors.Actor.SendFilters | week8/29-1.rs:200-202 | every stored word is sent as a filter message to the stop-word manager, in stored order |
| Week8Actors.Actor.DispatchData | week8/29-1.rs:182-216 | the data manager's dispatch is its step: init stores the words or panics, run drains them as filter messages and a finish, end is passed on |
| Week8Actors.Actor.DispatchStopWords | week8/29-1.rs:242-273 | the stop-word manager's dispatch is its step |
| Week8Actors.Actor.DispatchCounter | week8/29-1.rs:289-313 | the counter's dispatch is its step and sends nothing |
| Week8Actors.Actor.Run | week8/29-1.rs:87-98 | the loop ends with the state, the exit and the mailboxes the run loop model gives |
| Week8Actors.PendingStart | week8/29-1.rs:91 | before the loop nothing is handled and the mailbox is untouched |
| Week8Actors.PendingTake | week8/29-1.rs:92 | the mailbox holds the messages not yet handled |
| Week8Actors.PendingStep | week8/29-1.rs:92-96 | one handled message either ends the loop, at "end" or at a panic, or keeps the loop in step with the model |
| Week8Actors.ControllerSession | week8/29-1.rs:127-141 | the controller, given init, run and end, sends init to the data manager and the stop-word manager, then run and end to the data manager, and ends |
| Week8Actors.DataSession | week8/29-1.rs:182-216 | with the file present the data manager sends a filter per stored word, one finish and one end, and ends; without it, it panics on init |
| Week8Actors.StopWordsTail | week8/29-1.rs:259-268 | finish becomes top25 and end becomes end |
| Week8Actors.StopWordsSession | week8/29-1.rs:242-273 | with the stop-word file present the manager forwards exactly the non-stop words, then top25 and end, and ends; without it, it panics on init |
| Week8Actors.StopWordsInitOnly | week8/29-1.rs:245-253 | init alone panics exactly when the stop-word file is missing |
| Week8Actors.CounterTail | week8/29-1.rs:294-308 | top25 prints the table once and end ends the counter |
| Week8Actors.CounterSession | week8/29-1.rs:289-313 | word messages then top25 and end leave the count of the words, printed exactly once |
| Week8Actors.DeliverSnoc | week8/29-1.rs:59-60 | one more letter goes at the back of its addressee's mailbox |
| Week8Actors.ControllerStage | week8/29-1.rs:336-343 | the controller ends, having passed init, run and end on |
| Week8Actors.DataStage | week8/29-1.rs:182-216 | the data manager ends when the file exists and panics otherwise, leaving the stop-word manager its queue |
| Week8Actors.StopWordsStage | week8/29-1.rs:242-273 | the stop-word manager ends when both files exist, panics without the stop-word file, and otherwise waits for ever |
| Week8Actors.CounterStage | week8/29-1.rs:289-313 | with both files the counter ends holding the count of the non-stop words, printed once; otherwise it waits with nothing |
| Week8Actors.SendMain | week8/29-1.rs:336-343 | main puts init, run and end in the controller's mailbox |
| Week8Actors.RunController | week8/29-1.rs:328-334 | the controller's thread ends, having filled the data manager's and the stop-word manager's mailboxes |
| Week8Actors.RunData | week8/29-1.rs:324-326 | the data manager's thread ends when the file exists and panics otherwise |
| Week8Actors.RunStopWords | week8/29-1.rs:320-322 | the stop-word manager's thread ends when both files exist, and fills the counter's mailbox |
| Week8Actors.RunCounter | week8/29-1.rs:316-318 | with both files the counter's thread ends having printed exactly one report, a correct top 25 of the counted words; otherwise it waits having printed nothing |
| Week8Actors.Run | week8/29-1.rs:315-351 | a missing argument panics; with both files the counter takes every non-stop word, then exactly one top25, then end, and exactly one correct top 25 is printed; a missing file leaves the program waiting for ever with nothing printed |
| Week8Actors.JoinAll | week8/29-1.rs:345-348 | the program exits exactly when all four threads ended; it hangs only on a thread still waiting, panics only on a crashed one, keeps the printed report unless it panics, and hangs when the first thread joined is still waiting |
| Week8Actors.JoinAllCases | week8/29-1.rs:345-348 | when all four threads end the program exits; when the counter waits the first join never returns |
| Week9Bigrams.Padded | week9/week9.py:21-24 | the characters are the text with one space added at each end |
| Week9Bigrams.Blanked | week9/week9.py:28 | blanking keeps the length of the characters |
| Week9Bigrams.Normalized | week9/week9.py:27-30 | every character becomes a space exactly when it is not a letter, and otherwise its upper-case form |
| Week9Bigrams.Normalize | week9/week9.py:27-30 | the array is blanked in place and the upper-cased copy is returned |
| Week9Bigrams.NormalizedPadded | week9/week9.py:22-23 | normalizing the padded characters pads the normalized text |
| Week9Bigrams.UpperAll | week9/week9.py:29 | every word is upper-cased, in order |
| Week9Bigrams.UpperAllCons | week9/week9.py:29 | upper-casing a list is upper-casing its head and then its tail |
| Week9Bigrams.UpperAllDrop | week9/week9.py:29 | upper-casing commutes with dropping the first word |
| Week9Bigrams.UpperCons | week9/week9.py:29 | upper-casing a word is upper-casing its first character and then the rest |
| Week9Bigrams.PiecesStep | week9/week9.py:28-29 | one more normalized character extends the space-separated pieces as the text's letter runs |
| Week9Bigrams.NormalizedPieces | week9/week9.py:27-30 | the pieces of the normalized text between spaces are the upper-cased runs between non-letters |
| Week9Bigrams.CharactersToWords | week9/week9.py:33-45 | fewer words than spaces, each at least two characters long |
| Week9Bigrams.SpaceIndexes | week9/week9.py:34 | the indexes found hold spaces and ascend |
| Week9Bigrams.WordsUpToFrame | week9/week9.py:35-43 | words between earlier spaces do not change when characters are added after them |
| Week9Bigrams.StateSpace | week9/week9.py:34-43 | a space closes the current word and opens an empty one |
| Week9Bigrams.StateOther | week9/week9.py:34-43 | a character other than a space extends the current word |
| Week9Bigrams.SpacesSnoc | week9/week9.py:34 | one more character adds its index exactly when it is a space |
| Week9Bigrams.SpacesOther | week9/week9.py:34 | a character other than a space adds no index |
| Week9Bigrams.WordsStepSpace | week9/week9.py:34-43 | after a space the words between neighbouring spaces are the pieces of the text so far |
| Week9Bigrams.WordsStepOther | week9/week9.py:34-43 | after another character they still are |
| Week9Bigrams.WordsStep | week9/week9.py:34-43 | after any character they still are |
| Week9Bigrams.WordsSoFar | week9/week9.py:34-43 | the words between neighbouring spaces are the space-separated pieces of the text |
| Week9Bigrams.PaddedWords | week9/week9.py:33-45 | the words of the padded characters are exactly the pieces longer than one character, in order |
| Week9Bigrams.UpperStop | week9/week9.py:49-50 | the set holds exactly the upper-cased ','-separated pieces of the stop-word file, so no word in it holds a lower-case letter |
| Week9Bigrams.FilterStopwords | week9/week9.py:48-52 | the words with exactly the positions of upper-cased stop words deleted, in order; each other word keeps all its occurrences |
| Week9Bigrams.FilterStopwordsInOrder | week9/week9.py:51 | the filter keeps input order: a concatenation is filtered part by part, and one word stays exactly when it is no stop word |
| Week9Bigrams.Leet | week9/week9.py:7-18 | a character changes exactly when it is one of the mapped letters, and a changed letter maps back |
| Week9Bigrams.Unleet | week9/week9.py:7-18 | a character that changes becomes one of the mapped letters |
| Week9Bigrams.LeetUndone | week9/week9.py:7-18 | the leet mapping is undone on every upper-case letter |
| Week9Bigrams.LeetWord | week9/week9.py:56 | each character of the word is translated, and the length does not change |
| Week9Bigrams.UnleetWord | week9/week9.py:7-18 | each character of the word is translated back |
| Week9Bigrams.MapLeet | week9/week9.py:55-56 | every word is translated, in order |
| Week9Bigrams.LeetRoundTrip | week9/week9.py:55-56 | translating back recovers every upper-case word, so the mapping loses nothing |
| Week9Bigrams.Bigrams | week9/week9.py:60 | one pair per neighbouring pair of words, in order |
| Week9Bigrams.PairIrreflexive | week9/week9.py:61 | no pair comes before itself in the order `np.unique` sorts rows |
| Week9Bigrams.PairTotal | week9/week9.py:61 | of two different pairs one comes first |
| Week9Bigrams.PairTransitive | week9/week9.py:61 | the row order is transitive |
| Week9Bigrams.LookupBelow | week9/week9.py:61 | a pair before every listed pair is not listed |
| Week9Bigrams.ConsIncreasing | week9/week9.py:61 | a smaller pair with a count may go in front of the unique rows |
| Week9Bigrams.InsertPair | week9/week9.py:61 | one more occurrence raises the count of that pair only, keeping the rows sorted and unique |
| Week9Bigrams.Unique | week9/week9.py:61 | the unique rows are sorted and each count is the number of occurrences of its pair |
| Week9Bigrams.LookupAt | week9/week9.py:61 | a listed pair's count is found at its row |
| Week9Bigrams.LookupMentions | week9/week9.py:61 | a pair with a count is listed |
| Week9Bigrams.UniqueEnumerates | week9/week9.py:61 | the unique rows list every pair with its number of occurrences, each once |
| Week9Bigrams.ConsOrdered | week9/week9.py:62 | a row before all others goes in front of an ordered list |
| Week9Bigrams.HeadBefore | week9/week9.py:62 | the head of an ordered list stays first when a later row is inserted |
| Week9Bigrams.InsertDescOrdered | week9/week9.py:62 | inserting a row whose pair is larger than all listed keeps the list in sorted's order |
| Week9Bigrams.BelowLast | week9/week9.py:61-62 | the last unique row's pair is larger than every earlier one |
| Week9Bigrams.SortDescOrdered | week9/week9.py:61-62 | the stable sort by decreasing count of the unique rows orders equal counts by pair |
| Week9Bigrams.CountBigrams | week9/week9.py:59-63 | the rows are a ranking of the bigram counts, equal counts in pair order |
| Week9Bigrams.BeforeAsymmetric | week9/week9.py:61-62 | no row comes before a row that comes before it |
| Week9Bigrams.OrderedRowsUnique | week9/week9.py:61-62 | two ordered lists of the same rows are equal, so the ranking `CountBigrams` returns is the only one in that order |
| Week9Bigrams.KeepLongUpper | week9/week9.py:37-38 | keeping long words keeps upper-case words |
| Week9Bigrams.TextWords | week9/week9.py:33-45 | every word is upper-case letters only |
| Week9Bigrams.WordsOfText | week9/week9.py:21-45 | the words of the normalized padded text are the upper-cased letter runs longer than one letter |
| Week9Bigrams.Run | week9/week9.py:66-74 | a missing argument or file fails with Python's error; no words fails in numpy; otherwise the rows printed are exactly the first five of the ordered ranking, so a correct top 5 in which the smallest pairs win a tie at fifth place |
| Text.Lower | week1/main.rs:59 | lower-casing keeps the length, maps each character through its ASCII lower case and leaves no upper-case letter |
| Text.LowerIdempotent | week1/main.rs:59 | lower-casing an already lower-cased word changes nothing |
| Text.LowerAppend | week1/main.rs:59 | lower-casing a concatenation lower-cases each part |
| Text.LowerAll | week2/six.rs:91-93 | `lower` returns one word per input word, each the lower-cased input word at the same position |
| Text.Split | week1/main.rs:57 | splitting at a separator class yields at least one piece and no piece holds a separator |
| Text.SplitWhole | week1/main.rs:57 | a string without separators splits to itself alone |
| Text.SplitAt | week1/main.rs:57 | splitting around one separator splits the part before it and the part after it |
| Text.SplitSnoc | week1/main.rs:57 | one more separator character adds an empty last piece; one more word character extends the last piece |
| Text.JoinSnoc | week1/main.rs:52 | joining one more piece appends the separator and that piece |
| Text.JoinSplit | week1/main.rs:52 | joining the pieces of a split at one character with that character gives back the string |
| Text.SplitJoin | week1/main.rs:52 | splitting the join of separator-free pieces gives back the pieces |
| Text.SplitLower | week1/main.rs:57-59 | for a separator class that ignores case, splitting then lower-casing equals lower-casing then splitting |
| Text.ReadLine | week1/main.rs:23 | `read_line` takes a prefix of the text that holds no line break before its end and ends at the first line break or at the end of the text |
| Text.DropEmptyLast | week1/main.rs:52 | `lines` drops at most one trailing empty piece |
| Text.LinesJoin | week1/main.rs:52 | the lines, joined with line breaks and given back the final line break when the text had one, are the text |
| Text.KeepCountable | week1/main.rs:58-60 | the filter keeps no more words than it is given, and every kept word is longer than one character and not a stop word |
| Text.KeepCountableOccurrences | week1/main.rs:58-60 | each countable word is kept as often as it occurs, any other word never |
| Text.KeepCountableAppend | week1/main.rs:58-60 | filtering a concatenation filters each part |
| Text.KeepNonStop | week3/12-1.rs:64-76 | no more words come out than went in, and each is an input word that is no stop word; exactness and order are in KeepNonStopOccurrences, KeepNonStopAppend and WithoutStopPositions |
| Text.KeepNonStopOccurrences | week9/week9.py:51 | each word occurs as often as before when it is no stop word, and not at all otherwise |
| Text.KeepNonStopAppend | week3/12-1.rs:64-76 | the stop-word filter works word by word, so the kept words stay in input order |
| Text.KeepLong | week3/12-1.rs:109 | no more words come out than went in, and each is longer than one character; exactness and order are in KeepLongOccurrences and KeepLongAppend |
| Text.KeepLongOccurrences | week3/12-1.rs:109 | each word longer than one character keeps all its occurrences, shorter words none |
| Text.KeepLongAppend | week3/12-1.rs:109 | the length filter works word by word, so the kept words stay in input order |
| Text.LongThenNonStop | week3/12-1.rs:107-110 | the length filter followed by the stop-word filter is the combined filter |
| Text.NonStopThenLong | week2/five.rs:70-85 | the stop-word filter followed by the length filter is also the combined filter |
| Text.TokensSnoc | week2/four.rs:53-58 | one more character either extends the current token or closes it and opens an empty one |
| Text.TokensOfJoinedLines | week1/main.rs:52-57 | the tokens of the text read as a whole are the tokens of its lines, one after another |
| Text.WholeTextCounted | week1/main.rs:52-60 | counting the words of the whole text and counting the words line by line keep the same words |
| Text.NothingCounted | week1/main.rs:52-63 | an empty text counts no word |
| Text.TrailingSeparator | week1/main.rs:52 | a final line break changes no counted word |
| Text.CountedWordsSnoc | week1/main.rs:52-60 | one more line adds exactly its own counted words at the end |
| Text.StoredWordsSnoc | week3/12-1.rs:105-111 | one more line adds exactly its own long lower-cased words at the end |
| Text.Rejected | week2/five.rs:70-82 | an index is marked for removal exactly when it lies inside the list and its word is short or a stop word |
| Text.WithoutRejected | week2/five.rs:70-85 | removing the marked indices, from the back, leaves exactly the countable words in order |
| Text.StopPositions | week9/week9.py:51 | a position is marked exactly when it lies inside the list and holds a stop word (the `np.isin` mask) |
| Text.WithoutStopPositions | week9/week9.py:51 | deleting the marked positions leaves exactly what the stop-word filter keeps, in order |
| Text.ElementsOf | week1/main.rs:27 | a word is in the stop set exactly when it is one of the stop-word entries |
| Text.CommaStopWords | week1/main.rs:27 | a word is a stop word exactly when it is one of the ','-separated pieces of the stop-word line |
| Text.Acceptable | week2/four.rs:62-71 | the linear search over the stop list answers true exactly when the word is longer than one character and no stop word equals it |
| Seqs.Without | week2/five.rs:83-85 | removing indices leaves no more elements than before, and only elements of the input |
| Seqs.Reversed | week5/Eleven.java:137 | reversing keeps the length and puts element i at position n-1-i |
| Seqs.ReversedMultiset | week5/Eleven.java:137 | reversing keeps every element, as often as it occurred |
| Frequencies.Incr | week1/main.rs:62 | `entry(word).or_default() += 1` adds the word to the keys, raises its count by one from zero or its old count, and leaves every other count alone |
| Frequencies.Tally | week2/six.rs:109-113 | the counting loop produces the count table of the word list |
| Frequencies.CountSnoc | week1/main.rs:61-63 | counting one more word is one more increment |
| Frequencies.CountIsOccurrences | week1/main.rs:61-63 | the table holds exactly the words that occur, each with its number of occurrences |
| Frequencies.CountOfSameMultiset | week1/main.rs:61-63 | two tables that count lists with the same occurrences are equal |
| Frequencies.CountPermutation | week1/main.rs:61-63 | the count table does not depend on the order of the words |
| Frequencies.Merge | week8/30-1.rs:74-80 | merging two tables keeps every key of either, and a key's count is the sum of its counts |
| Frequencies.MergeCommutative | week8/30-1.rs:74-80 | the order in which two partial tables are merged does not matter |
| Frequencies.MergeAssociative | week8/30-1.rs:74-80 | the grouping of three partial tables being merged does not matter |
| Frequencies.MergeIncr | week8/30-1.rs:74-80 | merging after one increment is the merge followed by that increment |
| Frequencies.MergeCount | week8/30-1.rs:74-80 | merging the tables of two word lists gives the table of their concatenation |
| Frequencies.CountFromSnoc | week3/12-1.rs:174-176 | counting one more word into an existing table is one more increment |
| Frequencies.CountFromMerge | week3/12-1.rs:174-176 | counting words into an existing table is that table merged with the table of the words |
| Frequencies.CountFromEmpty | week3/12-1.rs:174-176 | counting words into an empty table gives their count table |
| Frequencies.CountFromBound | week3/12-1.rs:174-176 | no count grows by more than the number of words counted |
| Frequencies.CountFromStep | week3/12-1.rs:174-176 | each message handled raises the count of its word by one |
| Frequencies.CountEach | week8/32-1.rs:111 | one table per part, each the count of that part |
| Frequencies.MergeAllCount | week8/32-1.rs:86-114 | merging the tables of all parts gives the table of all the words |
| Frequencies.MergeAllPermutedParts | week8/32-1.rs:86-114 | any split of the words into parts, in any order, merges to the table of the words |
| Ranking.EnumeratesFacts | week1/main.rs:66-69 | the entries listed from a table are one per key, each with that key's count, without repeats |
| Ranking.InsertDesc | week2/six.rs:117-120 | inserting an entry into a list ordered by decreasing count keeps it ordered and adds exactly that entry |
| Ranking.SortDesc | week2/six.rs:117-120 | sorting by decreasing count returns the same entries, each as often, in non-increasing order of count |
| Ranking.OfCountAppend | week2/six.rs:117-120 | the entries with a given count in a concatenation are those of each part in order |
| Ranking.InsertDescStable | week6/28.rs:56-63 | inserting keeps the entries of each count in their order and puts the new one after those with its count |
| Ranking.SortDescStable | week6/28.rs:56-63 | the sort is stable: for every count, the entries with that count keep their input order |
| Ranking.SameTopCount | week6/28.rs:56-63 | two ordered lists with the same entries per count start with the same count |
| Ranking.StableSortUnique | week6/28.rs:56-63 | two lists ordered by decreasing count with the same entries per count, in the same order, are equal |
| Ranking.SortByCount | week2/six.rs:117-120 | `sort_unstable_by_key(Reverse(count))` returns a reordering of the entries in non-increasing order of count |
| Ranking.SortRanks | week1/main.rs:66-70 | sorting the listed entries of a table gives a ranking of that table |
| Ranking.Truncate | week1/main.rs:72 | `truncate(25)` keeps the first min(25, n) entries |
| Ranking.PrefixLeavesLess | week1/main.rs:70-72 | a word left out of a prefix of a ranking has a count no greater than any kept entry |
| Ranking.TopOfRanking | week1/main.rs:70-72 | the first n entries of a ranking are a correct top n of the table |
| Ranking.RemoveItem | week1/main.rs:66-69 | removing a key from a table removes exactly its one entry |
| Ranking.EnumeratesOfUnique | week1/main.rs:66-69 | a repeat-free list of the table's entries that mentions every key lists the table |
| Ranking.PrintRows | week2/four.rs:104-109 | the printing loop shows the first min(25, n) entries, in order |
| Ranking.CollectEntries | week1/main.rs:66-69 | collecting the map's items lists every entry of the table once |
| Ranking.TopOfTable | week2/six.rs:117-124 | sorting the listed entries and truncating gives a correct top n of the table |
| ListCounter.IndexOf | week2/four.rs:76-82 | the linear search stops at the first entry for the word, or at the end when there is none |
| ListCounter.Bump | week2/four.rs:73-86 | bumping adds one to the word's entry when it is listed and appends (word, 1) otherwise |
| ListCounter.AddAllSnoc | week2/four.rs:73-86 | bumping one more word is one more step |
| ListCounter.AddAllAppend | week2/four.rs:73-86 | bumping two runs of words in turn is bumping their concatenation |
| ListCounter.Words | week2/four.rs:44 | the words of the counter list, in its order |
| ListCounter.CountAllFacts | week2/four.rs:44-86 | the counter list holds each counted word once, in order of first occurrence, with its number of occurrences |
| ListCounter.CountAllEnumerates | week2/four.rs:44-86 | the counter list lists exactly the count table of the words |
| Decimal.Show | week3/12-1.rs:182 | the decimal form of a number is non-empty, all digits, without leading zero |
| Decimal.Parse | week3/12-1.rs:182 | a parsed limit fits in a `usize` |
| Decimal.ValueShow | week3/12-1.rs:182 | reading back the digits of a number gives the number |
| Decimal.ParseShow | week3/12-1.rs:182 | every number that fits in a `usize` parses back from its decimal form |
| StringOrder.LexAsymmetric | week1/main.rs:66-70 | no two words are each less than the other in the tie-break order |
| StringOrder.LexTotal | week1/main.rs:66-70 | of two different words one comes first in the tie-break order |
| StringOrder.LexTransitive | week1/main.rs:66-70 | the tie-break order on words is transitive |
| JsText.Squeeze | week4/9-1.js:22 | replacing runs of non-word characters leaves only letters, digits and single spaces |
| JsText.ReplaceRuns | week4/9-1.js:22 | `replace(/[\W_]+/g, ' ')` makes no string longer, and leaves only letters, digits and spaces, never two spaces in a row |
| JsText.SqueezeSplit | week4/9-1.js:22-30 | splitting the replaced text at spaces gives the same non-empty pieces as splitting the raw text at non-alphanumeric characters |
| JsText.ReplacedCounted | week4/9-1.js:21-37 | the words kept after replace, lower-case, split and filter are the countable tokens of the text |
| JsText.AsWrittenIncrement | week4/9-1.js:45 | the word becomes a key and no other key changes; a positive count goes up by one and a new word other than "constructor" starts at one |
| JsText.AsWrittenCount | week4/9-1.js:43-46 | the keys are exactly the words counted |
| JsText.AsWrittenAgrees | week4/9-1.js:42-46 | for words other than "constructor" the object-as-map count loop gives the count table |
| JsText.IncrementAgrees | week4/9-1.js:45 | one `counter[w] = (counter[w] \|\| 0) + 1` step for a word other than "constructor" is one increment |
| JsText.ConstructorMiscounted | week4/9-1.js:45 | for the word "constructor" the loop stores a string built from the inherited `Object` function rather than the count 1 |

## Left out

- File system, standard input and output: contents are a path-to-string map, and printed rows are returned as values. The exact print formats are not modelled, except the report string of `week4/10-1.rs` and `week7/25.rs`.
- Unicode: characters are treated as ASCII. `week2/four.rs` tests `is_alphabetic` and `to_lowercase` for every Unicode letter; the model uses the ASCII classes. Invalid UTF-8, `'\r'` line endings and multi-character lower cases are not modelled.
- Integer widths: `usize` counts are unbounded `nat`s, and overflow is not modelled. Java's `int` is modelled where it decides a result: `compareTo` subtracts two frequencies. `Week5Eleven.WordFrequencyController.Run` and `Week5Eleven.Start` require the counts to fit in an `int`, because their model computes the subtraction with 32-bit wrap-around. `Week5App1.Print` and `Week5App2.Print` count and compare with unbounded integers instead: each count is at most the size of the word `ArrayList`, which is an `int`, so neither `count + 1` (`week5/app1/App.java:44`, `week5/app2/App.java:46`) nor the subtraction in their comparators can wrap (`JavaText.SubtractNonNegative`).
- Week5Eleven.WordFrequencyManager.Sorted: requires frequencies that fit in an `int`, because `compareTo` subtracts them and a larger count could wrap.
- Order of ties:
  - Rust's `sort_unstable_by_key` and `sort_unstable` leave equal counts in no fixed order.
  - `Collections.sort` (`week5/Eleven.java`), `List.sort` (`week5/app1/App.java`, `week5/app2/App.java`) and JavaScript's `Array.prototype.sort` (`week3/13.js`, `week4/9-1.js`) are stable. Their input comes from hash-map or object-key iteration, though, so the order of equal counts is still not fixed.
  - In both cases the contracts prove a correct top 25 (`IsTop`) for any order of ties, not one particular order.
- Hash-map iteration order: `Ranking.CollectEntries` lists the entries in an order it does not fix. Results that depend on that order are stated for every order.
- Threads:
  - `week8/29-1.rs`: the actors run on the sequential schedule that their mailboxes force. The controller's unused counter sender is not modelled.
  - `week8/30-1.rs`: workers take words from the shared queue in an explicit schedule, and any interleaving gives the same merged table.
  - Channels are modelled as first-in first-out mailboxes (`Week8Actors.Channels`), and joining the threads with `join().unwrap()` is modelled by `Week8Actors.JoinAll`.
  - Locking and truly concurrent execution are not modelled.
- `week8/32-1.rs`:
  - words are split at non-alphanumeric characters, as the code does;
  - `partition` puts `chunk_size - 1` lines in each chunk, as the code does;
  - the regrouped lists are related to the table only through their counts.
- Stop words read with `read_line` (`week1/main.rs`, `week2/five.rs`, `week2/six.rs`) keep the final line break of the stop-word line. The model passes the buffer on as read, so the last stop word ends in `'\n'`.
- Week5App1.Start and Week5App2.Start: the text file is the fixed `TEXT_PATH` that the applications' `main` opens; they take no argument.
- Week7Constructivist: a missing or unreadable argument falls back to the default text file, as the code does; the default path is an input like any other.
- `week5/Framework.java`, the class loading of `week5/app1` and `week5/app2`, and `Eleven.printout`: reflection is not modelled, so reflective `invoke` calls are modelled as direct calls.
- `week9/week9.py`: numpy arrays are sequences, and dtype details are not modelled. The `TypeError` raised on a text with no words is modelled as `Panic(NOT_STRINGS)` in `Week9Bigrams.Run`.
- `week6/26-1.rs` is not part of this model. Its counting, grouping and ordering are done by SQLite.
- `week2/ex4.1.rs` is not part of this model. It holds no logic.

## Findings

| source | as written | input that shows it | evidently intended | confidence | as-written member | corrected member |
|---|---|---|---|---|---|---|
| week4/9-1.js:45 (also week3/13.js:34) | the count is read with `counter[w]` on a plain object, so the word "constructor" finds the inherited `Object.prototype.constructor` function, which is truthy; the stored value becomes that function's source text with "1" appended (in `13.js`, prepended) | a text containing the word "constructor" once | the count of "constructor" is 1 | not executed | JsText.ConstructorMiscounted | Week4Kick.CountWords (also Week3ClosedMaps.Counter.CountWord) |

=== FILE: decimal.dfy ===
/** Decimal text for counts: Rust's `{}` formatting of an unsigned integer and
    `str::parse::<usize>()`. */
module Decimal {
  import opened Wrappers

  function DigitChar(d: nat): char
    requires d < 10
  {
    ('0' as int + d) as char
  }

  predicate IsDigit(c: char) { '0' <= c <= '9' }

  function DigitValue(c: char): nat
    requires IsDigit(c)
  {
    c as int - '0' as int
  }

  /** The shortest decimal spelling of `n`: no sign, no leading zeros. */
  function Show(n: nat): (s: string)
    ensures |s| >= 1
    ensures forall i :: 0 <= i < |s| ==> IsDigit(s[i])
    ensures |s| > 1 ==> s[0] != '0'
  {
    if n < 10 then [DigitChar(n)] else Show(n / 10) + [DigitChar(n % 10)]
  }

  /** The number a run of digits spells, most significant digit first. */
  function Value(s: string): nat
    requires forall i :: 0 <= i < |s| ==> IsDigit(s[i])
  {
    if s == [] then 0 else 10 * Value(s[..|s| - 1]) + DigitValue(s[|s| - 1])
  }

  /** The largest `usize` on a 64-bit target. */
  const USIZE_MAX: nat := 0xFFFF_FFFF_FFFF_FFFF

  /** `parse::<usize>()`: an optional leading '+' and then one or more digits, with a value
      that fits in a `usize`; anything else (the empty string, a lone '+', a sign '-', any
      other character, an overflowing value) is an error. */
  function Parse(s: string): (r: Option<nat>)
    ensures r.Some? ==> r.value <= USIZE_MAX
  {
    var digits := if |s| > 0 && s[0] == '+' then s[1..] else s;
    if |digits| > 0 && (forall i :: 0 <= i < |digits| ==> IsDigit(digits[i]))
       && Value(digits) <= USIZE_MAX
    then Some(Value(digits))
    else None
  }

  lemma {:induction false} ValueShow(n: nat)
    ensures Value(Show(n)) == n
  {
    if n >= 10 {
      ValueShow(n / 10);
      var s := Show(n);
      assert s[..|s| - 1] == Show(n / 10);
    }
  }

  /** Reading back a printed count gives the count. */
  lemma ParseShow(n: nat)
    requires n <= USIZE_MAX
    ensures Parse(Show(n)) == Some(n)
  {
    ValueShow(n);
  }
}

=== FILE: frequencies.dfy ===
/** Frequency tables: the `HashMap<String, usize>` (Java `Map`, JavaScript object) that every
    variant fills one occurrence at a time, and the per-key summation that merges partial tables. */
module Frequencies {
  import opened Seqs

  type Table<K> = map<K, nat>

  function Get<K>(t: Table<K>, k: K): nat { if k in t then t[k] else 0 }

  /** `*t.entry(k).or_default() += 1`: an unseen key starts at 1, a seen key goes up by one,
      every other key keeps its count. */
  function Incr<K>(t: Table<K>, k: K): (r: Table<K>)
    ensures r.Keys == t.Keys + {k}
    ensures r[k] == Get(t, k) + 1
    ensures forall j :: j in t && j != k ==> r[j] == t[j]
  {
    t[k := Get(t, k) + 1]
  }

  /** The table after counting `xs` one element at a time, starting from an empty table. */
  function Count<K>(xs: seq<K>): Table<K>
  {
    if xs == [] then map[] else Incr(Count(xs[..|xs| - 1]), xs[|xs| - 1])
  }

  /** The counting loop `for w in words { *counter.entry(w).or_default() += 1 }`. */
  method Tally<K>(xs: seq<K>) returns (t: Table<K>)
    ensures t == Count(xs)
  {
    t := map[];
    for i := 0 to |xs|
      invariant t == Count(xs[..i])
    {
      assert xs[..i + 1][..i] == xs[..i];
      t := Incr(t, xs[i]);
    }
    assert xs[..|xs|] == xs;
  }

  lemma CountSnoc<K>(xs: seq<K>, x: K)
    ensures Count(xs + [x]) == Incr(Count(xs), x)
  {
    assert (xs + [x])[..|xs|] == xs;
  }

  /** `t` holds exactly the elements of `xs`, each with its number of occurrences. */
  ghost predicate IsCountOf<K(!new)>(t: Table<K>, xs: seq<K>)
  {
    && (forall k :: k in t <==> k in xs)
    && (forall k :: k in t ==> t[k] == multiset(xs)[k])
  }

  lemma {:induction false} CountIsOccurrences<K(!new)>(xs: seq<K>)
    ensures IsCountOf(Count(xs), xs)
  {
    if xs != [] {
      var n := |xs| - 1;
      CountIsOccurrences(xs[..n]);
      assert xs == xs[..n] + [xs[n]];
      assert multiset(xs) == multiset(xs[..n]) + multiset{xs[n]};
      forall k ensures k in xs <==> k in xs[..n] || k == xs[n] {
        assert k in xs <==> k in multiset(xs);
      }
    }
  }

  /** A table of occurrence counts is determined by the multiset of the counted elements. */
  lemma CountOfSameMultiset<K(!new)>(t1: Table<K>, xs: seq<K>, t2: Table<K>, ys: seq<K>)
    requires IsCountOf(t1, xs) && IsCountOf(t2, ys) && multiset(xs) == multiset(ys)
    ensures t1 == t2
  {
    forall k ensures k in xs <==> k in ys {
      assert k in xs <==> k in multiset(xs);
      assert k in ys <==> k in multiset(ys);
    }
  }

  /** Counting does not depend on the order the elements arrive in. */
  lemma CountPermutation<K(!new)>(xs: seq<K>, ys: seq<K>)
    requires multiset(xs) == multiset(ys)
    ensures Count(xs) == Count(ys)
  {
    CountIsOccurrences(xs);
    CountIsOccurrences(ys);
    CountOfSameMultiset(Count(xs), xs, Count(ys), ys);
  }

  /** Per-key summation of two tables. */
  function Merge<K>(a: Table<K>, b: Table<K>): (r: Table<K>)
    ensures r.Keys == a.Keys + b.Keys
    ensures forall k :: k in r ==> r[k] == Get(a, k) + Get(b, k)
  {
    map k | k in a.Keys + b.Keys :: Get(a, k) + Get(b, k)
  }

  lemma MergeCommutative<K>(a: Table<K>, b: Table<K>)
    ensures Merge(a, b) == Merge(b, a)
  {
  }

  lemma MergeAssociative<K>(a: Table<K>, b: Table<K>, c: Table<K>)
    ensures Merge(Merge(a, b), c) == Merge(a, Merge(b, c))
  {
  }

  lemma MergeIncr<K>(a: Table<K>, b: Table<K>, k: K)
    ensures Merge(a, Incr(b, k)) == Incr(Merge(a, b), k)
  {
  }

  /** Counting two streams separately and merging equals counting their concatenation. */
  lemma {:induction false} MergeCount<K>(xs: seq<K>, ys: seq<K>)
    ensures Merge(Count(xs), Count(ys)) == Count(xs + ys)
    decreases |ys|
  {
    if ys == [] {
      assert xs + ys == xs;
      assert Merge(Count(xs), map[]) == Count(xs);
    } else {
      var n := |ys| - 1;
      assert (xs + ys)[..|xs + ys| - 1] == xs + ys[..n];
      MergeCount(xs, ys[..n]);
      MergeIncr(Count(xs), Count(ys[..n]), ys[n]);
    }
  }

  /** Counting `xs` on top of the counts already in `t` (a counter that lives across calls). */
  function CountFrom<K>(t: Table<K>, xs: seq<K>): Table<K>
  {
    if xs == [] then t else Incr(CountFrom(t, xs[..|xs| - 1]), xs[|xs| - 1])
  }

  lemma CountFromSnoc<K>(t: Table<K>, xs: seq<K>, x: K)
    ensures CountFrom(t, xs + [x]) == Incr(CountFrom(t, xs), x)
  {
    assert (xs + [x])[..|xs|] == xs;
  }

  /** Counting on top of `t` adds the occurrence counts of `xs` to those of `t`. */
  lemma {:induction false} CountFromMerge<K>(t: Table<K>, xs: seq<K>)
    ensures CountFrom(t, xs) == Merge(t, Count(xs))
    decreases |xs|
  {
    if xs == [] {
      assert Merge(t, map[]) == t;
    } else {
      var n := |xs| - 1;
      CountFromMerge(t, xs[..n]);
      MergeIncr(t, Count(xs[..n]), xs[n]);
    }
  }

  lemma CountFromEmpty<K>(xs: seq<K>)
    ensures CountFrom(map[], xs) == Count(xs)
  {
    CountFromMerge(map[], xs);
    MergeCommutative(map[], Count(xs));
    assert Merge(Count(xs), map[]) == Count(xs);
  }

  /** Counting `xs` on top of `t` raises no count by more than `|xs|`. */
  lemma {:induction false} CountFromBound<K>(t: Table<K>, xs: seq<K>)
    ensures forall k :: k in CountFrom(t, xs) ==> CountFrom(t, xs)[k] <= Get(t, k) + |xs|
  {
    if xs != [] {
      CountFromBound(t, xs[..|xs| - 1]);
    }
  }

  /** Counting one word more in a loop: `CountFrom(t, xs[..i+1])` is one `Incr` after
      `CountFrom(t, xs[..i])`. */
  lemma CountFromStep<K>(t: Table<K>, xs: seq<K>, i: nat)
    requires i < |xs|
    ensures CountFrom(t, xs[..i + 1]) == Incr(CountFrom(t, xs[..i]), xs[i])
  {
    assert xs[..i + 1][..i] == xs[..i];
  }

  /** Merging a list of tables left to right, starting from an empty table. */
  function MergeAll<K>(ts: seq<Table<K>>): Table<K>
  {
    if ts == [] then map[] else Merge(MergeAll(ts[..|ts| - 1]), ts[|ts| - 1])
  }

  function CountEach<K>(parts: seq<seq<K>>): (r: seq<Table<K>>)
    ensures |r| == |parts|
    ensures forall i :: 0 <= i < |parts| ==> r[i] == Count(parts[i])
  {
    seq(|parts|, i requires 0 <= i < |parts| => Count(parts[i]))
  }

  /** However a stream is cut into parts, merging the parts' tables gives the table of the
      whole stream. */
  lemma {:induction false} MergeAllCount<K(!new)>(parts: seq<seq<K>>)
    ensures MergeAll(CountEach(parts)) == Count(Flatten(parts))
    decreases |parts|
  {
    if parts != [] {
      var n := |parts| - 1;
      MergeAllCount(parts[..n]);
      assert CountEach(parts)[..n] == CountEach(parts[..n]);
      MergeCount(Flatten(parts[..n]), parts[n]);
    }
  }

  /** Merging does not depend on the order the partial tables arrive in either: the result is
      the table of the combined multiset of their streams. */
  lemma MergeAllPermutedParts<K(!new)>(parts: seq<seq<K>>, xs: seq<K>)
    requires multiset(Flatten(parts)) == multiset(xs)
    ensures MergeAll(CountEach(parts)) == Count(xs)
  {
    MergeAllCount(parts);
    CountPermutation(Flatten(parts), xs);
  }
}

=== FILE: java_text.dfy ===
/** The pieces of the Java class library that the Java variants rely on, over ASCII text: a
    `Scanner` reading tokens between delimiter matches, `String.split` with a regular
    expression, `Collections.reverse`, and the 32-bit `int` subtraction their comparators use. */
module JavaText {
  import opened Seqs
  import opened Text

  // ---------------------------------------------------------------------------------------
  // java.util.Scanner

  /** A `Scanner` with the delimiter `[\W_]+`: a leading run of delimiters is skipped, every
      token is a maximal run of ASCII letters and digits, and nothing follows the last run. */
  function ScanRuns(s: string): (r: seq<string>)
    ensures forall i :: 0 <= i < |r| ==> r[i] != [] && r[i] in Split(s, NonAlnum)
  {
    NonEmpty(Split(s, NonAlnum))
  }

  /** A `Scanner` with a one-character delimiter `c`: one delimiter at the very start is
      skipped, a token is whatever lies between two delimiters (possibly nothing), and a
      delimiter at the very end ends the input. */
  function ScanPieces(s: string, c: char): (r: seq<string>)
    ensures forall i, j :: 0 <= i < |r| && 0 <= j < |r[i]| ==> r[i][j] != c
    ensures forall w :: w in r ==> w in Split(s, Exactly(c))
    ensures s == [] ==> r == []
  {
    var ps := Split(s, Exactly(c));
    DropEmptyLast(if ps[0] == [] then ps[1..] else ps)
  }

  // ---------------------------------------------------------------------------------------
  // String.split(regex)

  /** Trailing empty strings removed, as `String.split` does. */
  function DropTrailingEmpty(ps: seq<string>): (r: seq<string>)
    ensures |r| <= |ps| && r == ps[..|r|]
    ensures forall i :: |r| <= i < |ps| ==> ps[i] == []
    ensures |r| > 0 ==> r[|r| - 1] != []
  {
    if ps != [] && ps[|ps| - 1] == [] then DropTrailingEmpty(ps[..|ps| - 1]) else ps
  }

  /** `s.split(",")` (any one-character pattern `c`): without a match the whole string is the
      only piece; otherwise the pieces between matches, with the trailing empty ones removed. */
  function JavaSplit(s: string, c: char): (r: seq<string>)
    ensures c !in s ==> r == [s]
    ensures c in s ==> |r| <= |Split(s, Exactly(c))| && r == Split(s, Exactly(c))[..|r|] && (r == [] || r[|r| - 1] != [])
    ensures forall i, j :: 0 <= i < |r| && 0 <= j < |r[i]| ==> r[i][j] != c
  {
    if c !in s then [s] else DropTrailingEmpty(Split(s, Exactly(c)))
  }

  /** `s.split("[\\W_]+")`: a match is a whole run of non-alphanumerics, so only the piece
      before the first run can be empty; trailing empty pieces are removed, and without a
      match the whole string is the only piece. */
  function JavaSplitRuns(s: string): (r: seq<string>)
    ensures (forall i :: 0 <= i < |s| ==> IsAsciiAlnum(s[i])) ==> r == [s]
    ensures forall i, j :: 0 <= i < |r| && 0 <= j < |r[i]| ==> IsAsciiAlnum(r[i][j])
    ensures forall i :: 0 < i < |r| ==> r[i] != []
  {
    var ps := Split(s, NonAlnum);
    if forall i :: 0 <= i < |s| ==> IsAsciiAlnum(s[i]) then [s]
    else DropTrailingEmpty([ps[0]] + NonEmpty(ps[1..]))
  }

  /** Lower-casing and filtering a list of pieces does not see its empty pieces. */
  lemma CountedWithoutEmpty(ws: seq<string>, stop: set<string>)
    ensures KeepCountable(LowerAll(NonEmpty(ws)), stop) == KeepCountable(LowerAll(ws), stop)
  {
    LowerAllNonEmpty(ws);
    KeepCountableNonEmpty(LowerAll(ws), stop);
  }

  lemma CountedAppend(a: seq<string>, b: seq<string>, stop: set<string>)
    ensures KeepCountable(LowerAll(a + b), stop) ==
      KeepCountable(LowerAll(a), stop) + KeepCountable(LowerAll(b), stop)
  {
    LowerAllAppend(a, b);
    KeepCountableAppend(LowerAll(a), LowerAll(b), stop);
  }

  lemma {:induction false} CountedWithoutTrailing(ws: seq<string>, stop: set<string>)
    ensures KeepCountable(LowerAll(DropTrailingEmpty(ws)), stop) == KeepCountable(LowerAll(ws), stop)
  {
    if ws != [] && ws[|ws| - 1] == [] {
      var n := |ws| - 1;
      var none := LowerAll([ws[n]]);
      calc {
        KeepCountable(LowerAll(DropTrailingEmpty(ws)), stop);
        KeepCountable(LowerAll(DropTrailingEmpty(ws[..n])), stop);
        { CountedWithoutTrailing(ws[..n], stop); }
        KeepCountable(LowerAll(ws[..n]), stop);
        { AppendEmpty(KeepCountable(LowerAll(ws[..n]), stop));
          assert none[..0] == []; }
        KeepCountable(LowerAll(ws[..n]), stop) + KeepCountable(none, stop);
        { CountedAppend(ws[..n], [ws[n]], stop); }
        KeepCountable(LowerAll(ws[..n] + [ws[n]]), stop);
        { assert ws == ws[..n] + [ws[n]]; }
        KeepCountable(LowerAll(ws), stop);
      }
    }
  }

  /** Cutting a line with `split("[\\W_]+")` counts the same words as cutting it at every
      non-alphanumeric character. */
  lemma JavaSplitRunsCounted(s: string, stop: set<string>)
    ensures KeepCountable(LowerAll(JavaSplitRuns(s)), stop) == KeepCountable(Tokens(s, NonAlnum), stop)
  {
    var ps := Split(s, NonAlnum);
    if forall i :: 0 <= i < |s| ==> IsAsciiAlnum(s[i]) {
      SplitWhole(s, NonAlnum);
    } else {
      var rest := ps[1..];
      calc {
        KeepCountable(LowerAll(JavaSplitRuns(s)), stop);
        KeepCountable(LowerAll(DropTrailingEmpty([ps[0]] + NonEmpty(rest))), stop);
        { CountedWithoutTrailing([ps[0]] + NonEmpty(rest), stop); }
        KeepCountable(LowerAll([ps[0]] + NonEmpty(rest)), stop);
        { CountedAppend([ps[0]], NonEmpty(rest), stop); }
        KeepCountable(LowerAll([ps[0]]), stop) + KeepCountable(LowerAll(NonEmpty(rest)), stop);
        { CountedWithoutEmpty(rest, stop); }
        KeepCountable(LowerAll([ps[0]]), stop) + KeepCountable(LowerAll(rest), stop);
        { CountedAppend([ps[0]], rest, stop); }
        KeepCountable(LowerAll([ps[0]] + rest), stop);
        { assert ps == [ps[0]] + rest; }
        KeepCountable(Tokens(s, NonAlnum), stop);
      }
    }
  }

  /** The whole-text scanner also counts the same words as the line-by-line cut. */
  lemma ScanRunsCounted(s: string, stop: set<string>)
    ensures KeepCountable(LowerAll(ScanRuns(s)), stop) == CountedWords(Lines(s), NonAlnum, stop)
  {
    CountedWithoutEmpty(Split(s, NonAlnum), stop);
    WholeTextCounted(s, NonAlnum, stop);
  }

  /** `String.split` and the scanner differ from the plain cut only by empty pieces: a
      non-empty word is among the pieces of one iff it is among those of the other. */
  lemma SplitSameWords(s: string, c: char, w: string)
    requires w != []
    ensures w in JavaSplit(s, c) <==> w in Split(s, Exactly(c))
    ensures w in ScanPieces(s, c) <==> w in Split(s, Exactly(c))
  {
    var ps := Split(s, Exactly(c));
    if c !in s {
      SplitWhole(s, Exactly(c));
    }
    var dropped := if ps[0] == [] then ps[1..] else ps;
    assert w in dropped <==> w in ps by {
      if ps[0] == [] {
        assert ps == [ps[0]] + dropped;
      }
    }
  }

  /** Two stop sets that agree on every word longer than one character filter alike. */
  lemma {:induction false} SameLongStopWords(ws: seq<string>, a: set<string>, b: set<string>)
    requires forall w :: |w| > 1 ==> (w in a <==> w in b)
    ensures KeepCountable(ws, a) == KeepCountable(ws, b)
  {
    if ws != [] {
      SameLongStopWords(ws[..|ws| - 1], a, b);
    }
  }

  // ---------------------------------------------------------------------------------------
  // Collections.reverse

  /** Reverses the list in place by swapping elements from both ends towards the middle. */
  method Reverse<T>(a: array<T>)
    modifies a
    ensures a[..] == Reversed(old(a[..]))
  {
    var i, j := 0, a.Length - 1;
    while i < j
      invariant 0 <= i <= a.Length - i && j == a.Length - 1 - i
      invariant forall k :: 0 <= k < i ==> a[k] == old(a[a.Length - 1 - k])
      invariant forall k :: a.Length - i <= k < a.Length ==> a[k] == old(a[a.Length - 1 - k])
      invariant forall k :: i <= k < a.Length - i ==> a[k] == old(a[k])
    {
      a[i], a[j] := a[j], a[i];
      i, j := i + 1, j - 1;
    }
  }

  // ---------------------------------------------------------------------------------------
  // Java int arithmetic

  const INT_MIN: int := -0x8000_0000
  const INT_MAX: int := 0x7FFF_FFFF

  /** A Java `int` result: the exact value wrapped into 32-bit two's complement. */
  function Wrap(x: int): (r: int)
    ensures INT_MIN <= r <= INT_MAX
    ensures (x - r) % 0x1_0000_0000 == 0
    ensures INT_MIN <= x <= INT_MAX ==> r == x
  {
    (x - INT_MIN) % 0x1_0000_0000 + INT_MIN
  }

  /** `a - b` on Java `int`s. */
  function Subtract(a: int, b: int): int
  {
    Wrap(a - b)
  }

  /** The difference of two non-negative `int`s never overflows, so its sign is the sign of
      the true difference. */
  lemma SubtractNonNegative(a: int, b: int)
    requires 0 <= a <= INT_MAX && 0 <= b <= INT_MAX
    ensures Subtract(a, b) == a - b
    ensures Subtract(a, b) < 0 <==> a < b
    ensures Subtract(a, b) == 0 <==> a == b
  {
  }
}

=== FILE: js_text.dfy ===
/** The pieces of JavaScript the two JavaScript variants rely on, over ASCII text:
    `replace(/[\W_]+/g, ' ')`, and the word counter kept in a plain object literal, whose
    lookups fall back to `Object.prototype`. */
module JsText {
  import opened Seqs
  import opened Text
  import opened JavaText
  import opened Frequencies
  import opened Decimal

  // ---------------------------------------------------------------------------------------
  // s.replace(/[\W_]+/g, ' ')

  /** The text after position `inRun` state: a maximal run of characters other than ASCII
      letters and digits becomes one space. `inRun` says that the characters just before
      `s` were such a run, already replaced. */
  function Squeeze(s: string, inRun: bool): (r: string)
    ensures |r| <= |s|
    ensures forall i :: 0 <= i < |r| ==> r[i] == ' ' || IsAsciiAlnum(r[i])
    ensures inRun && |r| > 0 ==> r[0] != ' '
    ensures forall i :: 0 <= i < |r| - 1 ==> !(r[i] == ' ' && r[i + 1] == ' ')
  {
    if s == [] then []
    else if IsAsciiAlnum(s[0]) then [s[0]] + Squeeze(s[1..], false)
    else if inRun then Squeeze(s[1..], true)
    else [' '] + Squeeze(s[1..], true)
  }

  /** `s.replace(/[\W_]+/g, ' ')`: only letters, digits and single spaces remain, never two
      spaces in a row. */
  function ReplaceRuns(s: string): (r: string)
    ensures |r| <= |s|
    ensures forall i :: 0 <= i < |r| ==> r[i] == ' ' || IsAsciiAlnum(r[i])
    ensures forall i :: 0 <= i < |r| - 1 ==> !(r[i] == ' ' && r[i + 1] == ' ')
  {
    Squeeze(s, false)
  }

  lemma NonEmptyCons(a: string, rest: seq<string>)
    ensures NonEmpty([a] + rest) == (if a == [] then [] else [a]) + NonEmpty(rest)
  {
    assert NonEmpty([a]) == if a == [] then [] else [a] by {
      assert [a][..0] == [];
    }
    NonEmptyAppend([a], rest);
  }

  /** Cutting the replaced text at spaces finds the same words as cutting the original at
      every non-alphanumeric character: the two lists differ only in empty pieces. Outside a
      run the first pieces agree too. */
  lemma {:induction false} SqueezeSplit(s: string, inRun: bool)
    ensures var P := Split(Squeeze(s, inRun), Exactly(' '));
      var Q := Split(s, NonAlnum);
      NonEmpty(P) == NonEmpty(Q) &&
      (!inRun ==> P[0] == Q[0] && NonEmpty(P[1..]) == NonEmpty(Q[1..]))
  {
    if s != [] {
      var c := s[0];
      var t := s[1..];
      var Q' := Split(t, NonAlnum);
      assert Split(s, NonAlnum) == if IsAsciiAlnum(c) then [[c] + Q'[0]] + Q'[1..] else [[]] + Q';
      if IsAsciiAlnum(c) {
        var r' := Squeeze(t, false);
        var P' := Split(r', Exactly(' '));
        SqueezeSplit(t, false);
        assert ([c] + r')[0] == c && ([c] + r')[1..] == r';
        var P := [[c] + P'[0]] + P'[1..];
        var Q := [[c] + Q'[0]] + Q'[1..];
        assert P[1..] == P'[1..] && Q[1..] == Q'[1..];
        NonEmptyCons(P[0], P[1..]);
        NonEmptyCons(Q[0], Q[1..]);
        assert P == [P[0]] + P[1..] && Q == [Q[0]] + Q[1..];
      } else {
        var r' := Squeeze(t, true);
        var P' := Split(r', Exactly(' '));
        SqueezeSplit(t, true);
        NonEmptyCons([], Q');
        AppendEmpty(NonEmpty(Q'));
        if !inRun {
          assert ([' '] + r')[0] == ' ' && ([' '] + r')[1..] == r';
          NonEmptyCons([], P');
          AppendEmpty(NonEmpty(P'));
          assert ([[]] + P')[1..] == P' && ([[]] + Q')[1..] == Q';
        }
      }
    }
  }

  /** `replace(/[\W_]+/g, ' ')`, lower-casing, `split(' ')` and a filter of empty, short and
      stop words count the same words as cutting at every non-alphanumeric character. */
  lemma ReplacedCounted(s: string, stop: set<string>)
    ensures KeepCountable(LowerAll(Split(ReplaceRuns(s), Exactly(' '))), stop) ==
      KeepCountable(Tokens(s, NonAlnum), stop)
  {
    SqueezeSplit(s, false);
    CountedWithoutEmpty(Split(ReplaceRuns(s), Exactly(' ')), stop);
    CountedWithoutEmpty(Split(s, NonAlnum), stop);
  }

  // ---------------------------------------------------------------------------------------
  // A word counter in a plain object literal, as written.

  /** The values an entry of such a counter can take. */
  datatype JsValue = Undefined | NotANumber | Number(n: nat) | Str(s: string) | NativeFunction(source: string)

  /** What the function `Object` turns into as a string. */
  const OBJECT_SOURCE := "function Object() { [native code] }"

  /** `obj[k]` for an object literal: its own property, else the property of
      `Object.prototype` by that name. Of the names made only of lower-case letters and
      digits, `Object.prototype` has exactly one, `constructor`, the function `Object`. */
  function Lookup(obj: map<string, JsValue>, k: string): JsValue
  {
    if k in obj then obj[k] else if k == "constructor" then NativeFunction(OBJECT_SOURCE) else Undefined
  }

  predicate Truthy(v: JsValue)
  {
    match v
    case Undefined => false
    case NotANumber => false
    case Number(n) => n != 0
    case Str(s) => s != ""
    case NativeFunction(_) => true
  }

  /** `v || 0`. */
  function OrZero(v: JsValue): JsValue
  {
    if Truthy(v) then v else Number(0)
  }

  /** The string a value turns into when concatenated. */
  function ToText(v: JsValue): string
  {
    match v
    case Undefined => "undefined"
    case NotANumber => "NaN"
    case Number(n) => Show(n)
    case Str(s) => s
    case NativeFunction(source) => source
  }

  /** `a + b`: a string or a function on either side makes it a concatenation; two numbers
      add; `undefined` plus a number is `NaN`. */
  function Plus(a: JsValue, b: JsValue): JsValue
  {
    if a.Str? || b.Str? || a.NativeFunction? || b.NativeFunction? then Str(ToText(a) + ToText(b))
    else if a.Number? && b.Number? then Number(a.n + b.n)
    else NotANumber
  }

  /** One count step as written: `counter[w] = (counter[w] || 0) + 1` when `oneFirst` is
      false, `counter[w] = 1 + (counter[w] || 0)` when it is true. */
  function AsWrittenIncrement(obj: map<string, JsValue>, w: string, oneFirst: bool): (r: map<string, JsValue>)
    ensures r.Keys == obj.Keys + {w}
    ensures forall k :: k in obj && k != w ==> r[k] == obj[k]
    ensures w in obj && obj[w].Number? && obj[w].n > 0 ==> r[w] == Number(obj[w].n + 1)
    ensures w !in obj && w != "constructor" ==> r[w] == Number(1)
  {
    var seen := OrZero(Lookup(obj, w));
    obj[w := if oneFirst then Plus(Number(1), seen) else Plus(seen, Number(1))]
  }

  function AsWrittenCount(words: seq<string>, oneFirst: bool): (r: map<string, JsValue>)
    ensures forall k :: k in r <==> k in words
  {
    if words == [] then map[]
    else AsWrittenIncrement(AsWrittenCount(words[..|words| - 1], oneFirst), words[|words| - 1], oneFirst)
  }

  /** A table of counts as the numbers of a JavaScript object. */
  function Numbers(t: Table<string>): map<string, JsValue>
  {
    map k | k in t :: Number(t[k])
  }

  /** As long as the word `constructor` never occurs, the object counts correctly. */
  lemma {:induction false} AsWrittenAgrees(words: seq<string>, oneFirst: bool)
    requires "constructor" !in words
    ensures AsWrittenCount(words, oneFirst) == Numbers(Count(words))
  {
    if words != [] {
      var n := |words| - 1;
      assert words == words[..n] + [words[n]];
      AsWrittenAgrees(words[..n], oneFirst);
      IncrementAgrees(Count(words[..n]), words[n], oneFirst);
    }
  }

  /** One step of the object counter on a table of numbers is one step of the table, for any
      word but `constructor`. */
  lemma IncrementAgrees(t: Table<string>, w: string, oneFirst: bool)
    requires w != "constructor"
    ensures AsWrittenIncrement(Numbers(t), w, oneFirst) == Numbers(Incr(t, w))
  {
    var seen := OrZero(Lookup(Numbers(t), w));
    assert seen == Number(Get(t, w));
  }

  /** The word `constructor` is not counted as a number: one occurrence yields the text of the
      function `Object` with a "1" appended (or prepended), not the count 1. */
  lemma ConstructorMiscounted(oneFirst: bool)
    ensures var obj := AsWrittenCount(["constructor"], oneFirst);
      obj["constructor"] == Str(if oneFirst then "1" + OBJECT_SOURCE else OBJECT_SOURCE + "1")
    ensures Count(["constructor"])["constructor"] == 1
    ensures AsWrittenCount(["constructor"], oneFirst) != Numbers(Count(["constructor"]))
  {
    var w := "constructor";
    assert [w][..0] == [];
    assert Lookup(map[], w) == NativeFunction(OBJECT_SOURCE);
    assert ToText(Number(1)) == "1";
    var obj := AsWrittenCount([w], oneFirst);
    assert AsWrittenCount([w][..0], oneFirst) == map[];
    assert obj == AsWrittenIncrement(AsWrittenCount([w][..0], oneFirst), w, oneFirst);
    assert obj[w].Str?;
    assert Numbers(Count([w]))[w] == Number(1);
  }
}

=== FILE: listcounter.dfy ===
/** The hand-rolled counter of the "no abstractions" variants: a vector of (word, count) pairs
    searched linearly, where an unseen word is appended with count 1. */
module ListCounter {
  import opened Frequencies
  import opened Ranking

  type Counter = seq<Entry<string>>

  /** The position of the first entry for `w`, or `|c|` when there is none. */
  function IndexOf(c: Counter, w: string): (i: nat)
    ensures i <= |c|
    ensures i < |c| ==> c[i].0 == w
    ensures forall k :: 0 <= k < i ==> c[k].0 != w
  {
    if c == [] then 0 else if c[0].0 == w then 0 else 1 + IndexOf(c[1..], w)
  }

  /** Count one more occurrence of `w`: bump its entry in place, or append `(w, 1)`. */
  function Add(c: Counter, w: string): Counter
  {
    var i := IndexOf(c, w);
    if i < |c| then c[i := (w, c[i].1 + 1)] else c + [(w, 1)]
  }

  /** The linear search for the word's entry: bump it, or append `(word, 1)`. */
  method Bump(counter: Counter, word: string) returns (c: Counter)
    ensures c == Add(counter, word)
  {
    c := counter;
    var i := 0;
    while i < |c|
      invariant i <= |c| && c == counter
      invariant forall k :: 0 <= k < i ==> c[k].0 != word
    {
      if c[i].0 == word {
        c := c[i := (c[i].0, c[i].1 + 1)];
        return;
      }
      i := i + 1;
    }
    c := c + [(word, 1)];
  }

  /** The counter after adding the words one by one to `c`. */
  function AddAll(c: Counter, ws: seq<string>): Counter
  {
    if ws == [] then c else Add(AddAll(c, ws[..|ws| - 1]), ws[|ws| - 1])
  }

  function CountAll(ws: seq<string>): Counter
  {
    AddAll([], ws)
  }

  lemma AddAllSnoc(c: Counter, ws: seq<string>, w: string)
    ensures AddAll(c, ws + [w]) == Add(AddAll(c, ws), w)
  {
    assert (ws + [w])[..|ws|] == ws;
  }

  lemma {:induction false} AddAllAppend(c: Counter, xs: seq<string>, ys: seq<string>)
    ensures AddAll(c, xs + ys) == AddAll(AddAll(c, xs), ys)
    decreases |ys|
  {
    if ys == [] {
      assert xs + ys == xs;
    } else {
      var n := |ys| - 1;
      assert (xs + ys)[..|xs + ys| - 1] == xs + ys[..n];
      AddAllAppend(c, xs, ys[..n]);
    }
  }

  /** The words in order of first occurrence. */
  function Dedup(ws: seq<string>): (r: seq<string>)
    ensures forall w :: w in r <==> w in ws
    ensures forall i, j :: 0 <= i < j < |r| ==> r[i] != r[j]
  {
    if ws == [] then []
    else
      var n := |ws| - 1;
      assert ws == ws[..n] + [ws[n]];
      if ws[n] in ws[..n] then Dedup(ws[..n]) else Dedup(ws[..n]) + [ws[n]]
  }

  function Words(c: Counter): (r: seq<string>)
    ensures |r| == |c| && forall i :: 0 <= i < |c| ==> r[i] == c[i].0
  {
    seq(|c|, i requires 0 <= i < |c| => c[i].0)
  }

  /** The counter built from `ws` has one entry per distinct word, in order of first
      occurrence, and each entry's count is the number of occurrences of its word. */
  lemma {:induction false} CountAllFacts(ws: seq<string>)
    ensures Words(CountAll(ws)) == Dedup(ws)
    ensures forall i :: 0 <= i < |CountAll(ws)| ==>
      CountAll(ws)[i].1 == multiset(ws)[CountAll(ws)[i].0]
  {
    if ws != [] {
      var n := |ws| - 1;
      var w := ws[n];
      var c := CountAll(ws[..n]);
      CountAllFacts(ws[..n]);
      assert CountAll(ws) == Add(c, w);
      assert ws == ws[..n] + [w];
      assert multiset(ws) == multiset(ws[..n]) + multiset{w};
      var i := IndexOf(c, w);
      if i < |c| {
        assert Words(c)[i] == w;
        assert w in ws[..n];
        assert Words(Add(c, w)) == Words(c);
      } else {
        assert w !in Words(c);
        assert w !in ws[..n];
        assert Words(Add(c, w)) == Words(c) + [w];
      }
    }
  }

  /** The list counter lists the same entries as the hash-map counter. */
  lemma CountAllEnumerates(ws: seq<string>)
    ensures Enumerates(CountAll(ws), Count(ws))
  {
    var c := CountAll(ws);
    var t := Count(ws);
    CountAllFacts(ws);
    CountIsOccurrences(ws);
    forall i, j | 0 <= i < j < |c| ensures c[i].0 != c[j].0 {
      assert Words(c)[i] == c[i].0 && Words(c)[j] == c[j].0;
    }
    forall i | 0 <= i < |c| ensures c[i].0 in t && t[c[i].0] == c[i].1 {
      assert Words(c)[i] in Dedup(ws);
    }
    forall k | k in t ensures Mentions(c, k) {
      assert k in Dedup(ws);
      var i :| 0 <= i < |c| && Words(c)[i] == k;
      assert c[i].0 == k;
    }
    EnumeratesOfUnique(c, t);
  }
}

=== FILE: ranking.dfy ===
/** Turning a frequency table into the ranked list the programs print: collecting the entries,
    ordering them by decreasing count, and keeping the first few. */
module Ranking {
  import opened Seqs
  import opened Frequencies

  /** A (word, count) pair, the `(String, usize)` tuple of the Rust variants. */
  type Entry<K> = (K, nat)

  /** `es` lists every entry of `t` exactly once, in some order. */
  ghost predicate Enumerates<K(!new)>(es: seq<Entry<K>>, t: Table<K>)
  {
    multiset(es) == multiset(t.Items)
  }

  predicate NonIncreasing<K>(es: seq<Entry<K>>)
  {
    forall i, j :: 0 <= i < j < |es| ==> es[i].1 >= es[j].1
  }

  /** The full ranked list: every entry of the table, most frequent first. */
  ghost predicate IsRanking<K(!new)>(es: seq<Entry<K>>, t: Table<K>)
  {
    Enumerates(es, t) && NonIncreasing(es)
  }

  /** `out` is a correct "top n" answer for table `t`: as many entries as possible up to `n`,
      each a real entry of the table, no word twice, most frequent first, and no word left out
      that is more frequent than one that was kept. Ties at the cut-off may go either way. */
  ghost predicate IsTop<K(!new)>(out: seq<Entry<K>>, t: Table<K>, n: nat)
  {
    && |out| == Min(n, |t|)
    && NonIncreasing(out)
    && (forall i :: 0 <= i < |out| ==> out[i].0 in t && t[out[i].0] == out[i].1)
    && (forall i, j :: 0 <= i < j < |out| ==> out[i].0 != out[j].0)
    && (forall k :: k in t && !Mentions(out, k) ==>
          forall i :: 0 <= i < |out| ==> t[k] <= out[i].1)
  }

  predicate Mentions<K(==)>(es: seq<Entry<K>>, k: K)
  {
    exists i :: 0 <= i < |es| && es[i].0 == k
  }

  lemma OccursTwice<T>(s: seq<T>, i: nat, j: nat)
    requires i < j < |s| && s[i] == s[j]
    ensures multiset(s)[s[i]] >= 2
  {
    assert s == s[..j] + [s[j]] + s[j + 1..];
    assert s[i] in s[..j];
  }

  /** What listing a table's entries gives: as many entries as keys, each a real entry, every
      key once and only once. */
  lemma EnumeratesFacts<K(!new)>(es: seq<Entry<K>>, t: Table<K>)
    requires Enumerates(es, t)
    ensures |es| == |t|
    ensures forall i :: 0 <= i < |es| ==> es[i].0 in t && t[es[i].0] == es[i].1
    ensures forall i, j :: 0 <= i < j < |es| ==> es[i].0 != es[j].0
    ensures forall k :: k in t ==> (k, t[k]) in es
  {
    assert |multiset(es)| == |es|;
    assert |multiset(t.Items)| == |t.Items|;
    assert |t.Items| == |t|;
    forall i | 0 <= i < |es| ensures es[i].0 in t && t[es[i].0] == es[i].1 {
      assert es[i] in multiset(t.Items);
    }
    forall i, j | 0 <= i < j < |es| ensures es[i].0 != es[j].0 {
      if es[i].0 == es[j].0 {
        assert es[i] in multiset(t.Items) && es[j] in multiset(t.Items);
        assert es[i] == es[j];
        OccursTwice(es, i, j);
      }
    }
    forall k | k in t ensures (k, t[k]) in es {
      assert (k, t[k]) in t.Items;
      assert (k, t[k]) in multiset(es);
    }
  }

  /** Place `e` after every entry of `s` whose count is at least as large. */
  function InsertDesc<K>(e: Entry<K>, s: seq<Entry<K>>): (r: seq<Entry<K>>)
    requires NonIncreasing(s)
    ensures NonIncreasing(r)
    ensures multiset(r) == multiset(s) + multiset{e}
    ensures |r| == |s| + 1 && (r[0] == e || (s != [] && r[0] == s[0]))
  {
    if s == [] then [e]
    else if s[0].1 >= e.1 then
      var rest := InsertDesc(e, s[1..]);
      ConsNonIncreasing(s[0], rest);
      HeadRest(s);
      [s[0]] + rest
    else
      ConsNonIncreasing(e, s);
      [e] + s
  }

  lemma ConsNonIncreasing<K>(x: Entry<K>, rest: seq<Entry<K>>)
    requires NonIncreasing(rest) && (rest == [] || rest[0].1 <= x.1)
    ensures NonIncreasing([x] + rest)
  {
    var r := [x] + rest;
    forall i, j | 0 <= i < j < |r| ensures r[i].1 >= r[j].1 {
      if i == 0 && j > 1 {
        assert rest[0].1 >= rest[j - 1].1;
      }
    }
  }

  /** A sort by decreasing count (`sort_by_key(|e| Reverse(e.1))` and its relatives): a
      permutation of the input, most frequent first. */
  function SortDesc<K>(es: seq<Entry<K>>): (r: seq<Entry<K>>)
    ensures NonIncreasing(r)
    ensures multiset(r) == multiset(es)
  {
    if es == [] then []
    else
      var n := |es| - 1;
      assert es == es[..n] + [es[n]];
      InsertDesc(es[n], SortDesc(es[..n]))
  }

  /** The entries with count `c`, in list order: what a stable sort must leave in place. */
  function OfCount<K>(es: seq<Entry<K>>, c: nat): seq<Entry<K>>
  {
    if es == [] then []
    else (if es[0].1 == c then [es[0]] else []) + OfCount(es[1..], c)
  }

  lemma {:induction false} OfCountAppend<K>(xs: seq<Entry<K>>, ys: seq<Entry<K>>, c: nat)
    ensures OfCount(xs + ys, c) == OfCount(xs, c) + OfCount(ys, c)
  {
    if xs != [] {
      assert (xs + ys)[1..] == xs[1..] + ys;
      OfCountAppend(xs[1..], ys, c);
    } else {
      assert xs + ys == ys;
    }
  }

  lemma {:induction false} OfCountNone<K>(es: seq<Entry<K>>, c: nat)
    requires forall i :: 0 <= i < |es| ==> es[i].1 != c
    ensures OfCount(es, c) == []
  {
    if es != [] {
      OfCountNone(es[1..], c);
    }
  }

  lemma {:induction false} OfCountSome<K>(es: seq<Entry<K>>, i: nat)
    requires i < |es|
    ensures OfCount(es, es[i].1) != []
  {
    if i > 0 {
      OfCountSome(es[1..], i - 1);
    }
  }

  /** One step of `OfCount` at the front of a list. */
  lemma OfCountCons<K>(x: Entry<K>, es: seq<Entry<K>>, c: nat)
    ensures OfCount([x] + es, c) == (if x.1 == c then [x] else []) + OfCount(es, c)
  {
    assert ([x] + es)[0] == x && ([x] + es)[1..] == es;
  }

  lemma InsertDescStableAhead<K>(e: Entry<K>, s: seq<Entry<K>>, c: nat)
    requires NonIncreasing(s) && (s == [] || s[0].1 < e.1)
    ensures OfCount(InsertDesc(e, s), c) == OfCount(s, c) + (if e.1 == c then [e] else [])
  {
    if s == [] {
      assert InsertDesc(e, s) == [e] + s by {
        assert [e] + s == [e];
      }
    } else {
      assert InsertDesc(e, s) == [e] + s;
    }
    OfCountCons(e, s, c);
    if e.1 == c {
      OfCountNone(s, c);
    } else {
      AppendEmpty(OfCount(s, c));
    }
  }

  lemma KeepFirst<K>(s: seq<Entry<K>>, rest: seq<Entry<K>>, E: seq<Entry<K>>, c: nat)
    requires s != [] && OfCount(rest, c) == OfCount(s[1..], c) + E
    ensures OfCount([s[0]] + rest, c) == OfCount(s, c) + E
  {
    HeadRest(s);
    OfCountCons(s[0], rest, c);
    OfCountCons(s[0], s[1..], c);
    AppendAssoc(if s[0].1 == c then [s[0]] else [], OfCount(s[1..], c), E);
  }

  lemma {:induction false} InsertDescStable<K>(e: Entry<K>, s: seq<Entry<K>>, c: nat)
    requires NonIncreasing(s)
    ensures OfCount(InsertDesc(e, s), c) == OfCount(s, c) + (if e.1 == c then [e] else [])
  {
    if s != [] && s[0].1 >= e.1 {
      InsertDescStable(e, s[1..], c);
      KeepFirst(s, InsertDesc(e, s[1..]), if e.1 == c then [e] else [], c);
    } else {
      InsertDescStableAhead(e, s, c);
    }
  }

  lemma {:induction false} OfCountSnoc<K>(xs: seq<Entry<K>>, x: Entry<K>, c: nat)
    ensures OfCount(xs + [x], c) == OfCount(xs, c) + (if x.1 == c then [x] else [])
  {
    if xs == [] {
      OfCountCons(x, [], c);
      assert xs + [x] == [x] + [];
    } else {
      OfCountSnoc(xs[1..], x, c);
      assert xs + [x] == [xs[0]] + (xs[1..] + [x]);
      OfCountCons(xs[0], xs[1..] + [x], c);
      OfCountCons(xs[0], xs[1..], c);
      assert xs == [xs[0]] + xs[1..];
    }
  }

  lemma StableStep<K>(es: seq<Entry<K>>, front: seq<Entry<K>>, whole: seq<Entry<K>>, c: nat)
    requires es != [] && OfCount(front, c) == OfCount(es[..|es| - 1], c)
    requires OfCount(whole, c) ==
      OfCount(front, c) + (if es[|es| - 1].1 == c then [es[|es| - 1]] else [])
    ensures OfCount(whole, c) == OfCount(es, c)
  {
    FrontLast(es);
    OfCountSnoc(es[..|es| - 1], es[|es| - 1], c);
  }

  /** `SortDesc` is stable: entries with equal counts keep their relative order. */
  lemma {:induction false} SortDescStable<K>(es: seq<Entry<K>>, c: nat)
    ensures OfCount(SortDesc(es), c) == OfCount(es, c)
  {
    if es != [] {
      var n := |es| - 1;
      SortDescStable(es[..n], c);
      InsertDescStable(es[n], SortDesc(es[..n]), c);
      StableStep(es, SortDesc(es[..n]), SortDesc(es), c);
    }
  }

  /** Where the first entry of a list goes in `OfCount`. */
  lemma OfCountFirst<K>(x: seq<Entry<K>>, c: nat)
    requires x != []
    ensures c == x[0].1 ==>
      (OfCount(x, c) != [] && OfCount(x, c)[0] == x[0] && OfCount(x[1..], c) == OfCount(x, c)[1..])
    ensures c != x[0].1 ==> OfCount(x[1..], c) == OfCount(x, c)
  {
    OfCountCons(x[0], x[1..], c);
    assert x == [x[0]] + x[1..];
  }

  /** Two lists ordered by decreasing count with the same entries of every count start with
      the same count. */
  lemma SameTopCount<K>(x: seq<Entry<K>>, y: seq<Entry<K>>)
    requires x != [] && y != [] && NonIncreasing(x) && NonIncreasing(y)
    requires OfCount(x, x[0].1) == OfCount(y, x[0].1)
    requires OfCount(x, y[0].1) == OfCount(y, y[0].1)
    ensures x[0].1 == y[0].1
  {
    var cx, cy := x[0].1, y[0].1;
    if cx < cy {
      OfCountSome(y, 0);
      OfCountNone(x, cy);
    } else if cy < cx {
      OfCountSome(x, 0);
      OfCountNone(y, cx);
    }
  }

  /** There is only one list ordered by decreasing count that keeps each count's entries in a
      given order: a stable sort by decreasing count has a unique result. */
  lemma {:induction false} StableSortUnique<K>(x: seq<Entry<K>>, y: seq<Entry<K>>)
    requires NonIncreasing(x) && NonIncreasing(y)
    requires forall c :: OfCount(x, c) == OfCount(y, c)
    ensures x == y
    decreases |x|
  {
    if x == [] {
      if y != [] {
        OfCountSome(y, 0);
      }
    } else if y == [] {
      OfCountSome(x, 0);
    } else {
      assert OfCount(x, x[0].1) == OfCount(y, x[0].1);
      assert OfCount(x, y[0].1) == OfCount(y, y[0].1);
      SameTopCount(x, y);
      var top := x[0].1;
      OfCountFirst(x, top);
      OfCountFirst(y, top);
      assert OfCount(x, top) == OfCount(y, top);
      forall c ensures OfCount(x[1..], c) == OfCount(y[1..], c) {
        OfCountFirst(x, c);
        OfCountFirst(y, c);
        assert OfCount(x, c) == OfCount(y, c);
      }
      StableSortUnique(x[1..], y[1..]);
      assert x == [x[0]] + x[1..] && y == [y[0]] + y[1..];
    }
  }

  /** A library sort by decreasing count (`sort_unstable_by_key(|e| Reverse(e.1))`,
      `sort_by(|a, b| b.1.cmp(&a.1))`, ...): a permutation, most frequent first. Which of several
      entries with the same count comes first is left open. */
  method SortByCount<K>(es: seq<Entry<K>>) returns (r: seq<Entry<K>>)
    ensures NonIncreasing(r) && multiset(r) == multiset(es)
  {
    r := SortDesc(es);
  }

  /** Sorting the listed entries of a table gives its full ranking. */
  lemma SortRanks<K(!new)>(es: seq<Entry<K>>, t: Table<K>)
    requires Enumerates(es, t)
    ensures IsRanking(SortDesc(es), t)
  {
  }

  /** `take(n)` / `truncate(n)` / `slice(0, n)`: the first `n` elements, or all of them when
      there are fewer. */
  function Truncate<T>(s: seq<T>, n: nat): (r: seq<T>)
    ensures |r| == Min(n, |s|)
    ensures r == s[..|r|]
  {
    if |s| <= n then s else s[..n]
  }

  /** No entry of a full ranking that its prefix `out` leaves out counts more than one it kept. */
  lemma PrefixLeavesLess<K(!new)>(es: seq<Entry<K>>, t: Table<K>, out: seq<Entry<K>>)
    requires NonIncreasing(es) && |out| <= |es| && out == es[..|out|]
    requires forall k :: k in t ==> (k, t[k]) in es
    ensures forall k :: k in t && !Mentions(out, k) ==> forall i :: 0 <= i < |out| ==> t[k] <= out[i].1
  {
    forall k | k in t && !Mentions(out, k)
      ensures forall i :: 0 <= i < |out| ==> t[k] <= out[i].1
    {
      var j :| 0 <= j < |es| && es[j] == (k, t[k]);
    }
  }

  /** The first `n` entries of a full ranking are a correct top-`n` answer. */
  lemma TopOfRanking<K(!new)>(es: seq<Entry<K>>, t: Table<K>, n: nat)
    requires IsRanking(es, t)
    ensures IsTop(Truncate(es, n), t, n)
  {
    EnumeratesFacts(es, t);
    var out := Truncate(es, n);
    assert forall i :: 0 <= i < |out| ==> out[i] == es[i];
    PrefixLeavesLess(es, t, out);
  }

  lemma RemoveItem<K>(m: Table<K>, k: K)
    requires k in m
    ensures multiset((m - {k}).Items) + multiset{(k, m[k])} == multiset(m.Items)
  {
    var rest := (m - {k}).Items;
    forall p ensures p in m.Items <==> p in rest || p == (k, m[k]) {
    }
    assert (k, m[k]) !in rest;
    forall x ensures multiset(m.Items)[x] == (multiset(rest) + multiset{(k, m[k])})[x] {
      if x == (k, m[k]) {
        assert x in m.Items;
      } else if x in rest {
        assert x in m.Items;
      }
    }
  }

  /** A list with no word twice, whose every entry is an entry of `t` and which mentions every
      key of `t`, lists the entries of `t`. */
  lemma {:induction false} EnumeratesOfUnique<K(!new)>(es: seq<Entry<K>>, t: Table<K>)
    requires forall i, j :: 0 <= i < j < |es| ==> es[i].0 != es[j].0
    requires forall i :: 0 <= i < |es| ==> es[i].0 in t && t[es[i].0] == es[i].1
    requires forall k :: k in t ==> Mentions(es, k)
    ensures Enumerates(es, t)
    decreases |es|
  {
    if es == [] {
      assert t.Items == {};
    } else {
      var n := |es| - 1;
      var k := es[n].0;
      var t' := t - {k};
      forall k' | k' in t' ensures Mentions(es[..n], k') {
        var i :| 0 <= i < |es| && es[i].0 == k';
        assert i != n;
        assert es[..n][i].0 == k';
      }
      EnumeratesOfUnique(es[..n], t');
      RemoveItem(t, k);
      assert es == es[..n] + [es[n]];
    }
  }

  /** The printing loops `for i in 0..limit { if i >= len { break } ... }`: the rows shown are
      the first `limit` entries, or all of them when there are fewer. */
  method PrintRows<T>(es: seq<T>, limit: nat) returns (shown: seq<T>)
    ensures |shown| == Min(limit, |es|)
    ensures shown == es[..|shown|]
  {
    shown := [];
    var i := 0;
    while i < limit
      invariant i <= limit && i <= |es|
      invariant shown == es[..i]
    {
      if i >= |es| {
        break;
      }
      shown := shown + [es[i]];
      i := i + 1;
    }
  }

  /** Iterating over a hash map (`into_iter().collect()`, `entrySet()`, `Object.entries`):
      every entry once, in an order the model leaves open. */
  method CollectEntries<K(==,!new)>(t: Table<K>) returns (es: seq<Entry<K>>)
    ensures Enumerates(es, t)
  {
    es := [];
    var rest := t;
    while rest != map[]
      invariant multiset(es) + multiset(rest.Items) == multiset(t.Items)
      decreases |rest|
    {
      var k :| k in rest;
      RemoveItem(rest, k);
      es := es + [(k, rest[k])];
      rest := rest - {k};
    }
    assert rest.Items == {};
  }

  /** The whole pipeline tail: list, sort, cut. */
  lemma TopOfTable<K(!new)>(es: seq<Entry<K>>, t: Table<K>, n: nat)
    requires Enumerates(es, t)
    ensures IsTop(Truncate(SortDesc(es), n), t, n)
  {
    SortRanks(es, t);
    TopOfRanking(SortDesc(es), t, n);
  }
}

=== FILE: seqs.dfy ===
/** Small facts about sequences that several of the pipelines need. */
module Seqs {

  function Min(a: int, b: int): int { if a <= b then a else b }

  lemma AppendEmpty<T>(a: seq<T>)
    ensures [] + a == a && a + [] == a
  {
  }

  /** A non-empty sequence is its front and its last element. */
  lemma FrontLast<T>(s: seq<T>)
    requires s != []
    ensures s[..|s| - 1] + [s[|s| - 1]] == s
  {
  }

  /** A non-empty sequence is its first element and the rest. */
  lemma HeadRest<T>(s: seq<T>)
    requires s != []
    ensures [s[0]] + s[1..] == s
  {
  }

  lemma AppendAssoc<T>(a: seq<T>, b: seq<T>, c: seq<T>)
    ensures (a + b) + c == a + (b + c)
  {
  }

  /** Concatenation of a sequence of sequences, in order (`flat_map`, `extend` in a loop). */
  function Flatten<T>(xss: seq<seq<T>>): (r: seq<T>)
    ensures |xss| == 0 ==> r == []
  {
    if xss == [] then [] else Flatten(xss[..|xss| - 1]) + xss[|xss| - 1]
  }

  lemma {:induction false} FlattenAppend<T>(xss: seq<seq<T>>, yss: seq<seq<T>>)
    ensures Flatten(xss + yss) == Flatten(xss) + Flatten(yss)
    decreases |yss|
  {
    if yss == [] {
      assert xss + yss == xss;
    } else {
      var n := |yss| - 1;
      assert (xss + yss)[..|xss + yss| - 1] == xss + yss[..n];
      FlattenAppend(xss, yss[..n]);
      assert Flatten(yss) == Flatten(yss[..n]) + yss[n];
    }
  }

  lemma FlattenCons<T>(xs: seq<T>, xss: seq<seq<T>>)
    ensures Flatten([xs] + xss) == xs + Flatten(xss)
  {
    FlattenAppend([xs], xss);
    assert Flatten([xs]) == Flatten([xs][..0]) + xs;
    assert [xs][..0] == [];
  }

  /** `xs` without the elements at the positions in `drop`, the rest in order. */
  function Without<T>(xs: seq<T>, drop: set<int>): (r: seq<T>)
    ensures |r| <= |xs|
  {
    if xs == [] then []
    else
      var n := |xs| - 1;
      Without(xs[..n], drop) + if n in drop then [] else [xs[n]]
  }

  /** Only the positions that exist matter. */
  lemma {:induction false} WithoutSameBelow<T>(xs: seq<T>, d1: set<int>, d2: set<int>)
    requires forall j :: 0 <= j < |xs| ==> (j in d1 <==> j in d2)
    ensures Without(xs, d1) == Without(xs, d2)
  {
    if xs != [] {
      WithoutSameBelow(xs[..|xs| - 1], d1, d2);
    }
  }

  /** Dropping positions at or beyond `m` leaves the first `m` elements in place. */
  lemma {:induction false} WithoutAbove<T>(xs: seq<T>, drop: set<int>, m: nat)
    requires m <= |xs| && forall j :: j in drop ==> j >= m
    ensures m <= |Without(xs, drop)| && Without(xs, drop)[..m] == xs[..m]
  {
    if m < |xs| {
      var n := |xs| - 1;
      WithoutAbove(xs[..n], drop, m);
      assert xs[..n][..m] == xs[..m];
    } else if xs != [] {
      var n := |xs| - 1;
      WithoutAbove(xs[..n], drop, n);
      assert xs[..n][..n] == xs[..n];
      assert xs[..n] + [xs[n]] == xs;
    }
  }

  /** `Vec::remove(i)` on a list that already lacks only positions beyond `i` removes the
      element at original position `i`. */
  lemma {:induction false} WithoutOneMore<T>(xs: seq<T>, drop: set<int>, i: nat)
    requires i < |xs| && forall j :: j in drop ==> j > i
    ensures i < |Without(xs, drop)|
    ensures Without(xs, drop + {i}) == Without(xs, drop)[..i] + Without(xs, drop)[i + 1..]
  {
    var n := |xs| - 1;
    WithoutAbove(xs, drop, i + 1);
    if n == i {
      WithoutAbove(xs[..n], drop + {i}, n);
      WithoutAbove(xs[..n], drop, n);
      assert xs[..n][..n] == xs[..n];
    } else {
      WithoutOneMore(xs[..n], drop, i);
      WithoutAbove(xs[..n], drop, i + 1);
      RemoveInside(Without(xs[..n], drop), if n in drop then [] else [xs[n]], i);
    }
  }

  lemma RemoveInside<T>(w: seq<T>, tail: seq<T>, i: nat)
    requires i < |w|
    ensures (w + tail)[..i] + (w + tail)[i + 1..] == w[..i] + w[i + 1..] + tail
  {
    assert (w + tail)[..i] == w[..i];
    assert (w + tail)[i + 1..] == w[i + 1..] + tail;
  }

  /** The elements in the opposite order. */
  function Reversed<T>(s: seq<T>): (r: seq<T>)
    ensures |r| == |s|
    ensures forall i :: 0 <= i < |s| ==> r[i] == s[|s| - 1 - i]
  {
    seq(|s|, i requires 0 <= i < |s| => s[|s| - 1 - i])
  }

  /** Reversing keeps every element with its number of occurrences. */
  lemma {:induction false} ReversedMultiset<T>(s: seq<T>)
    ensures multiset(Reversed(s)) == multiset(s)
  {
    if s != [] {
      var n := |s| - 1;
      ReversedMultiset(s[..n]);
      assert Reversed(s) == [s[n]] + Reversed(s[..n]);
      assert s == s[..n] + [s[n]];
    }
  }
}

=== FILE: string_order.dfy ===
/** The order of strings by code point, character after character, a proper prefix first:
    Rust's `Ord` for `String` and numpy's order of Unicode strings. */
module StringOrder {

  predicate LexLess(a: string, b: string)
  {
    if a == [] then b != []
    else if b == [] then false
    else if a[0] != b[0] then a[0] < b[0]
    else LexLess(a[1..], b[1..])
  }

  lemma {:induction false} LexAsymmetric(a: string, b: string)
    ensures !(LexLess(a, b) && LexLess(b, a))
  {
    if a != [] && b != [] && a[0] == b[0] {
      LexAsymmetric(a[1..], b[1..]);
    }
  }

  lemma {:induction false} LexTotal(a: string, b: string)
    requires a != b
    ensures LexLess(a, b) || LexLess(b, a)
  {
    if a != [] && b != [] && a[0] == b[0] {
      assert a == [a[0]] + a[1..] && b == [b[0]] + b[1..];
      LexTotal(a[1..], b[1..]);
    }
  }

  lemma {:induction false} LexTransitive(a: string, b: string, c: string)
    requires LexLess(a, b) && LexLess(b, c)
    ensures LexLess(a, c)
  {
    if a != [] && a[0] == b[0] && b[0] == c[0] {
      LexTransitive(a[1..], b[1..], c[1..]);
    }
  }
}

=== FILE: text.dfy ===
/** ASCII text as the word-frequency programs see it: character classes, case mapping,
    splitting at separator characters, joining, line splitting, and the word filters. */
module Text {
  import opened Seqs

  // ---------------------------------------------------------------------------------------
  // Character classes and case mapping (Rust `char::is_ascii_*`, Java and JavaScript `\w`
  // without Unicode flags; on ASCII input Python's `isalpha` and `upper` agree with these).

  predicate IsAsciiAlpha(c: char) { 'A' <= c <= 'Z' || 'a' <= c <= 'z' }
  predicate IsAsciiDigit(c: char) { '0' <= c <= '9' }
  predicate IsAsciiAlnum(c: char) { IsAsciiAlpha(c) || IsAsciiDigit(c) }

  function ToLower(c: char): char { if 'A' <= c <= 'Z' then (c as int + 32) as char else c }
  function ToUpper(c: char): char { if 'a' <= c <= 'z' then (c as int - 32) as char else c }

  /** `to_lowercase` / `toLowerCase` on ASCII text. */
  function Lower(s: string): (r: string)
    ensures |r| == |s|
    ensures forall i :: 0 <= i < |s| ==> r[i] == ToLower(s[i]) && !('A' <= r[i] <= 'Z')
  {
    if s == [] then [] else [ToLower(s[0])] + Lower(s[1..])
  }

  /** `upper` on ASCII text. */
  function Upper(s: string): (r: string)
    ensures |r| == |s|
    ensures forall i :: 0 <= i < |s| ==> r[i] == ToUpper(s[i]) && !('a' <= r[i] <= 'z')
  {
    if s == [] then [] else [ToUpper(s[0])] + Upper(s[1..])
  }

  lemma {:induction false} LowerIdempotent(s: string)
    ensures Lower(Lower(s)) == Lower(s)
  {
    if s != [] {
      LowerIdempotent(s[1..]);
    }
  }

  lemma {:induction false} LowerAppend(a: string, b: string)
    ensures Lower(a + b) == Lower(a) + Lower(b)
  {
    if a != [] {
      assert (a + b)[1..] == a[1..] + b;
      LowerAppend(a[1..], b);
    } else {
      assert a + b == b;
    }
  }

  /** Lower-cases every word of a list (`.map(|s| s.to_lowercase())`). */
  function LowerAll(ws: seq<string>): (r: seq<string>)
    ensures |r| == |ws|
    ensures forall i :: 0 <= i < |ws| ==> r[i] == Lower(ws[i])
  {
    seq(|ws|, i requires 0 <= i < |ws| => Lower(ws[i]))
  }

  lemma LowerAllSnoc(ws: seq<string>, k: nat)
    requires k < |ws|
    ensures LowerAll(ws[..k + 1]) == LowerAll(ws[..k]) + [Lower(ws[k])]
  {
  }

  lemma LowerAllAppend(a: seq<string>, b: seq<string>)
    ensures LowerAll(a + b) == LowerAll(a) + LowerAll(b)
  {
    assert LowerAll(a + b) == LowerAll(a) + LowerAll(b);
  }

  // ---------------------------------------------------------------------------------------
  // Splitting at separator characters (`str::split` with a char or a predicate, JavaScript
  // `split(' ')`). Empty pieces are kept: n separators always give n + 1 pieces.

  datatype Separator = NonAlpha | NonAlnum | Exactly(c: char)

  predicate Separates(sep: Separator, c: char) {
    match sep
    case NonAlpha => !IsAsciiAlpha(c)
    case NonAlnum => !IsAsciiAlnum(c)
    case Exactly(d) => c == d
  }

  function Split(s: string, sep: Separator): (pieces: seq<string>)
    ensures |pieces| >= 1
    ensures forall i, j :: 0 <= i < |pieces| && 0 <= j < |pieces[i]| ==> !Separates(sep, pieces[i][j])
  {
    if s == [] then [[]]
    else
      var rest := Split(s[1..], sep);
      if Separates(sep, s[0]) then [[]] + rest
      else [[s[0]] + rest[0]] + rest[1..]
  }

  /** A string without separators is a single piece. */
  lemma {:induction false} SplitWhole(s: string, sep: Separator)
    requires forall i :: 0 <= i < |s| ==> !Separates(sep, s[i])
    ensures Split(s, sep) == [s]
  {
    if s != [] {
      SplitWhole(s[1..], sep);
      assert [s[0]] + s[1..] == s;
    }
  }

  /** Splitting distributes over a separator: the pieces on either side of it are found
      independently. */
  lemma {:induction false} SplitAt(a: string, x: char, b: string, sep: Separator)
    requires Separates(sep, x)
    ensures Split(a + [x] + b, sep) == Split(a, sep) + Split(b, sep)
  {
    var s := a + [x] + b;
    if a == [] {
      assert s[0] == x && s[1..] == b;
    } else {
      assert s[0] == a[0] && s[1..] == a[1..] + [x] + b;
      SplitAt(a[1..], x, b, sep);
      if !Separates(sep, a[0]) {
        JoinFirstPiece(a[0], Split(a[1..], sep), Split(b, sep));
      }
    }
  }

  lemma JoinFirstPiece(h: char, ra: seq<string>, rb: seq<string>)
    requires |ra| >= 1
    ensures [[h] + (ra + rb)[0]] + (ra + rb)[1..] == ([[h] + ra[0]] + ra[1..]) + rb
  {
    assert (ra + rb)[0] == ra[0];
    assert (ra + rb)[1..] == ra[1..] + rb;
  }

  lemma ExtendFirst(h: char, rs: seq<string>, c: char, ps: seq<string>, st: seq<string>)
    requires |rs| >= 1 && ps == [[h] + rs[0]] + rs[1..]
    requires st == [[h] + (rs[..|rs| - 1] + [rs[|rs| - 1] + [c]])[0]] + (rs[..|rs| - 1] + [rs[|rs| - 1] + [c]])[1..]
    ensures st == ps[..|ps| - 1] + [ps[|ps| - 1] + [c]]
  {
    var m := |rs| - 1;
    var x := rs[m] + [c];
    if m == 0 {
      assert [h] + rs[0] + [c] == [h] + x;
    } else {
      assert (rs[..m] + [x])[1..] == rs[1..m] + [x];
      assert ps[..|ps| - 1] == [ps[0]] + rs[1..m];
    }
  }

  /** `Split` read off its first character, one lemma per case. */
  lemma SplitOpens(s: string, sep: Separator)
    requires s != [] && Separates(sep, s[0])
    ensures Split(s, sep) == [[]] + Split(s[1..], sep)
  {
  }

  lemma SplitExtends(s: string, sep: Separator)
    requires s != [] && !Separates(sep, s[0])
    ensures var rest := Split(s[1..], sep); Split(s, sep) == [[s[0]] + rest[0]] + rest[1..]
  {
  }

  lemma SnocFront<T>(s: seq<T>, c: T)
    requires s != []
    ensures (s + [c])[0] == s[0] && (s + [c])[1..] == s[1..] + [c]
  {
  }

  /** Extending the last piece commutes with putting an empty piece in front. */
  lemma OpenExtendLast(rs: seq<string>, c: char)
    requires |rs| >= 1
    ensures var ps := [[]] + rs;
      [[]] + (rs[..|rs| - 1] + [rs[|rs| - 1] + [c]]) == ps[..|ps| - 1] + [ps[|ps| - 1] + [c]]
  {
    var m := |rs| - 1;
    var ps := [[]] + rs;
    assert ps[..m + 1] == [[]] + rs[..m];
    assert ps[m + 1] == rs[m];
    AppendAssoc([[]], rs[..m], [rs[m] + [c]]);
  }

  /** The step of `SplitSnocWord` when the first character starts a piece. */
  lemma SplitSnocWordKeep(s: string, c: char, sep: Separator)
    requires s != [] && !Separates(sep, c) && !Separates(sep, s[0])
    requires var rs := Split(s[1..], sep);
      Split(s[1..] + [c], sep) == rs[..|rs| - 1] + [rs[|rs| - 1] + [c]]
    ensures var ps := Split(s, sep);
      Split(s + [c], sep) == ps[..|ps| - 1] + [ps[|ps| - 1] + [c]]
  {
    SnocFront(s, c);
    SplitExtends(s, sep);
    SplitExtends(s + [c], sep);
    ExtendFirst(s[0], Split(s[1..], sep), c, Split(s, sep), Split(s + [c], sep));
  }

  /** The step of `SplitSnocWord` when the first character is a separator. */
  lemma SplitSnocWordOpen(s: string, c: char, sep: Separator)
    requires s != [] && !Separates(sep, c) && Separates(sep, s[0])
    requires var rs := Split(s[1..], sep);
      Split(s[1..] + [c], sep) == rs[..|rs| - 1] + [rs[|rs| - 1] + [c]]
    ensures var ps := Split(s, sep);
      Split(s + [c], sep) == ps[..|ps| - 1] + [ps[|ps| - 1] + [c]]
  {
    SnocFront(s, c);
    SplitOpens(s, sep);
    SplitOpens(s + [c], sep);
    OpenExtendLast(Split(s[1..], sep), c);
  }

  /** Reading one more character that is not a separator extends the last piece. */
  lemma {:induction false} SplitSnocWord(s: string, c: char, sep: Separator)
    requires !Separates(sep, c)
    ensures var ps := Split(s, sep);
      Split(s + [c], sep) == ps[..|ps| - 1] + [ps[|ps| - 1] + [c]]
  {
    if s == [] {
      SplitWhole([c], sep);
      assert s + [c] == [c];
    } else {
      SplitSnocWord(s[1..], c, sep);
      if Separates(sep, s[0]) {
        SplitSnocWordOpen(s, c, sep);
      } else {
        SplitSnocWordKeep(s, c, sep);
      }
    }
  }

  /** The same, piece by piece: the pieces before the last stay, the last one grows by `c`. */
  lemma SplitSnocWordParts(s: string, c: char, sep: Separator)
    requires !Separates(sep, c)
    ensures var ps := Split(s, sep); var qs := Split(s + [c], sep);
      |qs| == |ps| && qs[..|qs| - 1] == ps[..|ps| - 1] && qs[|qs| - 1] == ps[|ps| - 1] + [c]
  {
    SplitSnocWord(s, c, sep);
  }

  /** Reading one more character: a separator opens a new empty piece, any other character
      extends the last piece. */
  lemma SplitSnoc(s: string, c: char, sep: Separator)
    ensures var ps := Split(s, sep); var n := |ps| - 1;
      Split(s + [c], sep) == if Separates(sep, c) then ps + [[]] else ps[..n] + [ps[n] + [c]]
  {
    if Separates(sep, c) {
      SplitAt(s, c, [], sep);
      assert s + [c] + [] == s + [c];
    } else {
      SplitSnocWord(s, c, sep);
    }
  }

  /** Drop the empty piece a trailing separator leaves behind. */
  function DropEmptyLast(ps: seq<string>): (r: seq<string>)
    ensures r == ps || (|ps| > 0 && ps[|ps| - 1] == [] && r == ps[..|ps| - 1])
  {
    if |ps| > 0 && ps[|ps| - 1] == [] then ps[..|ps| - 1] else ps
  }

  /** `join(sep)`: the pieces with one separator character between neighbours. */
  function Join(pieces: seq<string>, c: char): string {
    if |pieces| == 0 then []
    else if |pieces| == 1 then pieces[0]
    else pieces[0] + [c] + Join(pieces[1..], c)
  }

  lemma JoinCons(pieces: seq<string>, c: char)
    requires |pieces| >= 2
    ensures Join(pieces, c) == pieces[0] + [c] + Join(pieces[1..], c)
  {
  }

  lemma JoinPair(a: string, p: string, c: char)
    ensures Join([a, p], c) == a + [c] + p
  {
    assert [a, p][1..] == [p];
  }

  lemma RegroupJoin(a: string, b: string, x: string, p: string)
    ensures a + b + (x + b + p) == a + b + x + b + p
  {
  }

  lemma {:induction false} JoinSnoc(pieces: seq<string>, p: string, c: char)
    requires |pieces| >= 1
    ensures Join(pieces + [p], c) == Join(pieces, c) + [c] + p
    decreases |pieces|
  {
    if |pieces| == 1 {
      assert pieces + [p] == [pieces[0], p];
      JoinPair(pieces[0], p, c);
    } else {
      SnocFront(pieces, p);
      JoinSnoc(pieces[1..], p, c);
      JoinCons(pieces + [p], c);
      JoinCons(pieces, c);
      RegroupJoin(pieces[0], [c], Join(pieces[1..], c), p);
    }
  }

  /** Round trip one way: joining the pieces of a split with the separator gives the string back. */
  lemma {:induction false} JoinSplit(s: string, c: char)
    ensures Join(Split(s, Exactly(c)), c) == s
  {
    if s != [] {
      var rest := Split(s[1..], Exactly(c));
      JoinSplit(s[1..], c);
      if s[0] == c {
        assert Split(s, Exactly(c)) == [[]] + rest;
        assert ([[]] + rest)[1..] == rest;
      } else {
        var ps := Split(s, Exactly(c));
        assert ps == [[s[0]] + rest[0]] + rest[1..];
        if |rest| == 1 {
          assert ps == [[s[0]] + rest[0]];
        } else {
          assert ps[1..] == rest[1..];
        }
      }
    }
  }

  /** Round trip the other way: pieces free of the separator come back from splitting their join. */
  lemma {:induction false} SplitJoin(pieces: seq<string>, c: char)
    requires |pieces| >= 1
    requires forall i, j :: 0 <= i < |pieces| && 0 <= j < |pieces[i]| ==> pieces[i][j] != c
    ensures Split(Join(pieces, c), Exactly(c)) == pieces
    decreases |pieces|
  {
    SplitWhole(pieces[0], Exactly(c));
    if |pieces| > 1 {
      SplitJoin(pieces[1..], c);
      SplitAt(pieces[0], c, Join(pieces[1..], c), Exactly(c));
      assert [pieces[0]] + pieces[1..] == pieces;
    }
  }

  /** Lower-casing and splitting commute for separators that ignore letter case. */
  predicate CaseBlind(sep: Separator) {
    sep.Exactly? ==> !IsAsciiAlpha(sep.c)
  }

  lemma {:induction false} SplitLower(s: string, sep: Separator)
    requires CaseBlind(sep)
    ensures Split(Lower(s), sep) == LowerAll(Split(s, sep))
  {
    if s != [] {
      SplitLower(s[1..], sep);
      assert Lower(s)[1..] == Lower(s[1..]);
      assert Separates(sep, ToLower(s[0])) <==> Separates(sep, s[0]);
      if Separates(sep, s[0]) {
        LowerAllAppend([[]], Split(s[1..], sep));
      } else {
        LowerFirstPiece(s[0], Split(s[1..], sep));
      }
    }
  }

  lemma LowerCons(h: char, w: string)
    ensures Lower([h] + w) == [ToLower(h)] + Lower(w)
  {
    assert ([h] + w)[1..] == w;
  }

  lemma LowerFirstPiece(h: char, rest: seq<string>)
    requires |rest| >= 1
    ensures LowerAll([[h] + rest[0]] + rest[1..]) ==
            [[ToLower(h)] + LowerAll(rest)[0]] + LowerAll(rest)[1..]
  {
    var ws := [[h] + rest[0]] + rest[1..];
    var a := LowerAll(ws);
    var lr := LowerAll(rest);
    var b := [[ToLower(h)] + lr[0]] + lr[1..];
    assert |a| == |rest| == |b|;
    LowerCons(h, rest[0]);
    assert a[0] == b[0];
    forall i | 1 <= i < |a| ensures a[i] == b[i] {
      assert ws[i] == rest[i];
      assert b[i] == lr[i];
    }
  }

  // ---------------------------------------------------------------------------------------
  // Lines (`str::lines`, `BufRead::lines`): the pieces between '\n', without the empty piece a
  // final '\n' leaves behind.

  /** `BufRead::read_line`: everything up to and including the first '\n', or the whole text
      when there is none. */
  function ReadLine(s: string): (r: string)
    ensures r <= s
    ensures forall i :: 0 <= i < |r| - 1 ==> r[i] != '\n'
    ensures r == s || (|r| > 0 && r[|r| - 1] == '\n')
  {
    if s == [] then []
    else if s[0] == '\n' then ['\n']
    else [s[0]] + ReadLine(s[1..])
  }

  function Lines(s: string): (lines: seq<string>)
  {
    var ps := Split(s, Exactly('\n'));
    if ps[|ps| - 1] == [] then ps[..|ps| - 1] else ps
  }

  lemma JoinDropEmpty(ps: seq<string>, c: char)
    requires |ps| >= 2 && ps[|ps| - 1] == []
    ensures Join(ps, c) == Join(ps[..|ps| - 1], c) + [c]
  {
    var n := |ps| - 1;
    assert ps == ps[..n] + [[]];
    JoinSnoc(ps[..n], [], c);
  }

  /** The lines joined by '\n' give the text back, up to one final '\n'. */
  lemma LinesJoin(s: string)
    ensures Join(Lines(s), '\n') + (if |s| > 0 && s[|s| - 1] == '\n' then "\n" else "") == s
  {
    var ps := Split(s, Exactly('\n'));
    if ps[|ps| - 1] == [] {
      LinesJoinDropped(s);
    } else {
      LinesJoinKept(s);
    }
  }

  /** When the text ends in '\n', the empty piece after it is dropped. */
  lemma LinesJoinDropped(s: string)
    requires var ps := Split(s, Exactly('\n')); ps[|ps| - 1] == []
    ensures Join(Lines(s), '\n') + (if |s| > 0 && s[|s| - 1] == '\n' then "\n" else "") == s
  {
    var ps := Split(s, Exactly('\n'));
    JoinSplit(s, '\n');
    LinesDrop(s);
    if |ps| >= 2 {
      FinalBreak(s, ps, Lines(s));
    } else {
      NoBreakAtAll(s, ps, Lines(s));
    }
  }

  lemma LinesDrop(s: string)
    requires var ps := Split(s, Exactly('\n')); ps[|ps| - 1] == []
    ensures var ps := Split(s, Exactly('\n')); Lines(s) == ps[..|ps| - 1]
  {
  }

  lemma FinalBreak(s: string, ps: seq<string>, lines: seq<string>)
    requires Join(ps, '\n') == s && |ps| >= 2 && ps[|ps| - 1] == [] && lines == ps[..|ps| - 1]
    ensures Join(lines, '\n') + (if |s| > 0 && s[|s| - 1] == '\n' then "\n" else "") == s
  {
    JoinDropEmpty(ps, '\n');
    assert s[|s| - 1] == '\n';
  }

  lemma NoBreakAtAll(s: string, ps: seq<string>, lines: seq<string>)
    requires Join(ps, '\n') == s && |ps| == 1 && ps[0] == [] && lines == ps[..|ps| - 1]
    ensures Join(lines, '\n') + (if |s| > 0 && s[|s| - 1] == '\n' then "\n" else "") == s
  {
    assert lines == [];
  }

  /** Otherwise every piece is a line, and the text does not end in '\n'. */
  lemma LinesJoinKept(s: string)
    requires var ps := Split(s, Exactly('\n')); ps[|ps| - 1] != []
    ensures Join(Lines(s), '\n') + (if |s| > 0 && s[|s| - 1] == '\n' then "\n" else "") == s
  {
    LastPieceFull(s, '\n');
    JoinSplit(s, '\n');
    LinesWhole(s);
    NoFinalBreak(s, Lines(s));
  }

  lemma NoFinalBreak(s: string, lines: seq<string>)
    requires Join(lines, '\n') == s && !(|s| > 0 && s[|s| - 1] == '\n')
    ensures Join(lines, '\n') + (if |s| > 0 && s[|s| - 1] == '\n' then "\n" else "") == s
  {
    AppendEmpty(s);
  }

  lemma LinesWhole(s: string)
    requires var ps := Split(s, Exactly('\n')); ps[|ps| - 1] != []
    ensures Lines(s) == Split(s, Exactly('\n'))
  {
  }

  lemma LastPieceFull(s: string, c: char)
    requires var ps := Split(s, Exactly(c)); ps[|ps| - 1] != []
    ensures !(|s| > 0 && s[|s| - 1] == c)
  {
    if |s| > 0 && s[|s| - 1] == c {
      LastPieceEnd(s, c);
    }
  }

  lemma {:induction false} LastPieceEnd(s: string, c: char)
    requires |s| > 0 && s[|s| - 1] == c
    ensures var ps := Split(s, Exactly(c)); ps[|ps| - 1] == []
  {
    if |s| > 1 {
      LastPieceEnd(s[1..], c);
    }
  }

  // ---------------------------------------------------------------------------------------
  // Word filters.

  /** A word that is counted: longer than one character and not a stop word. */
  predicate Countable(w: string, stop: set<string>) { |w| > 1 && w !in stop }

  /** `filter(|w| w.len() > 1 && !stop_words.contains(w))`, in order. */
  function KeepCountable(ws: seq<string>, stop: set<string>): (r: seq<string>)
    ensures |r| <= |ws|
    ensures forall i :: 0 <= i < |r| ==> Countable(r[i], stop)
  {
    if ws == [] then []
    else
      var w := ws[|ws| - 1];
      KeepCountable(ws[..|ws| - 1], stop) + if Countable(w, stop) then [w] else []
  }

  /** The filter keeps every occurrence of a countable word and nothing else. */
  lemma {:induction false} KeepCountableOccurrences(ws: seq<string>, stop: set<string>)
    ensures forall w :: multiset(KeepCountable(ws, stop))[w] ==
                        (if Countable(w, stop) then multiset(ws)[w] else 0)
  {
    if ws != [] {
      var n := |ws| - 1;
      KeepCountableOccurrences(ws[..n], stop);
      assert ws == ws[..n] + [ws[n]];
    }
  }

  /** Filtering distributes over concatenation, so it keeps the words' relative order. */
  lemma {:induction false} KeepCountableAppend(a: seq<string>, b: seq<string>, stop: set<string>)
    ensures KeepCountable(a + b, stop) == KeepCountable(a, stop) + KeepCountable(b, stop)
    decreases |b|
  {
    if b == [] {
      assert a + b == a;
    } else {
      var n := |b| - 1;
      assert (a + b)[..|a + b| - 1] == a + b[..n];
      KeepCountableAppend(a, b[..n], stop);
    }
  }

  lemma KeepCountableSnoc(ws: seq<string>, w: string, stop: set<string>)
    ensures KeepCountable(ws + [w], stop) ==
      KeepCountable(ws, stop) + (if Countable(w, stop) then [w] else [])
  {
    assert (ws + [w])[..|ws|] == ws;
  }

  /** An empty piece is never counted, so dropping one changes nothing downstream. */
  lemma KeepCountableDropEmptyLast(ws: seq<string>, stop: set<string>)
    ensures KeepCountable(DropEmptyLast(ws), stop) == KeepCountable(ws, stop)
  {
    if |ws| > 0 && ws[|ws| - 1] == [] {
      var n := |ws| - 1;
      assert ws == ws[..n] + [ws[n]];
      KeepCountableAppend(ws[..n], [ws[n]], stop);
      assert KeepCountable([ws[n]], stop) == [] by {
        assert [ws[n]][..0] == [];
      }
    }
  }

  /** The non-empty pieces, in order. */
  function NonEmpty(ws: seq<string>): (r: seq<string>)
    ensures |r| <= |ws|
    ensures forall i :: 0 <= i < |r| ==> r[i] != [] && r[i] in ws
  {
    if ws == [] then []
    else
      var w := ws[|ws| - 1];
      NonEmpty(ws[..|ws| - 1]) + if w == [] then [] else [w]
  }

  lemma {:induction false} NonEmptyAppend(a: seq<string>, b: seq<string>)
    ensures NonEmpty(a + b) == NonEmpty(a) + NonEmpty(b)
    decreases |b|
  {
    if b == [] {
      assert a + b == a;
    } else {
      var n := |b| - 1;
      assert (a + b)[..|a + b| - 1] == a + b[..n];
      NonEmptyAppend(a, b[..n]);
    }
  }

  /** An empty piece is never counted: dropping all of them changes nothing downstream. */
  lemma {:induction false} KeepCountableNonEmpty(ws: seq<string>, stop: set<string>)
    ensures KeepCountable(NonEmpty(ws), stop) == KeepCountable(ws, stop)
  {
    if ws != [] {
      var n := |ws| - 1;
      var w := ws[n];
      KeepCountableNonEmpty(ws[..n], stop);
      if w == [] {
        AppendEmpty(NonEmpty(ws[..n]));
        AppendEmpty(KeepCountable(ws[..n], stop));
      } else {
        KeepCountableSnoc(NonEmpty(ws[..n]), w, stop);
      }
    }
  }

  /** Lower-casing keeps a piece empty or non-empty, so it commutes with dropping empty pieces. */
  lemma {:induction false} LowerAllNonEmpty(ws: seq<string>)
    ensures LowerAll(NonEmpty(ws)) == NonEmpty(LowerAll(ws))
  {
    if ws != [] {
      var n := |ws| - 1;
      var w := ws[n];
      var L := LowerAll(ws);
      LowerAllNonEmpty(ws[..n]);
      assert L[..n] == LowerAll(ws[..n]);
      assert NonEmpty(L) == NonEmpty(L[..n]) + if Lower(w) == [] then [] else [Lower(w)];
      if w == [] {
        AppendEmpty(NonEmpty(ws[..n]));
        AppendEmpty(NonEmpty(L[..n]));
      } else {
        LowerAllAppend(NonEmpty(ws[..n]), [w]);
      }
    }
  }

  /** Removing the stop words only (the length filter was applied earlier). */
  function KeepNonStop(ws: seq<string>, stop: set<string>): (r: seq<string>)
    ensures |r| <= |ws|
    ensures forall i :: 0 <= i < |r| ==> r[i] !in stop && r[i] in ws
  {
    if ws == [] then []
    else
      var w := ws[|ws| - 1];
      KeepNonStop(ws[..|ws| - 1], stop) + if w in stop then [] else [w]
  }

  /** Each word keeps all of its occurrences unless it is a stop word, which keeps none. */
  lemma {:induction false} KeepNonStopOccurrences(ws: seq<string>, stop: set<string>)
    ensures forall w :: multiset(KeepNonStop(ws, stop))[w] == if w in stop then 0 else multiset(ws)[w]
  {
    if ws != [] {
      var n := |ws| - 1;
      KeepNonStopOccurrences(ws[..n], stop);
      assert ws == ws[..n] + [ws[n]];
    }
  }

  /** The filter works word by word: filtering a concatenation filters each part, so the kept
      words stay in input order. */
  lemma {:induction false} KeepNonStopAppend(a: seq<string>, b: seq<string>, stop: set<string>)
    ensures KeepNonStop(a + b, stop) == KeepNonStop(a, stop) + KeepNonStop(b, stop)
    decreases |b|
  {
    if b == [] {
      assert a + b == a;
    } else {
      var n := |b| - 1;
      assert (a + b)[..|a + b| - 1] == a + b[..n];
      KeepNonStopAppend(a, b[..n], stop);
    }
  }

  /** Keeping the words longer than one character only. */
  function KeepLong(ws: seq<string>): (r: seq<string>)
    ensures |r| <= |ws|
    ensures forall i :: 0 <= i < |r| ==> |r[i]| > 1
  {
    if ws == [] then []
    else
      var w := ws[|ws| - 1];
      KeepLong(ws[..|ws| - 1]) + if |w| > 1 then [w] else []
  }

  lemma {:induction false} KeepLongAppend(a: seq<string>, b: seq<string>)
    ensures KeepLong(a + b) == KeepLong(a) + KeepLong(b)
    decreases |b|
  {
    if b == [] {
      assert a + b == a;
    } else {
      var n := |b| - 1;
      assert (a + b)[..|a + b| - 1] == a + b[..n];
      KeepLongAppend(a, b[..n]);
    }
  }

  /** Each word longer than one character keeps all of its occurrences; shorter words keep
      none. */
  lemma {:induction false} KeepLongOccurrences(ws: seq<string>)
    ensures forall w :: multiset(KeepLong(ws))[w] == if |w| > 1 then multiset(ws)[w] else 0
  {
    if ws != [] {
      var n := |ws| - 1;
      KeepLongOccurrences(ws[..n]);
      assert ws == ws[..n] + [ws[n]];
    }
  }

  lemma KeepNonStopSnoc(ws: seq<string>, i: nat, stop: set<string>)
    requires i < |ws|
    ensures KeepNonStop(ws[..i + 1], stop) ==
      KeepNonStop(ws[..i], stop) + (if ws[i] in stop then [] else [ws[i]])
  {
    assert ws[..i + 1][..i] == ws[..i];
  }

  /** The two filters in sequence are the single combined filter. */
  lemma {:induction false} LongThenNonStop(ws: seq<string>, stop: set<string>)
    ensures KeepNonStop(KeepLong(ws), stop) == KeepCountable(ws, stop)
  {
    if ws != [] {
      var n := |ws| - 1;
      LongThenNonStop(ws[..n], stop);
      var w := ws[n];
      if |w| > 1 {
        assert KeepLong(ws) == KeepLong(ws[..n]) + [w];
        assert KeepLong(ws)[..|KeepLong(ws)| - 1] == KeepLong(ws[..n]);
      } else {
        assert KeepLong(ws) == KeepLong(ws[..n]);
      }
    }
  }

  /** The same two filters in the other order. */
  lemma {:induction false} NonStopThenLong(ws: seq<string>, stop: set<string>)
    ensures KeepLong(KeepNonStop(ws, stop)) == KeepCountable(ws, stop)
  {
    if ws != [] {
      var n := |ws| - 1;
      NonStopThenLong(ws[..n], stop);
      var w := ws[n];
      if w !in stop {
        assert KeepNonStop(ws, stop) == KeepNonStop(ws[..n], stop) + [w];
        assert KeepNonStop(ws, stop)[..|KeepNonStop(ws, stop)| - 1] == KeepNonStop(ws[..n], stop);
      } else {
        assert KeepNonStop(ws, stop) == KeepNonStop(ws[..n], stop);
      }
    }
  }

  // ---------------------------------------------------------------------------------------
  // Tokenization as most variants do it: split, lower-case the pieces, keep the countable ones.

  /** The lower-cased pieces of a text split at `sep`, empty pieces included. */
  function Tokens(s: string, sep: Separator): seq<string>
  {
    LowerAll(Split(s, sep))
  }

  /** The pieces of each line, line after line (`lines().flat_map(split)`). */
  function TokensOfLines(lines: seq<string>, sep: Separator): (r: seq<string>)
  {
    if lines == [] then []
    else TokensOfLines(lines[..|lines| - 1], sep) + Tokens(lines[|lines| - 1], sep)
  }

  /** The pieces of every line, in order, not yet lower-cased. */
  function PiecesOfLines(lines: seq<string>, sep: Separator): seq<string>
  {
    if lines == [] then []
    else PiecesOfLines(lines[..|lines| - 1], sep) + Split(lines[|lines| - 1], sep)
  }

  lemma PiecesOfLinesSnoc(lines: seq<string>, l: nat, sep: Separator)
    requires l < |lines|
    ensures PiecesOfLines(lines[..l + 1], sep) == PiecesOfLines(lines[..l], sep) + Split(lines[l], sep)
  {
    assert lines[..l + 1][..l] == lines[..l];
  }

  /** Lower-casing the pieces afterwards gives the tokens. */
  lemma {:induction false} LowerPieces(lines: seq<string>, sep: Separator)
    ensures LowerAll(PiecesOfLines(lines, sep)) == TokensOfLines(lines, sep)
  {
    if lines != [] {
      var n := |lines| - 1;
      LowerPieces(lines[..n], sep);
      LowerAllAppend(PiecesOfLines(lines[..n], sep), Split(lines[n], sep));
    }
  }

  lemma TokensOfLinesSnoc(lines: seq<string>, l: nat, sep: Separator)
    requires l < |lines|
    ensures TokensOfLines(lines[..l + 1], sep) == TokensOfLines(lines[..l], sep) + Tokens(lines[l], sep)
  {
    assert lines[..l + 1][..l] == lines[..l];
  }

  /** Reading one more character of a line: a separator opens a new empty token, any other
      character, lower-cased, extends the last token. */
  lemma TokensSnoc(s: string, c: char, sep: Separator)
    ensures var ts := Tokens(s, sep); var n := |ts| - 1;
      Tokens(s + [c], sep) ==
        if Separates(sep, c) then ts + [[]] else ts[..n] + [ts[n] + [ToLower(c)]]
  {
    if Separates(sep, c) {
      TokensSnocSep(s, c, sep);
    } else {
      TokensSnocWord(s, c, sep);
    }
  }

  lemma TokensSnocSep(s: string, c: char, sep: Separator)
    requires Separates(sep, c)
    ensures Tokens(s + [c], sep) == Tokens(s, sep) + [[]]
  {
    SplitSnoc(s, c, sep);
    LowerSnocPieces(Split(s, sep), Split(s + [c], sep), c, true);
  }

  lemma TokensSnocWord(s: string, c: char, sep: Separator)
    requires !Separates(sep, c)
    ensures var ts := Tokens(s, sep); var n := |ts| - 1;
      Tokens(s + [c], sep) == ts[..n] + [ts[n] + [ToLower(c)]]
  {
    SplitSnocWord(s, c, sep);
    LowerSnocPieces(Split(s, sep), Split(s + [c], sep), c, false);
  }

  lemma LowerSnocPieces(ps: seq<string>, qs: seq<string>, c: char, opens: bool)
    requires |ps| >= 1
    requires qs == if opens then ps + [[]] else ps[..|ps| - 1] + [ps[|ps| - 1] + [c]]
    ensures var ts := LowerAll(ps); var n := |ts| - 1;
      LowerAll(qs) == if opens then ts + [[]] else ts[..n] + [ts[n] + [ToLower(c)]]
  {
    if opens {
      LowerAllAppend(ps, [[]]);
      assert LowerAll([[]]) == [Lower([])];
    } else {
      LowerExtendLast(ps, c);
    }
  }

  lemma LowerExtendLast(ps: seq<string>, c: char)
    requires |ps| >= 1
    ensures var n := |ps| - 1; var ts := LowerAll(ps);
      LowerAll(ps[..n] + [ps[n] + [c]]) == ts[..n] + [ts[n] + [ToLower(c)]]
  {
    var n := |ps| - 1;
    var x := ps[n] + [c];
    LowerAllAppend(ps[..n], [x]);
    LowerAppend(ps[n], [c]);
    assert Lower([c]) == [ToLower(c)];
    assert LowerAll([x]) == [Lower(x)];
    assert LowerAll(ps[..n]) == LowerAll(ps)[..n];
  }

  /** Reading line by line and splitting each line finds the same pieces as splitting the
      '\n'-joined text when '\n' is itself a separator. */
  lemma {:induction false} TokensOfJoinedLines(lines: seq<string>, sep: Separator)
    requires |lines| >= 1 && Separates(sep, '\n')
    ensures Tokens(Join(lines, '\n'), sep) == TokensOfLines(lines, sep)
    decreases |lines|
  {
    var n := |lines| - 1;
    if n == 0 {
      assert lines[..0] == [];
    } else {
      TokensOfJoinedLines(lines[..n], sep);
      assert lines == lines[..n] + [lines[n]];
      JoinSnoc(lines[..n], lines[n], '\n');
      SplitAt(Join(lines[..n], '\n'), '\n', lines[n], sep);
      LowerAllAppend(Split(Join(lines[..n], '\n'), sep), Split(lines[n], sep));
    }
  }

  /** Cutting the whole text at once, when '\n' is itself a separator, counts the same words
      as cutting it line by line. */
  lemma WholeTextCounted(s: string, sep: Separator, stop: set<string>)
    requires Separates(sep, '\n')
    ensures KeepCountable(Tokens(s, sep), stop) == CountedWords(Lines(s), sep, stop)
  {
    var L := Lines(s);
    LinesJoin(s);
    if s == [] {
      NothingCounted(sep, stop);
    } else {
      LinesOfNonEmpty(s);
      TokensOfJoinedLines(L, sep);
      if s[|s| - 1] == '\n' {
        TrailingSeparator(Join(L, '\n'), sep, stop);
      } else {
        assert s == Join(L, '\n');
      }
    }
  }

  lemma NothingCounted(sep: Separator, stop: set<string>)
    ensures KeepCountable(Tokens([], sep), stop) == []
    ensures Lines([]) == []
  {
    assert Tokens([], sep) == [[]];
    assert Tokens([], sep)[..0] == [];
  }

  lemma LinesOfNonEmpty(s: string)
    requires s != []
    ensures Lines(s) != []
  {
    if Lines(s) == [] {
      JoinSplit(s, '\n');
    }
  }

  /** A separator at the very end only adds an empty piece, which is never counted. */
  lemma TrailingSeparator(j: string, sep: Separator, stop: set<string>)
    requires Separates(sep, '\n')
    ensures KeepCountable(Tokens(j + "\n", sep), stop) == KeepCountable(Tokens(j, sep), stop)
  {
    assert j + "\n" == j + ['\n'] + [];
    SplitAt(j, '\n', [], sep);
    LowerAllAppend(Split(j, sep), [[]]);
    var none: seq<string> := [[]];
    KeepCountableAppend(Tokens(j, sep), none, stop);
    assert KeepCountable(none, stop) == [] by {
      assert none[..0] == [];
    }
    AppendEmpty(KeepCountable(Tokens(j, sep), stop));
  }

  /** The words the programs count: the lower-cased pieces of every line split at `sep`, less
      the one-character pieces and the stop words, in text order. */
  function CountedWords(lines: seq<string>, sep: Separator, stop: set<string>): seq<string>
  {
    KeepCountable(TokensOfLines(lines, sep), stop)
  }

  lemma CountedWordsSnoc(lines: seq<string>, l: nat, sep: Separator, stop: set<string>)
    requires l < |lines|
    ensures CountedWords(lines[..l + 1], sep, stop) ==
      CountedWords(lines[..l], sep, stop) + KeepCountable(Tokens(lines[l], sep), stop)
  {
    assert lines[..l + 1][..l] == lines[..l];
    KeepCountableAppend(TokensOfLines(lines[..l], sep), Tokens(lines[l], sep), stop);
  }

  /** The words the letterbox and bulletin-board variants store for a file: pieces cut at non-letters, longer than one
      character, lower-cased. */
  function StoredWords(content: string): seq<string>
  {
    KeepLong(TokensOfLines(Lines(content), NonAlpha))
  }

  lemma StoredWordsSnoc(lines: seq<string>, l: nat)
    requires l < |lines|
    ensures KeepLong(TokensOfLines(lines[..l + 1], NonAlpha)) ==
      KeepLong(TokensOfLines(lines[..l], NonAlpha)) + KeepLong(Tokens(lines[l], NonAlpha))
  {
    TokensOfLinesSnoc(lines, l, NonAlpha);
    KeepLongAppend(TokensOfLines(lines[..l], NonAlpha), Tokens(lines[l], NonAlpha));
  }

  /** The positions of the words the filter throws away. */
  function Rejected(ws: seq<string>, stop: set<string>): (r: set<int>)
    ensures forall i :: i in r <==> 0 <= i < |ws| && !Countable(ws[i], stop)
  {
    set i | 0 <= i < |ws| && !Countable(ws[i], stop)
  }

  /** Deleting the rejected positions leaves exactly the countable words, in order. */
  lemma {:induction false} WithoutRejected(ws: seq<string>, stop: set<string>)
    ensures Without(ws, Rejected(ws, stop)) == KeepCountable(ws, stop)
  {
    if ws != [] {
      var n := |ws| - 1;
      WithoutRejected(ws[..n], stop);
      WithoutSameBelow(ws[..n], Rejected(ws, stop), Rejected(ws[..n], stop));
    }
  }

  /** The positions of a word list that hold stop words. */
  function StopPositions(ws: seq<string>, stop: set<string>): (r: set<int>)
    ensures forall i :: i in r <==> 0 <= i < |ws| && ws[i] in stop
  {
    set i | 0 <= i < |ws| && ws[i] in stop
  }

  /** Deleting the positions of the stop words leaves exactly the words the stop-word filter
      keeps, in order. */
  lemma {:induction false} WithoutStopPositions(ws: seq<string>, stop: set<string>)
    ensures Without(ws, StopPositions(ws, stop)) == KeepNonStop(ws, stop)
  {
    if ws != [] {
      var n := |ws| - 1;
      WithoutStopPositions(ws[..n], stop);
      WithoutSameBelow(ws[..n], StopPositions(ws, stop), StopPositions(ws[..n], stop));
    }
  }

  /** Tokens are already lower-case. */
  lemma {:induction false} TokensOfLinesLower(lines: seq<string>, sep: Separator)
    ensures LowerAll(TokensOfLines(lines, sep)) == TokensOfLines(lines, sep)
  {
    if lines != [] {
      var n := |lines| - 1;
      TokensOfLinesLower(lines[..n], sep);
      var ts := Tokens(lines[n], sep);
      forall i | 0 <= i < |ts| ensures Lower(ts[i]) == ts[i] {
        LowerIdempotent(Split(lines[n], sep)[i]);
      }
      LowerAllAppend(TokensOfLines(lines[..n], sep), ts);
    }
  }

  /** The set of a list's elements (`collect::<HashSet<_>>()`). */
  function ElementsOf(ws: seq<string>): (r: set<string>)
    ensures forall w :: w in r <==> w in ws
  {
    set w | w in ws
  }

  /** The stop words of a stop-word line cut at ',' (the trailing line break, when
      `read_line` kept one, stays on the last word). */
  function CommaStopWords(line: string): (r: set<string>)
    ensures forall w :: w in r <==> w in Split(line, Exactly(','))
  {
    ElementsOf(Split(line, Exactly(',')))
  }

  /** A word is accepted when it is longer than one character and equals no stop word. */
  method Acceptable(stop: seq<string>, word: string) returns (ok: bool)
    ensures ok <==> Countable(word, ElementsOf(stop))
  {
    ok := |word| > 1;
    if ok {
      var i := 0;
      while i < |stop|
        invariant i <= |stop| && ok
        invariant forall k :: 0 <= k < i ==> stop[k] != word
      {
        if stop[i] == word {
          ok := false;
          return;
        }
        i := i + 1;
      }
    }
  }
}

=== FILE: week1_main.dfy ===
/** week1/main.rs, the plain program: the stop words are the first line of the stop-word file
    cut at ',', the input file named by the single argument is counted line by line into a
    hash map, and the entries are sorted by (count descending, word ascending) and cut to 25. */
module Week1Main {
  import opened Wrappers
  import opened Seqs
  import opened Text
  import opened Frequencies
  import opened Ranking
  import opened StringOrder

  /** The process exit codes of `mod retcode`. */
  const OPEN_FILE: int := 1
  const READ: int := 2
  const ARG: int := 3

  const STOP_WORDS_PATH: string := "../stop_words.txt"

  /** How a run ends: the rows printed, `process::exit(code)`, or a panic. */
  datatype Ending = Printed(rows: seq<Entry<string>>) | Exited(code: int) | Panicked

  /** The order of `(Reverse(count), word)` tuples: larger count first, then smaller word. */
  predicate Precedes(x: Entry<string>, y: Entry<string>)
  {
    x.1 > y.1 || (x.1 == y.1 && LexLess(x.0, y.0))
  }

  /** Between two different words exactly one entry comes first. */
  lemma PrecedesTotal(x: Entry<string>, y: Entry<string>)
    requires x.0 != y.0
    ensures Precedes(x, y) != Precedes(y, x)
  {
    LexTotal(x.0, y.0);
    LexAsymmetric(x.0, y.0);
  }

  lemma PrecedesTransitive(x: Entry<string>, y: Entry<string>, z: Entry<string>)
    requires Precedes(x, y) && Precedes(y, z)
    ensures Precedes(x, z)
  {
    if x.1 == y.1 && y.1 == z.1 {
      LexTransitive(x.0, y.0, z.0);
    }
  }

  predicate Ordered(es: seq<Entry<string>>)
  {
    forall i, j :: 0 <= i < j < |es| ==> Precedes(es[i], es[j])
  }

  predicate DistinctWords(es: seq<Entry<string>>)
  {
    forall i, j :: 0 <= i < j < |es| ==> es[i].0 != es[j].0
  }

  /** Put `e` into an ordered list at its place. */
  function InsertOrdered(e: Entry<string>, s: seq<Entry<string>>): (r: seq<Entry<string>>)
    requires Ordered(s) && forall i :: 0 <= i < |s| ==> s[i].0 != e.0
    ensures Ordered(r) && multiset(r) == multiset(s) + multiset{e}
    ensures |r| == |s| + 1 && (r[0] == e || (s != [] && r[0] == s[0]))
  {
    if s == [] then [e]
    else if Precedes(s[0], e) then
      var rest := InsertOrdered(e, s[1..]);
      OrderedCons(s[0], rest);
      assert s == [s[0]] + s[1..];
      [s[0]] + rest
    else
      PrecedesTotal(e, s[0]);
      OrderedCons(e, s);
      [e] + s
  }

  lemma OrderedCons(x: Entry<string>, rest: seq<Entry<string>>)
    requires Ordered(rest) && (rest == [] || Precedes(x, rest[0]))
    ensures Ordered([x] + rest)
  {
    var r := [x] + rest;
    forall i, j | 0 <= i < j < |r| ensures Precedes(r[i], r[j]) {
      if i == 0 && j > 1 {
        PrecedesTransitive(x, rest[0], rest[j - 1]);
      }
    }
  }

  /** `entries.sort_unstable()` on `(Reverse(count), word)` tuples with distinct words. */
  function SortEntries(es: seq<Entry<string>>): (r: seq<Entry<string>>)
    requires DistinctWords(es)
    ensures Ordered(r) && multiset(r) == multiset(es)
  {
    if es == [] then []
    else
      var n := |es| - 1;
      assert es == es[..n] + [es[n]];
      var sorted := SortEntries(es[..n]);
      forall i | 0 <= i < |sorted| ensures sorted[i].0 != es[n].0 {
        assert sorted[i] in multiset(es[..n]);
      }
      InsertOrdered(es[n], sorted)
  }

  /** Ordered lists holding the same entries are equal: the order leaves no choice. */
  lemma {:induction false} OrderedUnique(x: seq<Entry<string>>, y: seq<Entry<string>>)
    requires Ordered(x) && Ordered(y) && multiset(x) == multiset(y)
    ensures x == y
  {
    if x != [] {
      assert y != [] by {
        assert x[0] in multiset(y);
      }
      if x[0] != y[0] {
        assert x[0] in multiset(y) && y[0] in multiset(x);
        var i :| 0 <= i < |y| && y[i] == x[0];
        var j :| 0 <= j < |x| && x[j] == y[0];
        PrecedesAsymmetric(x[0], y[0]);
        assert false;
      }
      assert x == [x[0]] + x[1..] && y == [y[0]] + y[1..];
      assert multiset(x) == multiset{x[0]} + multiset(x[1..]);
      assert multiset(y) == multiset{y[0]} + multiset(y[1..]);
      forall e ensures multiset(x[1..])[e] == multiset(y[1..])[e] {
        assert multiset(x)[e] == multiset(y)[e];
      }
      OrderedUnique(x[1..], y[1..]);
    }
  }

  lemma PrecedesAsymmetric(x: Entry<string>, y: Entry<string>)
    ensures !(Precedes(x, y) && Precedes(y, x))
  {
    LexAsymmetric(x.0, y.0);
  }

  /** However the hash map hands out its entries, the sorted list is the same. */
  lemma SortDeterministic(es1: seq<Entry<string>>, es2: seq<Entry<string>>, t: Table<string>)
    requires Enumerates(es1, t) && Enumerates(es2, t)
    ensures DistinctWords(es1) && DistinctWords(es2) && SortEntries(es1) == SortEntries(es2)
  {
    EnumeratesFacts(es1, t);
    EnumeratesFacts(es2, t);
    OrderedUnique(SortEntries(es1), SortEntries(es2));
  }

  // ---------------------------------------------------------------------------------------
  // The program.

  /** The counting loop: every line cut at non-letters, pieces longer than one character,
      lower-cased, not stop words, each adding one to its word's count. */
  method CountLines(lines: seq<string>, stop: set<string>) returns (counter: Table<string>)
    ensures counter == Count(CountedWords(lines, NonAlpha, stop))
  {
    counter := map[];
    for l := 0 to |lines|
      invariant counter == Count(CountedWords(lines[..l], NonAlpha, stop))
    {
      var pieces := Split(lines[l], NonAlpha);
      ghost var before := CountedWords(lines[..l], NonAlpha, stop);
      assert pieces[..0] == [];
      assert before + KeepCountable(LowerAll(pieces[..0]), stop) == before;
      for k := 0 to |pieces|
        invariant counter == Count(before + KeepCountable(LowerAll(pieces[..k]), stop))
      {
        var word := pieces[k];
        CountPiece(before, pieces, k, stop);
        if |word| > 1 {
          var lower := Lower(word);
          if lower !in stop {
            counter := Incr(counter, lower);
          }
        }
      }
      assert pieces[..|pieces|] == pieces;
      CountedWordsSnoc(lines, l, NonAlpha, stop);
    }
    assert lines[..|lines|] == lines;
  }

  /** One more piece of the line: counted when, lower-cased, it is longer than one character
      and not a stop word. */
  lemma CountPiece(before: seq<string>, pieces: seq<string>, k: nat, stop: set<string>)
    requires k < |pieces|
    ensures var done := before + KeepCountable(LowerAll(pieces[..k]), stop);
      var w := Lower(pieces[k]);
      Count(before + KeepCountable(LowerAll(pieces[..k + 1]), stop)) ==
        if |pieces[k]| > 1 && w !in stop then Incr(Count(done), w) else Count(done)
  {
    var done := before + KeepCountable(LowerAll(pieces[..k]), stop);
    var w := Lower(pieces[k]);
    LowerAllSnoc(pieces, k);
    KeepCountableSnoc(LowerAll(pieces[..k]), w, stop);
    if Countable(w, stop) {
      CountSnoc(done, w);
      assert done + [w] == before + KeepCountable(LowerAll(pieces[..k + 1]), stop);
    } else {
      assert done == before + KeepCountable(LowerAll(pieces[..k + 1]), stop);
    }
  }

  /** The whole program, with the files it may open given as a map from path to contents. */
  method Run(args: seq<string>, files: map<string, string>) returns (end: Ending)
    ensures STOP_WORDS_PATH !in files ==> end == Exited(OPEN_FILE)
    ensures STOP_WORDS_PATH in files && |args| == 0 ==> end == Panicked
    ensures STOP_WORDS_PATH in files && |args| != 2 && |args| != 0 ==> end == Exited(ARG)
    ensures STOP_WORDS_PATH in files && |args| == 2 && args[1] !in files ==> end == Exited(OPEN_FILE)
    ensures STOP_WORDS_PATH in files && |args| == 2 && args[1] in files ==>
      var t := Count(CountedWords(Lines(files[args[1]]), NonAlpha,
                                  CommaStopWords(ReadLine(files[STOP_WORDS_PATH]))));
      && end.Printed?
      && IsTop(end.rows, t, 25)
      && Ordered(end.rows)
      && (forall k :: k in t && !Mentions(end.rows, k) ==>
            forall i :: 0 <= i < |end.rows| ==> Precedes(end.rows[i], (k, t[k])))
  {
    if STOP_WORDS_PATH !in files {
      return Exited(OPEN_FILE);
    }
    var stop := CommaStopWords(ReadLine(files[STOP_WORDS_PATH]));
    if |args| != 2 {
      if |args| == 0 {
        return Panicked;
      }
      return Exited(ARG);
    }
    if args[1] !in files {
      return Exited(OPEN_FILE);
    }
    var counter := CountLines(Lines(files[args[1]]), stop);
    var entries := CollectEntries(counter);
    EnumeratesFacts(entries, counter);
    var sorted := SortEntries(entries);
    var rows := Truncate(sorted, 25);
    TopOrdered(sorted, counter, 25);
    end := Printed(rows);
  }

  /** The first `n` entries of the ordered listing of a table are its top `n`, and every entry
      left out comes after every entry kept. */
  lemma TopOrdered(sorted: seq<Entry<string>>, t: Table<string>, n: nat)
    requires Enumerates(sorted, t) && Ordered(sorted)
    ensures IsTop(Truncate(sorted, n), t, n)
    ensures Ordered(Truncate(sorted, n))
    ensures forall k :: k in t && !Mentions(Truncate(sorted, n), k) ==>
      forall i :: 0 <= i < |Truncate(sorted, n)| ==> Precedes(Truncate(sorted, n)[i], (k, t[k]))
  {
    OrderedNonIncreasing(sorted);
    TopOfRanking(sorted, t, n);
    LeftOutComeAfter(sorted, t, n);
  }

  lemma OrderedNonIncreasing(es: seq<Entry<string>>)
    requires Ordered(es)
    ensures NonIncreasing(es)
  {
    forall i, j | 0 <= i < j < |es| ensures es[i].1 >= es[j].1 {
      assert Precedes(es[i], es[j]);
    }
  }

  lemma LeftOutComeAfter(sorted: seq<Entry<string>>, t: Table<string>, n: nat)
    requires Enumerates(sorted, t) && Ordered(sorted)
    ensures forall k :: k in t && !Mentions(Truncate(sorted, n), k) ==>
      forall i :: 0 <= i < |Truncate(sorted, n)| ==> Precedes(Truncate(sorted, n)[i], (k, t[k]))
  {
    EnumeratesFacts(sorted, t);
    var out := Truncate(sorted, n);
    forall k | k in t && !Mentions(out, k)
      ensures forall i :: 0 <= i < |out| ==> Precedes(out[i], (k, t[k]))
    {
      var j :| 0 <= j < |sorted| && sorted[j] == (k, t[k]);
      assert j >= |out|;
    }
  }
}

=== FILE: week2_five.dfy ===
/** week2/five.rs, the "cookbook" style: three shared vectors (stop words, words, counter) and
    one procedure per step, each changing the shared state in place. */
module Week2Five {
  import opened Seqs
  import opened Text
  import opened Frequencies
  import opened Ranking
  import opened ListCounter

  /** The shared mutable data the procedures capture. */
  class Cookbook {
    var stopWords: seq<string>
    var words: seq<string>
    var counter: Counter

    constructor ()
      ensures stopWords == [] && words == [] && counter == []
    {
      stopWords := [];
      words := [];
      counter := [];
    }

    /** The first line of the stop-word file, as `read_line` leaves it (line break included),
        split at ','. */
    method ReadStopWords(buf: string)
      modifies this
      ensures stopWords == Split(buf, Exactly(','))
      ensures words == old(words) && counter == old(counter)
    {
      stopWords := Split(buf, Exactly(','));
    }

    /** Every piece of every line, cut at non-letters and lower-cased, empty pieces included. */
    method ReadInputFile(lines: seq<string>)
      modifies this
      ensures words == old(words) + TokensOfLines(lines, NonAlpha)
      ensures stopWords == old(stopWords) && counter == old(counter)
    {
      ghost var w0, s0, c0 := words, stopWords, counter;
      for l := 0 to |lines|
        invariant words == w0 + TokensOfLines(lines[..l], NonAlpha)
        invariant stopWords == s0 && counter == c0
      {
        var pieces := Split(lines[l], NonAlpha);
        ghost var before := words;
        for k := 0 to |pieces|
          invariant words == before + LowerAll(pieces[..k])
          invariant stopWords == s0 && counter == c0
        {
          LowerAllSnoc(pieces, k);
          AppendAssoc(before, LowerAll(pieces[..k]), [Lower(pieces[k])]);
          words := words + [Lower(pieces[k])];
        }
        assert pieces[..|pieces|] == pieces;
        TokensOfLinesSnoc(lines, l, NonAlpha);
        AppendAssoc(w0, TokensOfLines(lines[..l], NonAlpha), Tokens(lines[l], NonAlpha));
      }
      assert lines[..|lines|] == lines;
    }

    /** Lower-case every word again, collect the positions of the words that are too short or
        equal a stop word, then remove those positions. */
    method Filter()
      modifies this
      ensures words == KeepCountable(LowerAll(old(words)), ElementsOf(stopWords))
      ensures stopWords == old(stopWords) && counter == old(counter)
    {
      LowerWords();
      ghost var lowered := words;
      var toRemove := RejectedPositions();
      forall a | 0 <= a < |toRemove| ensures 0 <= toRemove[a] < |words| {
        assert toRemove[a] in toRemove;
      }
      RemoveAll(toRemove);
      WithoutSameBelow(lowered, Positions(toRemove), Rejected(lowered, ElementsOf(stopWords)));
      WithoutRejected(lowered, ElementsOf(stopWords));
    }

    /** `*word = word.to_lowercase()` for every word, in place. */
    method LowerWords()
      modifies this
      ensures words == LowerAll(old(words))
      ensures stopWords == old(stopWords) && counter == old(counter)
    {
      for i := 0 to |words|
        invariant |words| == |old(words)|
        invariant forall k :: 0 <= k < i ==> words[k] == Lower(old(words)[k])
        invariant forall k :: i <= k < |words| ==> words[k] == old(words)[k]
        invariant stopWords == old(stopWords) && counter == old(counter)
      {
        words := words[i := Lower(words[i])];
      }
    }

    /** The positions of the words that are at most one character long or equal a stop word,
        in increasing order. */
    method RejectedPositions() returns (toRemove: seq<int>)
      ensures forall a, b :: 0 <= a < b < |toRemove| ==> toRemove[a] < toRemove[b]
      ensures forall j :: j in toRemove <==> j in Rejected(words, ElementsOf(stopWords))
    {
      toRemove := [];
      for i := 0 to |words|
        invariant forall k :: 0 <= k < |toRemove| ==> 0 <= toRemove[k] < i
        invariant forall a, b :: 0 <= a < b < |toRemove| ==> toRemove[a] < toRemove[b]
        invariant forall j :: j in toRemove <==>
                               0 <= j < i && !Countable(words[j], ElementsOf(stopWords))
      {
        var ok := Acceptable(stopWords, words[i]);
        if !ok {
          toRemove := toRemove + [i];
        }
      }
    }

    /** `for i in to_remove.into_iter().rev() { words.remove(i) }`: because the positions are
        increasing and taken from the back, each one still names the word it was collected for,
        and the result is the list without exactly those positions. */
    method RemoveAll(toRemove: seq<int>)
      requires forall a, b :: 0 <= a < b < |toRemove| ==> toRemove[a] < toRemove[b]
      requires forall a :: 0 <= a < |toRemove| ==> 0 <= toRemove[a] < |words|
      modifies this
      ensures words == Without(old(words), Positions(toRemove))
      ensures stopWords == old(stopWords) && counter == old(counter)
    {
      var k := |toRemove|;
      assert Positions(toRemove[k..]) == {};
      WithoutAbove(words, {}, |words|);
      while k > 0
        invariant 0 <= k <= |toRemove|
        invariant words == Without(old(words), Positions(toRemove[k..]))
        invariant stopWords == old(stopWords) && counter == old(counter)
      {
        var i := toRemove[k - 1];
        WithoutOneMore(old(words), Positions(toRemove[k..]), i);
        assert Positions(toRemove[k - 1..]) == Positions(toRemove[k..]) + {i};
        words := words[..i] + words[i + 1..];
        k := k - 1;
      }
      assert toRemove[0..] == toRemove;
    }

    /** Count the words into the list counter, one linear search per word. */
    method Count()
      modifies this
      ensures counter == AddAll(old(counter), words)
      ensures stopWords == old(stopWords) && words == old(words)
    {
      for i := 0 to |words|
        invariant stopWords == old(stopWords) && words == old(words)
        invariant counter == AddAll(old(counter), words[..i])
      {
        AddAllSnoc(old(counter), words[..i], words[i]);
        assert words[..i + 1] == words[..i] + [words[i]];
        counter := Bump(counter, words[i]);
      }
      assert words[..|words|] == words;
    }

    /** `sort_unstable_by_key(|t| Reverse(t.1))`: most frequent first; the order among equal
        counts is the library's choice. */
    method Sort()
      modifies this
      ensures NonIncreasing(counter) && multiset(counter) == multiset(old(counter))
      ensures stopWords == old(stopWords) && words == old(words)
    {
      counter := SortDesc(counter);
    }

    /** The rows printed: at most 25, from the front of the counter. */
    method Print() returns (shown: seq<Entry<string>>)
      ensures |shown| == Min(25, |counter|) && shown == counter[..|shown|]
    {
      shown := PrintRows(counter, 25);
    }
  }

  /** The positions listed in `ps`. */
  function Positions(ps: seq<int>): (r: set<int>)
    ensures forall j :: j in r <==> j in ps
  {
    set j | j in ps
  }

  /** The whole program: the rows printed are a correct top 25 of the words that are longer
      than one letter and not in the comma-separated stop-word line. */
  method Run(stopLine: string, lines: seq<string>) returns (rows: seq<Entry<string>>)
    ensures IsTop(rows, Count(CountedWords(lines, NonAlpha, ElementsOf(Split(stopLine, Exactly(','))))), 25)
  {
    var book := new Cookbook();
    book.ReadStopWords(stopLine);
    book.ReadInputFile(lines);
    assert book.words == TokensOfLines(lines, NonAlpha);
    book.Filter();
    TokensOfLinesLower(lines, NonAlpha);
    ghost var counted := CountedWords(lines, NonAlpha, ElementsOf(Split(stopLine, Exactly(','))));
    assert book.words == counted;
    book.Count();
    assert book.counter == CountAll(counted);
    CountAllEnumerates(counted);
    book.Sort();
    rows := book.Print();
    TopOfRanking(book.counter, Count(counted), 25);
  }
}

=== FILE: week2_four.dfy ===
/** week2/four.rs, the "monolith" style: the stop-word line is cut into words character by
    character, every input line is scanned character by character, accepted words go into a
    (word, count) vector searched linearly, the vector is bubble-sorted in place by decreasing
    count, and at most 25 rows are printed. */
module Week2Four {
  import opened Seqs
  import opened Text
  import opened Frequencies
  import opened Ranking
  import opened ListCounter

  /** The stop-word line is cut at every non-letter, so two neighbouring non-letters give an
      empty word; a word still open at the end is kept only when it is not empty. */
  method ParseStopWords(buf: string) returns (stop: seq<string>)
    ensures stop == DropEmptyLast(Split(buf, NonAlpha))
  {
    stop := [];
    var word := "";
    var i := 0;
    while i < |buf|
      invariant i <= |buf|
      invariant stop + [word] == Split(buf[..i], NonAlpha)
    {
      var ch := buf[i];
      SplitSnoc(buf[..i], ch, NonAlpha);
      assert buf[..i + 1] == buf[..i] + [ch];
      if IsAsciiAlpha(ch) {
        word := word + [ch];
      } else {
        stop := stop + [word];
        word := "";
      }
      i := i + 1;
    }
    assert buf[..i] == buf;
    if |word| > 0 {
      stop := stop + [word];
    }
  }

  /** A letter extends the open word by its lower-case form. */
  lemma TokensAfterLetter(prefix: string, ch: char, flushed: seq<string>, word: string)
    requires IsAsciiAlpha(ch) && flushed + [word] == Tokens(prefix, NonAlpha)
    ensures flushed + [word + [ToLower(ch)]] == Tokens(prefix + [ch], NonAlpha)
    ensures DropEmptyLast(Tokens(prefix + [ch], NonAlpha)) == Tokens(prefix + [ch], NonAlpha)
  {
    TokensSnoc(prefix, ch, NonAlpha);
    var ts := Tokens(prefix, NonAlpha);
    assert ts[..|ts| - 1] == flushed && ts[|ts| - 1] == word;
  }

  /** A non-letter closes the open word and opens an empty one. */
  lemma TokensAfterSeparator(prefix: string, ch: char, flushed: seq<string>, word: string)
    requires !IsAsciiAlpha(ch) && flushed + [word] == Tokens(prefix, NonAlpha)
    ensures flushed + [word] + [[]] == Tokens(prefix + [ch], NonAlpha)
    ensures DropEmptyLast(Tokens(prefix + [ch], NonAlpha)) == flushed + [word]
  {
    TokensSnoc(prefix, ch, NonAlpha);
    assert (flushed + [word] + [[]])[..|flushed| + 1] == flushed + [word];
  }

  /** Counting a closed word when it is accepted keeps the counter equal to the count of the
      accepted words among those closed so far. */
  lemma CountStep(counter: Counter, S: set<string>, flushed: seq<string>, w: string, c: Counter)
    requires c == AddAll(counter, KeepCountable(flushed, S))
    ensures AddAll(counter, KeepCountable(flushed + [w], S)) ==
      if Countable(w, S) then Add(c, w) else c
  {
    KeepCountableSnoc(flushed, w, S);
    var kept := KeepCountable(flushed, S);
    if Countable(w, S) {
      AddAllSnoc(counter, kept, w);
    } else {
      assert kept + [] == kept;
    }
  }

  /** One input line: letters are lower-cased into the current word; a non-letter, or the
      last character of the line, ends the word, which is counted when accepted. */
  method ScanLine(stop: seq<string>, counter: Counter, line: string) returns (c: Counter)
    ensures c == AddAll(counter, KeepCountable(Tokens(line, NonAlpha), ElementsOf(stop)))
  {
    var S := ElementsOf(stop);
    c := counter;
    ghost var flushed: seq<string> := [];
    var word := "";
    var idx := 0;
    if line == [] {
      assert Tokens(line, NonAlpha) == [[]];
    }
    while idx < |line|
      invariant idx <= |line|
      invariant idx < |line| ==> flushed + [word] == Tokens(line[..idx], NonAlpha)
      invariant idx == |line| ==> flushed == DropEmptyLast(Tokens(line, NonAlpha))
      invariant c == AddAll(counter, KeepCountable(flushed, S))
    {
      var ch := line[idx];
      assert line[..idx + 1] == line[..idx] + [ch];
      if idx + 1 == |line| {
        assert line[..idx] + [ch] == line;
      }
      if IsAsciiAlpha(ch) {
        TokensAfterLetter(line[..idx], ch, flushed, word);
        word := word + [ToLower(ch)];
      } else {
        TokensAfterSeparator(line[..idx], ch, flushed, word);
      }
      if !IsAsciiAlpha(ch) || idx == |line| - 1 {
        var ok := Acceptable(stop, word);
        CountStep(counter, S, flushed, word, c);
        if ok {
          c := Bump(c, word);
        }
        flushed := flushed + [word];
        word := "";
      }
      idx := idx + 1;
    }
    KeepCountableDropEmptyLast(Tokens(line, NonAlpha), S);
  }

  /** Same entries, and the same order among entries of equal count. */
  ghost predicate KeepsTies(s: seq<Entry<string>>, t: seq<Entry<string>>)
  {
    multiset(s) == multiset(t) && forall c :: OfCount(s, c) == OfCount(t, c)
  }

  /** Swapping two neighbours with different counts moves no entry past one of equal count. */
  lemma SwapKeepsTies(s: seq<Entry<string>>, j: nat)
    requires 0 < j < |s| && s[j - 1].1 != s[j].1
    ensures KeepsTies(s[j - 1 := s[j]][j := s[j - 1]], s)
  {
    var t := s[j - 1 := s[j]][j := s[j - 1]];
    var pre, x, y, post := s[..j - 1], s[j - 1], s[j], s[j + 1..];
    assert s == pre + [x, y] + post;
    assert t == pre + [y, x] + post;
    forall c ensures OfCount(t, c) == OfCount(s, c) {
      OfCountAppend(pre + [x, y], post, c);
      OfCountAppend(pre, [x, y], c);
      OfCountAppend(pre + [y, x], post, c);
      OfCountAppend(pre, [y, x], c);
      OfCountCons(x, [y], c);
      OfCountCons(y, [], c);
      OfCountCons(y, [x], c);
      OfCountCons(x, [], c);
    }
  }

  /** One pass of the inner loop, from the back down to `i`: the largest count of `a[i..]`
      rises to position `i`, by swaps of neighbours only. */
  method BubbleUp(a: array<Entry<string>>, i: nat)
    requires i < a.Length
    requires forall p, q :: 0 <= p < i <= q < a.Length ==> a[p].1 >= a[q].1
    modifies a
    ensures KeepsTies(a[..], old(a[..]))
    ensures a[..i] == old(a[..i])
    ensures forall p, q :: 0 <= p < i <= q < a.Length ==> a[p].1 >= a[q].1
    ensures forall q :: i <= q < a.Length ==> a[i].1 >= a[q].1
  {
    var j := a.Length - 1;
    while j > i
      invariant i <= j < a.Length
      invariant KeepsTies(a[..], old(a[..]))
      invariant a[..i] == old(a[..i])
      invariant forall p, q :: 0 <= p < i <= q < a.Length ==> a[p].1 >= a[q].1
      invariant forall q :: j <= q < a.Length ==> a[j].1 >= a[q].1
    {
      if a[j - 1].1 < a[j].1 {
        ghost var before := a[..];
        a[j - 1], a[j] := a[j], a[j - 1];
        assert a[..] == before[j - 1 := before[j]][j := before[j - 1]];
        SwapKeepsTies(before, j);
      }
      j := j - 1;
    }
  }

  lemma KeepsTiesTrans(s: seq<Entry<string>>, m: seq<Entry<string>>, t: seq<Entry<string>>)
    requires KeepsTies(s, m) && KeepsTies(m, t)
    ensures KeepsTies(s, t)
  {
  }

  /** An order by decreasing count that keeps ties as `t` has them is the stable sort of `t`. */
  lemma TiesKeptSorted(s: seq<Entry<string>>, t: seq<Entry<string>>)
    requires NonIncreasing(s) && KeepsTies(s, t)
    ensures s == SortDesc(t)
  {
    forall c ensures OfCount(s, c) == OfCount(SortDesc(t), c) {
      SortDescStable(t, c);
    }
    StableSortUnique(s, SortDesc(t));
  }

  /** The nested loops swap neighbours only on a strict `<`: the result is ordered by
      decreasing count, a permutation of the input that keeps equal counts in their original
      order, which is exactly what the stable `SortDesc` computes. */
  method BubbleSort(a: array<Entry<string>>)
    modifies a
    ensures NonIncreasing(a[..])
    ensures KeepsTies(a[..], old(a[..]))
    ensures a[..] == SortDesc(old(a[..]))
  {
    ghost var a0 := a[..];
    var n := a.Length;
    var i := 0;
    while i < n
      invariant i <= n
      invariant KeepsTies(a[..], a0)
      invariant forall p, q :: 0 <= p < q < n && p < i ==> a[p].1 >= a[q].1
    {
      ghost var mid := a[..];
      BubbleUp(a, i);
      KeepsTiesTrans(a[..], mid, a0);
      i := i + 1;
    }
    TiesKeptSorted(a[..], a0);
  }

  /** The stop-word set as the program builds it from the stop-word line. */
  function StopSet(stopLine: string): (r: set<string>)
    ensures forall w :: w in r ==> forall j :: 0 <= j < |w| ==> IsAsciiAlpha(w[j])
    ensures forall w :: w in Split(stopLine, NonAlpha) && w != [] ==> w in r
    ensures forall w :: w in r ==> w in Split(stopLine, NonAlpha)
  {
    var ps := Split(stopLine, NonAlpha);
    var kept := DropEmptyLast(ps);
    assert forall w :: w in ps && w != [] ==> w in kept by {
      forall w | w in ps && w != [] ensures w in kept {
        var k :| 0 <= k < |ps| && ps[k] == w;
        if kept != ps {
          assert kept[k] == w;
        }
      }
    }
    ElementsOf(kept)
  }

  /** The whole program on a stop-word line and the input's lines: the rows printed are the
      first 25 of the counted words' list sorted stably by decreasing count (words of equal
      count in order of first occurrence), hence a correct top 25. */
  method Run(stopLine: string, lines: seq<string>) returns (rows: seq<Entry<string>>)
    ensures rows == Truncate(SortDesc(CountAll(CountedWords(lines, NonAlpha, StopSet(stopLine)))), 25)
    ensures IsTop(rows, Count(CountedWords(lines, NonAlpha, StopSet(stopLine))), 25)
  {
    var stop := ParseStopWords(stopLine);
    var S := ElementsOf(stop);
    var counter: Counter := [];
    var l := 0;
    while l < |lines|
      invariant l <= |lines|
      invariant counter == CountAll(CountedWords(lines[..l], NonAlpha, S))
    {
      counter := ScanLine(stop, counter, lines[l]);
      CountedWordsSnoc(lines, l, NonAlpha, S);
      AddAllAppend([], CountedWords(lines[..l], NonAlpha, S), KeepCountable(Tokens(lines[l], NonAlpha), S));
      l := l + 1;
    }
    assert lines[..l] == lines;
    var a := new Entry<string>[|counter|](k requires 0 <= k < |counter| => counter[k]);
    assert a[..] == counter;
    BubbleSort(a);
    rows := PrintRows(a[..], 25);
    ghost var words := CountedWords(lines, NonAlpha, S);
    CountAllEnumerates(words);
    TopOfTable(CountAll(words), Count(words), 25);
  }
}

=== FILE: week2_six.dfy ===
/** week2/six.rs, the "pipeline" style: a value is pushed through a chain of functions with
    the `|` operator, each stage taking the previous stage's result. */
module Week2Six {
  import opened Seqs
  import opened Text
  import opened Frequencies
  import opened Ranking

  /** `Value<V>`: the wrapper the `|` operator is defined on. */
  datatype Value<V> = Value(inner: V)

  /** `Value::v(x) | Pipe::f(f)`: apply the stage to the wrapped value and wrap the result. */
  function Pipe<I, O>(v: Value<I>, f: I -> O): (r: Value<O>)
    ensures r.inner == f(v.inner)
  {
    Value(f(v.inner))
  }

  /** A chain of two stages is the stage that runs them one after the other. */
  lemma PipeChain<A, B, C>(v: Value<A>, f: A -> B, g: B -> C)
    ensures Pipe(Pipe(v, f), g) == Pipe(v, x => g(f(x)))
    ensures Pipe(Pipe(v, f), g).inner == g(f(v.inner))
  {
  }

  /** Every piece of every line, cut at non-letters, empty pieces included. */
  method GetWords(lines: seq<string>) returns (words: seq<string>)
    ensures words == PiecesOfLines(lines, NonAlpha)
  {
    words := [];
    for l := 0 to |lines|
      invariant words == PiecesOfLines(lines[..l], NonAlpha)
    {
      PiecesOfLinesSnoc(lines, l, NonAlpha);
      words := words + Split(lines[l], NonAlpha);
    }
    assert lines[..|lines|] == lines;
  }

  /** Drop the words of at most one character and the stop words of the ','-separated stop
      line: what remains are the words at exactly the positions that pass, in order. */
  function Filter(words: seq<string>, stopLine: string): (r: seq<string>)
    ensures r == Without(words, Rejected(words, CommaStopWords(stopLine)))
    ensures forall i :: 0 <= i < |r| ==> |r[i]| > 1 && r[i] !in Split(stopLine, Exactly(','))
  {
    WithoutRejected(words, CommaStopWords(stopLine));
    KeepCountable(words, CommaStopWords(stopLine))
  }

  /** Count into a hash map and collect its entries. */
  method CountWords(words: seq<string>) returns (items: seq<Entry<string>>)
    ensures Enumerates(items, Count(words))
  {
    var counter := Tally(words);
    items := CollectEntries(counter);
  }

  /** The pipeline `get_words | lower | filter | count | sort | truncate_25`: the rows printed
      are a correct top 25 of the counted words. The stages that loop (`get_words`, `count`)
      and the library sort are methods; the others are piped as functions. */
  method Run(stopLine: string, lines: seq<string>) returns (rows: seq<Entry<string>>)
    ensures IsTop(rows, Count(CountedWords(lines, NonAlpha, CommaStopWords(stopLine))), 25)
  {
    var words := GetWords(lines);
    var filtered := Pipe(Pipe(Value(words), LowerAll), ws => Filter(ws, stopLine));
    PipeChain(Value(words), LowerAll, ws => Filter(ws, stopLine));
    var lowered := LowerAll(words);
    var kept := filtered.inner;
    var items := CountWords(kept);
    var sorted := SortByCount(items);
    rows := Pipe(Value(sorted), es => Truncate(es, 25)).inner;
    LowerPieces(lines, NonAlpha);
    WithoutRejected(lowered, CommaStopWords(stopLine));
    TopOfRanking(sorted, Count(kept), 25);
  }
}

=== FILE: week3_closed_maps.dfy ===
/** week3/13.js, the "closed maps" style: three objects, each a map of fields and functions
    (`data_storage`, `stop_words_obj`, `counter`), driven by a top-level loop. */
module Week3ClosedMaps {
  import opened Wrappers
  import opened Seqs
  import opened Text
  import opened Frequencies
  import opened Ranking
  import opened JsText

  const STOP_WORDS_PATH := "../stop_words.txt"

  /** Lower-casing keeps lengths, so it does not matter whether the length filter comes first. */
  lemma {:induction false} LowerAllKeepLong(ws: seq<string>)
    ensures LowerAll(KeepLong(ws)) == KeepLong(LowerAll(ws))
  {
    if ws != [] {
      var n := |ws| - 1;
      var w := ws[n];
      LowerAllKeepLong(ws[..n]);
      LowerAllAppend(KeepLong(ws[..n]), if |w| > 1 then [w] else []);
      assert LowerAll(ws)[..n] == LowerAll(ws[..n]);
    }
  }

  /** The words `words()` returns, once the stop words are taken out, are those the
      line-by-line variants count. */
  lemma WordsCounted(content: string, stop: set<string>)
    ensures KeepNonStop(LowerAll(KeepLong(Split(ReplaceRuns(content), Exactly(' ')))), stop) ==
      CountedWords(Lines(content), NonAlnum, stop)
  {
    var ps := Split(ReplaceRuns(content), Exactly(' '));
    LowerAllKeepLong(ps);
    LongThenNonStop(LowerAll(ps), stop);
    ReplacedCounted(content, stop);
    WholeTextCounted(content, NonAlnum, stop);
  }

  class DataStorage {
    var content: string

    constructor ()
      ensures content == ""
    {
      content := "";
    }

    /** `init(file)`: read the file; a missing file throws and leaves the content as it was. */
    method Init(file: string, fs: map<string, string>) returns (ok: bool)
      modifies this
      ensures ok <==> file in fs
      ensures content == if ok then fs[file] else old(content)
    {
      ok := file in fs;
      if ok {
        content := fs[file];
      }
    }

    /** `words()`: runs of other characters become one space, the text is cut at spaces, the
        pieces longer than one character are kept and lower-cased. The content is not changed. */
    function Words(): (r: seq<string>)
      reads this
      ensures forall i :: 0 <= i < |r| ==> |r[i]| > 1 && Lower(r[i]) == r[i]
    {
      var kept := KeepLong(Split(ReplaceRuns(content), Exactly(' ')));
      assert forall i :: 0 <= i < |kept| ==> Lower(Lower(kept[i])) == Lower(kept[i]) by {
        forall i | 0 <= i < |kept| ensures Lower(Lower(kept[i])) == Lower(kept[i]) {
          LowerIdempotent(kept[i]);
        }
      }
      LowerAll(kept)
    }
  }

  class StopWords {
    var words: set<string>

    constructor ()
      ensures words == {}
    {
      words := {};
    }

    /** `init()`: add every ','-separated piece of the stop-word file to the set; a missing
        file throws before anything is added. */
    method Init(fs: map<string, string>) returns (ok: bool)
      modifies this
      ensures ok <==> STOP_WORDS_PATH in fs
      ensures words == if ok then old(words) + CommaStopWords(fs[STOP_WORDS_PATH]) else old(words)
    {
      ok := STOP_WORDS_PATH in fs;
      if !ok {
        return;
      }
      var pieces := Split(fs[STOP_WORDS_PATH], Exactly(','));
      ghost var before := words;
      for i := 0 to |pieces|
        invariant words == before + ElementsOf(pieces[..i])
      {
        assert pieces[..i + 1] == pieces[..i] + [pieces[i]];
        words := words + {pieces[i]};
      }
      assert pieces[..|pieces|] == pieces;
    }

    /** `is_stop_words(word)`. */
    predicate IsStopWord(word: string)
      reads this
    {
      word in words
    }
  }

  class Counter {
    var counter: Table<string>

    constructor ()
      ensures counter == map[]
    {
      counter := map[];
    }

    /** `count(word)`: `counter[word] = 1 + (counter[word] || 0)`, on a counter whose lookups
        see only the words counted so far: that word goes up by one (from nothing to 1), every
        other word keeps its count. */
    method CountWord(word: string)
      modifies this
      ensures counter == Incr(old(counter), word)
    {
      counter := counter[word := 1 + (if word in counter then counter[word] else 0)];
    }

    /** `top(limit)`: the entries, sorted by decreasing count, cut to `limit`. The result is a
        correct top `limit` of the counter, and the counter is not changed. */
    method Top(limit: nat) returns (entries: seq<Entry<string>>)
      ensures IsTop(entries, counter, limit)
    {
      var all := CollectEntries(counter);
      var sorted := SortByCount(all);
      entries := sorted;
      if |entries| > limit {
        entries := entries[..limit];
      }
      TopOfRanking(sorted, counter, limit);
    }
  }

  /** The loop of the script: every word that is not a stop word is counted, in order. */
  method CountNonStopWords(words: seq<string>, stopWordsObj: StopWords, counter: Counter)
    modifies counter
    requires counter.counter == map[]
    ensures counter.counter == Count(KeepNonStop(words, stopWordsObj.words))
  {
    var stop := stopWordsObj.words;
    for i := 0 to |words|
      invariant counter.counter == Count(KeepNonStop(words[..i], stop))
    {
      KeepNonStopSnoc(words, i, stop);
      if !stopWordsObj.IsStopWord(words[i]) {
        CountSnoc(KeepNonStop(words[..i], stop), words[i]);
        counter.CountWord(words[i]);
      } else {
        AppendEmpty(KeepNonStop(words[..i], stop));
      }
    }
    assert words[..|words|] == words;
  }

  /** The script: `init` both objects, count every word that is not a stop word, print the
      top 25. A missing file (or argument) throws. */
  method Run(argv: seq<string>, fs: map<string, string>) returns (out: Outcome<seq<Entry<string>>>)
    ensures out.Done? <==> |argv| >= 3 && argv[2] in fs && STOP_WORDS_PATH in fs
    ensures out.Done? ==>
      IsTop(out.value, Count(CountedWords(Lines(fs[argv[2]]), NonAlnum, CommaStopWords(fs[STOP_WORDS_PATH]))), 25)
  {
    if |argv| < 3 {
      return Panic("TypeError: The \"path\" argument must be of type string");
    }
    var dataStorage := new DataStorage();
    var read := dataStorage.Init(argv[2], fs);
    if !read {
      return Panic("ENOENT: no such file or directory");
    }
    var stopWordsObj := new StopWords();
    read := stopWordsObj.Init(fs);
    if !read {
      return Panic("ENOENT: no such file or directory");
    }
    var counter := new Counter();
    var words := dataStorage.Words();
    CountNonStopWords(words, stopWordsObj, counter);
    WordsCounted(fs[argv[2]], stopWordsObj.words);
    var rows := counter.Top(25);
    out := Done(rows);
  }
}

=== FILE: week3_letterbox.dfy ===
/** week3/12-1.rs, the "letterbox" style: each manager is an object with a single `dispatch`
    procedure taking a (command, argument) message; the controller owns the other three and
    forwards messages to them. Files are read from `fs`, a map from path to contents. */
module Week3Letterbox {
  import opened Wrappers
  import opened Seqs
  import opened Text
  import opened Frequencies
  import opened Ranking
  import Decimal

  const STOP_WORDS_PATH: string := "../stop_words.txt"

  /** The stop words: every line of the stop-word file cut at ','. */
  function StopWordsOfFile(content: string): set<string>
  {
    ElementsOf(PiecesOfLines(Lines(content), Exactly(',')))
  }

  /** Keeps the words of the input file. */
  class DataStorageManager {
    var words: seq<string>

    constructor ()
      ensures words == []
    {
      words := [];
    }

    /** `init`: read the file line by line and append the stored words of each line. */
    method Init(file: string, fs: map<string, string>) returns (ok: bool)
      modifies this
      ensures ok <==> file in fs
      ensures ok ==> words == old(words) + StoredWords(fs[file])
    {
      if file !in fs {
        return false;
      }
      AppendLines(Lines(fs[file]));
      return true;
    }

    /** The loop over the lines of the file. */
    method AppendLines(lines: seq<string>)
      modifies this
      ensures words == old(words) + KeepLong(TokensOfLines(lines, NonAlpha))
    {
      ghost var w0 := words;
      for l := 0 to |lines|
        invariant words == w0 + KeepLong(TokensOfLines(lines[..l], NonAlpha))
      {
        StoredWordsSnoc(lines, l);
        AppendAssoc(w0, KeepLong(TokensOfLines(lines[..l], NonAlpha)), KeepLong(Tokens(lines[l], NonAlpha)));
        words := words + KeepLong(Tokens(lines[l], NonAlpha));
      }
      assert lines[..|lines|] == lines;
    }

    /** "init" initialises and answers an empty list; "words" hands out a copy of the list and
        changes nothing; any other command panics. */
    method Dispatch(command: string, file: string, fs: map<string, string>)
      returns (out: Outcome<seq<string>>)
      modifies this
      ensures command == "init" && file in fs ==>
        out == Done([]) && words == old(words) + StoredWords(fs[file])
      ensures command == "init" && file !in fs ==> out.Panic?
      ensures command == "words" ==> out == Done(old(words)) && words == old(words)
      ensures command != "init" && command != "words" ==> out.Panic? && words == old(words)
    {
      if command == "init" {
        var ok := Init(file, fs);
        if !ok {
          return Panic("cannot open " + file);
        }
        out := Done([]);
      } else if command == "words" {
        out := Done(words);
      } else {
        out := Panic("unknown command: " + command);
      }
    }
  }

  /** Keeps the set of stop words. */
  class StopWordsManager {
    var stopWords: set<string>

    constructor ()
      ensures stopWords == {}
    {
      stopWords := {};
    }

    /** "init" adds the stop words of the stop-word file and answers true; "is_stop_word"
        answers membership; any other command panics. */
    method Dispatch(command: string, word: string, fs: map<string, string>)
      returns (out: Outcome<bool>)
      modifies this
      ensures command == "init" && STOP_WORDS_PATH in fs ==>
        out == Done(true) && stopWords == old(stopWords) + StopWordsOfFile(fs[STOP_WORDS_PATH])
      ensures command == "init" && STOP_WORDS_PATH !in fs ==> out.Panic?
      ensures command == "is_stop_word" ==>
        out == Done(word in stopWords) && stopWords == old(stopWords)
      ensures command != "init" && command != "is_stop_word" ==>
        out.Panic? && stopWords == old(stopWords)
    {
      if command == "init" {
        if STOP_WORDS_PATH !in fs {
          return Panic("cannot open " + STOP_WORDS_PATH);
        }
        var lines := Lines(fs[STOP_WORDS_PATH]);
        for l := 0 to |lines|
          invariant stopWords == old(stopWords) + ElementsOf(PiecesOfLines(lines[..l], Exactly(',')))
        {
          PiecesOfLinesSnoc(lines, l, Exactly(','));
          stopWords := stopWords + ElementsOf(Split(lines[l], Exactly(',')));
        }
        assert lines[..|lines|] == lines;
        out := Done(true);
      } else if command == "is_stop_word" {
        out := Done(word in stopWords);
      } else {
        out := Panic("unknown command: " + command);
      }
    }
  }

  /** Keeps the word counts. */
  class WordFrequencyManager {
    var counter: Table<string>

    constructor ()
      ensures counter == map[]
    {
      counter := map[];
    }

    /** "incr" adds one to the word's count and answers nothing; "top" answers the first n
        entries by decreasing count, where n is the argument read as a `usize` (a panic when
        it is not one); any other command panics. */
    method Dispatch(command: string, arg: string) returns (out: Outcome<seq<Entry<string>>>)
      modifies this
      ensures command == "incr" ==> out == Done([]) && counter == Incr(old(counter), arg)
      ensures command == "top" && Decimal.Parse(arg).Some? ==>
        out.Done? && IsTop(out.value, counter, Decimal.Parse(arg).value)
      ensures command == "top" && Decimal.Parse(arg).None? ==> out.Panic?
      ensures command != "incr" ==> counter == old(counter)
      ensures command != "incr" && command != "top" ==> out.Panic?
    {
      if command == "incr" {
        counter := Incr(counter, arg);
        out := Done([]);
      } else if command == "top" {
        var entries := CollectEntries(counter);
        var sorted := SortByCount(entries);
        match Decimal.Parse(arg)
        case None =>
          out := Panic("cannot parse " + arg);
        case Some(n) =>
          TopOfRanking(sorted, counter, n);
          out := Done(Truncate(sorted, n));
      } else {
        out := Panic("unknown command: " + command);
      }
    }
  }

  /** Owns the three managers, absent until "init". */
  class WordFrequencyController {
    var data: DataStorageManager?
    var stopWords: StopWordsManager?
    var counter: WordFrequencyManager?

    constructor ()
      ensures data == null && stopWords == null && counter == null
    {
      data := null;
      stopWords := null;
      counter := null;
    }

    /** The managers are created together. */
    ghost predicate Valid()
      reads this
    {
      (data == null) == (stopWords == null) && (stopWords == null) == (counter == null)
    }

    /** "init" replaces the three managers by fresh ones and initialises the data and
        stop-word managers (an earlier run's counts are gone); "run" sends every stored word
        that is not a stop word to the counter, in stored order, and answers the counter's
        top 25; "run" before "init" panics, and so does any other command. */
    method Dispatch(command: string, file: string, fs: map<string, string>)
      returns (out: Outcome<seq<Entry<string>>>)
      requires Valid()
      modifies this, data, stopWords, counter
      ensures out.Done? ==> Valid()
      ensures command == "init" && file in fs && STOP_WORDS_PATH in fs ==>
        && out == Done([])
        && data != null && fresh(data) && data.words == StoredWords(fs[file])
        && stopWords != null && fresh(stopWords)
        && stopWords.stopWords == StopWordsOfFile(fs[STOP_WORDS_PATH])
        && counter != null && fresh(counter) && counter.counter == map[]
      ensures command == "init" && !(file in fs && STOP_WORDS_PATH in fs) ==> out.Panic?
      ensures command == "run" && old(data) == null ==> out.Panic?
      ensures command == "run" && old(data) != null ==>
        && data == old(data) && stopWords == old(stopWords) && counter == old(counter)
        && data.words == old(data.words) && stopWords.stopWords == old(stopWords.stopWords)
        && counter.counter ==
             CountFrom(old(counter.counter), KeepNonStop(data.words, stopWords.stopWords))
        && out.Done? && IsTop(out.value, counter.counter, 25)
      ensures command != "init" && command != "run" ==> out.Panic?
    {
      if command == "init" {
        out := Init(file, fs);
      } else if command == "run" {
        if data == null {
          return Panic("called `Option::unwrap()` on a `None` value");
        }
        out := Run(fs);
      } else {
        out := Panic("unknown command: " + command);
      }
    }

    /** The "init" command: fresh managers, then "init" to the data and stop-word managers. */
    method Init(file: string, fs: map<string, string>) returns (out: Outcome<seq<Entry<string>>>)
      modifies this
      ensures out.Done? ==> Valid()
      ensures file in fs && STOP_WORDS_PATH in fs ==>
        && out == Done([])
        && data != null && fresh(data) && data.words == StoredWords(fs[file])
        && stopWords != null && fresh(stopWords)
        && stopWords.stopWords == StopWordsOfFile(fs[STOP_WORDS_PATH])
        && counter != null && fresh(counter) && counter.counter == map[]
      ensures !(file in fs && STOP_WORDS_PATH in fs) ==> out.Panic?
    {
      KnownCommands();
      data := new DataStorageManager();
      stopWords := new StopWordsManager();
      counter := new WordFrequencyManager();
      var r1 := data.Dispatch("init", file, fs);
      if r1.Panic? {
        return Panic(r1.reason);
      }
      AppendEmpty(StoredWords(fs[file]));
      var r2 := stopWords.Dispatch("init", "", fs);
      if r2.Panic? {
        return Panic(r2.reason);
      }
      out := Done([]);
    }

    /** The "run" command on initialised managers. */
    method Run(fs: map<string, string>) returns (out: Outcome<seq<Entry<string>>>)
      requires data != null && stopWords != null && counter != null
      modifies data, stopWords, counter
      ensures data.words == old(data.words)
      ensures stopWords.stopWords == old(stopWords.stopWords)
      ensures counter.counter == CountFrom(old(counter.counter), KeepNonStop(data.words, stopWords.stopWords))
      ensures out.Done? && IsTop(out.value, counter.counter, 25)
    {
      var got := data.Dispatch("words", "", fs);
      CountNonStop(got.value, fs);
      ParseTwentyFive();
      out := counter.Dispatch("top", "25");
    }

    /** Ask the stop-word manager about every word, in order, and send each word that is not a
        stop word to the counter. */
    method CountNonStop(words: seq<string>, fs: map<string, string>)
      requires stopWords != null && counter != null
      modifies stopWords, counter
      ensures stopWords.stopWords == old(stopWords.stopWords)
      ensures counter.counter == CountFrom(old(counter.counter), KeepNonStop(words, stopWords.stopWords))
    {
      ghost var c0 := counter.counter;
      ghost var S := stopWords.stopWords;
      for i := 0 to |words|
        invariant stopWords.stopWords == S
        invariant counter.counter == CountFrom(c0, KeepNonStop(words[..i], S))
      {
        var isStop := stopWords.Dispatch("is_stop_word", words[i], fs);
        KeepNonStopSnoc(words, i, S);
        if !isStop.value {
          CountFromSnoc(c0, KeepNonStop(words[..i], S), words[i]);
          var _ := counter.Dispatch("incr", words[i]);
        } else {
          assert KeepNonStop(words[..i], S) + [] == KeepNonStop(words[..i], S);
        }
      }
      assert words[..|words|] == words;
    }
  }

  /** The command strings used here are pairwise different. */
  lemma KnownCommands()
    ensures "init" != "words" && "init" != "is_stop_word" && "init" != "run"
    ensures "words" != "is_stop_word" && "incr" != "top"
  {
    assert "init"[1] != "words"[1];
    assert "init"[1] != "is_stop_word"[1];
    assert "init"[0] != "run"[0];
    assert "words"[0] != "is_stop_word"[0];
    assert "incr"[0] != "top"[0];
  }

  lemma ParseTwentyFive()
    ensures Decimal.Parse("25") == Some(25)
  {
    Decimal.ParseShow(25);
    assert Decimal.Show(25) == "25";
  }

  /** `main`: the file named by the first argument ("No file provided." when there is none),
      then "init" and "run". On success the rows are a correct top 25 of the words longer than
      one letter that are not stop words. */
  method Start(args: seq<string>, fs: map<string, string>) returns (out: Outcome<seq<Entry<string>>>)
    ensures |args| < 2 ==> out.Panic?
    ensures |args| >= 2 && !(args[1] in fs && STOP_WORDS_PATH in fs) ==> out.Panic?
    ensures |args| >= 2 && args[1] in fs && STOP_WORDS_PATH in fs ==>
      out.Done? &&
      IsTop(out.value, Count(CountedWords(Lines(fs[args[1]]), NonAlpha,
                                          StopWordsOfFile(fs[STOP_WORDS_PATH]))), 25)
  {
    var controller := new WordFrequencyController();
    if |args| < 2 {
      return Panic("No file provided.");
    }
    var file := args[1];
    var r := controller.Dispatch("init", file, fs);
    if r.Panic? {
      return r;
    }
    out := controller.Dispatch("run", "", fs);
    ghost var ws := TokensOfLines(Lines(fs[file]), NonAlpha);
    ghost var S := StopWordsOfFile(fs[STOP_WORDS_PATH]);
    LongThenNonStop(ws, S);
    CountFromEmpty(KeepNonStop(KeepLong(ws), S));
  }
}

=== FILE: week3_pubsub.dfy ===
/** week3/16.rs, the publish/subscribe style: an event manager keeps, per event kind, the list
    of handlers that subscribed to it, and publishing an event calls each of them in turn. The
    handlers (application, data storage, stop-word filter, word counter, z-word counter) react
    by publishing further events. The five handler objects share one object here, a bulletin
    board whose fields are the handlers' cells; a handler is named by a tag. */
module Week3PubSub {
  import opened Wrappers
  import opened Seqs
  import opened Text
  import opened Frequencies
  import opened Ranking

  const STOP_WORDS_PATH: string := "../stop_words.txt"

  datatype EventKind = RunKind | LoadKind | StartKind | WordKind | ValidWordKind | EofKind | PrintKind

  datatype Event =
    | Run(filename: string)
    | Load(filename: string)
    | Start
    | Word(word: string)
    | ValidWord(word: string)
    | Eof
    | Print

  /** `Event::kind`: each event's variant has the kind of the same name. */
  function Kind(e: Event): (k: EventKind)
    ensures k == RunKind <==> e.Run?
    ensures k == LoadKind <==> e.Load?
    ensures k == StartKind <==> e.Start?
    ensures k == WordKind <==> e.Word?
    ensures k == ValidWordKind <==> e.ValidWord?
    ensures k == EofKind <==> e.Eof?
    ensures k == PrintKind <==> e.Print?
  {
    match e
    case Run(_) => RunKind
    case Load(_) => LoadKind
    case Start => StartKind
    case Word(_) => WordKind
    case ValidWord(_) => ValidWordKind
    case Eof => EofKind
    case Print => PrintKind
  }

  datatype Handler = Application | DataStorage | StopWordsFilter | WordCounter | ZWordHolic

  /** The kinds a handler's `handle` has a branch for; any other event makes it panic. */
  predicate Accepts(h: Handler, k: EventKind)
  {
    match h
    case Application => k == RunKind || k == EofKind
    case DataStorage => k == LoadKind || k == StartKind
    case StopWordsFilter => k == LoadKind || k == WordKind
    case WordCounter => k == ValidWordKind || k == PrintKind
    case ZWordHolic => k == ValidWordKind || k == PrintKind
  }

  /** How far an event is from the end of the cascade it starts: handling an event publishes
      only events of smaller rank, so every cascade ends. */
  function Rank(e: Event): nat
  {
    match e
    case Run(_) => 3
    case Start => 2
    case Eof => 1
    case Word(_) => 1
    case _ => 0
  }

  /** What the program prints: the ranked rows of the word counter and the z-word count. */
  datatype Report = TopWords(rows: seq<Entry<string>>) | ZWordTotal(count: nat)

  /** The state of all handlers together. */
  datatype Board = Board(words: seq<string>, stopWords: set<string>, counter: Table<string>,
                         zwords: nat, printed: seq<Report>)

  function ZOf(w: string): nat { if 'z' in w then 1 else 0 }

  /** The number of words that contain a 'z'. */
  function ZWords(ws: seq<string>): (n: nat)
    ensures n <= |ws|
  {
    if ws == [] then 0 else ZWords(ws[..|ws| - 1]) + ZOf(ws[|ws| - 1])
  }

  function ZPositions(ws: seq<string>): set<nat>
  {
    set i: nat | i < |ws| && 'z' in ws[i]
  }

  /** `ZWords` counts the positions holding a word with a 'z'. */
  lemma {:induction false} ZWordsCountsPositions(ws: seq<string>)
    ensures ZWords(ws) == |ZPositions(ws)|
  {
    if ws != [] {
      var n := |ws| - 1;
      ZWordsCountsPositions(ws[..n]);
      var before := ZPositions(ws[..n]);
      if 'z' in ws[n] {
        assert ZPositions(ws) == before + {n};
      } else {
        assert ZPositions(ws) == before;
      }
    }
  }

  lemma ZWordsSnoc(ws: seq<string>, i: nat)
    requires i < |ws|
    ensures ZWords(ws[..i + 1]) == ZWords(ws[..i]) + ZOf(ws[i])
  {
    assert ws[..i + 1][..i] == ws[..i];
  }

  /** One more valid word: its count and, when it holds a 'z', the z-word count go up. */
  function Counted(s: Board, w: string): (r: Board)
    ensures w in r.counter && r.counter[w] == Get(s.counter, w) + 1
    ensures r.zwords == s.zwords + (if 'z' in w then 1 else 0)
    ensures r.(counter := s.counter, zwords := s.zwords) == s
  {
    s.(counter := Incr(s.counter, w), zwords := s.zwords + ZOf(w))
  }

  /** The state after the words `ws` were published one by one: the ones that are not stop
      words are counted. */
  function CountedOver(s: Board, ws: seq<string>): Board
  {
    var valid := KeepNonStop(ws, s.stopWords);
    s.(counter := CountFrom(s.counter, valid), zwords := s.zwords + ZWords(valid))
  }

  lemma CountedOverSnoc(s: Board, ws: seq<string>, i: nat)
    requires i < |ws|
    ensures CountedOver(s, ws[..i + 1]) ==
      if ws[i] in s.stopWords then CountedOver(s, ws[..i]) else Counted(CountedOver(s, ws[..i]), ws[i])
  {
    var v := KeepNonStop(ws[..i], s.stopWords);
    KeepNonStopSnoc(ws, i, s.stopWords);
    if ws[i] in s.stopWords {
      assert v + [] == v;
    } else {
      CountFromSnoc(s.counter, v, ws[i]);
      assert (v + [ws[i]])[..|v|] == v;
    }
  }

  /** The state after a file and the stop-word file were loaded. */
  function Loaded(s: Board, f: string, fs: map<string, string>): Board
    requires f in fs && STOP_WORDS_PATH in fs
  {
    s.(words := s.words + StoredWords(fs[f]),
       stopWords := s.stopWords + CommaStopWords(fs[STOP_WORDS_PATH]))
  }

  /** The word counter's report was printed: a top 25 of its table. */
  ghost predicate RankedOnce(s0: Board, s1: Board)
  {
    && s1.(printed := s0.printed) == s0
    && |s1.printed| == |s0.printed| + 1 && s1.printed[..|s0.printed|] == s0.printed
    && s1.printed[|s0.printed|].TopWords?
    && IsTop(s1.printed[|s0.printed|].rows, s0.counter, 25)
  }

  /** Both reports were printed, the word counter's first and then the z-word count. */
  ghost predicate Reported(s0: Board, s1: Board)
  {
    && s1.(printed := s0.printed) == s0
    && |s1.printed| == |s0.printed| + 2 && s1.printed[..|s0.printed|] == s0.printed
    && s1.printed[|s0.printed|].TopWords?
    && IsTop(s1.printed[|s0.printed|].rows, s0.counter, 25)
    && s1.printed[|s0.printed| + 1] == ZWordTotal(s0.zwords)
  }

  /** What one handler may need to find in the file system to finish without a panic. */
  predicate HandleNeeds(h: Handler, e: Event, fs: map<string, string>)
  {
    match e
    case Run(f) => f in fs && STOP_WORDS_PATH in fs
    case Load(f) => if h == DataStorage then f in fs else STOP_WORDS_PATH in fs
    case _ => true
  }

  /** What one handler does with an event it accepts, when the board is wired as in `main`. */
  ghost predicate HandleEffect(h: Handler, e: Event, s0: Board, s1: Board, fs: map<string, string>)
  {
    match e
    case Run(f) => f in fs && STOP_WORDS_PATH in fs && Reported(CountedOver(Loaded(s0, f, fs), Loaded(s0, f, fs).words), s1)
    case Load(f) =>
      if h == DataStorage then f in fs && s1 == s0.(words := s0.words + StoredWords(fs[f]))
      else STOP_WORDS_PATH in fs && s1 == s0.(stopWords := s0.stopWords + CommaStopWords(fs[STOP_WORDS_PATH]))
    case Start => Reported(CountedOver(s0, s0.words), s1)
    case Word(w) => s1 == if w in s0.stopWords then s0 else Counted(s0, w)
    case ValidWord(w) =>
      if h == WordCounter then s1 == s0.(counter := Incr(s0.counter, w))
      else s1 == s0.(zwords := s0.zwords + ZOf(w))
    case Eof => Reported(s0, s1)
    case Print =>
      if h == WordCounter then RankedOnce(s0, s1)
      else s1 == s0.(printed := s0.printed + [ZWordTotal(s0.zwords)])
  }

  /** Publishing `e` needs these files to finish without a panic. */
  predicate Needs(e: Event, fs: map<string, string>)
  {
    match e
    case Run(f) => f in fs && STOP_WORDS_PATH in fs
    case Load(f) => f in fs && STOP_WORDS_PATH in fs
    case _ => true
  }

  /** What publishing `e` does, the whole cascade included, when the board is wired as in
      `main`: loading reads both files; every stored word is published, and counted when it is
      no stop word; the end of the words makes both reports print. */
  ghost predicate Effect(e: Event, s0: Board, s1: Board, fs: map<string, string>)
  {
    match e
    case Run(f) => f in fs && STOP_WORDS_PATH in fs && Reported(CountedOver(Loaded(s0, f, fs), Loaded(s0, f, fs).words), s1)
    case Load(f) => f in fs && STOP_WORDS_PATH in fs && s1 == Loaded(s0, f, fs)
    case Start => Reported(CountedOver(s0, s0.words), s1)
    case Word(w) => s1 == if w in s0.stopWords then s0 else Counted(s0, w)
    case ValidWord(w) => s1 == Counted(s0, w)
    case Eof => Reported(s0, s1)
    case Print => Reported(s0, s1)
  }

  /** After the first of two handlers of `e`'s kind. */
  ghost predicate Midway(e: Event, s0: Board, s1: Board, fs: map<string, string>)
  {
    match e
    case Load(f) => f in fs && s1 == s0.(words := s0.words + StoredWords(fs[f]))
    case ValidWord(w) => s1 == s0.(counter := Incr(s0.counter, w))
    case Print => RankedOnce(s0, s1)
    case _ => false
  }

  /** The subscriptions `main` makes, handler by handler, in the order the handlers are built:
      data storage, application, stop-word filter, word counter, z-word counter. */
  function Wiring(): map<EventKind, seq<Handler>>
  {
    map[LoadKind := [DataStorage, StopWordsFilter], StartKind := [DataStorage],
        RunKind := [Application], EofKind := [Application], WordKind := [StopWordsFilter],
        ValidWordKind := [WordCounter, ZWordHolic], PrintKind := [WordCounter, ZWordHolic]]
  }

  /** `handlers.get(kind)`, with no entry read as no handlers. */
  function Subscribers(m: map<EventKind, seq<Handler>>, k: EventKind): seq<Handler>
  {
    if k in m then m[k] else []
  }

  /** `entry(k).or_default().push(h)`: `h` goes at the end of the list of kind `k`; no other
      list changes. */
  function Subscribed(m: map<EventKind, seq<Handler>>, k: EventKind, h: Handler)
    : map<EventKind, seq<Handler>>
  {
    m[k := if k in m then m[k] + [h] else [h]]
  }

  /** The handlers of each kind in the wiring, kind by kind. */
  function HandlersOf(k: EventKind): seq<Handler>
  {
    match k
    case LoadKind => [DataStorage, StopWordsFilter]
    case StartKind => [DataStorage]
    case RunKind => [Application]
    case EofKind => [Application]
    case WordKind => [StopWordsFilter]
    case ValidWordKind => [WordCounter, ZWordHolic]
    case PrintKind => [WordCounter, ZWordHolic]
  }

  /** Every kind has one or two handlers in the wiring, and each of them accepts the kind. */
  lemma WiringShape(k: EventKind)
    ensures Subscribers(Wiring(), k) == HandlersOf(k)
    ensures 1 <= |HandlersOf(k)| <= 2
    ensures forall i :: 0 <= i < |HandlersOf(k)| ==> Accepts(HandlersOf(k)[i], k)
  {
  }

  class Bulletin {
    /** The event manager's `handlers`. */
    var handlers: map<EventKind, seq<Handler>>
    /** `DataStorage::words`. */
    var words: seq<string>
    /** `StopWordsFilter::stop_words`. */
    var stopWords: set<string>
    /** `WordCounter::counter`. */
    var counter: Table<string>
    /** `ZWordHolic::zwords_count`. */
    var zwordsCount: nat
    /** Everything printed so far. */
    var printed: seq<Report>

    ghost function State(): Board
      reads this
    {
      Board(words, stopWords, counter, zwordsCount, printed)
    }

    ghost predicate Wired()
      reads this
    {
      handlers == Wiring()
    }

    constructor ()
      ensures handlers == map[] && State() == Board([], {}, map[], 0, [])
    {
      handlers := map[];
      words, stopWords, counter, zwordsCount, printed := [], {}, map[], 0, [];
    }

    /** `subscribe`: the handler goes at the end of its kind's list; no other list changes. */
    method Subscribe(k: EventKind, h: Handler)
      modifies this
      ensures handlers == Subscribed(old(handlers), k, h)
      ensures handlers.Keys == old(handlers).Keys + {k}
      ensures handlers[k] == Subscribers(old(handlers), k) + [h]
      ensures forall j :: j in old(handlers) && j != k ==> handlers[j] == old(handlers)[j]
      ensures State() == old(State())
    {
      if k in handlers {
        handlers := handlers[k := handlers[k] + [h]];
      } else {
        assert [] + [h] == [h];
        handlers := handlers[k := [h]];
      }
    }

    /** `publish`: each handler subscribed to the event's kind handles it, in subscription
        order; a panic ends everything. With no subscribers nothing happens. */
    method Publish(e: Event, fs: map<string, string>) returns (r: Outcome<()>)
      modifies this
      decreases Rank(e), 3
      ensures handlers == old(handlers)
      ensures Subscribers(handlers, Kind(e)) == [] ==> r.Done? && State() == old(State())
      ensures Wired() ==> (r.Done? <==> Needs(e, fs))
      ensures Wired() && r.Done? ==> Effect(e, old(State()), State(), fs)
    {
      var hs := Subscribers(handlers, Kind(e));
      ghost var s0 := State();
      if Wired() {
        WiringShape(Kind(e));
      }
      r := Done(());
      for i := 0 to |hs|
        invariant r.Done? && handlers == old(handlers)
        invariant i == 0 ==> State() == s0
        invariant Wired() && 0 < i < |hs| ==> Midway(e, s0, State(), fs)
        invariant Wired() && 0 < i && i == |hs| ==> Effect(e, s0, State(), fs) && Needs(e, fs)
      {
        ghost var s := State();
        r := Handle(hs[i], e, fs);
        if r.Panic? {
          if Wired() {
            PanicCause(e, i, fs);
          }
          return;
        }
        if Wired() {
          Advance(e, i, s0, s, State(), fs);
        }
      }
    }

    /** `handle` of each handler. An event kind the handler did not subscribe to panics. */
    method Handle(h: Handler, e: Event, fs: map<string, string>) returns (r: Outcome<()>)
      modifies this
      decreases Rank(e), 2
      ensures handlers == old(handlers)
      ensures !Accepts(h, Kind(e)) ==> r.Panic? && State() == old(State())
      ensures Wired() && Accepts(h, Kind(e)) ==> (r.Done? <==> HandleNeeds(h, e, fs))
      ensures Wired() && Accepts(h, Kind(e)) && r.Done? ==> HandleEffect(h, e, old(State()), State(), fs)
    {
      match h
      case Application => r := HandleApplication(e, fs);
      case DataStorage => r := HandleDataStorage(e, fs);
      case StopWordsFilter => r := HandleStopWordsFilter(e, fs);
      case WordCounter => r := HandleWordCounter(e);
      case ZWordHolic => r := HandleZWordHolic(e);
    }

    /** `Run` publishes `Load` and then `Start`; `Eof` publishes `Print`. */
    method HandleApplication(e: Event, fs: map<string, string>) returns (r: Outcome<()>)
      modifies this
      decreases Rank(e), 1
      ensures handlers == old(handlers)
      ensures !Accepts(Application, Kind(e)) ==> r.Panic? && State() == old(State())
      ensures Wired() && Accepts(Application, Kind(e)) ==> (r.Done? <==> HandleNeeds(Application, e, fs))
      ensures Wired() && Accepts(Application, Kind(e)) && r.Done? ==>
        HandleEffect(Application, e, old(State()), State(), fs)
    {
      if e.Run? {
        r := Publish(Load(e.filename), fs);
        if r.Panic? {
          return;
        }
        r := Publish(Start, fs);
      } else if e.Eof? {
        r := Publish(Print, fs);
      } else {
        r := Panic("Unregistered event");
      }
    }

    /** `Load` reads the words of the file; `Start` publishes them. */
    method HandleDataStorage(e: Event, fs: map<string, string>) returns (r: Outcome<()>)
      modifies this
      decreases Rank(e), 1
      ensures handlers == old(handlers)
      ensures !Accepts(DataStorage, Kind(e)) ==> r.Panic? && State() == old(State())
      ensures Wired() && Accepts(DataStorage, Kind(e)) ==> (r.Done? <==> HandleNeeds(DataStorage, e, fs))
      ensures Wired() && Accepts(DataStorage, Kind(e)) && r.Done? ==>
        HandleEffect(DataStorage, e, old(State()), State(), fs)
    {
      if e.Load? {
        r := LoadWords(e.filename, fs);
      } else if e.Start? {
        r := PublishWords(fs);
      } else {
        r := Panic("Unregistered event");
      }
    }

    /** `Load` reads the stop-word file whole and adds its pieces cut at ','; `Word` passes
        the word on as a `ValidWord` when it is no stop word. */
    method HandleStopWordsFilter(e: Event, fs: map<string, string>) returns (r: Outcome<()>)
      modifies this
      decreases Rank(e), 1
      ensures handlers == old(handlers)
      ensures !Accepts(StopWordsFilter, Kind(e)) ==> r.Panic? && State() == old(State())
      ensures Wired() && Accepts(StopWordsFilter, Kind(e)) ==> (r.Done? <==> HandleNeeds(StopWordsFilter, e, fs))
      ensures Wired() && Accepts(StopWordsFilter, Kind(e)) && r.Done? ==>
        HandleEffect(StopWordsFilter, e, old(State()), State(), fs)
    {
      if e.Load? {
        if STOP_WORDS_PATH !in fs {
          return Panic("failed to open stop words file.");
        }
        stopWords := stopWords + CommaStopWords(fs[STOP_WORDS_PATH]);
        r := Done(());
      } else if e.Word? {
        r := Done(());
        if e.word !in stopWords {
          r := Publish(ValidWord(e.word), fs);
        }
      } else {
        r := Panic("Unregistered event");
      }
    }

    /** `ValidWord` counts the word; `Print` prints the 25 most frequent entries. */
    method HandleWordCounter(e: Event) returns (r: Outcome<()>)
      modifies this
      ensures handlers == old(handlers)
      ensures !Accepts(WordCounter, Kind(e)) ==> r.Panic? && State() == old(State())
      ensures Accepts(WordCounter, Kind(e)) ==>
        r.Done? && HandleEffect(WordCounter, e, old(State()), State(), map[])
    {
      if e.ValidWord? {
        counter := Incr(counter, e.word);
        r := Done(());
      } else if e.Print? {
        PrintTop();
        r := Done(());
      } else {
        r := Panic("Unregistered event");
      }
    }

    /** The word counter's `Print`: list the entries of the table, sort them by decreasing
        count, keep the first 25 and print them. */
    method PrintTop()
      modifies this
      ensures handlers == old(handlers)
      ensures RankedOnce(old(State()), State())
    {
      var entries := CollectEntries(counter);
      var sorted := SortByCount(entries);
      SortRanks(entries, counter);
      TopOfRanking(sorted, counter, 25);
      printed := printed + [TopWords(Truncate(sorted, 25))];
    }

    /** `ValidWord` counts the word when it contains a 'z'; `Print` prints that count. */
    method HandleZWordHolic(e: Event) returns (r: Outcome<()>)
      modifies this
      ensures handlers == old(handlers)
      ensures !Accepts(ZWordHolic, Kind(e)) ==> r.Panic? && State() == old(State())
      ensures Accepts(ZWordHolic, Kind(e)) ==>
        r.Done? && HandleEffect(ZWordHolic, e, old(State()), State(), map[])
    {
      if e.ValidWord? {
        if 'z' in e.word {
          zwordsCount := zwordsCount + 1;
        }
        r := Done(());
      } else if e.Print? {
        printed := printed + [ZWordTotal(zwordsCount)];
        r := Done(());
      } else {
        r := Panic("Unregistered event");
      }
    }

    /** The data storage's `Load`: open the file (a panic when it is missing) and append the
        stored words of every line. */
    method LoadWords(f: string, fs: map<string, string>) returns (r: Outcome<()>)
      modifies this
      ensures handlers == old(handlers)
      ensures r.Done? <==> f in fs
      ensures r.Done? ==> State() == old(State()).(words := old(words) + StoredWords(fs[f]))
      ensures r.Panic? ==> State() == old(State())
    {
      if f !in fs {
        return Panic("Failed to open file.");
      }
      AppendLines(Lines(fs[f]));
      r := Done(());
    }

    /** The loop over the lines of the file. */
    method AppendLines(lines: seq<string>)
      modifies this
      ensures words == old(words) + KeepLong(TokensOfLines(lines, NonAlpha))
      ensures handlers == old(handlers) && stopWords == old(stopWords) && counter == old(counter)
      ensures zwordsCount == old(zwordsCount) && printed == old(printed)
    {
      ghost var w0 := words;
      ghost var rest := (handlers, stopWords, counter, zwordsCount, printed);
      for l := 0 to |lines|
        invariant words == w0 + KeepLong(TokensOfLines(lines[..l], NonAlpha))
        invariant (handlers, stopWords, counter, zwordsCount, printed) == rest
      {
        StoredWordsSnoc(lines, l);
        AppendAssoc(w0, KeepLong(TokensOfLines(lines[..l], NonAlpha)), KeepLong(Tokens(lines[l], NonAlpha)));
        words := words + KeepLong(Tokens(lines[l], NonAlpha));
      }
      assert lines[..|lines|] == lines;
    }

    /** The data storage's `Start`: publish every stored word in stored order, then `Eof`. */
    method PublishWords(fs: map<string, string>) returns (r: Outcome<()>)
      modifies this
      decreases 2, 0
      ensures handlers == old(handlers)
      ensures Wired() ==> r.Done? && Reported(CountedOver(old(State()), old(words)), State())
    {
      ghost var s0 := State();
      var ws := words;
      for i := 0 to |ws|
        invariant handlers == old(handlers)
        invariant Wired() ==> State() == CountedOver(s0, ws[..i])
      {
        r := Publish(Word(ws[i]), fs);
        if r.Panic? {
          return;
        }
        if Wired() {
          CountedOverSnoc(s0, ws, i);
        }
      }
      assert ws[..|ws|] == ws;
      r := Publish(Eof, fs);
    }
  }

  /** In the wiring, a handler panics on an event only for a missing file, so a panic means
      the event's needs are not met. */
  lemma PanicCause(e: Event, i: nat, fs: map<string, string>)
    requires i < |HandlersOf(Kind(e))|
    requires !HandleNeeds(HandlersOf(Kind(e))[i], e, fs)
    ensures !Needs(e, fs)
  {
  }

  /** One more wired handler has handled `e`. */
  lemma Advance(e: Event, i: nat, s0: Board, s: Board, s1: Board, fs: map<string, string>)
    requires i < |HandlersOf(Kind(e))|
    requires i == 0 ==> s == s0
    requires 0 < i ==> Midway(e, s0, s, fs)
    requires HandleNeeds(HandlersOf(Kind(e))[i], e, fs)
    requires HandleEffect(HandlersOf(Kind(e))[i], e, s, s1, fs)
    ensures i + 1 < |HandlersOf(Kind(e))| ==> Midway(e, s0, s1, fs)
    ensures i + 1 == |HandlersOf(Kind(e))| ==> Effect(e, s0, s1, fs) && Needs(e, fs)
  {
    match e
    case Print =>
      if i == 1 {
        BothReports(s0, s, s1);
      }
    case _ =>
  }

  /** The word counter's report followed by the z-word count makes both reports. */
  lemma BothReports(s0: Board, s: Board, s1: Board)
    requires RankedOnce(s0, s)
    requires s1 == s.(printed := s.printed + [ZWordTotal(s.zwords)])
    ensures Reported(s0, s1)
  {
    assert s1.printed[..|s0.printed|] == s.printed[..|s0.printed|];
  }

  /** The handler constructors of `main`, in order: each subscribes to the two kinds its
      `handle` accepts. */
  method Wire() returns (board: Bulletin)
    ensures fresh(board) && board.Wired() && board.State() == Board([], {}, map[], 0, [])
  {
    board := new Bulletin();
    board.Subscribe(LoadKind, DataStorage);
    board.Subscribe(StartKind, DataStorage);
    board.Subscribe(RunKind, Application);
    board.Subscribe(EofKind, Application);
    board.Subscribe(LoadKind, StopWordsFilter);
    board.Subscribe(WordKind, StopWordsFilter);
    board.Subscribe(ValidWordKind, WordCounter);
    board.Subscribe(PrintKind, WordCounter);
    board.Subscribe(ValidWordKind, ZWordHolic);
    board.Subscribe(PrintKind, ZWordHolic);
    WiringBuilt();
  }

  /** The subscriptions of `main`, one after the other, give the wiring. */
  lemma WiringBuilt()
    ensures Wiring() ==
      var m0: map<EventKind, seq<Handler>> := map[];
      var m1 := Subscribed(Subscribed(m0, LoadKind, DataStorage), StartKind, DataStorage);
      var m2 := Subscribed(Subscribed(m1, RunKind, Application), EofKind, Application);
      var m3 := Subscribed(Subscribed(m2, LoadKind, StopWordsFilter), WordKind, StopWordsFilter);
      var m4 := Subscribed(Subscribed(m3, ValidWordKind, WordCounter), PrintKind, WordCounter);
      Subscribed(Subscribed(m4, ValidWordKind, ZWordHolic), PrintKind, ZWordHolic)
  {
    var m0: map<EventKind, seq<Handler>> := map[];
    var m1 := Subscribed(Subscribed(m0, LoadKind, DataStorage), StartKind, DataStorage);
    assert m1 == map[LoadKind := [DataStorage], StartKind := [DataStorage]];
    var m2 := Subscribed(Subscribed(m1, RunKind, Application), EofKind, Application);
    assert m2 == map[LoadKind := [DataStorage], StartKind := [DataStorage],
                     RunKind := [Application], EofKind := [Application]];
    var m3 := Subscribed(Subscribed(m2, LoadKind, StopWordsFilter), WordKind, StopWordsFilter);
    assert [DataStorage] + [StopWordsFilter] == [DataStorage, StopWordsFilter];
    assert m3 == map[LoadKind := [DataStorage, StopWordsFilter], StartKind := [DataStorage],
                     RunKind := [Application], EofKind := [Application], WordKind := [StopWordsFilter]];
    var m4 := Subscribed(Subscribed(m3, ValidWordKind, WordCounter), PrintKind, WordCounter);
    assert m4 == m3[ValidWordKind := [WordCounter]][PrintKind := [WordCounter]];
    assert [WordCounter] + [ZWordHolic] == [WordCounter, ZWordHolic];
  }

  /** `main`: build the five handlers (each subscribes as it is built), then publish `Run`
      with the file named by the first argument. On success exactly the two reports are
      printed: a correct top 25 of the words longer than one letter that are not stop words,
      and the number of those words that contain a 'z'. */
  method Launch(args: seq<string>, fs: map<string, string>) returns (out: Outcome<seq<Report>>)
    ensures |args| < 2 ==> out.Panic?
    ensures |args| >= 2 && !(args[1] in fs && STOP_WORDS_PATH in fs) ==> out.Panic?
    ensures |args| >= 2 && args[1] in fs && STOP_WORDS_PATH in fs ==>
      var counted := CountedWords(Lines(fs[args[1]]), NonAlpha, CommaStopWords(fs[STOP_WORDS_PATH]));
      && out.Done? && |out.value| == 2
      && out.value[0].TopWords? && IsTop(out.value[0].rows, Count(counted), 25)
      && out.value[1] == ZWordTotal(ZWords(counted))
  {
    var board := Wire();
    if |args| < 2 {
      return Panic("Usage: ./16 <file>");
    }
    var r := board.Publish(Run(args[1]), fs);
    if r.Panic? {
      return Panic(r.reason);
    }
    out := Done(board.printed);
    RunFromScratch(args[1], fs, board.State());
  }

  /** What a `Run` published on a fresh board leaves printed. */
  lemma RunFromScratch(f: string, fs: map<string, string>, s1: Board)
    requires Effect(Run(f), Board([], {}, map[], 0, []), s1, fs)
    ensures var counted := CountedWords(Lines(fs[f]), NonAlpha, CommaStopWords(fs[STOP_WORDS_PATH]));
      && |s1.printed| == 2
      && s1.printed[0].TopWords? && IsTop(s1.printed[0].rows, Count(counted), 25)
      && s1.printed[1] == ZWordTotal(ZWords(counted))
  {
    var ws := TokensOfLines(Lines(fs[f]), NonAlpha);
    var S := CommaStopWords(fs[STOP_WORDS_PATH]);
    var loaded := Loaded(Board([], {}, map[], 0, []), f, fs);
    assert loaded.words == KeepLong(ws) && loaded.stopWords == S by {
      assert [] + StoredWords(fs[f]) == StoredWords(fs[f]);
      assert {} + S == S;
    }
    LongThenNonStop(ws, S);
    CountFromEmpty(KeepNonStop(KeepLong(ws), S));
  }
}

=== FILE: week4_kick.dfy ===
/** week4/9-1.js, the continuation-passing style: every stage hands its result to the next
    stage, which it receives as a parameter (read, blank out runs, lower-case, cut at spaces,
    filter, count, sort, print). */
module Week4Kick {
  import opened Wrappers
  import opened Seqs
  import opened Text
  import opened Frequencies
  import opened Ranking
  import opened JsText

  const STOP_WORDS_PATH := "../stop_words.txt"

  /** `filter_chars`, `normalize` and `scan`: runs of other characters become one space, the
      text is lower-cased and cut at single spaces. */
  function ScannedWords(content: string): (r: seq<string>)
    ensures |r| >= 1
    ensures forall i, j :: 0 <= i < |r| && 0 <= j < |r[i]| ==> r[i][j] != ' ' && !('A' <= r[i][j] <= 'Z')
  {
    SplitLower(ReplaceRuns(content), Exactly(' '));
    Split(Lower(ReplaceRuns(content)), Exactly(' '))
  }

  /** `remove_stop_words`: the stop set holds every ','-separated piece of the stop-word
      file; a word stays when it is longer than one character and not in the set. What is left
      are the words at exactly the positions that pass, in order. */
  function RemoveStopWords(wordList: seq<string>, stopContent: string): (r: seq<string>)
    ensures r == Without(wordList, Rejected(wordList, CommaStopWords(stopContent)))
    ensures forall i :: 0 <= i < |r| ==> |r[i]| > 1 && r[i] !in Split(stopContent, Exactly(','))
  {
    WithoutRejected(wordList, CommaStopWords(stopContent));
    KeepCountable(wordList, CommaStopWords(stopContent))
  }

  /** The words that reach `frequencies` are those the line-by-line variants count. */
  lemma KeptWords(content: string, stopContent: string)
    ensures RemoveStopWords(ScannedWords(content), stopContent) ==
      CountedWords(Lines(content), NonAlnum, CommaStopWords(stopContent))
  {
    SplitLower(ReplaceRuns(content), Exactly(' '));
    ReplacedCounted(content, CommaStopWords(stopContent));
    WholeTextCounted(content, NonAlnum, CommaStopWords(stopContent));
  }

  /** `frequencies`: the loop `counter[w] = (counter[w] || 0) + 1`, on a counter whose
      lookups see only the words counted so far. Each distinct word ends up with its number
      of occurrences, and no other key is present. */
  method CountWords(wordList: seq<string>) returns (counter: Table<string>)
    ensures counter == Count(wordList)
    ensures IsCountOf(counter, wordList)
  {
    counter := map[];
    for i := 0 to |wordList|
      invariant counter == Count(wordList[..i])
    {
      assert wordList[..i + 1][..i] == wordList[..i];
      var w := wordList[i];
      counter := counter[w := (if w in counter then counter[w] else 0) + 1];
    }
    assert wordList[..|wordList|] == wordList;
    CountIsOccurrences(wordList);
  }

  /** `sort`: the `[word, count]` items of the counter, most frequent first. */
  method Sort(wordFreqs: Table<string>) returns (items: seq<Entry<string>>)
    ensures IsRanking(items, wordFreqs)
  {
    var keys := CollectEntries(wordFreqs);
    items := SortByCount(keys);
  }

  /** `print`: a list longer than 25 is cut to 25, then every item is printed. */
  method Print(wordFreqs: seq<Entry<string>>) returns (printed: seq<Entry<string>>)
    ensures printed == Truncate(wordFreqs, 25)
  {
    var items := wordFreqs;
    if |items| > 25 {
      items := items[..25];
    }
    printed := [];
    for i := 0 to |items|
      invariant printed == items[..i]
    {
      printed := printed + [items[i]];
    }
  }

  /** The whole chain, started with `process.argv[2]`: reading a file that is missing (or an
      argument that is) throws; otherwise the rows printed are a correct top 25 of the counted
      words. */
  method Run(argv: seq<string>, fs: map<string, string>) returns (out: Outcome<seq<Entry<string>>>)
    ensures out.Done? <==> |argv| >= 3 && argv[2] in fs && STOP_WORDS_PATH in fs
    ensures out.Done? ==>
      IsTop(out.value, Count(CountedWords(Lines(fs[argv[2]]), NonAlnum, CommaStopWords(fs[STOP_WORDS_PATH]))), 25)
  {
    if |argv| < 3 || argv[2] !in fs {
      return Panic("ENOENT: no such file or directory");
    }
    var content := fs[argv[2]];
    var words := ScannedWords(content);
    if STOP_WORDS_PATH !in fs {
      return Panic("ENOENT: no such file or directory");
    }
    var kept := RemoveStopWords(words, fs[STOP_WORDS_PATH]);
    var counter := CountWords(kept);
    var items := Sort(counter);
    var printed := Print(items);
    KeptWords(content, fs[STOP_WORDS_PATH]);
    TopOfRanking(items, counter, 25);
    out := Done(printed);
  }
}

=== FILE: week4_theone.dfy ===
/** week4/10-1.rs, the "the one" style: a value wrapped in `TheOne` is passed along a chain of
    `bind` calls, each applying one stage of the pipeline (read, blank out, lower-case, cut,
    filter, count, sort, format). week7/25.rs repeats the same stages; the module
    `Week7Quarantine` reuses them. */
module Week4TheOne {
  import opened Wrappers
  import opened Seqs
  import opened Text
  import opened Frequencies
  import opened Ranking
  import opened Decimal

  const STOP_WORDS_PATH := "../stop_words.txt"

  /** The wrapper `bind` is defined on. */
  datatype TheOne<T> = TheOne(value: T)

  /** `bind(f)`: apply the stage to the wrapped value and wrap the result. */
  function Bind<T, O>(m: TheOne<T>, f: T -> O): (r: TheOne<O>)
    ensures r.value == f(m.value)
  {
    TheOne(f(m.value))
  }

  /** Binding wraps the stage's result, and two binds in a row are one bind of the composed
      stage. */
  lemma BindChain<A, B, C>(x: A, f: A -> B, g: B -> C)
    ensures Bind(TheOne(x), f) == TheOne(f(x))
    ensures Bind(Bind(TheOne(x), f), g) == Bind(TheOne(x), y => g(f(y)))
  {
  }

  // ---------------------------------------------------------------------------------------
  // The pure stages.

  /** `filter_chars`: every ASCII letter or digit is kept, every other character becomes a
      space; the length does not change. */
  function FilterChars(s: string): (r: string)
    ensures |r| == |s|
    ensures forall i :: 0 <= i < |s| ==> IsAsciiAlnum(s[i]) ==> r[i] == s[i]
    ensures forall i :: 0 <= i < |s| ==> !IsAsciiAlnum(s[i]) ==> r[i] == ' '
  {
    seq(|s|, i requires 0 <= i < |s| => if IsAsciiAlnum(s[i]) then s[i] else ' ')
  }

  /** `normalize`: lower-case the whole text. */
  function Normalize(s: string): (r: string)
    ensures |r| == |s|
    ensures forall i :: 0 <= i < |s| ==> (r[i] == ' ' <==> s[i] == ' ') && (IsAsciiAlnum(r[i]) <==> IsAsciiAlnum(s[i]))
    ensures forall i :: 0 <= i < |s| ==> !('A' <= r[i] <= 'Z')
  {
    Lower(s)
  }

  /** `scan`: the pieces between single spaces, empty ones included. */
  function Scan(s: string): (r: seq<string>)
    ensures |r| >= 1
    ensures forall i, j :: 0 <= i < |r| && 0 <= j < |r[i]| ==> r[i][j] != ' '
  {
    Split(s, Exactly(' '))
  }

  /** Joining the pieces of `scan` with single spaces gives the text back, and a list of
      space-free pieces comes back from scanning its join. */
  lemma ScanJoin(s: string, pieces: seq<string>)
    requires |pieces| >= 1
    requires forall i, j :: 0 <= i < |pieces| && 0 <= j < |pieces[i]| ==> pieces[i][j] != ' '
    ensures Join(Scan(s), ' ') == s
    ensures Scan(Join(pieces, ' ')) == pieces
  {
    JoinSplit(s, ' ');
    SplitJoin(pieces, ' ');
  }

  /** Blanking out the non-alphanumerics and then cutting at spaces cuts exactly where the
      original text has a non-alphanumeric character. */
  lemma {:induction false} ScanFiltered(s: string)
    ensures Scan(FilterChars(s)) == Split(s, NonAlnum)
  {
    if s != [] {
      var f := FilterChars(s);
      assert f[1..] == FilterChars(s[1..]);
      ScanFiltered(s[1..]);
    }
  }

  /** The words `scan` hands on: the pieces of the text cut at non-alphanumerics, lower-cased. */
  lemma ScanNormalized(s: string)
    ensures Scan(Normalize(FilterChars(s))) == Tokens(s, NonAlnum)
  {
    SplitLower(FilterChars(s), Exactly(' '));
    ScanFiltered(s);
  }

  /** `remove_stop_words`: the stop words are the ','-separated pieces of the whole stop-word
      file; a word stays when it is longer than one character and not a stop word. What is
      left are the words at exactly the positions that pass, in order. */
  function RemoveStopWords(words: seq<string>, stopContent: string): (r: seq<string>)
    ensures r == Without(words, Rejected(words, CommaStopWords(stopContent)))
    ensures forall i :: 0 <= i < |r| ==> |r[i]| > 1 && r[i] !in Split(stopContent, Exactly(','))
  {
    WithoutRejected(words, CommaStopWords(stopContent));
    KeepCountable(words, CommaStopWords(stopContent))
  }

  // ---------------------------------------------------------------------------------------
  // The stages that loop.

  /** `frequencies`: each distinct word with its number of occurrences, and no other key. */
  method WordFrequencies(words: seq<string>) returns (ret: Table<string>)
    ensures ret == Count(words)
    ensures IsCountOf(ret, words)
  {
    ret := map[];
    for i := 0 to |words|
      invariant ret == Count(words[..i])
    {
      assert words[..i + 1][..i] == words[..i];
      ret := Incr(ret, words[i]);
    }
    assert words[..|words|] == words;
    CountIsOccurrences(words);
  }

  /** `sort`: the entries of the table, most frequent first. */
  method Sort(freq: Table<string>) returns (ret: seq<Entry<string>>)
    ensures IsRanking(ret, freq)
  {
    var entries := CollectEntries(freq);
    ret := SortByCount(entries);
  }

  /** One line of the report, without its line break: `format!("{} - {}", word, count)`. */
  function Row(e: Entry<string>): (r: string)
    ensures |r| == |e.0| + 3 + |Show(e.1)| && r[..|e.0|] == e.0 && r[|e.0|..|e.0| + 3] == " - "
    ensures forall i :: |e.0| + 3 <= i < |r| ==> IsDigit(r[i])
  {
    e.0 + " - " + Show(e.1)
  }

  /** The report for a list of entries: one row and a line break per entry, in order. */
  function Report(es: seq<Entry<string>>): (r: string)
    ensures r == [] <==> es == []
    ensures es != [] ==> r[|r| - 1] == '\n'
    ensures |r| >= 5 * |es|
  {
    if es == [] then "" else Report(es[..|es| - 1]) + Row(es[|es| - 1]) + "\n"
  }

  /** `top25_freq`: cut the list to 25 entries and push one line per entry. */
  method Top25Freq(entries: seq<Entry<string>>) returns (ret: string)
    ensures ret == Report(Truncate(entries, 25))
  {
    var kept := Truncate(entries, 25);
    ret := "";
    for i := 0 to |kept|
      invariant ret == Report(kept[..i])
    {
      assert kept[..i + 1][..i] == kept[..i];
      ret := ret + Row(kept[i]) + "\n";
    }
    assert kept[..|kept|] == kept;
  }

  /** A word the report can be read back from: no space and no line break in it. */
  predicate Plain(w: string)
  {
    forall j :: 0 <= j < |w| ==> w[j] != ' ' && w[j] != '\n'
  }

  /** The rows of the report, without their line breaks. */
  function Rows(es: seq<Entry<string>>): (r: seq<string>)
    ensures |r| == |es|
  {
    seq(|es|, i requires 0 <= i < |es| => Row(es[i]))
  }

  lemma RowHasNoBreak(e: Entry<string>)
    requires Plain(e.0)
    ensures forall j :: 0 <= j < |Row(e)| ==> Row(e)[j] != '\n'
  {
    var r := Row(e);
    forall j | 0 <= j < |r| ensures r[j] != '\n' {
      if j >= |e.0| + 3 {
        assert r[j] == Show(e.1)[j - |e.0| - 3];
      }
    }
  }

  /** A non-empty report is its rows joined by line breaks, plus a final line break. */
  lemma {:induction false} ReportJoin(es: seq<Entry<string>>)
    requires es != []
    ensures Report(es) == Join(Rows(es), '\n') + "\n"
  {
    var n := |es| - 1;
    if n == 0 {
      assert Rows(es) == [Row(es[0])];
    } else {
      var front := es[..n];
      ReportJoin(front);
      JoinSnoc(Rows(front), Row(es[n]), '\n');
      assert Rows(es) == Rows(front) + [Row(es[n])];
    }
  }

  /** Cutting the report at its line breaks gives one row per entry and an empty tail. */
  lemma ReportSplit(es: seq<Entry<string>>)
    requires forall i :: 0 <= i < |es| ==> Plain(es[i].0)
    ensures Split(Report(es), Exactly('\n')) == Rows(es) + [[]]
  {
    if es != [] {
      var rows := Rows(es);
      forall i | 0 <= i < |rows| ensures forall j :: 0 <= j < |rows[i]| ==> rows[i][j] != '\n' {
        RowHasNoBreak(es[i]);
      }
      ReportJoin(es);
      SplitJoin(rows, '\n');
      SplitAt(Join(rows, '\n'), '\n', [], Exactly('\n'));
      assert Report(es) == Join(rows, '\n') + ['\n'] + [];
    }
  }

  /** Reading the report back: it has one line per entry, and each line cut at its spaces is
      the word, a dash and the count in decimal, which parses back to the count. */
  lemma ReportReadsBack(es: seq<Entry<string>>)
    requires forall i :: 0 <= i < |es| ==> Plain(es[i].0) && es[i].1 <= USIZE_MAX
    ensures |Lines(Report(es))| == |es|
    ensures forall i :: 0 <= i < |es| ==>
      Split(Lines(Report(es))[i], Exactly(' ')) == [es[i].0, "-", Show(es[i].1)] &&
      Parse(Show(es[i].1)) == Some(es[i].1)
  {
    ReportSplit(es);
    var lines := Lines(Report(es));
    assert lines == Rows(es);
    forall i | 0 <= i < |es|
      ensures Split(lines[i], Exactly(' ')) == [es[i].0, "-", Show(es[i].1)]
      ensures Parse(Show(es[i].1)) == Some(es[i].1)
    {
      RowSplit(es[i]);
      ParseShow(es[i].1);
    }
  }

  /** A row cut at its spaces: the word, the dash and the count's digits. */
  lemma RowSplit(e: Entry<string>)
    requires Plain(e.0)
    ensures Split(Row(e), Exactly(' ')) == [e.0, "-", Show(e.1)]
  {
    var w, d := e.0, Show(e.1);
    var sp := Exactly(' ');
    calc {
      Split(Row(e), sp);
      { assert Row(e) == w + [' '] + ("-" + [' '] + d); }
      Split(w + [' '] + ("-" + [' '] + d), sp);
      { SplitAt(w, ' ', "-" + [' '] + d, sp); }
      Split(w, sp) + Split("-" + [' '] + d, sp);
      { SplitAt("-", ' ', d, sp); }
      Split(w, sp) + (Split("-", sp) + Split(d, sp));
      { SplitWhole(w, sp); SplitWhole("-", sp); SplitWhole(d, sp); }
      [w] + (["-"] + [d]);
    }
  }

  // ---------------------------------------------------------------------------------------
  // main

  /** The words that reach `frequencies`: the tokens of the text, filtered. They are the words
      the line-by-line variants count. */
  lemma KeptWords(content: string, stopContent: string)
    ensures RemoveStopWords(Scan(Normalize(FilterChars(content))), stopContent) ==
      CountedWords(Lines(content), NonAlnum, CommaStopWords(stopContent))
  {
    ScanNormalized(content);
    WholeTextCounted(content, NonAlnum, CommaStopWords(stopContent));
  }

  /** The counted words of a text are plain: lower-cased letters and digits only. */
  lemma KeptPlain(s: string, stop: set<string>, w: string)
    requires w in KeepCountable(Tokens(s, NonAlnum), stop)
    ensures Plain(w)
  {
    var ps := Split(s, NonAlnum);
    var ts := LowerAll(ps);
    assert w in ts by {
      KeepCountableOccurrences(ts, stop);
      assert multiset(KeepCountable(ts, stop))[w] > 0;
    }
    var i :| 0 <= i < |ts| && ts[i] == w;
    LowerAlnumPlain(ps[i]);
  }

  lemma LowerAlnumPlain(p: string)
    requires forall j :: 0 <= j < |p| ==> IsAsciiAlnum(p[j])
    ensures Plain(Lower(p))
  {
    var w := Lower(p);
    forall j | 0 <= j < |w| ensures w[j] != ' ' && w[j] != '\n' {
      assert w[j] == ToLower(p[j]);
    }
  }

  /** The program: the path is the first argument, the text and the stop words are read
      (each `unwrap` panics when there is nothing to read), and the stages run in order. The
      report printed is the report of a correct top 25 of the counted words, one line per
      row. */
  method Run(args: seq<string>, fs: map<string, string>) returns (out: Outcome<string>)
    ensures out.Done? <==> |args| >= 2 && args[1] in fs && STOP_WORDS_PATH in fs
    ensures out.Done? ==>
      var t := Count(CountedWords(Lines(fs[args[1]]), NonAlnum, CommaStopWords(fs[STOP_WORDS_PATH])));
      exists rows :: IsTop(rows, t, 25) && out.value == Report(rows) &&
        |Lines(out.value)| == |rows| <= 25
  {
    if |args| < 2 {
      return Panic("called `Option::unwrap()` on a `None` value");
    }
    var path := TheOne(args[1]);
    if path.value !in fs {
      return Panic("called `Result::unwrap()` on an `Err` value");
    }
    var text := Bind(path, p => if p in fs then fs[p] else "");
    if STOP_WORDS_PATH !in fs {
      return Panic("called `Result::unwrap()` on an `Err` value");
    }
    var stopContent := fs[STOP_WORDS_PATH];
    var words := Bind(Bind(Bind(text, FilterChars), Normalize), Scan);
    var kept := Bind(words, ws => RemoveStopWords(ws, stopContent));
    var freq := WordFrequencies(kept.value);
    var sorted := Sort(freq);
    var report := Top25Freq(sorted);
    ReportOfTop(text.value, stopContent, freq, sorted, report);
    out := Done(report);
  }

  /** The stages after the filter, put together: the report of the sorted entries cut to 25 is
      the report of a correct top 25 of the counted words, one line per row. */
  lemma ReportOfTop(content: string, stopContent: string, freq: Table<string>,
                    sorted: seq<Entry<string>>, report: string)
    requires freq == Count(RemoveStopWords(Scan(Normalize(FilterChars(content))), stopContent))
    requires IsRanking(sorted, freq)
    requires report == Report(Truncate(sorted, 25))
    ensures var t := Count(CountedWords(Lines(content), NonAlnum, CommaStopWords(stopContent)));
      exists rows :: IsTop(rows, t, 25) && report == Report(rows) && |Lines(report)| == |rows| <= 25
  {
    KeptWords(content, stopContent);
    ScanNormalized(content);
    TopOfRanking(sorted, freq, 25);
    var rows := Truncate(sorted, 25);
    CountIsOccurrences(RemoveStopWords(Scan(Normalize(FilterChars(content))), stopContent));
    forall k | k in freq ensures Plain(k) {
      KeptPlain(content, CommaStopWords(stopContent), k);
    }
    ReportLines(rows, freq);
  }

  /** The report of entries drawn from a table of plain words has one line per entry. */
  lemma ReportLines(rows: seq<Entry<string>>, t: Table<string>)
    requires forall i :: 0 <= i < |rows| ==> rows[i].0 in t
    requires forall k :: k in t ==> Plain(k)
    ensures |Lines(Report(rows))| == |rows|
  {
    ReportSplit(rows);
  }
}

=== FILE: week5_app1.dfy ===
/** week5/app1/App.java: the stop-word file and the text are read line by line, each line cut
    with `String.split`, and a static `print` counts the words in a hash map, sorts the keys by
    count and prints the first `min(25, size)` of them. */
module Week5App1 {
  import opened Wrappers
  import opened Seqs
  import opened Text
  import opened JavaText
  import opened Frequencies
  import opened Ranking

  const STOP_WORDS_PATH := "../stop_words.txt"
  const TEXT_PATH := "../pride-and-prejudice.txt"

  /** The stop words: every piece of every line of the stop-word file cut with `split(",")`. */
  function StopWordsOfLines(lines: seq<string>): set<string>
  {
    if lines == [] then {}
    else StopWordsOfLines(lines[..|lines| - 1]) + ElementsOf(JavaSplit(lines[|lines| - 1], ','))
  }

  /** For the words the filter ever looks up, those longer than one character, this is the set
      of the ','-separated pieces of the lines. */
  lemma {:induction false} StopWordsOfLinesPieces(lines: seq<string>, w: string)
    requires |w| > 1
    ensures w in StopWordsOfLines(lines) <==> w in PiecesOfLines(lines, Exactly(','))
  {
    if lines != [] {
      var n := |lines| - 1;
      StopWordsOfLinesPieces(lines[..n], w);
      SplitSameWords(lines[n], ',', w);
      assert PiecesOfLines(lines, Exactly(',')) ==
        PiecesOfLines(lines[..n], Exactly(',')) + Split(lines[n], Exactly(','));
    }
  }

  /** The words `getWords` returns: those the line-by-line variants count, with the pieces
      cut at non-alphanumerics and this stop set. */
  function Words(content: string, stopContent: string): seq<string>
  {
    CountedWords(Lines(content), NonAlnum, StopWordsOfLines(Lines(stopContent)))
  }

  /** So `getWords` keeps the same words as a filter whose stop words are all the
      ','-separated pieces of the stop-word lines. */
  lemma WordsCounted(content: string, stopContent: string)
    ensures Words(content, stopContent) ==
      CountedWords(Lines(content), NonAlnum, ElementsOf(PiecesOfLines(Lines(stopContent), Exactly(','))))
  {
    var S := StopWordsOfLines(Lines(stopContent));
    var P := ElementsOf(PiecesOfLines(Lines(stopContent), Exactly(',')));
    forall w: string | |w| > 1 ensures w in S <==> w in P {
      StopWordsOfLinesPieces(Lines(stopContent), w);
    }
    SameLongStopWords(TokensOfLines(Lines(content), NonAlnum), S, P);
  }

  /** The words `getWords` keeps from one line: its `split("[\\W_]+")` pieces, lower-cased,
      longer than one character and not stop words. */
  method LineWords(line: string, stopWords: set<string>) returns (kept: seq<string>)
    ensures kept == KeepCountable(Tokens(line, NonAlnum), stopWords)
  {
    var pieces := JavaSplitRuns(line);
    kept := [];
    for i := 0 to |pieces|
      invariant kept == KeepCountable(LowerAll(pieces[..i]), stopWords)
    {
      LowerAllSnoc(pieces, i);
      KeepCountableSnoc(LowerAll(pieces[..i]), Lower(pieces[i]), stopWords);
      var w := Lower(pieces[i]);
      if |w| > 1 && w !in stopWords {
        kept := kept + [w];
      } else {
        AppendEmpty(kept);
      }
    }
    assert pieces[..|pieces|] == pieces;
    JavaSplitRunsCounted(line, stopWords);
  }

  lemma StopWordsOfLinesSnoc(lines: seq<string>, l: nat)
    requires l < |lines|
    ensures StopWordsOfLines(lines[..l + 1]) == StopWordsOfLines(lines[..l]) + ElementsOf(JavaSplit(lines[l], ','))
  {
    assert lines[..l + 1][..l] == lines[..l];
  }

  lemma ElementsOfSnoc(ws: seq<string>, i: nat)
    requires i < |ws|
    ensures ElementsOf(ws[..i + 1]) == ElementsOf(ws[..i]) + {ws[i]}
  {
    assert ws[..i + 1] == ws[..i] + [ws[i]];
  }

  /** The inner `forEach`: each piece of one line goes into the set. */
  method AddPieces(stopWords: set<string>, pieces: seq<string>) returns (r: set<string>)
    ensures r == stopWords + ElementsOf(pieces)
  {
    r := stopWords;
    for i := 0 to |pieces|
      invariant r == stopWords + ElementsOf(pieces[..i])
    {
      ElementsOfSnoc(pieces, i);
      r := r + {pieces[i]};
    }
    assert pieces[..|pieces|] == pieces;
  }

  /** The first `forEach`: every `split(",")` piece of every line goes into the set. */
  method ReadStopWords(stopContent: string) returns (stopWords: set<string>)
    ensures stopWords == StopWordsOfLines(Lines(stopContent))
  {
    var stopLines := Lines(stopContent);
    stopWords := {};
    for l := 0 to |stopLines|
      invariant stopWords == StopWordsOfLines(stopLines[..l])
    {
      StopWordsOfLinesSnoc(stopLines, l);
      stopWords := AddPieces(stopWords, JavaSplit(stopLines[l], ','));
    }
    assert stopLines[..|stopLines|] == stopLines;
  }

  /** The second `forEach`: the kept words of every line, line after line. */
  method ReadWords(content: string, stopWords: set<string>) returns (words: seq<string>)
    ensures words == CountedWords(Lines(content), NonAlnum, stopWords)
  {
    var lines := Lines(content);
    words := [];
    for l := 0 to |lines|
      invariant words == CountedWords(lines[..l], NonAlnum, stopWords)
    {
      CountedWordsSnoc(lines, l, NonAlnum, stopWords);
      var kept := LineWords(lines[l], stopWords);
      words := words + kept;
    }
    assert lines[..|lines|] == lines;
  }

  class App {
    var filename: string

    constructor (filename: string)
      ensures this.filename == filename
    {
      this.filename := filename;
    }

    /** Reads the stop words, then the text, keeping every counted word in order. A file that
        cannot be opened is an exception. */
    method GetWords(fs: map<string, string>) returns (r: Outcome<seq<string>>)
      ensures r.Done? <==> STOP_WORDS_PATH in fs && filename in fs
      ensures r.Done? ==> r.value == Words(fs[filename], fs[STOP_WORDS_PATH])
    {
      if STOP_WORDS_PATH !in fs {
        return Panic("FileNotFoundException");
      }
      var stopWords := ReadStopWords(fs[STOP_WORDS_PATH]);
      if filename !in fs {
        return Panic("FileNotFoundException");
      }
      var words := ReadWords(fs[filename], stopWords);
      r := Done(words);
    }
  }

  /** `print`: count, sort the keys by decreasing count, and print the first `min(25, size)`
      of them. The rows printed are a correct top 25. */
  method Print(words: seq<string>) returns (printed: seq<Entry<string>>)
    ensures IsTop(printed, Count(words), 25)
  {
    var counter := Tally(words);
    var entries := CollectEntries(counter);
    var keys := SortByCount(entries);
    printed := [];
    var bound := Min(25, |keys|);
    for i := 0 to bound
      invariant printed == keys[..i]
    {
      printed := printed + [keys[i]];
    }
    TopOfRanking(keys, counter, 25);
  }

  /** `main`: the word list of the fixed text file, its size, and the rows printed. */
  method Start(fs: map<string, string>) returns (out: Outcome<(nat, seq<Entry<string>>)>)
    ensures out.Done? <==> STOP_WORDS_PATH in fs && TEXT_PATH in fs
    ensures out.Done? ==>
      var words := Words(fs[TEXT_PATH], fs[STOP_WORDS_PATH]);
      out.value.0 == |words| && IsTop(out.value.1, Count(words), 25)
  {
    var app := new App(TEXT_PATH);
    var r := app.GetWords(fs);
    if r.Panic? {
      return Panic(r.reason);
    }
    var words := r.value;
    assert words == Words(fs[TEXT_PATH], fs[STOP_WORDS_PATH]);
    var rows := Print(words);
    out := Done((|words|, rows));
  }
}

=== FILE: week5_app2.dfy ===
/** week5/app2/App.java: two `Scanner`s read the stop words and the words, the words are kept
    in a list, and a static `print` counts them in a hash map, sorts the keys by count and
    prints at most 25 of them. */
module Week5App2 {
  import opened Wrappers
  import opened Seqs
  import opened Text
  import opened JavaText
  import opened Frequencies
  import opened Ranking

  const STOP_WORDS_PATH := "../stop_words.txt"
  const TEXT_PATH := "../pride-and-prejudice.txt"

  /** The stop words: the tokens of the stop-word file scanned with the delimiter ','. */
  function StopWords(stopContent: string): (r: set<string>)
    ensures forall w :: w in r <==> w in ScanPieces(stopContent, ',')
  {
    ElementsOf(ScanPieces(stopContent, ','))
  }

  /** The words `getWords` returns: the scanner tokens, lower-cased, longer than one character
      and not stop words, in file order. */
  function Words(content: string, stopContent: string): seq<string>
  {
    KeepCountable(LowerAll(ScanRuns(content)), StopWords(stopContent))
  }

  /** They are exactly the words the line-by-line variants count, with the stop words cut
      from the stop-word text at ','. */
  lemma WordsCounted(content: string, stopContent: string)
    ensures Words(content, stopContent) ==
      CountedWords(Lines(content), NonAlnum, CommaStopWords(stopContent))
  {
    var S := StopWords(stopContent);
    ScanRunsCounted(content, S);
    forall w: string | |w| > 1 ensures w in S <==> w in CommaStopWords(stopContent) {
      SplitSameWords(stopContent, ',', w);
    }
    SameLongStopWords(TokensOfLines(Lines(content), NonAlnum), S, CommaStopWords(stopContent));
  }

  class App {
    var filename: string

    constructor (filename: string)
      ensures this.filename == filename
    {
      this.filename := filename;
    }

    /** Reads the stop words, then keeps each lower-cased token of the text that is longer
        than one character and not a stop word. A file that cannot be opened is an exception. */
    method GetWords(fs: map<string, string>) returns (r: Outcome<seq<string>>)
      ensures !(STOP_WORDS_PATH in fs && filename in fs) ==> r.Panic?
      ensures STOP_WORDS_PATH in fs && filename in fs ==>
        r == Done(Words(fs[filename], fs[STOP_WORDS_PATH]))
    {
      if STOP_WORDS_PATH !in fs {
        return Panic("FileNotFoundException");
      }
      var pieces := ScanPieces(fs[STOP_WORDS_PATH], ',');
      var stopWords: set<string> := {};
      for i := 0 to |pieces|
        invariant stopWords == ElementsOf(pieces[..i])
      {
        assert pieces[..i + 1] == pieces[..i] + [pieces[i]];
        stopWords := stopWords + {pieces[i]};
      }
      assert pieces[..|pieces|] == pieces;
      if filename !in fs {
        return Panic("FileNotFoundException");
      }
      var tokens := ScanRuns(fs[filename]);
      var words: seq<string> := [];
      for i := 0 to |tokens|
        invariant words == KeepCountable(LowerAll(tokens[..i]), stopWords)
      {
        LowerAllSnoc(tokens, i);
        KeepCountableSnoc(LowerAll(tokens[..i]), Lower(tokens[i]), stopWords);
        var w := Lower(tokens[i]);
        if |w| > 1 && w !in stopWords {
          words := words + [w];
        } else {
          AppendEmpty(words);
        }
      }
      assert tokens[..|tokens|] == tokens;
      r := Done(words);
    }
  }

  /** The counting loop: an absent word is put with 1, a present one with its count plus one. */
  method CountWords(words: seq<string>) returns (counter: Table<string>)
    ensures counter == Count(words)
  {
    counter := map[];
    for i := 0 to |words|
      invariant counter == Count(words[..i])
    {
      CountSnoc(words[..i], words[i]);
      assert words[..i + 1] == words[..i] + [words[i]];
      if words[i] !in counter {
        counter := counter[words[i] := 1];
      } else {
        counter := counter[words[i] := counter[words[i]] + 1];
      }
    }
    assert words[..|words|] == words;
  }

  /** `print`: count, sort the keys by decreasing count, and print one line per key until the
      line at index 24 has been printed. The rows printed are a correct top 25. */
  method Print(words: seq<string>) returns (printed: seq<Entry<string>>)
    ensures IsTop(printed, Count(words), 25)
  {
    var counter := CountWords(words);
    var entries := CollectEntries(counter);
    var keys := SortByCount(entries);
    printed := [];
    var i := 0;
    while i < |keys|
      invariant i <= |keys| && i <= 24
      invariant printed == keys[..i]
    {
      printed := printed + [keys[i]];
      if i >= 24 {
        i := i + 1;
        break;
      }
      i := i + 1;
    }
    assert printed == Truncate(keys, 25);
    TopOfRanking(keys, counter, 25);
  }

  /** `main`: the word list of the fixed text file, its size, and the rows printed. */
  method Start(fs: map<string, string>) returns (out: Outcome<(nat, seq<Entry<string>>)>)
    ensures !(STOP_WORDS_PATH in fs && TEXT_PATH in fs) ==> out.Panic?
    ensures STOP_WORDS_PATH in fs && TEXT_PATH in fs ==>
      var words := CountedWords(Lines(fs[TEXT_PATH]), NonAlnum, CommaStopWords(fs[STOP_WORDS_PATH]));
      out.Done? && out.value.0 == |words| && IsTop(out.value.1, Count(words), 25)
  {
    var app := new App(TEXT_PATH);
    var r := app.GetWords(fs);
    if r.Panic? {
      return Panic(r.reason);
    }
    var words := r.value;
    var rows := Print(words);
    WordsCounted(fs[TEXT_PATH], fs[STOP_WORDS_PATH]);
    out := Done((|words|, rows));
  }
}

=== FILE: week5_eleven.dfy ===
/** week5/Eleven.java, the "things" style: a controller object owns three manager objects, a
    data store of the file's words, a stop-word set and a frequency table, and drives them. The
    controller's reflective method lookups are modelled as the direct calls they resolve to. */
module Week5Eleven {
  import opened Wrappers
  import opened Seqs
  import opened Text
  import opened JavaText
  import opened Frequencies
  import opened Ranking

  const STOP_WORDS_PATH := "../stop_words.txt"

  /** The words the data store holds for a file: every scanner token, lower-cased. */
  function ScannedWords(content: string): (r: seq<string>)
    ensures |r| == |ScanRuns(content)|
    ensures forall i :: 0 <= i < |r| ==> r[i] == Lower(ScanRuns(content)[i])
  {
    LowerAll(ScanRuns(content))
  }

  /** The single lower-case letters the stop-word manager adds to the file's stop words. */
  function LettersBelow(c: char): set<string>
  {
    set x: char | 'a' <= x < c :: [x]
  }

  function SingleLetters(): set<string>
  {
    LettersBelow('{')
  }

  /** The stop set after construction: the comma-separated tokens of the stop-word file and
      every single letter from 'a' to 'z'. */
  function StopSet(stopContent: string): (r: set<string>)
    ensures forall c :: 'a' <= c <= 'z' ==> [c] in r
    ensures forall w :: w in ScanPieces(stopContent, ',') ==> w in r
    ensures forall w :: w in r ==> w in ScanPieces(stopContent, ',') || (|w| == 1 && 'a' <= w[0] <= 'z')
  {
    assert forall c :: 'a' <= c <= 'z' ==> [c] in SingleLetters();
    ElementsOf(ScanPieces(stopContent, ',')) + SingleLetters()
  }

  /** The words `run` counts: the stored words that are not stop words, in file order. */
  function KeptWords(content: string, stopContent: string): (r: seq<string>)
    ensures forall w :: w in r ==> w in ScannedWords(content) && w !in ScanPieces(stopContent, ',')
    ensures forall w :: w in r ==> !(|w| == 1 && 'a' <= w[0] <= 'z')
  {
    var S := StopSet(stopContent);
    assert forall w: string :: |w| == 1 && 'a' <= w[0] <= 'z' ==> w in S by {
      forall w: string | |w| == 1 && 'a' <= w[0] <= 'z' ensures w in S {
        assert w == [w[0]];
      }
    }
    KeepNonStop(ScannedWords(content), S)
  }

  /** Nothing else is dropped: the kept words are the scanned words with exactly the positions
      of stop words deleted, in order, so every other word, a lone digit included, keeps all of
      its occurrences. */
  lemma KeptWordsExact(content: string, stopContent: string)
    ensures var ws := ScannedWords(content);
      KeptWords(content, stopContent) == Without(ws, StopPositions(ws, StopSet(stopContent)))
    ensures forall w ::
      multiset(KeptWords(content, stopContent))[w] ==
      if w in StopSet(stopContent) then 0 else multiset(ScannedWords(content))[w]
  {
    KeepNonStopOccurrences(ScannedWords(content), StopSet(stopContent));
    WithoutStopPositions(ScannedWords(content), StopSet(stopContent));
  }

  /** There is no length filter here: a kept word of at most one character is a lone digit,
      since the letters are stop words and the scanner never yields an empty token. */
  lemma KeptShortWords(content: string, stopContent: string)
    ensures forall w :: w in KeptWords(content, stopContent) && |w| <= 1 ==>
      |w| == 1 && IsAsciiDigit(w[0])
  {
    var ws := ScannedWords(content);
    forall w | w in KeptWords(content, stopContent) && |w| <= 1
      ensures |w| == 1 && IsAsciiDigit(w[0])
    {
      assert w in ws && !(|w| == 1 && 'a' <= w[0] <= 'z');
      var k :| 0 <= k < |ws| && ws[k] == w;
      ScannedShortWord(content, k);
    }
  }

  /** A scanned word of at most one character is a lone lower-case letter or digit. */
  lemma ScannedShortWord(content: string, k: nat)
    requires k < |ScannedWords(content)| && |ScannedWords(content)[k]| <= 1
    ensures var w := ScannedWords(content)[k];
      |w| == 1 && (IsAsciiDigit(w[0]) || 'a' <= w[0] <= 'z')
  {
    var pieces := Split(content, NonAlnum);
    var t := ScanRuns(content)[k];
    var p :| 0 <= p < |pieces| && pieces[p] == t;
    assert !Separates(NonAlnum, pieces[p][0]);
    LowerLetterOrDigit(t[0]);
    assert ScannedWords(content)[k] == [ToLower(t[0])];
  }

  /** Lower-casing an ASCII letter or digit gives a lower-case letter or a digit. */
  lemma LowerLetterOrDigit(c: char)
    requires IsAsciiAlnum(c)
    ensures IsAsciiDigit(ToLower(c)) || 'a' <= ToLower(c) <= 'z'
  {
  }

  /** Apart from those digits the program counts exactly the words the line-by-line variants
      count when the stop words are this stop set. */
  lemma KeptLongWords(content: string, stopContent: string)
    ensures KeepLong(KeptWords(content, stopContent)) ==
      CountedWords(Lines(content), NonAlnum, StopSet(stopContent))
  {
    NonStopThenLong(ScannedWords(content), StopSet(stopContent));
    ScanRunsCounted(content, StopSet(stopContent));
  }

  /** `WordFrequencyPair.compareTo`: the first frequency minus the second, as a Java `int`.
      For frequencies an `int` can hold its sign is the order of the frequencies. */
  function CompareTo(a: Entry<string>, b: Entry<string>): (r: int)
    ensures a.1 <= INT_MAX && b.1 <= INT_MAX ==>
      (r < 0 <==> a.1 < b.1) && (r == 0 <==> a.1 == b.1) && (r > 0 <==> a.1 > b.1)
  {
    if a.1 <= INT_MAX && b.1 <= INT_MAX then SubtractNonNegative(a.1, b.1); Subtract(a.1, b.1)
    else Subtract(a.1, b.1)
  }

  predicate FitsInt(es: seq<Entry<string>>)
  {
    forall i :: 0 <= i < |es| ==> es[i].1 <= INT_MAX
  }

  /** `Collections.sort(pairs)`: a permutation in ascending `compareTo` order. Which of
      several pairs with the same frequency comes first is left open. */
  method SortAscending(es: seq<Entry<string>>) returns (r: seq<Entry<string>>)
    requires FitsInt(es)
    ensures multiset(r) == multiset(es)
    ensures forall i, j :: 0 <= i < j < |r| ==> CompareTo(r[i], r[j]) <= 0
  {
    var d := SortDesc(es);
    r := Reversed(d);
    ReversedMultiset(d);
    forall i, j | 0 <= i < j < |r| ensures CompareTo(r[i], r[j]) <= 0 {
      assert r[i] in multiset(es) && r[j] in multiset(es);
    }
  }

  /** An ascending list read backwards is in non-increasing frequency order. */
  lemma ReverseOfAscending(asc: seq<Entry<string>>)
    requires FitsInt(asc)
    requires forall i, j :: 0 <= i < j < |asc| ==> CompareTo(asc[i], asc[j]) <= 0
    ensures NonIncreasing(Reversed(asc))
  {
    var r := Reversed(asc);
    forall i, j | 0 <= i < j < |r| ensures r[i].1 >= r[j].1 {
      assert CompareTo(asc[|asc| - 1 - j], asc[|asc| - 1 - i]) <= 0;
    }
  }

  /** Models the contents of the file. */
  class DataStorageManager {
    var words: seq<string>

    /** Scans the file with the delimiter `[\W_]+`, storing every token lower-cased. */
    constructor (content: string)
      ensures words == ScannedWords(content)
    {
      var tokens := ScanRuns(content);
      var ws: seq<string> := [];
      for i := 0 to |tokens|
        invariant ws == LowerAll(tokens[..i])
      {
        LowerAllSnoc(tokens, i);
        ws := ws + [Lower(tokens[i])];
      }
      assert tokens[..|tokens|] == tokens;
      words := ws;
    }
  }

  /** Models the stop word filter. */
  class StopWordManager {
    var stopWords: set<string>

    /** Scans the stop-word file with the delimiter ',' and then adds the letters 'a'..'z'. */
    constructor (stopContent: string)
      ensures stopWords == StopSet(stopContent)
    {
      var pieces := ScanPieces(stopContent, ',');
      var s: set<string> := {};
      for i := 0 to |pieces|
        invariant s == ElementsOf(pieces[..i])
      {
        assert pieces[..i + 1] == pieces[..i] + [pieces[i]];
        s := s + {pieces[i]};
      }
      assert pieces[..|pieces|] == pieces;
      var c := 'a';
      while c <= 'z'
        invariant 'a' <= c <= '{'
        invariant s == ElementsOf(pieces) + LettersBelow(c)
        decreases 'z' as int - c as int
      {
        var next := (c as int + 1) as char;
        assert LettersBelow(next) == LettersBelow(c) + {[c]} by {
          forall w | w in LettersBelow(next) ensures w in LettersBelow(c) + {[c]} {
            var x :| 'a' <= x < next && w == [x];
          }
        }
        s := s + {[c]};
        c := next;
      }
      stopWords := s;
    }

    predicate IsStopWord(word: string)
      reads this
    {
      word in stopWords
    }
  }

  /** Keeps the word frequency data. */
  class WordFrequencyManager {
    var wordFreqs: Table<string>

    constructor ()
      ensures wordFreqs == map[]
    {
      wordFreqs := map[];
    }

    /** An unseen word enters with 1; a seen word's `MutableInteger` goes up by one. */
    method IncrementCount(word: string)
      modifies this
      ensures wordFreqs == Incr(old(wordFreqs), word)
    {
      if word !in wordFreqs {
        wordFreqs := wordFreqs[word := 1];
      } else {
        wordFreqs := wordFreqs[word := wordFreqs[word] + 1];
      }
    }

    /** One pair per entry, sorted ascending by `compareTo` and then reversed in place: the
        table's full ranking, most frequent first. */
    method Sorted() returns (pairs: seq<Entry<string>>)
      requires forall w :: w in wordFreqs ==> wordFreqs[w] <= INT_MAX
      ensures IsRanking(pairs, wordFreqs)
    {
      var es := CollectEntries(wordFreqs);
      EnumeratesFacts(es, wordFreqs);
      var asc := SortAscending(es);
      assert FitsInt(asc) by {
        forall i | 0 <= i < |asc| ensures asc[i].1 <= INT_MAX {
          assert asc[i] in multiset(es);
        }
      }
      var a := new Entry<string>[|asc|](i requires 0 <= i < |asc| => asc[i]);
      assert a[..] == asc;
      Reverse(a);
      pairs := a[..];
      ReverseOfAscending(asc);
      ReversedMultiset(asc);
    }
  }

  /** `run`'s print loop: count each pair printed and stop once 25 have been printed. */
  method PrintPairs(pairs: seq<Entry<string>>) returns (printed: seq<Entry<string>>)
    ensures printed == Truncate(pairs, 25)
  {
    var numWordsPrinted := 0;
    printed := [];
    while numWordsPrinted < |pairs|
      invariant numWordsPrinted <= |pairs| && numWordsPrinted < 25
      invariant printed == pairs[..numWordsPrinted]
    {
      printed := printed + [pairs[numWordsPrinted]];
      numWordsPrinted := numWordsPrinted + 1;
      if numWordsPrinted >= 25 {
        break;
      }
    }
  }

  class WordFrequencyController {
    var storageManager: DataStorageManager
    var stopWordManager: StopWordManager
    var wordFreqManager: WordFrequencyManager

    constructor (content: string, stopContent: string)
      ensures fresh(wordFreqManager)
      ensures storageManager.words == ScannedWords(content)
      ensures stopWordManager.stopWords == StopSet(stopContent)
      ensures wordFreqManager.wordFreqs == map[]
    {
      storageManager := new DataStorageManager(content);
      stopWordManager := new StopWordManager(stopContent);
      wordFreqManager := new WordFrequencyManager();
    }

    /** The loop over the stored words: each word that is not a stop word is counted. */
    method CountNonStopWords()
      modifies wordFreqManager
      ensures wordFreqManager.wordFreqs ==
        CountFrom(old(wordFreqManager.wordFreqs),
                  KeepNonStop(storageManager.words, stopWordManager.stopWords))
    {
      var words := storageManager.words;
      ghost var f0 := wordFreqManager.wordFreqs;
      ghost var stop := stopWordManager.stopWords;
      for i := 0 to |words|
        invariant stopWordManager.stopWords == stop
        invariant wordFreqManager.wordFreqs == CountFrom(f0, KeepNonStop(words[..i], stop))
      {
        KeepNonStopSnoc(words, i, stop);
        if !stopWordManager.IsStopWord(words[i]) {
          CountFromSnoc(f0, KeepNonStop(words[..i], stop), words[i]);
          wordFreqManager.IncrementCount(words[i]);
        } else {
          AppendEmpty(KeepNonStop(words[..i], stop));
        }
      }
      assert words[..|words|] == words;
    }

    /** Counts every stored word that is not a stop word on top of the counts already kept,
        then prints the first 25 pairs of the sorted table. */
    method Run() returns (printed: seq<Entry<string>>)
      requires forall w :: w in wordFreqManager.wordFreqs ==>
        wordFreqManager.wordFreqs[w] + |storageManager.words| <= INT_MAX
      requires |storageManager.words| <= INT_MAX
      modifies wordFreqManager
      ensures wordFreqManager.wordFreqs ==
        CountFrom(old(wordFreqManager.wordFreqs),
                  KeepNonStop(storageManager.words, stopWordManager.stopWords))
      ensures IsTop(printed, wordFreqManager.wordFreqs, 25)
    {
      ghost var f0 := wordFreqManager.wordFreqs;
      ghost var kept := KeepNonStop(storageManager.words, stopWordManager.stopWords);
      CountNonStopWords();
      CountFromBound(f0, kept);
      var pairs := wordFreqManager.Sorted();
      printed := PrintPairs(pairs);
      TopOfRanking(pairs, wordFreqManager.wordFreqs, 25);
    }
  }

  /** `main` after the reflection prompt: the file named by the first argument is counted
      against `../stop_words.txt`. A missing argument or a missing file is an exception. */
  method Start(args: seq<string>, fs: map<string, string>) returns (out: Outcome<seq<Entry<string>>>)
    requires |args| >= 1 && args[0] in fs ==> |ScannedWords(fs[args[0]])| <= INT_MAX
    ensures |args| < 1 ==> out.Panic?
    ensures |args| >= 1 && !(args[0] in fs && STOP_WORDS_PATH in fs) ==> out.Panic?
    ensures |args| >= 1 && args[0] in fs && STOP_WORDS_PATH in fs ==>
      out.Done? && IsTop(out.value, Count(KeptWords(fs[args[0]], fs[STOP_WORDS_PATH])), 25)
  {
    if |args| < 1 {
      return Panic("ArrayIndexOutOfBoundsException");
    }
    var file := args[0];
    if file !in fs || STOP_WORDS_PATH !in fs {
      return Panic("FileNotFoundException");
    }
    var controller := new WordFrequencyController(fs[file], fs[STOP_WORDS_PATH]);
    var rows := controller.Run();
    CountFromEmpty(KeptWords(fs[file], fs[STOP_WORDS_PATH]));
    out := Done(rows);
  }
}

=== FILE: week6_lazy_rivers.dfy ===
/** week6/28.rs, the "lazy rivers" style: lines, words and non-stop words are iterators that
    produce one item when asked; the counting loop pulls every word through them, and the
    counted entries are put in order with a stable sort. An iterator yields its items in the
    order the list models below give them, so each stage is modelled by the list it would yield.
    A file that does not open makes `main` return its error. */
module Week6LazyRivers {
  import opened Wrappers
  import opened Seqs
  import opened Text
  import opened Frequencies
  import opened Ranking
  import opened Week7Constructivist

  /** `all_lines`: the lines of the file, or the error of opening it. Joined again with '\n'
      they give back the text, up to a final line break, and no line holds a '\n'. */
  function AllLines(filename: string, fs: map<string, string>): (r: Outcome<seq<string>>)
    ensures r.Done? <==> filename in fs
    ensures r.Panic? ==> r.reason == NOT_FOUND
    ensures r.Done? ==> var s := fs[filename];
      Join(r.value, '\n') + (if |s| > 0 && s[|s| - 1] == '\n' then "\n" else "") == s
    ensures r.Done? ==> forall i, j :: 0 <= i < |r.value| && 0 <= j < |r.value[i]| ==> r.value[i][j] != '\n'
  {
    if filename !in fs then Panic(NOT_FOUND)
    else
      LinesJoin(fs[filename]);
      Done(Lines(fs[filename]))
  }

  /** `all_words`: the lower-cased pieces of each line cut at non-alphanumeric characters, in
      order, empty pieces included; they hold only lower-case letters and digits. */
  function AllWords(filename: string, fs: map<string, string>): (r: Outcome<seq<string>>)
    ensures r.Done? <==> filename in fs
    ensures r.Panic? ==> r.reason == NOT_FOUND
    ensures r.Done? ==> r.value == LowerAll(PiecesOfLines(Lines(fs[filename]), NonAlnum)) && WordChars(r.value)
  {
    match AllLines(filename, fs)
    case Panic(why) => Panic(why)
    case Done(lines) =>
      LowerPieces(lines, NonAlnum);
      TokensAreWordChars(lines);
      Done(TokensOfLines(lines, NonAlnum))
  }

  /** `non_stop_words`: the stop-word file is read first, then the text; either error is
      returned. Otherwise every occurrence of a word longer than one character that is none of
      the ','-separated stop words is kept, and nothing else, in text order. */
  function NonStopWords(filename: string, fs: map<string, string>): (r: Outcome<seq<string>>)
    ensures r.Done? <==> STOP_WORDS_PATH in fs && filename in fs
    ensures r.Panic? ==> r.reason == NOT_FOUND
    ensures r.Done? ==> var ws := LineWords(fs[filename]); var stop := CommaStopWords(fs[STOP_WORDS_PATH]);
      r.value == Without(ws, Rejected(ws, stop)) &&
      forall w :: multiset(r.value)[w] == if Countable(w, stop) then multiset(ws)[w] else 0
  {
    if STOP_WORDS_PATH !in fs then Panic(NOT_FOUND)
    else
      var stop := CommaStopWords(fs[STOP_WORDS_PATH]);
      match AllWords(filename, fs)
      case Panic(why) => Panic(why)
      case Done(ws) =>
        WithoutRejected(ws, stop);
        KeepCountableOccurrences(ws, stop);
        Done(KeepCountable(ws, stop))
  }

  /** A list ordered by decreasing count that keeps the order of each count's entries as
      `listed` has them is the stable sort of `listed`: there is exactly one. */
  lemma StableOrderDetermined(listed: seq<Entry<string>>, r: seq<Entry<string>>)
    requires NonIncreasing(r)
    requires forall c :: OfCount(r, c) == OfCount(listed, c)
    ensures r == SortDesc(listed)
  {
    forall c ensures OfCount(r, c) == OfCount(SortDesc(listed), c) {
      SortDescStable(listed, c);
    }
    StableSortUnique(r, SortDesc(listed));
  }

  /** `count_and_sort`: count the non-stop words, list the table's entries (`listed`, the
      order the map hands them out) and sort them by decreasing count with the stable
      `sort_by_key`, so entries with equal counts stay in the order they were listed. */
  method CountAndSort(filename: string, fs: map<string, string>)
    returns (r: Outcome<seq<Entry<string>>>, ghost listed: seq<Entry<string>>)
    ensures r.Done? <==> STOP_WORDS_PATH in fs && filename in fs
    ensures r.Panic? ==> r.reason == NOT_FOUND
    ensures r.Done? ==>
      var t := Count(CountedWords(Lines(fs[filename]), NonAlnum, CommaStopWords(fs[STOP_WORDS_PATH])));
      IsRanking(r.value, t) && Enumerates(listed, t) &&
      forall c :: OfCount(r.value, c) == OfCount(listed, c)
  {
    listed := [];
    var words := NonStopWords(filename, fs);
    if words.Panic? {
      return Panic(words.reason), listed;
    }
    WithoutRejected(LineWords(fs[filename]), CommaStopWords(fs[STOP_WORDS_PATH]));
    var count := Tally(words.value);
    var entries := CollectEntries(count);
    listed := entries;
    var sorted := SortDesc(entries);
    forall c ensures OfCount(sorted, c) == OfCount(listed, c) {
      SortDescStable(listed, c);
    }
    r := Done(sorted);
  }

  /** `main`: a missing argument panics and a missing file is returned as an error. Otherwise
      the rows printed are a correct top 25 of the counted words, and they are exactly the
      first 25 of the stable sort of the entries in the order the table listed them. */
  method Run(args: seq<string>, fs: map<string, string>) returns (out: Outcome<seq<Entry<string>>>)
    ensures out.Done? <==> |args| >= 2 && STOP_WORDS_PATH in fs && args[1] in fs
    ensures out.Panic? ==> out.reason == (if |args| < 2 then "Usage: ./28 <path>" else NOT_FOUND)
    ensures out.Done? ==>
      var t := Count(CountedWords(Lines(fs[args[1]]), NonAlnum, CommaStopWords(fs[STOP_WORDS_PATH])));
      IsTop(out.value, t, 25) &&
      exists listed :: Enumerates(listed, t) && out.value == Truncate(SortDesc(listed), 25)
  {
    if |args| < 2 {
      return Panic("Usage: ./28 <path>");
    }
    var filename := args[1];
    var sorted, listed := CountAndSort(filename, fs);
    if sorted.Panic? {
      return Panic(sorted.reason);
    }
    ghost var t := Count(CountedWords(Lines(fs[filename]), NonAlnum, CommaStopWords(fs[STOP_WORDS_PATH])));
    StableOrderDetermined(listed, sorted.value);
    TopOfRanking(sorted.value, t, 25);
    out := Done(Truncate(sorted.value, 25));
  }
}

=== FILE: week7_constructivist.dfy ===
/** week7/21.rs, the "constructivist" style: every function checks what it is given and carries
    on with a sensible value when something goes wrong. A missing text falls back to the
    default text and then to no words at all; a missing stop-word file falls back to an empty
    text. Nothing panics. */
module Week7Constructivist {
  import opened Seqs
  import opened Text
  import opened Frequencies
  import opened Ranking

  const DEFAULT_TEXT_PATH := "../pride-and-prejudice.txt"
  const STOP_WORDS_PATH := "../stop_words.txt"

  /** Words made only of lower-case ASCII letters and digits. */
  predicate WordChars(ws: seq<string>)
  {
    forall i, j :: 0 <= i < |ws| && 0 <= j < |ws[i]| ==> IsAsciiAlnum(ws[i][j]) && !('A' <= ws[i][j] <= 'Z')
  }

  lemma LowerWordChar(c: char)
    requires IsAsciiAlnum(c)
    ensures IsAsciiAlnum(ToLower(c)) && !('A' <= ToLower(c) <= 'Z')
  {
  }

  /** The lower-cased pieces of one line cut at non-alphanumeric characters. */
  lemma LineTokensWordChars(line: string)
    ensures WordChars(Tokens(line, NonAlnum))
  {
    var ps := Split(line, NonAlnum);
    var ts := Tokens(line, NonAlnum);
    forall i, j | 0 <= i < |ts| && 0 <= j < |ts[i]|
      ensures IsAsciiAlnum(ts[i][j]) && !('A' <= ts[i][j] <= 'Z')
    {
      assert ts[i][j] == ToLower(ps[i][j]);
      assert !Separates(NonAlnum, ps[i][j]);
      LowerWordChar(ps[i][j]);
    }
  }

  lemma WordCharsAppend(a: seq<string>, b: seq<string>)
    requires WordChars(a) && WordChars(b)
    ensures WordChars(a + b)
  {
    forall i, j | 0 <= i < |a + b| && 0 <= j < |(a + b)[i]|
      ensures IsAsciiAlnum((a + b)[i][j]) && !('A' <= (a + b)[i][j] <= 'Z')
    {
      if i < |a| {
        assert (a + b)[i] == a[i];
      } else {
        assert (a + b)[i] == b[i - |a|];
      }
    }
  }

  /** Each piece of a line cut at non-alphanumeric characters, lower-cased, holds only
      lower-case letters and digits. */
  lemma {:induction false} TokensAreWordChars(lines: seq<string>)
    ensures WordChars(TokensOfLines(lines, NonAlnum))
  {
    if lines != [] {
      var n := |lines| - 1;
      TokensAreWordChars(lines[..n]);
      LineTokensWordChars(lines[n]);
      WordCharsAppend(TokensOfLines(lines[..n], NonAlnum), Tokens(lines[n], NonAlnum));
    }
  }

  /** The split part of `extract_words`: every line cut at each character that is not an ASCII
      letter or digit, the pieces lower-cased, in text order, empty pieces included. Each
      word holds only lower-case letters and digits. */
  function LineWords(content: string): (r: seq<string>)
    ensures r == LowerAll(PiecesOfLines(Lines(content), NonAlnum))
    ensures WordChars(r)
  {
    LowerPieces(Lines(content), NonAlnum);
    TokensAreWordChars(Lines(content));
    TokensOfLines(Lines(content), NonAlnum)
  }

  /** The text `extract_words` ends up with: the file at `path`, else the default text, else
      nothing. */
  function TextRead(path: string, fs: map<string, string>): (r: string)
    ensures path in fs ==> r == fs[path]
    ensures path !in fs && DEFAULT_TEXT_PATH in fs ==> r == fs[DEFAULT_TEXT_PATH]
    ensures r == "" || r in fs.Values
  {
    if path in fs then fs[path] else if DEFAULT_TEXT_PATH in fs then fs[DEFAULT_TEXT_PATH] else ""
  }

  /** `extract_words`: when neither `path` nor the default text opens, the result is empty,
      just as if an empty text had been read. */
  function ExtractWords(path: string, fs: map<string, string>): (r: seq<string>)
    ensures r == LineWords(TextRead(path, fs))
    ensures path !in fs && DEFAULT_TEXT_PATH !in fs ==> r == []
  {
    if path in fs then LineWords(fs[path])
    else if DEFAULT_TEXT_PATH in fs then LineWords(fs[DEFAULT_TEXT_PATH])
    else
      NothingCounted(NonAlnum, {});
      []
  }

  /** The stop-word text `remove_stop_words` works with: the file, or "" when it cannot be
      read (`unwrap_or_default`). */
  function StopWordsText(fs: map<string, string>): (r: string)
    ensures STOP_WORDS_PATH in fs ==> r == fs[STOP_WORDS_PATH]
    ensures STOP_WORDS_PATH !in fs ==> CommaStopWords(r) == {[]}
  {
    if STOP_WORDS_PATH in fs then fs[STOP_WORDS_PATH] else ""
  }

  /** With only the empty word as a stop word, the filter is the length filter. */
  lemma {:induction false} OnlyLengthFilter(ws: seq<string>)
    ensures KeepCountable(ws, {[]}) == KeepLong(ws)
  {
    if ws != [] {
      OnlyLengthFilter(ws[..|ws| - 1]);
    }
  }

  /** An empty stop-word text cuts into the one stop word "", so only the length filter is left. */
  lemma EmptyStopText(ws: seq<string>)
    ensures KeepCountable(ws, CommaStopWords("")) == KeepLong(ws)
  {
    assert Split("", Exactly(',')) == [[]];
    assert CommaStopWords("") == {[]};
    OnlyLengthFilter(ws);
  }

  /** `remove_stop_words`: a word stays when it is longer than one character and is none of
      the ','-separated pieces of the stop-word text; the words left are those at exactly the
      positions that pass, in order. Without a stop-word file the set is `{""}`, which leaves
      only the length filter. */
  function RemoveStopWords(words: seq<string>, fs: map<string, string>): (r: seq<string>)
    ensures r == Without(words, Rejected(words, CommaStopWords(StopWordsText(fs))))
    ensures STOP_WORDS_PATH !in fs ==> r == KeepLong(words)
  {
    var stop := CommaStopWords(StopWordsText(fs));
    WithoutRejected(words, stop);
    EmptyStopText(words);
    KeepCountable(words, stop)
  }

  /** `get_freq`: every distinct word with its number of occurrences, and no other key. */
  method GetFreq(words: seq<string>) returns (freq: Table<string>)
    ensures freq == Count(words)
    ensures IsCountOf(freq, words)
  {
    freq := Tally(words);
    CountIsOccurrences(words);
  }

  /** `sort_freq`: the entries of the table, most frequent first. */
  method SortFreq(freq: Table<string>) returns (entries: seq<Entry<string>>)
    ensures IsRanking(entries, freq)
  {
    var listed := CollectEntries(freq);
    entries := SortByCount(listed);
  }

  /** The path `main` reads: the first argument, else the default text. */
  function TextPath(args: seq<string>): (r: string)
    ensures |args| >= 2 ==> r == args[1]
    ensures |args| < 2 ==> r == DEFAULT_TEXT_PATH
  {
    if |args| >= 2 then args[1] else DEFAULT_TEXT_PATH
  }

  /** `main`: never fails. The rows printed are a correct top 25 of the words counted in the
      text that could be read (none when no text could), less the stop words when the
      stop-word file could be read. */
  method Run(args: seq<string>, fs: map<string, string>) returns (printed: seq<Entry<string>>)
    ensures IsTop(printed, Count(CountedWords(Lines(TextRead(TextPath(args), fs)), NonAlnum,
                                              CommaStopWords(StopWordsText(fs)))), 25)
    ensures TextPath(args) !in fs && DEFAULT_TEXT_PATH !in fs ==> printed == []
  {
    var filename := TextPath(args);
    var words := ExtractWords(filename, fs);
    var nonStopWords := RemoveStopWords(words, fs);
    WithoutRejected(words, CommaStopWords(StopWordsText(fs)));
    var freq := GetFreq(nonStopWords);
    var sorted := SortFreq(freq);
    printed := Truncate(sorted, 25);
    TopOfRanking(sorted, freq, 25);
  }
}

=== FILE: week7_quarantine.dfy ===
/** week7/25.rs, the "quarantine" style: the stages of week4/10-1.rs again, but the ones that
    do I/O (reading the argument, the text and the stop-word file) return an `io::Result`, and
    `bind` unwraps such a result, panicking on an error, while the value of a pure stage passes
    through untouched. */
module Week7Quarantine {
  import opened Wrappers
  import opened Text
  import opened Frequencies
  import opened Ranking
  import opened Week4TheOne

  datatype ErrorKind = InvalidInput | NotFound

  /** `io::Result<T>`. */
  datatype IoResult<T> = Ok(value: T) | Err(kind: ErrorKind)

  /** What a stage hands back to `bind`: a plain value, or an `io::Result` (the two
      implementations of `Unwrap`). */
  datatype Returned<T> = Pure(v: T) | Io(r: IoResult<T>)

  /** `my_unwrap`: a plain value is itself, an `Ok` is its content and an `Err` panics. */
  function MyUnwrap<T>(r: Returned<T>): (o: Outcome<T>)
    ensures o.Panic? <==> r.Io? && r.r.Err?
    ensures r.Pure? ==> o == Done(r.v)
    ensures r.Io? && r.r.Ok? ==> o == Done(r.r.value)
  {
    match r
    case Pure(v) => Done(v)
    case Io(Ok(v)) => Done(v)
    case Io(Err(_)) => Panic("called `Result::unwrap()` on an `Err` value")
  }

  /** `bind(f)`: apply the stage, unwrap what it returns, wrap the value again. */
  function BindUnwrap<T, O>(m: TheOne<T>, f: T -> Returned<O>): (r: Outcome<TheOne<O>>)
    ensures r.Panic? <==> f(m.value).Io? && f(m.value).r.Err?
    ensures f(m.value).Pure? ==> r == Done(TheOne(f(m.value).v))
    ensures f(m.value).Io? && f(m.value).r.Ok? ==> r == Done(TheOne(f(m.value).r.value))
  {
    match MyUnwrap(f(m.value))
    case Done(v) => Done(TheOne(v))
    case Panic(why) => Panic(why)
  }

  /** On a pure stage this `bind` is the plain `bind` of week4/10-1.rs; on an I/O stage it is
      that `bind` of the result's content when there is one, and a panic otherwise. */
  lemma BindUnwrapAgrees<T, O>(m: TheOne<T>, f: T -> O, g: T -> IoResult<O>)
    ensures BindUnwrap(m, x => Pure(f(x))) == Done(Bind(m, f))
    ensures BindUnwrap(m, x => Io(g(x))).Panic? <==> g(m.value).Err?
    ensures g(m.value).Ok? ==> BindUnwrap(m, x => Io(g(x))) == Done(TheOne(g(m.value).value))
  {
  }

  /** `get_filepath`: the first argument, or an `InvalidInput` error. */
  function GetFilepath(args: seq<string>): (r: IoResult<string>)
    ensures r.Ok? <==> |args| >= 2
    ensures r.Ok? ==> r.value == args[1]
    ensures r.Err? ==> r.kind == InvalidInput
  {
    if |args| >= 2 then Ok(args[1]) else Err(InvalidInput)
  }

  /** `read_file`: the content of the file, or a `NotFound` error. */
  function ReadFile(path: string, fs: map<string, string>): (r: IoResult<string>)
    ensures r.Ok? <==> path in fs
    ensures r.Ok? ==> r.value == fs[path]
    ensures r.Err? ==> r.kind == NotFound
  {
    if path in fs then Ok(fs[path]) else Err(NotFound)
  }

  /** `remove_stop_words` with its file read: an error when the stop-word file cannot be
      read, the filtered words otherwise. */
  function RemoveStopWordsIo(words: seq<string>, fs: map<string, string>): (r: IoResult<seq<string>>)
    ensures r.Ok? <==> STOP_WORDS_PATH in fs
    ensures r.Ok? ==> r.value == RemoveStopWords(words, fs[STOP_WORDS_PATH])
  {
    if STOP_WORDS_PATH in fs then Ok(RemoveStopWords(words, fs[STOP_WORDS_PATH])) else Err(NotFound)
  }

  /** `main`: the chain of binds. Any I/O error panics; otherwise the report printed is the
      report of a correct top 25 of the counted words, one line per row. */
  method Run(args: seq<string>, fs: map<string, string>) returns (out: Outcome<string>)
    ensures out.Done? <==> |args| >= 2 && args[1] in fs && STOP_WORDS_PATH in fs
    ensures out.Done? ==>
      var t := Count(CountedWords(Lines(fs[args[1]]), NonAlnum, CommaStopWords(fs[STOP_WORDS_PATH])));
      exists rows :: IsTop(rows, t, 25) && out.value == Report(rows) &&
        |Lines(out.value)| == |rows| <= 25
  {
    var path := BindUnwrap(TheOne(()), _ => Io(GetFilepath(args)));
    if path.Panic? {
      return Panic(path.reason);
    }
    var text := BindUnwrap(path.value, p => Io(ReadFile(p, fs)));
    if text.Panic? {
      return Panic(text.reason);
    }
    var content := text.value.value;
    BindUnwrapAgrees(text.value, FilterChars, _ => Err(NotFound));
    var filtered := BindUnwrap(text.value, s => Pure(FilterChars(s))).value;
    BindUnwrapAgrees(filtered, Normalize, _ => Err(NotFound));
    var normalized := BindUnwrap(filtered, s => Pure(Normalize(s))).value;
    BindUnwrapAgrees(normalized, Scan, _ => Err(NotFound));
    var words := BindUnwrap(normalized, s => Pure(Scan(s))).value;
    var kept := BindUnwrap(words, ws => Io(RemoveStopWordsIo(ws, fs)));
    if kept.Panic? {
      return Panic(kept.reason);
    }
    var freq := WordFrequencies(kept.value.value);
    var sorted := Sort(freq);
    var report := Top25Freq(sorted);
    assert kept.value.value == RemoveStopWords(Scan(Normalize(FilterChars(content))), fs[STOP_WORDS_PATH]);
    ReportOfTop(content, fs[STOP_WORDS_PATH], freq, sorted, report);
    out := Done(report);
  }
}

=== FILE: week7_tantrum.dfy ===
/** week7/22.rs, the "tantrum" style: the same pipeline as week7/21.rs, but every function
    refuses to go on when something is wrong (`expect`), so a missing argument or file stops
    the program. Its `get_freq` and `sort_freq` are those of week7/21.rs, token for token, and
    are not repeated here; its split is `Week7Constructivist.LineWords`. */
module Week7Tantrum {
  import opened Wrappers
  import opened Seqs
  import opened Text
  import opened Frequencies
  import opened Ranking
  import opened Week7Constructivist

  /** `extract_words`: the split words of the file, or a panic when it does not open. */
  function ExtractWords(path: string, fs: map<string, string>): (r: Outcome<seq<string>>)
    ensures r.Done? <==> path in fs
    ensures r.Done? ==> r.value == LowerAll(PiecesOfLines(Lines(fs[path]), NonAlnum)) && WordChars(r.value)
  {
    if path !in fs then Panic("failed to open file") else Done(LineWords(fs[path]))
  }

  /** `remove_stop_words`: a panic when the stop-word file does not open; otherwise a word stays
      when it is longer than one character and none of the file's ','-separated pieces, and
      the words left are those at exactly the positions that pass, in order. */
  function RemoveStopWords(words: seq<string>, fs: map<string, string>): (r: Outcome<seq<string>>)
    ensures r.Done? <==> STOP_WORDS_PATH in fs
    ensures r.Done? ==> r.value == Without(words, Rejected(words, CommaStopWords(fs[STOP_WORDS_PATH])))
  {
    if STOP_WORDS_PATH !in fs then Panic("failed to open stop_words.txt")
    else
      var stop := CommaStopWords(fs[STOP_WORDS_PATH]);
      WithoutRejected(words, stop);
      Done(KeepCountable(words, stop))
  }

  /** `main`: a missing argument, text or stop-word file panics, in that order of checking;
      otherwise the rows printed are a correct top 25 of the counted words. When both files
      are there this is what week7/21.rs prints for the same argument. */
  method Run(args: seq<string>, fs: map<string, string>) returns (out: Outcome<seq<Entry<string>>>)
    ensures out.Done? <==> |args| >= 2 && args[1] in fs && STOP_WORDS_PATH in fs
    ensures out.Panic? ==>
      out.reason == (if |args| < 2 then "Usage: ./22 <path>"
                     else if args[1] !in fs then "failed to open file"
                     else "failed to open stop_words.txt")
    ensures out.Done? ==>
      IsTop(out.value, Count(CountedWords(Lines(fs[args[1]]), NonAlnum, CommaStopWords(fs[STOP_WORDS_PATH]))), 25)
    ensures out.Done? ==>
      TextRead(TextPath(args), fs) == fs[args[1]] && StopWordsText(fs) == fs[STOP_WORDS_PATH]
  {
    if |args| < 2 {
      return Panic("Usage: ./22 <path>");
    }
    var filename := args[1];
    var words := ExtractWords(filename, fs);
    if words.Panic? {
      return Panic(words.reason);
    }
    var nonStopWords := RemoveStopWords(words.value, fs);
    if nonStopWords.Panic? {
      return Panic(nonStopWords.reason);
    }
    WithoutRejected(words.value, CommaStopWords(fs[STOP_WORDS_PATH]));
    var freq := GetFreq(nonStopWords.value);
    var sorted := SortFreq(freq);
    var printed := Truncate(sorted, 25);
    TopOfRanking(sorted, freq, 25);
    out := Done(printed);
  }
}

=== FILE: week8_actors.dfy ===
/** week8/29-1.rs, the "actors" style: four objects, each with a mailbox of its own and a thread
    of its own, that only talk by posting (command, payload) messages into one another's
    mailboxes. The controller is told "init", "run" and "end" by `main`; it passes the work on
    to the data manager, which feeds every stored word to the stop-word manager, which feeds
    every word that is not a stop word to the counter, which prints its top 25 on "top25".

    The four mailboxes are the four queues of one `Channels` object. The four actors are objects
    of one class `Actor` whose `state` says which of the four it is; what one message does to an
    actor is the function `Step`, and what its `run` loop does with a whole mailbox is the
    function `Drive`. Threads are replaced by one schedule, described at `Run`. */
module Week8Actors {
  import opened Wrappers
  import opened Seqs
  import opened Text
  import opened Frequencies
  import opened Ranking
  import Week3Letterbox

  const STOP_WORDS_PATH := "../stop_words.txt"
  const NO_ARGUMENT := "No file provided. Usage: ./29 <path>"

  // ---------------------------------------------------------------------------------------
  // Messages and mailboxes

  datatype Role = Controller | DataStorage | StopWords | Counter

  datatype Message = Message(command: string, payload: string)

  /** A message together with the mailbox it is posted to. */
  datatype Letter = Letter(to: Role, message: Message)

  /** The contents of the four mailboxes, oldest message first. */
  datatype Queues = Queues(controller: seq<Message>, data: seq<Message>,
                           stopWords: seq<Message>, counter: seq<Message>)

  function Of(q: Queues, r: Role): seq<Message>
  {
    match r
    case Controller => q.controller
    case DataStorage => q.data
    case StopWords => q.stopWords
    case Counter => q.counter
  }

  /** The queues with the mailbox of `r` replaced by `ms`. */
  function With(q: Queues, r: Role, ms: seq<Message>): (u: Queues)
    ensures Of(u, r) == ms
    ensures forall o :: o != r ==> Of(u, o) == Of(q, o)
  {
    match r
    case Controller => q.(controller := ms)
    case DataStorage => q.(data := ms)
    case StopWords => q.(stopWords := ms)
    case Counter => q.(counter := ms)
  }

  /** Two states of the mailboxes that hold the same messages are the same. */
  lemma SameQueues(a: Queues, b: Queues)
    requires Of(a, Controller) == Of(b, Controller) && Of(a, DataStorage) == Of(b, DataStorage)
    requires Of(a, StopWords) == Of(b, StopWords) && Of(a, Counter) == Of(b, Counter)
    ensures a == b
  {
  }

  /** Posting letters one after another: each goes to the end of its mailbox. */
  function Deliver(q: Queues, ls: seq<Letter>): Queues
    decreases |ls|
  {
    if ls == [] then q
    else
      var l := ls[|ls| - 1];
      var p := Deliver(q, ls[..|ls| - 1]);
      With(p, l.to, Of(p, l.to) + [l.message])
  }

  predicate NoneTo(ls: seq<Letter>, r: Role)
  {
    forall i :: 0 <= i < |ls| ==> ls[i].to != r
  }

  /** Letters that all go to `to`, carrying `ms` in order. */
  function Address(to: Role, ms: seq<Message>): (ls: seq<Letter>)
    ensures |ls| == |ms|
    ensures forall o :: o != to ==> NoneTo(ls, o)
  {
    seq(|ms|, i requires 0 <= i < |ms| => Letter(to, ms[i]))
  }

  lemma AddressAppend(to: Role, a: seq<Message>, b: seq<Message>)
    ensures Address(to, a + b) == Address(to, a) + Address(to, b)
  {
    assert |Address(to, a + b)| == |Address(to, a) + Address(to, b)|;
    forall i | 0 <= i < |a| + |b|
      ensures Address(to, a + b)[i] == (Address(to, a) + Address(to, b))[i]
    {
      if i >= |a| {
        assert (a + b)[i] == b[i - |a|];
      }
    }
  }

  /** Posting a batch and then another is posting the two batches as one. */
  lemma {:induction false} DeliverAppend(q: Queues, a: seq<Letter>, b: seq<Letter>)
    ensures Deliver(q, a + b) == Deliver(Deliver(q, a), b)
    decreases |b|
  {
    if b == [] {
      assert a + b == a;
    } else {
      var n := |b| - 1;
      DeliverAppend(q, a, b[..n]);
      assert (a + b)[..|a + b| - 1] == a + b[..n];
      assert (a + b)[|a + b| - 1] == b[n];
    }
  }

  /** Letters to other mailboxes leave the mailbox of `r` alone, and replacing the contents of
      that mailbox can be done before or after posting them. */
  lemma {:induction false} DeliverElsewhere(q: Queues, ls: seq<Letter>, r: Role, ms: seq<Message>)
    requires NoneTo(ls, r)
    ensures Of(Deliver(q, ls), r) == Of(q, r)
    ensures With(Deliver(q, ls), r, ms) == Deliver(With(q, r, ms), ls)
    decreases |ls|
  {
    if ls != [] {
      var n := |ls| - 1;
      DeliverElsewhere(q, ls[..n], r, ms);
      var p := Deliver(q, ls[..n]);
      var p' := Deliver(With(q, r, ms), ls[..n]);
      var l := ls[n];
      assert l.to != r;
      SameQueues(With(Deliver(q, ls), r, ms), Deliver(With(q, r, ms), ls));
    }
  }

  /** Letters all addressed to `to` append their messages to that mailbox, in order. */
  lemma {:induction false} DeliverAddress(q: Queues, to: Role, ms: seq<Message>)
    ensures Deliver(q, Address(to, ms)) == With(q, to, Of(q, to) + ms)
    decreases |ms|
  {
    if ms == [] {
      assert Of(q, to) + ms == Of(q, to);
      SameQueues(q, With(q, to, Of(q, to)));
    } else {
      var n := |ms| - 1;
      DeliverAddress(q, to, ms[..n]);
      assert Address(to, ms)[..n] == Address(to, ms[..n]);
      assert Of(q, to) + ms == (Of(q, to) + ms[..n]) + [ms[n]];
      SameQueues(Deliver(q, Address(to, ms)), With(q, to, Of(q, to) + ms));
    }
  }

  /** The mailboxes, one queue per actor: `Sender::send` appends, `Receiver::recv` takes the
      oldest message, and finds none when the queue is empty (where the thread would wait). */
  class Channels {
    var controller: seq<Message>
    var data: seq<Message>
    var stopWords: seq<Message>
    var counter: seq<Message>

    constructor ()
      ensures Snapshot() == Queues([], [], [], [])
    {
      controller, data, stopWords, counter := [], [], [], [];
    }

    function Snapshot(): Queues
      reads this
    {
      Queues(controller, data, stopWords, counter)
    }

    method Send(l: Letter)
      modifies this
      ensures Snapshot() == Deliver(old(Snapshot()), [l])
    {
      assert [l][..0] == [];
      match l.to
      case Controller => controller := controller + [l.message];
      case DataStorage => data := data + [l.message];
      case StopWords => stopWords := stopWords + [l.message];
      case Counter => counter := counter + [l.message];
    }

    method Receive(r: Role) returns (m: Option<Message>)
      modifies this
      ensures Of(old(Snapshot()), r) == [] ==> m == None && Snapshot() == old(Snapshot())
      ensures Of(old(Snapshot()), r) != [] ==>
        m == Some(Of(old(Snapshot()), r)[0]) && Snapshot() == With(old(Snapshot()), r, Of(old(Snapshot()), r)[1..])
    {
      var q := Of(Snapshot(), r);
      if q == [] {
        return None;
      }
      m := Some(q[0]);
      match r
      case Controller => controller := controller[1..];
      case DataStorage => data := data[1..];
      case StopWords => stopWords := stopWords[1..];
      case Counter => counter := counter[1..];
    }
  }

  // ---------------------------------------------------------------------------------------
  // What one message does to each actor

  /** The data each actor keeps: the controller keeps nothing, the data manager its words, the
      stop-word manager its set, the counter its counts (and, for the proofs, the counts it had
      each time it printed). */
  datatype State =
    | ControllerState
    | DataState(words: seq<string>)
    | StopWordsState(stopWords: set<string>)
    | CounterState(counter: Table<string>, reports: seq<Table<string>>)

  function RoleOf(s: State): Role
  {
    match s
    case ControllerState => Controller
    case DataState(_) => DataStorage
    case StopWordsState(_) => StopWords
    case CounterState(_, _) => Counter
  }

  /** The state each actor is created with, empty. */
  function Initial(r: Role): (s: State)
    ensures RoleOf(s) == r
  {
    match r
    case Controller => ControllerState
    case DataStorage => DataState([])
    case StopWords => StopWordsState({})
    case Counter => CounterState(map[], [])
  }

  /** The counts the counter had when it printed, and nothing for the other actors. */
  function Reports(s: State): seq<Table<string>>
  {
    if s.CounterState? then s.reports else []
  }

  /** A dispatch either finishes with a new state and the letters it posted, or panics
      (posting nothing and changing nothing). */
  datatype Reaction = Reaction(state: State, sent: seq<Letter>) | Crash(reason: string)

  function Unknown(command: string): Reaction
  {
    Crash("unknown command: " + command)
  }

  /** The controller: "init" passes the path to the data manager and then an "init" to the
      stop-word manager; "run" and "end" go to the data manager alone. */
  function ControllerStep(m: Message): (r: Reaction)
    ensures r.Crash? <==> m.command != "init" && m.command != "run" && m.command != "end"
    ensures r.Crash? ==> r.reason == "unknown command: " + m.command
    ensures r.Reaction? ==> r.state == ControllerState && NoneTo(r.sent, Controller) && NoneTo(r.sent, Counter)
    ensures m.command == "init" ==>
      r.Reaction? && r.sent == [Letter(DataStorage, Message("init", m.payload)), Letter(StopWords, Message("init", ""))]
  {
    if m.command == "init" then
      Reaction(ControllerState, [Letter(DataStorage, Message("init", m.payload)),
                                 Letter(StopWords, Message("init", ""))])
    else if m.command == "run" then
      Reaction(ControllerState, [Letter(DataStorage, Message("run", ""))])
    else if m.command == "end" then
      Reaction(ControllerState, [Letter(DataStorage, Message("end", ""))])
    else Unknown(m.command)
  }

  function FilterMessages(ws: seq<string>): seq<Message>
  {
    seq(|ws|, i requires 0 <= i < |ws| => Message("filter", ws[i]))
  }

  function WordMessages(ws: seq<string>): seq<Message>
  {
    seq(|ws|, i requires 0 <= i < |ws| => Message("word", ws[i]))
  }

  /** The data manager: "init" replaces its words by the stored words of the file (a panic
      when it does not open); "run" drains them, posting each as a "filter" in order and then
      one "finish"; "end" posts "end"; all to the stop-word manager. */
  function DataStep(words: seq<string>, m: Message, fs: map<string, string>): (r: Reaction)
    ensures r.Crash? <==>
      (m.command == "init" && m.payload !in fs) || (m.command != "init" && m.command != "run" && m.command != "end")
    ensures r.Reaction? ==> r.state.DataState? && forall o :: o != StopWords ==> NoneTo(r.sent, o)
    ensures m.command == "init" && m.payload in fs ==> r.Reaction? && r.state.words == StoredWords(fs[m.payload]) && r.sent == []
    ensures m.command == "run" ==>
      && r.Reaction? && r.state.words == [] && |r.sent| == |words| + 1
      && (forall i :: 0 <= i < |words| ==> r.sent[i].message == Message("filter", words[i]))
      && r.sent[|words|].message == Message("finish", "")
  {
    Commands();
    if m.command == "init" then
      if m.payload in fs then Reaction(DataState(StoredWords(fs[m.payload])), [])
      else Crash(UNWRAP_ERR)
    else if m.command == "run" then
      Reaction(DataState([]), Address(StopWords, FilterMessages(words) + [Message("finish", "")]))
    else if m.command == "end" then
      Reaction(DataState(words), Address(StopWords, [Message("end", "")]))
    else Unknown(m.command)
  }

  /** The stop-word manager: "init" replaces its set by the stop words of the stop-word file
      (a panic when it does not open); "filter" passes the word on as a "word" exactly when it
      is not in the set; "finish" becomes "top25" and "end" becomes "end"; all to the counter. */
  function StopWordsStep(stop: set<string>, m: Message, fs: map<string, string>): (r: Reaction)
    ensures r.Crash? <==>
      || (m.command == "init" && STOP_WORDS_PATH !in fs)
      || (m.command != "init" && m.command != "filter" && m.command != "finish" && m.command != "end")
    ensures r.Reaction? ==> r.state.StopWordsState? && forall o :: o != Counter ==> NoneTo(r.sent, o)
    ensures m.command == "filter" ==>
      && r == Reaction(StopWordsState(stop), r.sent)
      && (m.payload in stop ==> r.sent == [])
      && (m.payload !in stop ==> r.sent == [Letter(Counter, Message("word", m.payload))])
  {
    Commands();
    if m.command == "init" then
      if STOP_WORDS_PATH in fs then
        Reaction(StopWordsState(Week3Letterbox.StopWordsOfFile(fs[STOP_WORDS_PATH])), [])
      else Crash(UNWRAP_ERR)
    else if m.command == "filter" then
      Reaction(StopWordsState(stop),
               if m.payload in stop then [] else Address(Counter, [Message("word", m.payload)]))
    else if m.command == "finish" then
      Reaction(StopWordsState(stop), Address(Counter, [Message("top25", "")]))
    else if m.command == "end" then
      Reaction(StopWordsState(stop), Address(Counter, [Message("end", "")]))
    else Unknown(m.command)
  }

  /** The counter: "word" adds one to that word's count; "top25" prints (the print is in
      `Actor.Dispatch`; here the counts printed are recorded); "end" does nothing. */
  function CounterStep(counter: Table<string>, reports: seq<Table<string>>, m: Message): (r: Reaction)
    ensures r.Crash? <==> m.command != "word" && m.command != "top25" && m.command != "end"
    ensures r.Reaction? ==> r.sent == [] && r.state.CounterState?
    ensures m.command == "word" ==>
      && r.Reaction? && r.state.reports == reports
      && Get(r.state.counter, m.payload) == Get(counter, m.payload) + 1
      && forall w :: w != m.payload ==> Get(r.state.counter, w) == Get(counter, w)
    ensures m.command == "top25" ==> r.Reaction? && r.state == CounterState(counter, reports + [counter])
  {
    Commands();
    if m.command == "word" then Reaction(CounterState(Incr(counter, m.payload), reports), [])
    else if m.command == "top25" then Reaction(CounterState(counter, reports + [counter]), [])
    else if m.command == "end" then Reaction(CounterState(counter, reports), [])
    else Unknown(m.command)
  }

  /** `dispatch`, by actor. An actor stays the actor it is, and never posts to itself. */
  function Step(s: State, m: Message, fs: map<string, string>): (r: Reaction)
    ensures r.Reaction? ==> RoleOf(r.state) == RoleOf(s) && NoneTo(r.sent, RoleOf(s))
  {
    match s
    case ControllerState => ControllerStep(m)
    case DataState(words) => DataStep(words, m, fs)
    case StopWordsState(stop) => StopWordsStep(stop, m, fs)
    case CounterState(counter, reports) => CounterStep(counter, reports, m)
  }

  /** The commands used are different strings. */
  lemma Commands()
    ensures "init" != "run" && "init" != "end" && "run" != "end"
    ensures "filter" != "init" && "filter" != "end"
    ensures "finish" != "init" && "finish" != "filter" && "finish" != "end"
    ensures "word" != "end" && "top25" != "word" && "top25" != "end"
  {
    assert "init"[0] != "run"[0] && "init"[0] != "end"[0] && "run"[0] != "end"[0];
    assert "filter"[0] != "init"[0] && "filter"[0] != "end"[0];
    assert "finish"[0] != "init"[0] && "finish"[2] != "filter"[2] && "finish"[0] != "end"[0];
    assert "word"[0] != "end"[0] && "top25"[0] != "word"[0] && "top25"[0] != "end"[0];
  }

  // ---------------------------------------------------------------------------------------
  // What the `run` loop does with a mailbox

  datatype Exit = Ended | Crashed(reason: string) | Waiting

  /** How a run loop stops, how many messages it took, the state it leaves, and the letters it
      posted, in order. */
  datatype Session = Session(exit: Exit, handled: nat, state: State, sent: seq<Letter>)

  /** `Letterbox::run` on the messages `q`: take the oldest message, dispatch it, and stop
      right after an "end"; a panic stops the thread at the message that caused it, and an
      empty mailbox leaves it waiting. */
  function Drive(s: State, q: seq<Message>, fs: map<string, string>): (r: Session)
    decreases |q|
    ensures r.handled <= |q|
  {
    if q == [] then Session(Waiting, 0, s, [])
    else
      match Step(s, q[0], fs)
      case Crash(why) => Session(Crashed(why), 1, s, [])
      case Reaction(t, sent) =>
        if q[0].command == "end" then Session(Ended, 1, t, sent)
        else
          var d := Drive(t, q[1..], fs);
          Session(d.exit, d.handled + 1, d.state, sent + d.sent)
  }

  /** What a session `r` of the loop at state `s` on the messages `q` looks like: it took
      messages oldest first and no further than the first "end", which it dispatched and then
      stopped; when it stopped at a panic, the panic is what dispatching the last message
      taken does to the state it left; when it waits, it took every message and none was
      "end". It stays the actor it was and never posts to itself. */
  predicate Stops(s: State, q: seq<Message>, fs: map<string, string>, r: Session)
  {
    && r.handled <= |q|
    && (q != [] ==> r.handled >= 1)
    && (forall i :: 0 <= i < r.handled - 1 ==> q[i].command != "end")
    && (r.exit.Ended? ==> 1 <= r.handled && q[r.handled - 1].command == "end")
    && (r.exit.Waiting? ==> r.handled == |q| && forall i :: 0 <= i < |q| ==> q[i].command != "end")
    && (r.exit.Crashed? ==> 1 <= r.handled && Step(r.state, q[r.handled - 1], fs) == Crash(r.exit.reason))
    && RoleOf(r.state) == RoleOf(s) && NoneTo(r.sent, RoleOf(s))
  }

  /** Every run of the loop stops as `Stops` describes. */
  lemma {:induction false} DriveFacts(s: State, q: seq<Message>, fs: map<string, string>)
    ensures Stops(s, q, fs, Drive(s, q, fs))
    decreases |q|
  {
    if q != [] {
      match Step(s, q[0], fs)
      case Crash(why) =>
      case Reaction(t, sent) =>
        if q[0].command != "end" {
          DriveFacts(t, q[1..], fs);
          DriveFactsStep(s, q, fs, t, sent);
        }
    }
  }

  /** A message that is not "end" and does not panic hands the rest of the mailbox on. */
  lemma DriveFactsStep(s: State, q: seq<Message>, fs: map<string, string>, t: State, sent: seq<Letter>)
    requires q != [] && Step(s, q[0], fs) == Reaction(t, sent) && q[0].command != "end"
    requires Stops(t, q[1..], fs, Drive(t, q[1..], fs))
    ensures Stops(s, q, fs, Drive(s, q, fs))
  {
    var d := Drive(t, q[1..], fs);
    assert Drive(s, q, fs) == Session(d.exit, d.handled + 1, d.state, sent + d.sent);
    forall i | 1 <= i < |q| ensures q[i] == q[1..][i - 1] { }
  }

  /** The mailboxes after the run loop of the actor at state `s` stops: its own mailbox
      keeps the messages it did not take, and the letters it posted are delivered. */
  function After(s: State, q: Queues, fs: map<string, string>): Queues
  {
    var r := RoleOf(s);
    var d := Drive(s, Of(q, r), fs);
    Deliver(With(q, r, Of(q, r)[d.handled..]), d.sent)
  }

  /** A mailbox the loop empties without stopping, followed by more messages: the loop goes
      on with the rest from where it was. */
  lemma {:induction false} DriveAppend(s: State, a: seq<Message>, b: seq<Message>, fs: map<string, string>)
    requires Drive(s, a, fs).exit.Waiting?
    ensures var da := Drive(s, a, fs); var db := Drive(da.state, b, fs);
      Drive(s, a + b, fs) == Session(db.exit, |a| + db.handled, db.state, da.sent + db.sent)
    decreases |a|
  {
    if a == [] {
      assert a + b == b;
    } else {
      assert (a + b)[0] == a[0];
      assert (a + b)[1..] == a[1..] + b;
      var t := Step(s, a[0], fs).state;
      DriveAppend(t, a[1..], b, fs);
      var db := Drive(Drive(s, a, fs).state, b, fs);
      AppendAssoc(Step(s, a[0], fs).sent, Drive(t, a[1..], fs).sent, db.sent);
    }
  }

  lemma FilterMessagesSnoc(ws: seq<string>)
    requires ws != []
    ensures FilterMessages(ws) == FilterMessages(ws[..|ws| - 1]) + [Message("filter", ws[|ws| - 1])]
  {
  }

  lemma WordMessagesSnoc(ws: seq<string>)
    requires ws != []
    ensures WordMessages(ws) == WordMessages(ws[..|ws| - 1]) + [Message("word", ws[|ws| - 1])]
  {
  }

  lemma WordMessagesAppend(a: seq<string>, b: seq<string>)
    ensures WordMessages(a + b) == WordMessages(a) + WordMessages(b)
  {
  }

  /** One "filter" message to the stop-word manager. */
  lemma DriveOneFilter(stop: set<string>, w: string, fs: map<string, string>)
    ensures Drive(StopWordsState(stop), [Message("filter", w)], fs) ==
      Session(Waiting, 1, StopWordsState(stop), Address(Counter, WordMessages(if w in stop then [] else [w])))
  {
    Commands();
    var s := StopWordsState(stop);
    assert [Message("filter", w)][1..] == [];
    assert Drive(s, [], fs) == Session(Waiting, 0, s, []);
    assert WordMessages([]) == [];
    assert WordMessages([w]) == [Message("word", w)];
  }

  /** One "word" message to the counter. */
  lemma DriveOneWord(counter: Table<string>, reports: seq<Table<string>>, w: string, fs: map<string, string>)
    ensures Drive(CounterState(counter, reports), [Message("word", w)], fs) ==
      Session(Waiting, 1, CounterState(Incr(counter, w), reports), [])
  {
    Commands();
    var s := CounterState(Incr(counter, w), reports);
    assert [Message("word", w)][1..] == [];
    assert Drive(s, [], fs) == Session(Waiting, 0, s, []);
  }

  /** The stop-word manager, set up with `stop`, on a run of "filter" messages: it posts a
      "word" for each word that is not a stop word, in order, and waits for more. */
  lemma {:induction false} DriveFilters(stop: set<string>, ws: seq<string>, fs: map<string, string>)
    ensures Drive(StopWordsState(stop), FilterMessages(ws), fs) ==
      Session(Waiting, |ws|, StopWordsState(stop), Address(Counter, WordMessages(KeepNonStop(ws, stop))))
    decreases |ws|
  {
    var s := StopWordsState(stop);
    if ws == [] {
      assert FilterMessages(ws) == [];
      assert WordMessages([]) == [];
    } else {
      var n := |ws| - 1;
      var w := ws[n];
      var kept := if w in stop then [] else [w];
      DriveFilters(stop, ws[..n], fs);
      FilterMessagesSnoc(ws);
      DriveAppend(s, FilterMessages(ws[..n]), [Message("filter", w)], fs);
      DriveOneFilter(stop, w, fs);
      WordMessagesAppend(KeepNonStop(ws[..n], stop), kept);
      AddressAppend(Counter, WordMessages(KeepNonStop(ws[..n], stop)), WordMessages(kept));
    }
  }

  /** The counter on a run of "word" messages: each adds one to its word, nothing is posted,
      and it waits for more. */
  lemma {:induction false} DriveWords(counter: Table<string>, reports: seq<Table<string>>, ws: seq<string>,
                                      fs: map<string, string>)
    ensures Drive(CounterState(counter, reports), WordMessages(ws), fs) ==
      Session(Waiting, |ws|, CounterState(CountFrom(counter, ws), reports), [])
    decreases |ws|
  {
    if ws == [] {
      assert WordMessages(ws) == [];
    } else {
      var n := |ws| - 1;
      DriveWords(counter, reports, ws[..n], fs);
      WordMessagesSnoc(ws);
      DriveAppend(CounterState(counter, reports), WordMessages(ws[..n]), [Message("word", ws[n])], fs);
      DriveOneWord(CountFrom(counter, ws[..n]), reports, ws[n], fs);
      FrontLast(ws);
      CountFromSnoc(counter, ws[..n], ws[n]);
    }
  }

  // ---------------------------------------------------------------------------------------
  // The actors

  /** Reads the words of a file as the data manager's "init" does, line by line. */
  method ReadWords(content: string) returns (words: seq<string>)
    ensures words == StoredWords(content)
  {
    var lines := Lines(content);
    words := [];
    for l := 0 to |lines|
      invariant words == KeepLong(TokensOfLines(lines[..l], NonAlpha))
    {
      StoredWordsSnoc(lines, l);
      words := words + KeepLong(Tokens(lines[l], NonAlpha));
    }
    assert lines[..|lines|] == lines;
  }

  /** Reads the stop words as the stop-word manager's "init" does: the ','-separated pieces of
      every line. */
  method ReadStopWords(content: string) returns (stop: set<string>)
    ensures stop == Week3Letterbox.StopWordsOfFile(content)
  {
    var lines := Lines(content);
    stop := {};
    for l := 0 to |lines|
      invariant stop == ElementsOf(PiecesOfLines(lines[..l], Exactly(',')))
    {
      PiecesOfLinesSnoc(lines, l, Exactly(','));
      stop := stop + ElementsOf(Split(lines[l], Exactly(',')));
    }
    assert lines[..|lines|] == lines;
  }

  /** The counter's "top25": the entries of the table sorted by decreasing count with an
      unstable sort, cut to 25. */
  method Top25(counter: Table<string>) returns (rows: seq<Entry<string>>)
    ensures IsTop(rows, counter, 25)
  {
    var entries := CollectEntries(counter);
    var sorted := SortByCount(entries);
    TopOfRanking(sorted, counter, 25);
    rows := Truncate(sorted, 25);
  }

  /** One of the four actors: its state, the rows it printed, the mailboxes, and the files it
      can open. */
  class Actor {
    var state: State
    var printed: seq<seq<Entry<string>>>
    const channels: Channels
    const fs: map<string, string>

    /** Every print was a top 25 of the counts at that moment. */
    ghost predicate Valid()
      reads this
    {
      && |printed| == |Reports(state)|
      && forall i :: 0 <= i < |printed| ==> IsTop(printed[i], Reports(state)[i], 25)
    }

    constructor (r: Role, channels: Channels, fs: map<string, string>)
      ensures state == Initial(r) && printed == []
      ensures this.channels == channels && this.fs == fs
      ensures Valid()
    {
      state := Initial(r);
      printed := [];
      this.channels := channels;
      this.fs := fs;
    }

    /** `dispatch`: the state and the mailboxes become what `Step` says; on a panic nothing
        changes. */
    method Dispatch(m: Message) returns (crash: Option<string>)
      requires Valid()
      modifies this, channels
      ensures Valid()
      ensures var st := Step(old(state), m, fs);
        && (st.Crash? ==> crash == Some(st.reason) && state == old(state)
                          && channels.Snapshot() == old(channels.Snapshot()))
        && (st.Reaction? ==> crash == None && state == st.state
                             && channels.Snapshot() == Deliver(old(channels.Snapshot()), st.sent))
    {
      match state
      case ControllerState =>
        crash := DispatchController(m);
      case DataState(words) =>
        crash := DispatchData(m);
      case StopWordsState(stop) =>
        crash := DispatchStopWords(m);
      case CounterState(counter, reports) =>
        crash := DispatchCounter(m);
    }

    method DispatchController(m: Message) returns (crash: Option<string>)
      requires state == ControllerState
      modifies channels
      ensures var st := ControllerStep(m);
        && (st.Crash? ==> crash == Some(st.reason) && channels.Snapshot() == old(channels.Snapshot()))
        && (st.Reaction? ==> crash == None && st.state == state
                             && channels.Snapshot() == Deliver(old(channels.Snapshot()), st.sent))
    {
      ghost var q0 := channels.Snapshot();
      if m.command == "init" {
        var toData := Letter(DataStorage, Message("init", m.payload));
        var toStopWords := Letter(StopWords, Message("init", ""));
        channels.Send(toData);
        channels.Send(toStopWords);
        DeliverAppend(q0, [toData], [toStopWords]);
        assert [toData] + [toStopWords] == [toData, toStopWords];
      } else if m.command == "run" {
        channels.Send(Letter(DataStorage, Message("run", "")));
      } else if m.command == "end" {
        channels.Send(Letter(DataStorage, Message("end", "")));
      } else {
        return Some("unknown command: " + m.command);
      }
      crash := None;
    }

    /** The data manager's "run" loop: each word, in order, as a "filter" to the stop-word
        manager. */
    method SendFilters(words: seq<string>)
      modifies channels
      ensures channels.Snapshot() == Deliver(old(channels.Snapshot()), Address(StopWords, FilterMessages(words)))
    {
      ghost var q0 := channels.Snapshot();
      for i := 0 to |words|
        invariant channels.Snapshot() == With(q0, StopWords, Of(q0, StopWords) + FilterMessages(words[..i]))
      {
        channels.Send(Letter(StopWords, Message("filter", words[i])));
        assert [Letter(StopWords, Message("filter", words[i]))][..0] == [];
        assert FilterMessages(words[..i + 1]) == FilterMessages(words[..i]) + [Message("filter", words[i])];
        SameQueues(channels.Snapshot(), With(q0, StopWords, Of(q0, StopWords) + FilterMessages(words[..i + 1])));
      }
      assert words[..|words|] == words;
      DeliverAddress(q0, StopWords, FilterMessages(words));
    }

    method DispatchData(m: Message) returns (crash: Option<string>)
      requires state.DataState? && Valid()
      modifies this, channels
      ensures Valid() && printed == old(printed)
      ensures var st := DataStep(old(state).words, m, fs);
        && (st.Crash? ==> crash == Some(st.reason) && state == old(state)
                          && channels.Snapshot() == old(channels.Snapshot()))
        && (st.Reaction? ==> crash == None && state == st.state
                             && channels.Snapshot() == Deliver(old(channels.Snapshot()), st.sent))
    {
      if m.command == "init" {
        if m.payload !in fs {
          return Some(UNWRAP_ERR);
        }
        var words := ReadWords(fs[m.payload]);
        state := DataState(words);
      } else if m.command == "run" {
        var words := state.words;
        state := DataState([]);
        ghost var q0 := channels.Snapshot();
        SendFilters(words);
        channels.Send(Letter(StopWords, Message("finish", "")));
        AddressAppend(StopWords, FilterMessages(words), [Message("finish", "")]);
        DeliverAppend(q0, Address(StopWords, FilterMessages(words)), [Letter(StopWords, Message("finish", ""))]);
      } else if m.command == "end" {
        channels.Send(Letter(StopWords, Message("end", "")));
        assert Address(StopWords, [Message("end", "")]) == [Letter(StopWords, Message("end", ""))];
      } else {
        return Some("unknown command: " + m.command);
      }
      crash := None;
    }

    method DispatchStopWords(m: Message) returns (crash: Option<string>)
      requires state.StopWordsState? && Valid()
      modifies this, channels
      ensures Valid() && printed == old(printed)
      ensures var st := StopWordsStep(old(state).stopWords, m, fs);
        && (st.Crash? ==> crash == Some(st.reason) && state == old(state)
                          && channels.Snapshot() == old(channels.Snapshot()))
        && (st.Reaction? ==> crash == None && state == st.state
                             && channels.Snapshot() == Deliver(old(channels.Snapshot()), st.sent))
    {
      if m.command == "init" {
        if STOP_WORDS_PATH !in fs {
          return Some(UNWRAP_ERR);
        }
        var stop := ReadStopWords(fs[STOP_WORDS_PATH]);
        state := StopWordsState(stop);
      } else if m.command == "filter" {
        if m.payload !in state.stopWords {
          channels.Send(Letter(Counter, Message("word", m.payload)));
          assert Address(Counter, [Message("word", m.payload)]) == [Letter(Counter, Message("word", m.payload))];
        } else {
          assert Deliver(channels.Snapshot(), []) == channels.Snapshot();
        }
      } else if m.command == "finish" {
        channels.Send(Letter(Counter, Message("top25", "")));
        assert Address(Counter, [Message("top25", "")]) == [Letter(Counter, Message("top25", ""))];
      } else if m.command == "end" {
        channels.Send(Letter(Counter, Message("end", "")));
        assert Address(Counter, [Message("end", "")]) == [Letter(Counter, Message("end", ""))];
      } else {
        return Some("unknown command: " + m.command);
      }
      crash := None;
    }

    method DispatchCounter(m: Message) returns (crash: Option<string>)
      requires state.CounterState? && Valid()
      modifies this
      ensures Valid()
      ensures var st := CounterStep(old(state).counter, old(state).reports, m);
        && (st.Crash? ==> crash == Some(st.reason) && state == old(state))
        && (st.Reaction? ==> crash == None && state == st.state && st.sent == [])
    {
      if m.command == "word" {
        state := CounterState(Incr(state.counter, m.payload), state.reports);
      } else if m.command == "top25" {
        var rows := Top25(state.counter);
        printed := printed + [rows];
        state := CounterState(state.counter, state.reports + [state.counter]);
      } else if m.command == "end" {
      } else {
        return Some("unknown command: " + m.command);
      }
      crash := None;
    }

    /** `Letterbox::run`: what `Drive` says of the mailbox the actor starts with; the mailbox
        keeps the messages after the ones taken, and the other mailboxes receive the letters
        posted. */
    method Run() returns (exit: Exit)
      requires Valid()
      modifies this, channels
      ensures Valid()
      ensures var d := Drive(old(state), Of(old(channels.Snapshot()), RoleOf(old(state))), fs);
        exit == d.exit && state == d.state && channels.Snapshot() == After(old(state), old(channels.Snapshot()), fs)
    {
      var r := RoleOf(state);
      ghost var s0 := state;
      ghost var q0 := Of(channels.Snapshot(), r);
      ghost var Q0 := channels.Snapshot();
      ghost var i := 0;
      ghost var sent: seq<Letter> := [];
      PendingStart(s0, Q0, fs);
      while true
        invariant Valid() && Pending(s0, q0, Q0, fs, i, state, sent, channels.Snapshot())
        decreases |q0| - i
      {
        ghost var now := channels.Snapshot();
        PendingTake(s0, q0, Q0, fs, i, state, sent, now);
        var m := channels.Receive(r);
        if m.None? {
          return Waiting;
        }
        PendingStep(s0, q0, Q0, fs, i, state, sent, now);
        ghost var st := Step(state, m.value, fs);
        var crash := Dispatch(m.value);
        if crash.Some? {
          return Crashed(crash.value);
        }
        if m.value.command == "end" {
          return Ended;
        }
        sent := sent + st.sent;
        i := i + 1;
      }
    }
  }

  /** Where the run loop is after taking `i` messages of `q0` from the mailboxes `Q0`: at
      state `s`, having posted `sent`, with the mailboxes at `now`; and `Drive` from there gives
      the same as `Drive` from the start. */
  ghost predicate Pending(s0: State, q0: seq<Message>, Q0: Queues, fs: map<string, string>,
                          i: nat, s: State, sent: seq<Letter>, now: Queues)
  {
    var r := RoleOf(s0);
    && q0 == Of(Q0, r) && i <= |q0| && RoleOf(s) == r && NoneTo(sent, r)
    && now == Deliver(With(Q0, r, q0[i..]), sent)
    && var d := Drive(s, q0[i..], fs);
       Drive(s0, q0, fs) == Session(d.exit, i + d.handled, d.state, sent + d.sent)
  }

  lemma PendingStart(s0: State, Q0: Queues, fs: map<string, string>)
    ensures Pending(s0, Of(Q0, RoleOf(s0)), Q0, fs, 0, s0, [], Q0)
  {
    var q0 := Of(Q0, RoleOf(s0));
    assert q0[0..] == q0;
    SameQueues(With(Q0, RoleOf(s0), q0[0..]), Q0);
    var d := Drive(s0, q0, fs);
    assert [] + d.sent == d.sent;
  }

  /** The mailbox of the running actor holds the messages not yet taken; once it is empty,
      `Drive` has nothing more to do. */
  lemma PendingTake(s0: State, q0: seq<Message>, Q0: Queues, fs: map<string, string>,
                    i: nat, s: State, sent: seq<Letter>, now: Queues)
    requires Pending(s0, q0, Q0, fs, i, s, sent, now)
    ensures Of(now, RoleOf(s0)) == q0[i..]
    ensures i == |q0| ==> Drive(s0, q0, fs) == Session(Waiting, i, s, sent)
    ensures i < |q0| ==> With(now, RoleOf(s0), q0[i..][1..]) == Deliver(With(Q0, RoleOf(s0), q0[i + 1..]), sent)
  {
    var r := RoleOf(s0);
    DeliverElsewhere(With(Q0, r, q0[i..]), sent, r, q0[i..]);
    if i == |q0| {
      assert q0[i..] == [];
      assert sent + [] == sent;
    } else {
      assert q0[i..][1..] == q0[i + 1..];
      DeliverElsewhere(With(Q0, r, q0[i..]), sent, r, q0[i + 1..]);
      SameQueues(With(With(Q0, r, q0[i..]), r, q0[i + 1..]), With(Q0, r, q0[i + 1..]));
    }
  }

  /** Dispatching the next message: a panic or an "end" is where `Drive` stops; anything else
      moves the loop one message on. */
  lemma PendingStep(s0: State, q0: seq<Message>, Q0: Queues, fs: map<string, string>,
                    i: nat, s: State, sent: seq<Letter>, now: Queues)
    requires Pending(s0, q0, Q0, fs, i, s, sent, now) && i < |q0|
    ensures var st := Step(s, q0[i], fs); var r := RoleOf(s0);
      var base := Deliver(With(Q0, r, q0[i + 1..]), sent);
      && (st.Crash? ==> Drive(s0, q0, fs) == Session(Crashed(st.reason), i + 1, s, sent))
      && (st.Reaction? && q0[i].command == "end" ==>
            Drive(s0, q0, fs) == Session(Ended, i + 1, st.state, sent + st.sent)
            && Deliver(base, st.sent) == Deliver(With(Q0, r, q0[i + 1..]), sent + st.sent))
      && (st.Reaction? && q0[i].command != "end" ==>
            Pending(s0, q0, Q0, fs, i + 1, st.state, sent + st.sent, Deliver(base, st.sent)))
  {
    var r := RoleOf(s0);
    var st := Step(s, q0[i], fs);
    assert q0[i..][0] == q0[i] && q0[i..][1..] == q0[i + 1..];
    if st.Crash? {
      assert sent + [] == sent;
    } else {
      DeliverAppend(With(Q0, r, q0[i + 1..]), sent, st.sent);
      if q0[i].command != "end" {
        AppendAssoc(sent, st.sent, Drive(st.state, q0[i + 1..], fs).sent);
      }
    }
  }

  // ---------------------------------------------------------------------------------------
  // The four mailboxes under `main`'s messages

  function ControllerLetters(path: string): seq<Letter>
  {
    [Letter(DataStorage, Message("init", path)), Letter(StopWords, Message("init", "")),
     Letter(DataStorage, Message("run", "")), Letter(DataStorage, Message("end", ""))]
  }

  function MainMessages(path: string): seq<Message>
  {
    [Message("init", path), Message("run", ""), Message("end", "")]
  }

  /** The controller on `main`'s "init", "run" and "end": it ends, after posting the init, run
      and end of the data manager and the init of the stop-word manager. */
  lemma ControllerSession(path: string, fs: map<string, string>)
    ensures Drive(ControllerState, MainMessages(path), fs) == Session(Ended, 3, ControllerState, ControllerLetters(path))
  {
    Commands();
    var s := ControllerState;
    var q := MainMessages(path);
    assert q[1..][1..] == [Message("end", "")];
    assert Drive(s, q[1..][1..], fs) == Session(Ended, 1, s, [Letter(DataStorage, Message("end", ""))]);
    assert Drive(s, q[1..], fs) ==
      Session(Ended, 2, s, [Letter(DataStorage, Message("run", ""))] + [Letter(DataStorage, Message("end", ""))]);
    assert Step(s, q[0], fs) ==
      Reaction(s, [Letter(DataStorage, Message("init", path)), Letter(StopWords, Message("init", ""))]);
  }

  /** The data manager on the controller's "init", "run" and "end": when the file opens it
      posts every stored word as a "filter", then "finish" and "end", and ends; otherwise it
      panics at "init" having posted nothing. */
  lemma DataSession(path: string, fs: map<string, string>)
    ensures path in fs ==>
      Drive(DataState([]), MainMessages(path), fs) ==
        Session(Ended, 3, DataState([]),
                Address(StopWords, FilterMessages(StoredWords(fs[path])) + [Message("finish", ""), Message("end", "")]))
    ensures path !in fs ==> Drive(DataState([]), MainMessages(path), fs) == Session(Crashed(UNWRAP_ERR), 1, DataState([]), [])
  {
    Commands();
    var q := MainMessages(path);
    var s0 := DataState([]);
    if path in fs {
      var ws := StoredWords(fs[path]);
      var runSent := Address(StopWords, FilterMessages(ws) + [Message("finish", "")]);
      var endSent := Address(StopWords, [Message("end", "")]);
      assert q[1..][1..] == [Message("end", "")];
      assert Step(s0, Message("end", ""), fs) == Reaction(s0, endSent);
      assert Drive(s0, q[1..][1..], fs) == Session(Ended, 1, s0, endSent);
      assert Step(DataState(ws), q[1..][0], fs) == Reaction(s0, runSent);
      assert Drive(DataState(ws), q[1..], fs) == Session(Ended, 2, s0, runSent + endSent);
      assert Step(s0, q[0], fs) == Reaction(DataState(ws), []);
      assert Drive(s0, q, fs) == Session(Ended, 3, s0, [] + (runSent + endSent));
      AddressAppend(StopWords, FilterMessages(ws) + [Message("finish", "")], [Message("end", "")]);
      assert FilterMessages(ws) + [Message("finish", "")] + [Message("end", "")] ==
        FilterMessages(ws) + [Message("finish", ""), Message("end", "")];
    } else {
      assert Step(s0, q[0], fs) == Crash(UNWRAP_ERR);
    }
  }

  /** The stop-word manager, set up, on "finish" and "end": "top25" and "end" to the counter. */
  lemma StopWordsTail(stop: set<string>, fs: map<string, string>)
    ensures Drive(StopWordsState(stop), [Message("finish", ""), Message("end", "")], fs) ==
      Session(Ended, 2, StopWordsState(stop), Address(Counter, [Message("top25", ""), Message("end", "")]))
  {
    Commands();
    var s := StopWordsState(stop);
    var tail := [Message("finish", ""), Message("end", "")];
    assert tail[1..] == [Message("end", "")];
    assert Drive(s, tail[1..], fs) == Session(Ended, 1, s, Address(Counter, [Message("end", "")]));
    assert Step(s, tail[0], fs) == Reaction(s, Address(Counter, [Message("top25", "")]));
    AddressAppend(Counter, [Message("top25", "")], [Message("end", "")]);
    assert [Message("top25", "")] + [Message("end", "")] == [Message("top25", ""), Message("end", "")];
  }

  /** The stop-word manager on the controller's "init" followed by the data manager's
      letters: when the stop-word file opens it posts a "word" for every stored word that is
      not a stop word, then "top25" and "end", and ends; otherwise it panics at "init". */
  lemma StopWordsSession(ws: seq<string>, fs: map<string, string>)
    ensures var q := [Message("init", "")] + FilterMessages(ws) + [Message("finish", ""), Message("end", "")];
      STOP_WORDS_PATH in fs ==>
        var stop := Week3Letterbox.StopWordsOfFile(fs[STOP_WORDS_PATH]);
        Drive(StopWordsState({}), q, fs) ==
          Session(Ended, |q|, StopWordsState(stop),
                  Address(Counter, WordMessages(KeepNonStop(ws, stop)) + [Message("top25", ""), Message("end", "")]))
    ensures var q := [Message("init", "")] + FilterMessages(ws) + [Message("finish", ""), Message("end", "")];
      STOP_WORDS_PATH !in fs ==> Drive(StopWordsState({}), q, fs) == Session(Crashed(UNWRAP_ERR), 1, StopWordsState({}), [])
  {
    Commands();
    var tail := [Message("finish", ""), Message("end", "")];
    var q := [Message("init", "")] + FilterMessages(ws) + tail;
    assert q[0] == Message("init", "");
    if STOP_WORDS_PATH in fs {
      var stop := Week3Letterbox.StopWordsOfFile(fs[STOP_WORDS_PATH]);
      var s := StopWordsState(stop);
      assert q[1..] == FilterMessages(ws) + tail;
      DriveFilters(stop, ws, fs);
      StopWordsTail(stop, fs);
      DriveAppend(s, FilterMessages(ws), tail, fs);
      var words := WordMessages(KeepNonStop(ws, stop));
      AddressAppend(Counter, words, [Message("top25", ""), Message("end", "")]);
      assert Step(StopWordsState({}), q[0], fs) == Reaction(s, []);
      assert Drive(StopWordsState({}), q, fs).sent == [] + Drive(s, q[1..], fs).sent;
    } else {
      assert Step(StopWordsState({}), q[0], fs) == Crash(UNWRAP_ERR);
    }
  }

  /** The stop-word manager when the data manager posted nothing: it reads the stop words
      and waits, or panics at "init". */
  lemma StopWordsInitOnly(fs: map<string, string>)
    ensures STOP_WORDS_PATH in fs ==> Drive(StopWordsState({}), [Message("init", "")], fs).exit == Waiting
    ensures STOP_WORDS_PATH !in fs ==>
      Drive(StopWordsState({}), [Message("init", "")], fs) == Session(Crashed(UNWRAP_ERR), 1, StopWordsState({}), [])
  {
    Commands();
    var q := [Message("init", "")];
    assert q[1..] == [];
  }

  /** The counter on "top25" and "end": it prints once and ends. */
  lemma CounterTail(counter: Table<string>, fs: map<string, string>)
    ensures Drive(CounterState(counter, []), [Message("top25", ""), Message("end", "")], fs) ==
      Session(Ended, 2, CounterState(counter, [counter]), [])
  {
    Commands();
    var tail := [Message("top25", ""), Message("end", "")];
    var s := CounterState(counter, [counter]);
    assert tail[1..] == [Message("end", "")];
    assert Drive(s, tail[1..], fs) == Session(Ended, 1, s, []);
    assert Step(CounterState(counter, []), tail[0], fs) == Reaction(s, []);
  }

  /** The counter on the stop-word manager's letters: it counts every word, prints once, and
      ends. */
  lemma CounterSession(ws: seq<string>, fs: map<string, string>)
    ensures Drive(CounterState(map[], []), WordMessages(ws) + [Message("top25", ""), Message("end", "")], fs) ==
      Session(Ended, |ws| + 2, CounterState(Count(ws), [Count(ws)]), [])
  {
    DriveWords(map[], [], ws, fs);
    CountFromEmpty(ws);
    CounterTail(Count(ws), fs);
    DriveAppend(CounterState(map[], []), WordMessages(ws), [Message("top25", ""), Message("end", "")], fs);
  }

  // ---------------------------------------------------------------------------------------
  // main

  /** How the program ends: all threads joined, a thread that never joins (so `main` waits
      forever), or a panic of `main`; with what the counter printed. */
  datatype Ending = Exits(printed: seq<seq<Entry<string>>>) | Hangs(printed: seq<seq<Entry<string>>>) | Panics(reason: string)

  /** `join().unwrap()` on the threads in turn: the first that never ends leaves `main`
      waiting forever, and the first that panicked makes `main` panic. */
  function JoinAll(exits: seq<Exit>, printed: seq<seq<Entry<string>>>): (r: Ending)
    ensures r.Exits? <==> forall i :: 0 <= i < |exits| ==> exits[i] == Ended
    ensures r.Hangs? ==> Waiting in exits
    ensures r.Panics? ==> r.reason == UNWRAP_ERR && exists i :: 0 <= i < |exits| && exits[i].Crashed?
    ensures !r.Panics? ==> r.printed == printed
    ensures exits != [] && exits[0] == Waiting ==> r == Hangs(printed)
  {
    if exits == [] then Exits(printed)
    else
      match exits[0]
      case Ended => JoinAll(exits[1..], printed)
      case Crashed(_) => Panics(UNWRAP_ERR)
      case Waiting => Hangs(printed)
  }

  lemma DeliverSnoc(q: Queues, ls: seq<Letter>, l: Letter)
    ensures Deliver(q, ls + [l]) == With(Deliver(q, ls), l.to, Of(Deliver(q, ls), l.to) + [l.message])
  {
    assert (ls + [l])[..|ls|] == ls;
  }

  /** After the controller's run: the data manager holds "init", "run" and "end", the
      stop-word manager an "init". */
  lemma ControllerStage(path: string, fs: map<string, string>)
    ensures var q := Queues(MainMessages(path), [], [], []);
      && Drive(ControllerState, Of(q, Controller), fs).exit == Ended
      && After(ControllerState, q, fs) == Queues([], MainMessages(path), [Message("init", "")], [])
  {
    ControllerSession(path, fs);
    var q := Queues(MainMessages(path), [], [], []);
    var ls := ControllerLetters(path);
    var q0 := With(q, Controller, Of(q, Controller)[3..]);
    assert q0 == Queues([], [], [], []);
    assert ls == [ls[0]] + [ls[1]] + [ls[2]] + [ls[3]];
    DeliverSnoc(q0, [], ls[0]);
    DeliverSnoc(q0, [ls[0]], ls[1]);
    DeliverSnoc(q0, [ls[0]] + [ls[1]], ls[2]);
    DeliverSnoc(q0, [ls[0]] + [ls[1]] + [ls[2]], ls[3]);
    assert Deliver(q0, [ls[0]]) == Queues([], [Message("init", path)], [], []);
    assert Deliver(q0, [ls[0]] + [ls[1]]) == Queues([], [Message("init", path)], [Message("init", "")], []);
    assert Deliver(q0, [ls[0]] + [ls[1]] + [ls[2]]) ==
      Queues([], [Message("init", path), Message("run", "")], [Message("init", "")], []);
  }

  /** The stop-word manager's mailbox once the data manager has run. */
  function StopWordsQueue(path: string, fs: map<string, string>): seq<Message>
  {
    [Message("init", "")] +
      if path in fs then FilterMessages(StoredWords(fs[path])) + [Message("finish", ""), Message("end", "")] else []
  }

  /** After the data manager's run: it ended and fed the stop-word manager, or panicked. */
  lemma DataStage(path: string, fs: map<string, string>)
    ensures var q := Queues([], MainMessages(path), [Message("init", "")], []);
      && Drive(DataState([]), Of(q, DataStorage), fs).exit == (if path in fs then Ended else Crashed(UNWRAP_ERR))
      && After(DataState([]), q, fs) ==
           Queues([], if path in fs then [] else [Message("run", ""), Message("end", "")], StopWordsQueue(path, fs), [])
  {
    DataSession(path, fs);
    var q := Queues([], MainMessages(path), [Message("init", "")], []);
    var d := Drive(DataState([]), Of(q, DataStorage), fs);
    var q0 := With(q, DataStorage, Of(q, DataStorage)[d.handled..]);
    if path in fs {
      assert q0 == Queues([], [], [Message("init", "")], []);
      var ms := FilterMessages(StoredWords(fs[path])) + [Message("finish", ""), Message("end", "")];
      DeliverAddress(q0, StopWords, ms);
      SameQueues(With(q0, StopWords, Of(q0, StopWords) + ms), Queues([], [], StopWordsQueue(path, fs), []));
    } else {
      assert q0 == Queues([], [Message("run", ""), Message("end", "")], [Message("init", "")], []);
    }
  }

  /** The counter's mailbox once the stop-word manager has run. */
  function CounterQueue(path: string, fs: map<string, string>): seq<Message>
  {
    if path in fs && STOP_WORDS_PATH in fs then
      WordMessages(KeepNonStop(StoredWords(fs[path]), Week3Letterbox.StopWordsOfFile(fs[STOP_WORDS_PATH])))
        + [Message("top25", ""), Message("end", "")]
    else []
  }

  /** After the stop-word manager's run: when both files open it ended and fed the counter;
      otherwise it panicked or waits, and the counter's mailbox is empty. */
  lemma StopWordsStage(path: string, fs: map<string, string>, rest: seq<Message>)
    ensures var q := Queues([], rest, StopWordsQueue(path, fs), []);
      var e := Drive(StopWordsState({}), Of(q, StopWords), fs).exit;
      && (path in fs && STOP_WORDS_PATH in fs ==> e == Ended)
      && (STOP_WORDS_PATH !in fs ==> e == Crashed(UNWRAP_ERR))
      && (path !in fs && STOP_WORDS_PATH in fs ==> e == Waiting)
      && Of(After(StopWordsState({}), q, fs), Counter) == CounterQueue(path, fs)
  {
    var q := Queues([], rest, StopWordsQueue(path, fs), []);
    var s := StopWordsState({});
    var d := Drive(s, Of(q, StopWords), fs);
    var q0 := With(q, StopWords, Of(q, StopWords)[d.handled..]);
    if path in fs {
      var ws := StoredWords(fs[path]);
      StopWordsSession(ws, fs);
      assert StopWordsQueue(path, fs) == [Message("init", "")] + FilterMessages(ws) + [Message("finish", ""), Message("end", "")];
      if STOP_WORDS_PATH in fs {
        var ms := WordMessages(KeepNonStop(ws, Week3Letterbox.StopWordsOfFile(fs[STOP_WORDS_PATH])))
          + [Message("top25", ""), Message("end", "")];
        DeliverAddress(q0, Counter, ms);
        assert [] + ms == ms;
      }
    } else {
      StopWordsInitOnly(fs);
      assert StopWordsQueue(path, fs) == [Message("init", "")];
      DriveFacts(s, Of(q, StopWords), fs);
    }
  }

  /** After the counter's run: when both files open it ended having printed once, at the
      count of every word that is not a stop word; otherwise it waits. */
  lemma CounterStage(path: string, fs: map<string, string>)
    ensures var d := Drive(CounterState(map[], []), CounterQueue(path, fs), fs);
      && (path in fs && STOP_WORDS_PATH in fs ==>
            var ws := KeepNonStop(StoredWords(fs[path]), Week3Letterbox.StopWordsOfFile(fs[STOP_WORDS_PATH]));
            d.exit == Ended && d.state == CounterState(Count(ws), [Count(ws)]))
      && (!(path in fs && STOP_WORDS_PATH in fs) ==> d.exit == Waiting && d.state == CounterState(map[], []))
  {
    if path in fs && STOP_WORDS_PATH in fs {
      CounterSession(KeepNonStop(StoredWords(fs[path]), Week3Letterbox.StopWordsOfFile(fs[STOP_WORDS_PATH])), fs);
    }
  }

  /** `main` sends the controller "init" with the path, "run" and "end". */
  method SendMain(channels: Channels, path: string)
    requires channels.Snapshot() == Queues([], [], [], [])
    modifies channels
    ensures channels.Snapshot() == Queues(MainMessages(path), [], [], [])
  {
    channels.Send(Letter(Controller, Message("init", path)));
    assert channels.Snapshot() == Queues([Message("init", path)], [], [], []);
    channels.Send(Letter(Controller, Message("run", "")));
    assert channels.Snapshot() == Queues([Message("init", path), Message("run", "")], [], [], []);
    channels.Send(Letter(Controller, Message("end", "")));
  }

  /** The controller's thread on `main`'s three messages. */
  method RunController(controller: Actor, path: string) returns (exit: Exit)
    requires controller.Valid() && controller.state == ControllerState
    requires controller.channels.Snapshot() == Queues(MainMessages(path), [], [], [])
    modifies controller, controller.channels
    ensures exit == Ended
    ensures controller.channels.Snapshot() == Queues([], MainMessages(path), [Message("init", "")], [])
  {
    exit := controller.Run();
    ControllerStage(path, controller.fs);
  }

  /** The data manager's thread once the controller has run. */
  method RunData(data: Actor, path: string) returns (exit: Exit)
    requires data.Valid() && data.state == DataState([])
    requires data.channels.Snapshot() == Queues([], MainMessages(path), [Message("init", "")], [])
    modifies data, data.channels
    ensures exit == (if path in data.fs then Ended else Crashed(UNWRAP_ERR))
    ensures data.channels.Snapshot() ==
      Queues([], if path in data.fs then [] else [Message("run", ""), Message("end", "")],
             StopWordsQueue(path, data.fs), [])
  {
    exit := data.Run();
    DataStage(path, data.fs);
  }

  /** The stop-word manager's thread once the data manager has run. */
  method RunStopWords(stopWords: Actor, path: string, rest: seq<Message>) returns (exit: Exit)
    requires stopWords.Valid() && stopWords.state == StopWordsState({})
    requires stopWords.channels.Snapshot() == Queues([], rest, StopWordsQueue(path, stopWords.fs), [])
    modifies stopWords, stopWords.channels
    ensures path in stopWords.fs && STOP_WORDS_PATH in stopWords.fs ==> exit == Ended
    ensures Of(stopWords.channels.Snapshot(), Counter) == CounterQueue(path, stopWords.fs)
  {
    exit := stopWords.Run();
    StopWordsStage(path, stopWords.fs, rest);
  }

  /** The counter's thread once the stop-word manager has run: when both files open it ends
      having printed once, a correct top 25 of the counted words; otherwise it waits, having
      printed nothing. */
  method RunCounter(counter: Actor, path: string) returns (exit: Exit)
    requires counter.Valid() && counter.state == CounterState(map[], []) && counter.printed == []
    requires Of(counter.channels.Snapshot(), Counter) == CounterQueue(path, counter.fs)
    modifies counter, counter.channels
    ensures var fs := counter.fs;
      path in fs && STOP_WORDS_PATH in fs ==>
        && exit == Ended && |counter.printed| == 1
        && IsTop(counter.printed[0], Count(CountedWords(Lines(fs[path]), NonAlpha,
                                                        Week3Letterbox.StopWordsOfFile(fs[STOP_WORDS_PATH]))), 25)
    ensures var fs := counter.fs;
      !(path in fs && STOP_WORDS_PATH in fs) ==> exit == Waiting && counter.printed == []
  {
    exit := counter.Run();
    var fs := counter.fs;
    CounterStage(path, fs);
    if path in fs && STOP_WORDS_PATH in fs {
      var stop := Week3Letterbox.StopWordsOfFile(fs[STOP_WORDS_PATH]);
      LongThenNonStop(TokensOfLines(Lines(fs[path]), NonAlpha), stop);
      assert Reports(counter.state)[0] == Count(CountedWords(Lines(fs[path]), NonAlpha, stop));
    }
  }

  /** `main`: the four actors are created, the controller is sent "init" with the path, "run"
      and "end", and the threads are joined, counter first. The threads run one after the
      other in the order the messages flow: controller, data manager, stop-word manager,
      counter; each thread's mailbox then already holds every message it will ever get.
      Without an argument `main` panics; when both files open, every thread ends and the
      counter has printed exactly once, a correct top 25 of the words longer than one letter
      that are not stop words, after taking all its "word" messages, one "top25" and one
      "end"; when a file does not open, an actor panics, the counter waits forever for
      messages, and nothing is printed. */
  method Run(args: seq<string>, fs: map<string, string>) returns (ending: Ending, ghost counterTook: seq<Message>)
    ensures |args| < 2 ==> ending == Panics(NO_ARGUMENT)
    ensures |args| >= 2 && args[1] in fs && STOP_WORDS_PATH in fs ==>
      var ws := KeepNonStop(StoredWords(fs[args[1]]), Week3Letterbox.StopWordsOfFile(fs[STOP_WORDS_PATH]));
      && counterTook == WordMessages(ws) + [Message("top25", ""), Message("end", "")]
      && ending.Exits? && |ending.printed| == 1
      && IsTop(ending.printed[0], Count(CountedWords(Lines(fs[args[1]]), NonAlpha,
                                                      Week3Letterbox.StopWordsOfFile(fs[STOP_WORDS_PATH]))), 25)
    ensures |args| >= 2 && !(args[1] in fs && STOP_WORDS_PATH in fs) ==> ending == Hangs([])
  {
    counterTook := [];
    var channels := new Channels();
    var counter := new Actor(Counter, channels, fs);
    var stopWords := new Actor(StopWords, channels, fs);
    var data := new Actor(DataStorage, channels, fs);
    var controller := new Actor(Controller, channels, fs);
    if |args| < 2 {
      return Panics(NO_ARGUMENT), counterTook;
    }
    var path := args[1];
    SendMain(channels, path);

    var e1 := RunController(controller, path);
    var e2 := RunData(data, path);
    var e3 := RunStopWords(stopWords, path, if path in fs then [] else [Message("run", ""), Message("end", "")]);
    counterTook := Of(channels.Snapshot(), Counter);
    var e4 := RunCounter(counter, path);

    ending := JoinAll([e4, e3, e2, e1], counter.printed);
    JoinAllCases(e4, e3, e2, e1, counter.printed);
  }

  /** The joins when every thread ended, and when the first one joined waits. */
  lemma JoinAllCases(e4: Exit, e3: Exit, e2: Exit, e1: Exit, printed: seq<seq<Entry<string>>>)
    ensures e4 == Ended && e3 == Ended && e2 == Ended && e1 == Ended ==> JoinAll([e4, e3, e2, e1], printed) == Exits(printed)
    ensures e4 == Waiting ==> JoinAll([e4, e3, e2, e1], printed) == Hangs(printed)
  {
    var es := [e4, e3, e2, e1];
    assert es[1..] == [e3, e2, e1] && es[2..] == [e2, e1] && es[3..] == [e1];
    assert es[1..][1..] == es[2..] && es[2..][1..] == es[3..] && es[3..][1..] == [];
    if e4 == Ended && e3 == Ended && e2 == Ended && e1 == Ended {
      assert JoinAll(es[3..], printed) == Exits(printed);
      assert JoinAll(es[2..], printed) == Exits(printed);
      assert JoinAll(es[1..], printed) == Exits(printed);
    }
  }
}

=== FILE: week8_dataspaces.dfy ===
/** week8/30-1.rs, the "dataspaces" style: the words of the text are put into a shared word
    space, five workers take words from it until it is empty, each counting the countable ones
    in a table of its own, and put their tables into a shared frequency space; `main` then
    merges the tables and ranks the result.

    The threads are modelled by one loop that hands every word taken from the word space to
    the worker a `schedule` names: any way the workers can share the words out is one such
    schedule. Every word is in the space before any worker starts, so a worker only finds the
    space empty once every word has been taken, and no table is put into the frequency space
    before that. */
module Week8Dataspaces {
  import opened Wrappers
  import opened Seqs
  import opened Text
  import opened Frequencies
  import opened Ranking

  const STOP_WORDS_PATH := "../stop_words.txt"
  const WORKERS: nat := 5
  const NO_ARGUMENT := "called `Option::unwrap()` on a `None` value"

  /** The two shared spaces, each a `VecDeque` behind a mutex. */
  class DataSpaces {
    var wordSpace: seq<string>
    var freqSpace: seq<Table<string>>

    constructor ()
      ensures wordSpace == [] && freqSpace == []
    {
      wordSpace := [];
      freqSpace := [];
    }

    /** `word_space.push_back(w)`. */
    method PushWord(w: string)
      modifies this
      ensures wordSpace == old(wordSpace) + [w]
      ensures freqSpace == old(freqSpace)
    {
      wordSpace := wordSpace + [w];
    }

    /** `word_space.pop_front()`: the oldest word, or nothing when the space is empty. */
    method TakeWord() returns (w: Option<string>)
      modifies this
      ensures old(wordSpace) == [] ==> w == None && wordSpace == []
      ensures old(wordSpace) != [] ==> w == Some(old(wordSpace)[0]) && wordSpace == old(wordSpace)[1..]
      ensures freqSpace == old(freqSpace)
    {
      if wordSpace == [] {
        w := None;
      } else {
        w := Some(wordSpace[0]);
        wordSpace := wordSpace[1..];
      }
    }

    /** `freq_space.push_back(freq)`. */
    method PushTable(t: Table<string>)
      modifies this
      ensures freqSpace == old(freqSpace) + [t]
      ensures wordSpace == old(wordSpace)
    {
      freqSpace := freqSpace + [t];
    }

    /** `freq_space.drain(..)`: every table, oldest first, leaving the space empty. */
    method DrainTables() returns (ts: seq<Table<string>>)
      modifies this
      ensures ts == old(freqSpace) && freqSpace == []
      ensures wordSpace == old(wordSpace)
    {
      ts := freqSpace;
      freqSpace := [];
    }
  }

  /** "put words to word_space": every piece of every line cut at non-alphanumeric
      characters, lower-cased, empty pieces included, in text order. */
  method FillWordSpace(spaces: DataSpaces, lines: seq<string>)
    modifies spaces
    ensures spaces.wordSpace == old(spaces.wordSpace) + TokensOfLines(lines, NonAlnum)
    ensures spaces.freqSpace == old(spaces.freqSpace)
  {
    ghost var before := spaces.wordSpace;
    for l := 0 to |lines|
      invariant spaces.wordSpace == before + TokensOfLines(lines[..l], NonAlnum)
      invariant spaces.freqSpace == old(spaces.freqSpace)
    {
      var ws := Tokens(lines[l], NonAlnum);
      ghost var here := spaces.wordSpace;
      for k := 0 to |ws|
        invariant spaces.wordSpace == here + ws[..k]
        invariant spaces.freqSpace == old(spaces.freqSpace)
      {
        spaces.PushWord(ws[k]);
        assert ws[..k + 1] == ws[..k] + [ws[k]];
      }
      assert ws[..|ws|] == ws;
      TokensOfLinesSnoc(lines, l, NonAlnum);
      AppendAssoc(before, TokensOfLines(lines[..l], NonAlnum), ws);
    }
    assert lines[..|lines|] == lines;
  }

  /** The worker that takes the `j`-th word; any schedule is allowed, and one that is too
      short leaves the remaining words to the first worker. */
  function Turn(schedule: seq<nat>, j: nat): (k: nat)
    ensures k < WORKERS
  {
    if j < |schedule| then schedule[j] % WORKERS else 0
  }

  /** Giving one worker one more word adds that word to the words of all the workers. */
  lemma {:induction false} FlattenPush(xss: seq<seq<string>>, k: nat, x: string)
    requires k < |xss|
    ensures multiset(Flatten(xss[k := xss[k] + [x]])) == multiset(Flatten(xss)) + multiset{x}
  {
    var n := |xss| - 1;
    var yss := xss[k := xss[k] + [x]];
    assert Flatten(yss) == Flatten(yss[..n]) + yss[n];
    assert Flatten(xss) == Flatten(xss[..n]) + xss[n];
    if k == n {
      assert yss[..n] == xss[..n];
      assert yss[n] == xss[n] + [x];
      calc {
        multiset(Flatten(yss));
        multiset(Flatten(xss[..n])) + multiset(xss[n] + [x]);
        multiset(Flatten(xss[..n])) + multiset(xss[n]) + multiset{x};
      }
    } else {
      assert yss[..n] == xss[..n][k := xss[k] + [x]];
      assert yss[n] == xss[n];
      FlattenPush(xss[..n], k, x);
    }
  }

  lemma {:induction false} FlattenEmpty(xss: seq<seq<string>>)
    requires forall i :: 0 <= i < |xss| ==> xss[i] == []
    ensures Flatten(xss) == []
  {
    if xss != [] {
      FlattenEmpty(xss[..|xss| - 1]);
    }
  }

  lemma KeepCountableFront(w: string, rest: seq<string>, stop: set<string>)
    ensures multiset(KeepCountable([w] + rest, stop)) ==
      multiset(KeepCountable(rest, stop)) + if Countable(w, stop) then multiset{w} else multiset{}
  {
    KeepCountableAppend([w], rest, stop);
    assert [w][..0] == [];
  }

  /** While the workers run: each worker's table counts the words it kept, and the words kept
      so far together with the countable words still in the space are the countable words
      the space started with. */
  ghost predicate Sharing(tables: seq<Table<string>>, kept: seq<seq<string>>, left: seq<string>,
                          words: seq<string>, stop: set<string>)
  {
    && |tables| == WORKERS && |kept| == WORKERS
    && (forall k :: 0 <= k < WORKERS ==> tables[k] == Count(kept[k]))
    && multiset(Flatten(kept)) + multiset(KeepCountable(left, stop)) == multiset(KeepCountable(words, stop))
  }

  /** A countable word taken by worker `k` is counted in its table. */
  lemma TakeCounted(tables: seq<Table<string>>, kept: seq<seq<string>>, word: string, left: seq<string>,
                    words: seq<string>, stop: set<string>, k: nat)
    requires Sharing(tables, kept, [word] + left, words, stop) && k < WORKERS && Countable(word, stop)
    ensures Sharing(tables[k := Incr(tables[k], word)], kept[k := kept[k] + [word]], left, words, stop)
  {
    KeepCountableFront(word, left, stop);
    FlattenPush(kept, k, word);
    CountSnoc(kept[k], word);
  }

  /** Any other word taken is dropped. */
  lemma TakeDropped(tables: seq<Table<string>>, kept: seq<seq<string>>, word: string, left: seq<string>,
                    words: seq<string>, stop: set<string>)
    requires Sharing(tables, kept, [word] + left, words, stop) && !Countable(word, stop)
    ensures Sharing(tables, kept, left, words, stop)
  {
    KeepCountableFront(word, left, stop);
  }

  /** Once the space is empty, the tables count the kept words, and those are the countable
      words the space started with. */
  lemma SharingDone(tables: seq<Table<string>>, kept: seq<seq<string>>, words: seq<string>, stop: set<string>)
    requires Sharing(tables, kept, [], words, stop)
    ensures tables == CountEach(kept)
    ensures multiset(Flatten(kept)) == multiset(KeepCountable(words, stop))
  {
    assert KeepCountable([], stop) == [];
  }

  /** The workers' loops: until the word space is empty, the worker the schedule names takes
      the next word and counts it in its own table when it is longer than one character and
      not a stop word. The words the workers counted are, between them, exactly the countable
      words that were in the space, and each table counts its own worker's words. */
  method TakeAll(spaces: DataSpaces, stop: set<string>, schedule: seq<nat>)
    returns (tables: seq<Table<string>>, ghost kept: seq<seq<string>>)
    modifies spaces
    ensures spaces.wordSpace == [] && spaces.freqSpace == old(spaces.freqSpace)
    ensures |tables| == WORKERS && tables == CountEach(kept)
    ensures multiset(Flatten(kept)) == multiset(KeepCountable(old(spaces.wordSpace), stop))
  {
    tables := [map[], map[], map[], map[], map[]];
    kept := [[], [], [], [], []];
    ghost var words := spaces.wordSpace;
    FlattenEmpty(kept);
    var j := 0;
    while true
      invariant Sharing(tables, kept, spaces.wordSpace, words, stop)
      invariant spaces.freqSpace == old(spaces.freqSpace)
      decreases |spaces.wordSpace|
    {
      ghost var rest := spaces.wordSpace;
      var w := spaces.TakeWord();
      if w.None? {
        break;
      }
      var word := w.value;
      var k := Turn(schedule, j);
      assert rest == [word] + spaces.wordSpace;
      if |word| > 1 && word !in stop {
        TakeCounted(tables, kept, word, spaces.wordSpace, words, stop, k);
        tables := tables[k := Incr(tables[k], word)];
        kept := kept[k := kept[k] + [word]];
      } else {
        TakeDropped(tables, kept, word, spaces.wordSpace, words, stop);
      }
      j := j + 1;
    }
    SharingDone(tables, kept, words, stop);
  }

  /** Each worker, once it finds the word space empty, puts its table into the frequency
      space. */
  method PushTables(spaces: DataSpaces, tables: seq<Table<string>>)
    modifies spaces
    ensures spaces.freqSpace == old(spaces.freqSpace) + tables
    ensures spaces.wordSpace == old(spaces.wordSpace)
  {
    for k := 0 to |tables|
      invariant spaces.freqSpace == old(spaces.freqSpace) + tables[..k]
      invariant spaces.wordSpace == old(spaces.wordSpace)
    {
      spaces.PushTable(tables[k]);
      assert tables[..k + 1] == tables[..k] + [tables[k]];
    }
    assert tables[..|tables|] == tables;
  }

  /** The five workers run until the word space is empty; the frequency space then holds one
      table per worker, which between them count exactly the countable words that were in the
      word space. */
  method RunWorkers(spaces: DataSpaces, stop: set<string>, schedule: seq<nat>)
    returns (ghost kept: seq<seq<string>>)
    modifies spaces
    ensures spaces.wordSpace == []
    ensures |kept| == WORKERS
    ensures spaces.freqSpace == old(spaces.freqSpace) + CountEach(kept)
    ensures multiset(Flatten(kept)) == multiset(KeepCountable(old(spaces.wordSpace), stop))
  {
    var tables;
    tables, kept := TakeAll(spaces, stop, schedule);
    PushTables(spaces, tables);
  }

  /** Moving one entry of `rest` over into `r` does not change their sum. */
  lemma MergeMove(r: Table<string>, rest: Table<string>, k: string)
    requires k in rest
    ensures Merge(r[k := Get(r, k) + rest[k]], rest - {k}) == Merge(r, rest)
  {
    var a := Merge(r[k := Get(r, k) + rest[k]], rest - {k});
    var b := Merge(r, rest);
    assert a.Keys == b.Keys;
    forall j | j in a ensures a[j] == b[j] {
      if j == k {
        assert a[j] == Get(r, k) + rest[k] + 0;
      } else {
        assert a[j] == Get(r, j) + Get(rest, j);
      }
    }
  }

  /** `for (k, v) in f { *freq.entry(k).or_default() += v }`: every entry of `f` is added to
      `freq`, in the order the map hands them out, which does not matter. */
  method AddTable(freq: Table<string>, f: Table<string>) returns (r: Table<string>)
    ensures r == Merge(freq, f)
  {
    r := freq;
    var rest := f;
    while rest != map[]
      invariant Merge(r, rest) == Merge(freq, f)
      decreases |rest|
    {
      var k :| k in rest;
      MergeMove(r, rest, k);
      r := r[k := Get(r, k) + rest[k]];
      rest := rest - {k};
    }
    MergeNothing(r);
  }

  lemma MergeNothing(r: Table<string>)
    ensures Merge(r, map[]) == r
  {
  }

  /** "merge frequencies": the tables drained from the frequency space, added up one after the
      other into an empty table. */
  method MergeTables(tables: seq<Table<string>>) returns (freq: Table<string>)
    ensures freq == MergeAll(tables)
  {
    freq := map[];
    for i := 0 to |tables|
      invariant freq == MergeAll(tables[..i])
    {
      assert tables[..i + 1][..i] == tables[..i];
      freq := AddTable(freq, tables[i]);
    }
    assert tables[..|tables|] == tables;
  }

  /** However the schedule shares the words out, the merged tables of the workers are the
      count of the countable words of the text. */
  lemma WorkersCount(kept: seq<seq<string>>, lines: seq<string>, stop: set<string>)
    requires multiset(Flatten(kept)) == multiset(KeepCountable(TokensOfLines(lines, NonAlnum), stop))
    ensures MergeAll(CountEach(kept)) == Count(CountedWords(lines, NonAlnum, stop))
  {
    MergeAllPermutedParts(kept, CountedWords(lines, NonAlnum, stop));
  }

  /** "print top 25": the entries of the merged table, sorted by decreasing count, cut to 25. */
  method Rank(freq: Table<string>) returns (items: seq<Entry<string>>)
    ensures IsTop(items, freq, 25)
  {
    items := CollectEntries(freq);
    items := SortByCount(items);
    TopOfRanking(items, freq, 25);
    items := Truncate(items, 25);
  }

  /** `main`: a stop-word file that does not open is returned as an error, then a missing
      argument panics, then a text that does not open is returned as an error. Otherwise,
      whatever the schedule, the rows printed are a correct top 25 of the counted words. */
  method Run(args: seq<string>, fs: map<string, string>, schedule: seq<nat>)
    returns (out: Outcome<seq<Entry<string>>>)
    ensures out.Done? <==> STOP_WORDS_PATH in fs && |args| >= 2 && args[1] in fs
    ensures out.Panic? ==>
      out.reason == (if STOP_WORDS_PATH !in fs || |args| >= 2 then NOT_FOUND else NO_ARGUMENT)
    ensures out.Done? ==>
      IsTop(out.value, Count(CountedWords(Lines(fs[args[1]]), NonAlnum, CommaStopWords(fs[STOP_WORDS_PATH]))), 25)
  {
    var spaces := new DataSpaces();
    if STOP_WORDS_PATH !in fs {
      return Panic(NOT_FOUND);
    }
    var stopWords := CommaStopWords(fs[STOP_WORDS_PATH]);
    if |args| < 2 {
      return Panic(NO_ARGUMENT);
    }
    var filepath := args[1];
    if filepath !in fs {
      return Panic(NOT_FOUND);
    }
    var lines := Lines(fs[filepath]);
    FillWordSpace(spaces, lines);
    assert spaces.wordSpace == TokensOfLines(lines, NonAlnum);
    var kept := RunWorkers(spaces, stopWords, schedule);
    var tables := spaces.DrainTables();
    assert tables == CountEach(kept);
    var freq := MergeTables(tables);
    WorkersCount(kept, lines, stopWords);
    var items := Rank(freq);
    out := Done(items);
  }
}

=== FILE: week8_map_reduce.dfy ===
/** week8/32-1.rs, the "map-reduce" style: the text is cut into chunks of lines, each chunk is
    mapped to a list of (word, 1) pairs, the pairs of all chunks are regrouped by word, each
    word's group is reduced to the sum of its counts, and the totals are ranked. */
module Week8MapReduce {
  import opened Wrappers
  import opened Seqs
  import opened Text
  import opened Frequencies
  import opened Ranking

  const STOP_WORDS_PATH := "../stop_words.txt"
  /** The number `main` passes to `partition`: a full chunk holds one line fewer. */
  const CHUNK_SIZE: nat := 200
  const USAGE := "Usage: ./32 <path>"

  // ---------------------------------------------------------------------------------------
  // partition

  /** The lines cut into consecutive groups of `m` lines, the last group possibly shorter;
      with `m == 0` all lines form one group. */
  function Groups(lines: seq<string>, m: nat): (gs: seq<seq<string>>)
    ensures lines == [] <==> gs == []
    decreases |lines|
  {
    if lines == [] then []
    else if m == 0 || |lines| <= m then [lines]
    else [lines[..m]] + Groups(lines[m..], m)
  }

  /** The groups hold the lines in order, none is empty or longer than `m`, and all but the
      last hold exactly `m` lines. */
  lemma {:induction false} GroupsShape(lines: seq<string>, m: nat)
    ensures var gs := Groups(lines, m);
      && Flatten(gs) == lines
      && (forall k :: 0 <= k < |gs| ==> gs[k] != [] && (m > 0 ==> |gs[k]| <= m))
      && (forall k :: 0 <= k < |gs| - 1 ==> |gs[k]| == m)
    decreases |lines|
  {
    if lines == [] {
    } else if m == 0 || |lines| <= m {
      FlattenCons(lines, []);
    } else {
      var rest := Groups(lines[m..], m);
      GroupsShape(lines[m..], m);
      FlattenCons(lines[..m], rest);
      assert lines == lines[..m] + lines[m..];
    }
  }

  /** The text `partition` builds for one group: its lines joined by '\n', followed by one more
      '\n' unless the group is full. */
  function ChunkText(g: seq<string>, m: nat): string
  {
    Join(g, '\n') + (if m > 0 && |g| == m then "" else "\n")
  }

  /** The chunks `partition(s, m + 1)` produces for the lines of `s`, in order. */
  function Chunks(lines: seq<string>, m: nat): (cs: seq<string>)
  {
    var gs := Groups(lines, m);
    seq(|gs|, k requires 0 <= k < |gs| => ChunkText(gs[k], m))
  }

  /** `a` is made of full groups of `m` lines only. */
  predicate Whole(a: seq<string>, m: nat)
    decreases |a|
  {
    a == [] || (m > 0 && |a| >= m && Whole(a[m..], m))
  }

  lemma {:induction false} WholeSnoc(a: seq<string>, g: seq<string>, m: nat)
    requires Whole(a, m) && m > 0 && |g| == m
    ensures Whole(a + g, m)
    decreases |a|
  {
    if a == [] {
      assert a + g == g;
      assert g[m..] == [];
    } else {
      WholeSnoc(a[m..], g, m);
      assert (a + g)[m..] == a[m..] + g;
    }
  }

  /** A group that follows whole groups is the next group. */
  lemma {:induction false} GroupsSnoc(a: seq<string>, g: seq<string>, m: nat)
    requires g != [] && Whole(a, m)
    requires m > 0 ==> |g| <= m
    ensures Groups(a + g, m) == Groups(a, m) + [g]
    decreases |a|
  {
    if a == [] {
      assert a + g == g;
    } else {
      assert (a + g)[..m] == a[..m];
      assert (a + g)[m..] == a[m..] + g;
      GroupsSnoc(a[m..], g, m);
      if |a| == m {
        assert a[m..] == [];
      }
    }
  }

  lemma ChunksSnoc(a: seq<string>, g: seq<string>, m: nat)
    requires g != [] && Whole(a, m)
    requires m > 0 ==> |g| <= m
    ensures Chunks(a + g, m) == Chunks(a, m) + [ChunkText(g, m)]
  {
    GroupsSnoc(a, g, m);
  }

  lemma JoinExtend(lines: seq<string>, d: nat, j: nat)
    requires d <= j < |lines|
    ensures Join(lines[d..j + 1], '\n') ==
      if d == j then lines[j] else Join(lines[d..j], '\n') + "\n" + lines[j]
  {
    assert lines[d..j + 1] == lines[d..j] + [lines[j]];
    if d == j {
      assert lines[d..j + 1] == [lines[j]];
    } else {
      JoinSnoc(lines[d..j], lines[j], '\n');
    }
  }

  /** The state of `partition` after the first `j` lines: the chunks of the first `done` lines
      (whole chunks only) are pushed, and `chunk` holds the `i` lines read since, each followed
      by '\n'. */
  ghost predicate Partial(lines: seq<string>, m: nat, j: nat, done: nat, i: nat, chunk: string, result: seq<string>)
  {
    && j <= |lines| && done + i == j
    && Whole(lines[..done], m)
    && (m > 0 ==> i < m)
    && result == Chunks(lines[..done], m)
    && (i == 0 ==> chunk == "")
    && (i > 0 ==> chunk == Join(lines[done..j], '\n') + "\n")
  }

  /** The line that fills a chunk pushes it without a final '\n'. */
  lemma StepFull(lines: seq<string>, m: nat, j: nat, done: nat, i: nat, chunk: string, result: seq<string>)
    requires Partial(lines, m, j, done, i, chunk, result) && j < |lines| && i + 1 == m
    ensures Partial(lines, m, j + 1, j + 1, 0, "", result + [chunk + lines[j]])
  {
    JoinExtend(lines, done, j);
    var g := lines[done..j + 1];
    assert |g| == m;
    assert lines[..j + 1] == lines[..done] + g;
    ChunksSnoc(lines[..done], g, m);
    WholeSnoc(lines[..done], g, m);
    assert ChunkText(g, m) == Join(g, '\n') + "" == Join(g, '\n');
    if i == 0 {
      assert chunk + lines[j] == lines[j];
    }
    assert chunk + lines[j] == Join(g, '\n');
  }

  /** Any other line is added to the chunk, followed by '\n'. */
  lemma StepPartial(lines: seq<string>, m: nat, j: nat, done: nat, i: nat, chunk: string, result: seq<string>)
    requires Partial(lines, m, j, done, i, chunk, result) && j < |lines| && i + 1 != m
    ensures Partial(lines, m, j + 1, done, i + 1, chunk + lines[j] + "\n", result)
  {
    JoinExtend(lines, done, j);
  }

  /** After the last line, a chunk that is not empty is the last chunk. */
  lemma StepLast(lines: seq<string>, m: nat, done: nat, i: nat, chunk: string, result: seq<string>)
    requires Partial(lines, m, |lines|, done, i, chunk, result)
    ensures (if |chunk| > 0 then result + [chunk] else result) == Chunks(lines, m)
  {
    if |chunk| > 0 {
      var g := lines[done..];
      assert lines[done..|lines|] == g;
      assert lines == lines[..done] + g;
      ChunksSnoc(lines[..done], g, m);
    } else {
      assert lines[..done] == lines;
    }
  }

  /** `partition(s, chunk_size)`: the lines of `s` are gathered `chunk_size - 1` at a time; a
      full chunk is pushed without a final '\n', and what is left at the end, each line ending
      in '\n', is pushed when it is not empty. With `chunk_size == 1` the counter never meets
      its bound and every line goes into one chunk. */
  method Partition(s: string, chunkSize: nat) returns (result: seq<string>)
    requires chunkSize >= 1
    ensures result == Chunks(Lines(s), chunkSize - 1)
  {
    var lines := Lines(s);
    var m := chunkSize - 1;
    var i := 0;
    var chunk := "";
    result := [];
    ghost var done := 0;
    for j := 0 to |lines|
      invariant Partial(lines, m, j, done, i, chunk, result)
    {
      if i + 1 == m {
        StepFull(lines, m, j, done, i, chunk, result);
      } else {
        StepPartial(lines, m, j, done, i, chunk, result);
      }
      i := i + 1;
      chunk := chunk + lines[j];
      if i == m {
        i := 0;
        result := result + [chunk];
        chunk := "";
        done := j + 1;
      } else {
        chunk := chunk + "\n";
      }
    }
    StepLast(lines, m, done, i, chunk, result);
    if |chunk| > 0 {
      result := result + [chunk];
    }
  }

  // ---------------------------------------------------------------------------------------
  // split_words

  /** Every word paired with the count 1, in order. */
  function Ones(ws: seq<string>): (r: seq<Entry<string>>)
    ensures |r| == |ws|
    ensures forall i :: 0 <= i < |ws| ==> r[i] == (ws[i], 1)
  {
    seq(|ws|, i requires 0 <= i < |ws| => (ws[i], 1))
  }

  lemma OnesAppend(a: seq<string>, b: seq<string>)
    ensures Ones(a + b) == Ones(a) + Ones(b)
  {
  }

  /** `split_words`, once the stop words are read: the chunk cut at every character that is
      not an ASCII letter or digit, the pieces lower-cased, the countable ones kept in order,
      each paired with 1. */
  function SplitWords(chunk: string, stop: set<string>): (r: seq<Entry<string>>)
    ensures |r| <= |Split(chunk, NonAlnum)|
    ensures forall i :: 0 <= i < |r| ==> r[i].1 == 1 && Countable(r[i].0, stop)
  {
    Ones(KeepCountable(Tokens(chunk, NonAlnum), stop))
  }

  /** `partition(...).map(split_words)`: the pairs of every chunk, chunk by chunk. */
  function SplitEach(chunks: seq<string>, stop: set<string>): (r: seq<seq<Entry<string>>>)
    ensures |r| == |chunks|
    ensures forall k :: 0 <= k < |chunks| ==> r[k] == SplitWords(chunks[k], stop)
  {
    seq(|chunks|, k requires 0 <= k < |chunks| => SplitWords(chunks[k], stop))
  }

  lemma {:induction false} TokensOfLinesAppend(a: seq<string>, b: seq<string>, sep: Separator)
    ensures TokensOfLines(a + b, sep) == TokensOfLines(a, sep) + TokensOfLines(b, sep)
    decreases |b|
  {
    if b == [] {
      assert a + b == a;
    } else {
      var n := |b| - 1;
      var ab := a + b;
      assert ab[..|ab| - 1] == a + b[..n];
      assert ab[|ab| - 1] == b[n];
      TokensOfLinesAppend(a, b[..n], sep);
      AppendAssoc(TokensOfLines(a, sep), TokensOfLines(b[..n], sep), Tokens(b[n], sep));
    }
  }

  lemma CountedWordsAppend(a: seq<string>, b: seq<string>, sep: Separator, stop: set<string>)
    ensures CountedWords(a + b, sep, stop) == CountedWords(a, sep, stop) + CountedWords(b, sep, stop)
  {
    TokensOfLinesAppend(a, b, sep);
    KeepCountableAppend(TokensOfLines(a, sep), TokensOfLines(b, sep), stop);
  }

  /** One chunk yields the words of its lines: the '\n' between and after the lines only cut
      pieces, as every non-alphanumeric character does. */
  lemma ChunkWords(g: seq<string>, m: nat, stop: set<string>)
    requires g != []
    ensures KeepCountable(Tokens(ChunkText(g, m), NonAlnum), stop) == CountedWords(g, NonAlnum, stop)
  {
    TokensOfJoinedLines(g, NonAlnum);
    if !(m > 0 && |g| == m) {
      TrailingSeparator(Join(g, '\n'), NonAlnum, stop);
    } else {
      assert ChunkText(g, m) == Join(g, '\n');
    }
  }

  /** Past the first full group, the chunks are that group's text and the chunks of the rest. */
  lemma ChunksCons(lines: seq<string>, m: nat)
    requires m > 0 && |lines| > m
    ensures Chunks(lines, m) == [ChunkText(lines[..m], m)] + Chunks(lines[m..], m)
  {
  }

  lemma SplitEachCons(c: string, cs: seq<string>, stop: set<string>)
    ensures SplitEach([c] + cs, stop) == [SplitWords(c, stop)] + SplitEach(cs, stop)
  {
  }

  /** Mapping `split_words` over the chunks yields the pairs of the words of the whole text,
      in text order: the cut into chunks loses and adds nothing. */
  lemma {:induction false} MappedWords(lines: seq<string>, m: nat, stop: set<string>)
    ensures Flatten(SplitEach(Chunks(lines, m), stop)) == Ones(CountedWords(lines, NonAlnum, stop))
    decreases |lines|
  {
    if lines == [] {
      assert Chunks(lines, m) == [];
      assert SplitEach([], stop) == [];
      assert TokensOfLines(lines, NonAlnum) == [];
    } else if m == 0 || |lines| <= m {
      ChunkWords(lines, m, stop);
      assert Chunks(lines, m) == [ChunkText(lines, m)];
      var sp := SplitEach([ChunkText(lines, m)], stop);
      assert sp == [sp[0]];
      FlattenCons(sp[0], []);
    } else {
      var rest := lines[m..];
      assert lines == lines[..m] + rest;
      MappedWords(rest, m, stop);
      ChunkWords(lines[..m], m, stop);
      ChunksCons(lines, m);
      var first := ChunkText(lines[..m], m);
      SplitEachCons(first, Chunks(rest, m), stop);
      FlattenCons(SplitWords(first, stop), SplitEach(Chunks(rest, m), stop));
      CountedWordsAppend(lines[..m], rest, NonAlnum, stop);
      OnesAppend(CountedWords(lines[..m], NonAlnum, stop), CountedWords(rest, NonAlnum, stop));
    }
  }

  // ---------------------------------------------------------------------------------------
  // regroup

  /** The pairs of `ps` that carry the word `w`, in order. */
  function Carrying(ps: seq<Entry<string>>, w: string): (r: seq<Entry<string>>)
    ensures forall i :: 0 <= i < |r| ==> r[i].0 == w
  {
    if ps == [] then []
    else
      var n := |ps| - 1;
      Carrying(ps[..n], w) + if ps[n].0 == w then [ps[n]] else []
  }

  lemma CarryingSnoc(ps: seq<Entry<string>>, p: Entry<string>, w: string)
    ensures Carrying(ps + [p], w) == Carrying(ps, w) + if p.0 == w then [p] else []
  {
    assert (ps + [p])[..|ps|] == ps;
  }

  lemma MentionsSnoc(ps: seq<Entry<string>>, p: Entry<string>, w: string)
    ensures Mentions(ps + [p], w) <==> Mentions(ps, w) || p.0 == w
  {
    if Mentions(ps + [p], w) && p.0 != w {
      var i :| 0 <= i < |ps + [p]| && (ps + [p])[i].0 == w;
      assert ps[i].0 == w;
    }
    if Mentions(ps, w) {
      var i :| 0 <= i < |ps| && ps[i].0 == w;
      assert (ps + [p])[i].0 == w;
    }
    if p.0 == w {
      assert (ps + [p])[|ps|].0 == w;
    }
  }

  lemma {:induction false} CarryingNone(ps: seq<Entry<string>>, w: string)
    requires !Mentions(ps, w)
    ensures Carrying(ps, w) == []
  {
    if ps != [] {
      var n := |ps| - 1;
      assert ps == ps[..n] + [ps[n]];
      MentionsSnoc(ps[..n], ps[n], w);
      CarryingNone(ps[..n], w);
    }
  }

  /** `r` maps exactly the words of `ps` to the pairs of `ps` that carry them, in order. */
  ghost predicate RegroupedAs(r: map<string, seq<Entry<string>>>, ps: seq<Entry<string>>)
  {
    && (forall w :: w in r <==> Mentions(ps, w))
    && (forall w :: w in r ==> r[w] == Carrying(ps, w))
  }

  lemma RegroupStep(r: map<string, seq<Entry<string>>>, ps: seq<Entry<string>>, p: Entry<string>)
    requires RegroupedAs(r, ps)
    ensures RegroupedAs(r[p.0 := if p.0 in r then r[p.0] + [p] else [p]], ps + [p])
  {
    var r' := r[p.0 := if p.0 in r then r[p.0] + [p] else [p]];
    forall w ensures w in r' <==> Mentions(ps + [p], w) {
      MentionsSnoc(ps, p, w);
    }
    forall w | w in r' ensures r'[w] == Carrying(ps + [p], w) {
      CarryingSnoc(ps, p, w);
      if w == p.0 && p.0 !in r {
        CarryingNone(ps, w);
      }
    }
  }

  /** `regroup`: every pair of every group, in order, is appended to the list of its word,
      which is created at the word's first pair. */
  method Regroup(groups: seq<seq<Entry<string>>>) returns (result: map<string, seq<Entry<string>>>)
    ensures RegroupedAs(result, Flatten(groups))
  {
    result := map[];
    for g := 0 to |groups|
      invariant RegroupedAs(result, Flatten(groups[..g]))
    {
      var group := groups[g];
      assert Flatten(groups[..g]) + group[..0] == Flatten(groups[..g]);
      for k := 0 to |group|
        invariant RegroupedAs(result, Flatten(groups[..g]) + group[..k])
      {
        var (word, times) := group[k];
        RegroupStep(result, Flatten(groups[..g]) + group[..k], group[k]);
        assert group[..k + 1] == group[..k] + [group[k]];
        AppendAssoc(Flatten(groups[..g]), group[..k], [group[k]]);
        if word in result {
          result := result[word := result[word] + [(word, times)]];
        } else {
          result := result[word := [(word, times)]];
        }
      }
      assert group[..|group|] == group;
      assert groups[..g + 1][..g] == groups[..g];
    }
    assert groups[..|groups|] == groups;
  }

  // ---------------------------------------------------------------------------------------
  // count_words and the ranking

  /** The sum of the counts of the pairs (`fold(0, |a, b| a + b.1)`). */
  function SumTimes(ps: seq<Entry<string>>): nat
  {
    if ps == [] then 0 else SumTimes(ps[..|ps| - 1]) + ps[|ps| - 1].1
  }

  /** `count_words`: a word with the sum of its pairs' counts. */
  function CountWords(item: (string, seq<Entry<string>>)): (r: Entry<string>)
    ensures r.0 == item.0
    ensures (forall i :: 0 <= i < |item.1| ==> item.1[i].1 == 1) ==> r.1 == |item.1|
  {
    SumOfOnes(item.1);
    (item.0, SumTimes(item.1))
  }

  lemma {:induction false} SumOfOnes(ps: seq<Entry<string>>)
    ensures (forall i :: 0 <= i < |ps| ==> ps[i].1 == 1) ==> SumTimes(ps) == |ps|
  {
    if ps != [] {
      SumOfOnes(ps[..|ps| - 1]);
    }
  }

  /** Every word's pairs among the pairs of a word list sum to its number of occurrences. */
  lemma SumTimesSnoc(ps: seq<Entry<string>>, p: Entry<string>)
    ensures SumTimes(ps + [p]) == SumTimes(ps) + p.1
  {
    assert (ps + [p])[..|ps|] == ps;
  }

  lemma MentionsOnes(ws: seq<string>, w: string)
    ensures Mentions(Ones(ws), w) <==> w in ws
  {
    if w in ws {
      var i :| 0 <= i < |ws| && ws[i] == w;
      assert Ones(ws)[i].0 == w;
    }
  }

  /** Every word's pairs among the pairs of a word list sum to its number of occurrences. */
  lemma {:induction false} SumCarried(ws: seq<string>, w: string)
    ensures SumTimes(Carrying(Ones(ws), w)) == multiset(ws)[w]
  {
    if ws != [] {
      var n := |ws| - 1;
      var x := ws[n];
      SumCarried(ws[..n], w);
      assert ws == ws[..n] + [x];
      assert multiset(ws)[w] == multiset(ws[..n])[w] + if x == w then 1 else 0;
      OnesAppend(ws[..n], [x]);
      assert Ones([x]) == [(x, 1)];
      var c := Carrying(Ones(ws[..n]), w);
      CarryingSnoc(Ones(ws[..n]), (x, 1), w);
      if x == w {
        SumTimesSnoc(c, (x, 1));
      } else {
        assert c + [] == c;
      }
    }
  }

  /** The table `count_words` makes of a regrouped map: each word with its summed count. */
  function Totals(r: map<string, seq<Entry<string>>>): Table<string>
  {
    map w | w in r :: SumTimes(r[w])
  }

  /** Regrouping the pairs of a word list and summing each word's pairs gives the word count
      of the list: nothing is lost or counted twice across chunks. */
  lemma RegroupedCount(r: map<string, seq<Entry<string>>>, ws: seq<string>)
    requires RegroupedAs(r, Ones(ws))
    ensures Totals(r) == Count(ws)
  {
    CountIsOccurrences(ws);
    forall w ensures w in Totals(r) <==> w in Count(ws) {
      MentionsOnes(ws, w);
    }
    forall w | w in Totals(r) ensures Totals(r)[w] == Count(ws)[w] {
      SumCarried(ws, w);
    }
  }

  /** `regrouped.into_iter().map(count_words).collect()`: every (word, total) once, in the
      order the map hands its entries out, which the model leaves open. */
  method Reduce(regrouped: map<string, seq<Entry<string>>>) returns (es: seq<Entry<string>>)
    ensures Enumerates(es, Totals(regrouped))
  {
    es := [];
    var rest := regrouped;
    while rest != map[]
      invariant rest.Keys <= regrouped.Keys
      invariant forall w :: w in rest ==> rest[w] == regrouped[w]
      invariant multiset(es) + multiset(Totals(rest).Items) == multiset(Totals(regrouped).Items)
      decreases |rest|
    {
      var w :| w in rest;
      var item := CountWords((w, rest[w]));
      assert Totals(rest - {w}) == Totals(rest) - {w};
      RemoveItem(Totals(rest), w);
      es := es + [item];
      rest := rest - {w};
    }
    assert Totals(rest).Items == {};
  }

  /** The stop words `split_words` reads, when the file is there. */
  function StopOf(fs: map<string, string>): set<string>
  {
    if STOP_WORDS_PATH in fs then CommaStopWords(fs[STOP_WORDS_PATH]) else {}
  }

  /** `main`: a missing argument panics, a text that does not open is returned as an error,
      and `split_words` panics on the first chunk when the stop-word file does not open, which
      an empty text never reaches. Otherwise the rows printed are a correct top 25 of the
      counted words of the text. */
  method Run(args: seq<string>, fs: map<string, string>) returns (out: Outcome<seq<Entry<string>>>)
    ensures out.Done? <==> |args| >= 2 && args[1] in fs && (fs[args[1]] == [] || STOP_WORDS_PATH in fs)
    ensures out.Panic? ==>
      out.reason == (if |args| < 2 then USAGE else if args[1] !in fs then NOT_FOUND else UNWRAP_ERR)
    ensures out.Done? ==>
      IsTop(out.value, Count(CountedWords(Lines(fs[args[1]]), NonAlnum, StopOf(fs))), 25)
    ensures out.Done? && STOP_WORDS_PATH !in fs ==> out.value == []
  {
    if |args| < 2 {
      return Panic(USAGE);
    }
    if args[1] !in fs {
      return Panic(NOT_FOUND);
    }
    var text := fs[args[1]];
    var chunks := Partition(text, CHUNK_SIZE);
    var m := CHUNK_SIZE - 1;
    if text == [] {
      NothingCounted(NonAlnum, {});
    } else {
      LinesOfNonEmpty(text);
    }
    if chunks != [] && STOP_WORDS_PATH !in fs {
      return Panic(UNWRAP_ERR);
    }
    var stop := StopOf(fs);
    var mapped := SplitEach(chunks, stop);
    var regrouped := Regroup(mapped);
    ghost var words := CountedWords(Lines(text), NonAlnum, stop);
    MappedWords(Lines(text), m, stop);
    RegroupedCount(regrouped, words);
    var sorted := Reduce(regrouped);
    sorted := SortByCount(sorted);
    TopOfRanking(sorted, Count(words), 25);
    out := Done(Truncate(sorted, 25));
    if STOP_WORDS_PATH !in fs {
      assert words == [];
      assert Count(words) == map[];
    }
  }
}

=== FILE: week9_bigrams.dfy ===
/** week9/week9.py: pairs of adjacent words instead of single words. The text, with a space
    added at each end, becomes an array of characters; non-letters are blanked out and the
    rest upper-cased; the runs of at least two letters between spaces are the words; the stop
    words are dropped; some letters are replaced by look-alike characters ("leet"); the pairs
    of adjacent words are counted, ordered by decreasing count, and the first five printed.
    Each numpy operation is modelled by the value it computes. */
module Week9Bigrams {
  import opened Wrappers
  import opened Seqs
  import opened Text
  import opened Frequencies
  import opened Ranking
  import opened StringOrder

  const STOP_WORDS_PATH := "../stop_words.txt"

  // ---------------------------------------------------------------------------------------
  // get_characters, normalize

  /** `get_characters`: the text between two added spaces. */
  function Padded(text: string): (r: string)
    ensures |r| == |text| + 2 && r[0] == ' ' && r[|r| - 1] == ' ' && r[1..|r| - 1] == text
  {
    [' '] + text + [' ']
  }

  /** `characters[~np.char.isalpha(characters)] = ' '`: every non-letter becomes a space. */
  function Blanked(s: string): (r: string)
    ensures |r| == |s|
  {
    seq(|s|, i requires 0 <= i < |s| => if IsAsciiAlpha(s[i]) then s[i] else ' ')
  }

  /** What `normalize` makes of one character. */
  function NormalChar(c: char): char
  {
    if IsAsciiAlpha(c) then ToUpper(c) else ' '
  }

  /** The array `normalize` returns: blanked, then upper-cased. It is as long as its input,
      holds a space exactly where the input has no letter, and an upper-case letter
      everywhere else. */
  function Normalized(s: string): (r: string)
    ensures |r| == |s|
    ensures forall i :: 0 <= i < |s| ==> r[i] == NormalChar(s[i])
    ensures forall i :: 0 <= i < |s| ==> (r[i] == ' ' <==> !IsAsciiAlpha(s[i])) && (r[i] == ' ' || 'A' <= r[i] <= 'Z')
  {
    Upper(Blanked(s))
  }

  /** `normalize(characters)`: blanks out the non-letters of the array in place and returns
      an upper-cased copy. */
  method Normalize(characters: array<char>) returns (upper: string)
    modifies characters
    ensures characters[..] == Blanked(old(characters[..]))
    ensures upper == Normalized(old(characters[..]))
  {
    for i := 0 to characters.Length
      invariant forall k :: 0 <= k < i ==>
        characters[k] == if IsAsciiAlpha(old(characters[k])) then old(characters[k]) else ' '
      invariant forall k :: i <= k < characters.Length ==> characters[k] == old(characters[k])
    {
      if !IsAsciiAlpha(characters[i]) {
        characters[i] := ' ';
      }
    }
    upper := Upper(characters[..]);
  }

  /** Spaces stay spaces, so normalizing the padded text pads the normalized text. */
  lemma NormalizedPadded(text: string)
    ensures Normalized(Padded(text)) == Padded(Normalized(text))
  {
    var a := Normalized(Padded(text));
    var b := Padded(Normalized(text));
    forall i | 0 <= i < |a| ensures a[i] == b[i] {
      if 0 < i < |a| - 1 {
        assert Padded(text)[i] == text[i - 1];
      }
    }
  }

  function UpperAll(ws: seq<string>): (r: seq<string>)
    ensures |r| == |ws| && forall i :: 0 <= i < |ws| ==> r[i] == Upper(ws[i])
  {
    seq(|ws|, i requires 0 <= i < |ws| => Upper(ws[i]))
  }

  lemma UpperAllCons(w: string, ws: seq<string>)
    ensures UpperAll([w] + ws) == [Upper(w)] + UpperAll(ws)
  {
  }

  lemma UpperAllDrop(ws: seq<string>)
    requires |ws| > 0
    ensures UpperAll(ws)[1..] == UpperAll(ws[1..])
  {
  }

  lemma UpperCons(c: char, s: string)
    ensures Upper([c] + s) == [ToUpper(c)] + Upper(s)
  {
    assert ([c] + s)[1..] == s;
  }

  /** One character in front: normalized, it is a space exactly where the original separates
      at non-letters, so the pieces grow alike. */
  lemma PiecesStep(n: string, t: string)
    requires |n| == |t| > 0 && n[0] == NormalChar(t[0])
    requires Split(n[1..], Exactly(' ')) == UpperAll(Split(t[1..], NonAlpha))
    ensures Split(n, Exactly(' ')) == UpperAll(Split(t, NonAlpha))
  {
    var P := Split(n[1..], Exactly(' '));
    var Q := Split(t[1..], NonAlpha);
    if IsAsciiAlpha(t[0]) {
      assert Split(t, NonAlpha) == [[t[0]] + Q[0]] + Q[1..];
      assert Split(n, Exactly(' ')) == [[n[0]] + P[0]] + P[1..];
      UpperAllCons([t[0]] + Q[0], Q[1..]);
      UpperCons(t[0], Q[0]);
      UpperAllDrop(Q);
    } else {
      assert Split(t, NonAlpha) == [[]] + Q;
      assert Split(n, Exactly(' ')) == [[]] + P;
      UpperAllCons([], Q);
    }
  }

  /** Cutting the normalized text at spaces cuts the text at every non-letter and upper-cases
      the pieces. */
  lemma {:induction false} NormalizedPieces(t: string)
    ensures Split(Normalized(t), Exactly(' ')) == UpperAll(Split(t, NonAlpha))
  {
    if t != [] {
      var n := Normalized(t);
      NormalizedPieces(t[1..]);
      assert n[1..] == Normalized(t[1..]);
      PiecesStep(n, t);
    }
  }

  // ---------------------------------------------------------------------------------------
  // characters_to_words

  /** `np.where(characters == ' ')[0]`: the positions of the spaces, in increasing order. */
  function SpaceIndexes(c: string): (sp: seq<nat>)
    ensures forall k :: 0 <= k < |sp| ==> sp[k] < |c| && c[sp[k]] == ' '
    ensures forall j, k :: 0 <= j < k < |sp| ==> sp[j] < sp[k]
  {
    if c == [] then []
    else
      var n := |c| - 1;
      SpaceIndexes(c[..n]) + if c[n] == ' ' then [n] else []
  }

  /** Increasing positions inside `c`. */
  predicate Positions(c: string, sp: seq<nat>)
  {
    && (forall k :: 0 <= k < |sp| ==> sp[k] < |c|)
    && (forall j, k :: 0 <= j < k < |sp| ==> sp[j] < sp[k])
  }

  /** The words of `characters_to_words` from the ranges between the first `m + 1` spaces: a
      range whose ends lie more than 2 apart (a word of at least two characters) gives the
      characters strictly between its ends. */
  function WordsUpTo(c: string, sp: seq<nat>, m: nat): (r: seq<string>)
    requires m < |sp| && Positions(c, sp)
    ensures |r| <= m
    ensures forall i :: 0 <= i < |r| ==> |r[i]| >= 2
  {
    if m == 0 then []
    else WordsUpTo(c, sp, m - 1) + if sp[m] - sp[m - 1] > 2 then [c[sp[m - 1] + 1..sp[m]]] else []
  }

  /** `characters_to_words`. */
  function CharactersToWords(c: string): (r: seq<string>)
    ensures |r| < |SpaceIndexes(c)| || r == []
    ensures forall i :: 0 <= i < |r| ==> |r[i]| >= 2
  {
    var sp := SpaceIndexes(c);
    if |sp| == 0 then [] else WordsUpTo(c, sp, |sp| - 1)
  }

  /** One more character after the last range changes none of the words found so far. */
  lemma {:induction false} WordsUpToFrame(c: string, x: char, sp: seq<nat>, sp': seq<nat>, m: nat)
    requires m < |sp| && m < |sp'| && Positions(c, sp) && Positions(c + [x], sp')
    requires sp[..m + 1] == sp'[..m + 1]
    ensures WordsUpTo(c + [x], sp', m) == WordsUpTo(c, sp, m)
  {
    if m > 0 {
      assert sp[..m] == sp'[..m] by {
        assert sp[..m] == sp[..m + 1][..m] && sp'[..m] == sp'[..m + 1][..m];
      }
      WordsUpToFrame(c, x, sp, sp', m - 1);
      assert sp[m] == sp'[m] && sp[m - 1] == sp'[m - 1] by {
        assert sp[m] == sp[..m + 1][m] && sp'[m] == sp'[..m + 1][m];
      }
      assert (c + [x])[sp[m - 1] + 1..sp[m]] == c[sp[m - 1] + 1..sp[m]];
    }
  }

  /** After a leading space and some text, with `sp` the positions of the spaces so far and
      `ps` the text cut at spaces: the words found between spaces are the long pieces, all but
      the last piece, which is what follows the last space so far. */
  predicate WordsState(u: string, sp: seq<nat>, ps: seq<string>)
  {
    |sp| >= 1 && |ps| >= 1 && Positions(u, sp) &&
    WordsUpTo(u, sp, |sp| - 1) == KeepLong(ps[..|ps| - 1]) &&
    u[sp[|sp| - 1] + 1..] == ps[|ps| - 1]
  }

  /** A space closes the last piece: it becomes a word when it is long enough. */
  lemma StateSpace(u0: string, sp0: seq<nat>, ps0: seq<string>, u: string, sp: seq<nat>, ps: seq<string>)
    requires WordsState(u0, sp0, ps0)
    requires u == u0 + [' '] && sp == sp0 + [|u0|] && ps == ps0 + [[]]
    ensures WordsState(u, sp, ps)
  {
    var m0 := |sp0| - 1;
    var n0 := |ps0| - 1;
    assert Positions(u, sp);
    assert sp[..m0 + 1] == sp0;
    WordsUpToFrame(u0, ' ', sp0, sp, m0);
    var last := u0[sp0[m0] + 1..];
    assert u[sp0[m0] + 1..|u0|] == last;
    assert WordsUpTo(u, sp, m0 + 1) == WordsUpTo(u, sp, m0) + if |u0| - sp0[m0] > 2 then [last] else [];
    KeepLongLast(ps0);
    assert ps[..|ps| - 1] == ps0;
    assert u[sp[m0 + 1] + 1..] == [];
  }

  /** The length filter on a non-empty list: the filter of all but the last word, then the
      last word when it is long. */
  lemma KeepLongLast(ps: seq<string>)
    requires ps != []
    ensures KeepLong(ps) == KeepLong(ps[..|ps| - 1]) + if |ps[|ps| - 1]| > 1 then [ps[|ps| - 1]] else []
  {
  }

  /** Any other character extends the last piece and finds no new word. */
  lemma StateOther(u0: string, sp0: seq<nat>, ps0: seq<string>, x: char, u: string, sp: seq<nat>, ps: seq<string>)
    requires WordsState(u0, sp0, ps0)
    requires u == u0 + [x] && sp == sp0
    requires |ps| == |ps0| && ps[..|ps| - 1] == ps0[..|ps0| - 1] && ps[|ps| - 1] == ps0[|ps0| - 1] + [x]
    ensures WordsState(u, sp, ps)
  {
    var m0 := |sp0| - 1;
    var n0 := |ps0| - 1;
    assert Positions(u, sp0);
    assert sp0[..m0 + 1] == sp0;
    WordsUpToFrame(u0, x, sp0, sp0, m0);
    assert u[sp0[m0] + 1..] == u0[sp0[m0] + 1..] + [x];
  }

  lemma SpacesSnoc(c: string, x: char)
    ensures SpaceIndexes(c + [x]) == SpaceIndexes(c) + if x == ' ' then [|c|] else []
  {
    assert (c + [x])[..|c|] == c;
  }

  lemma SpacesOther(c: string, x: char)
    requires x != ' '
    ensures SpaceIndexes(c + [x]) == SpaceIndexes(c)
  {
    SpacesSnoc(c, x);
    assert SpaceIndexes(c) + [] == SpaceIndexes(c);
  }

  /** The state after one more character of the text. */
  lemma WordsStepSpace(t0: string)
    requires WordsState([' '] + t0, SpaceIndexes([' '] + t0), Split(t0, Exactly(' ')))
    ensures WordsState([' '] + (t0 + [' ']), SpaceIndexes([' '] + (t0 + [' '])), Split(t0 + [' '], Exactly(' ')))
  {
    var u0 := [' '] + t0;
    assert [' '] + (t0 + [' ']) == u0 + [' '];
    SpacesSnoc(u0, ' ');
    SplitSnoc(t0, ' ', Exactly(' '));
    StateSpace(u0, SpaceIndexes(u0), Split(t0, Exactly(' ')),
      [' '] + (t0 + [' ']), SpaceIndexes([' '] + (t0 + [' '])), Split(t0 + [' '], Exactly(' ')));
  }

  lemma WordsStepOther(t0: string, x: char)
    requires x != ' '
    requires WordsState([' '] + t0, SpaceIndexes([' '] + t0), Split(t0, Exactly(' ')))
    ensures WordsState([' '] + (t0 + [x]), SpaceIndexes([' '] + (t0 + [x])), Split(t0 + [x], Exactly(' ')))
  {
    SplitSnocWordParts(t0, x, Exactly(' '));
    SpacesOther([' '] + t0, x);
    AppendAssoc([' '], t0, [x]);
    StateOther([' '] + t0, SpaceIndexes([' '] + t0), Split(t0, Exactly(' ')), x,
      [' '] + (t0 + [x]), SpaceIndexes([' '] + (t0 + [x])), Split(t0 + [x], Exactly(' ')));
  }

  /** The state after the last character of `t`, from the state before it. */
  lemma WordsStep(t: string, t0: string, x: char)
    requires t == t0 + [x]
    requires WordsState([' '] + t0, SpaceIndexes([' '] + t0), Split(t0, Exactly(' ')))
    ensures WordsState([' '] + t, SpaceIndexes([' '] + t), Split(t, Exactly(' ')))
  {
    if x == ' ' {
      WordsStepSpace(t0);
    } else {
      WordsStepOther(t0, x);
    }
  }

  lemma {:induction false} WordsSoFar(t: string)
    ensures WordsState([' '] + t, SpaceIndexes([' '] + t), Split(t, Exactly(' ')))
  {
    if t == [] {
      var u := [' '] + t;
      assert u[..0] == [];
      assert SpaceIndexes(u) == [0];
    } else {
      var n := |t| - 1;
      WordsSoFar(t[..n]);
      WordsStep(t, t[..n], t[n]);
    }
  }

  /** With a space added at each end, `characters_to_words` returns exactly the maximal runs
      of non-space characters that are at least two long, in order. */
  lemma PaddedWords(t: string)
    ensures CharactersToWords(Padded(t)) == KeepLong(Split(t, Exactly(' ')))
  {
    var t' := t + [' '];
    assert Padded(t) == [' '] + t';
    WordsSoFar(t');
    SplitSnoc(t, ' ', Exactly(' '));
    var ps := Split(t', Exactly(' '));
    assert ps[..|ps| - 1] == Split(t, Exactly(' '));
  }

  // ---------------------------------------------------------------------------------------
  // filter_stopwords

  /** `w` is one of the ','-separated pieces of the stop-word file, upper-cased. */
  predicate UpperPiece(w: string, stopText: string)
  {
    exists p :: p in Split(stopText, Exactly(',')) && w == Upper(p)
  }

  /** The upper-cased ','-separated pieces of the stop-word file: each piece is there
      upper-cased, nothing else is, and no stop word holds a lower-case letter. */
  function UpperStop(stopText: string): (r: set<string>)
    ensures forall p :: p in Split(stopText, Exactly(',')) ==> Upper(p) in r
    ensures forall w, i :: w in r && 0 <= i < |w| ==> !('a' <= w[i] <= 'z')
    ensures forall w :: w in r ==> UpperPiece(w, stopText)
  {
    set p | p in Split(stopText, Exactly(',')) :: Upper(p)
  }

  /** `filter_stopwords`: the words that are none of the upper-cased stop words, in order;
      every other word keeps all of its occurrences. */
  function FilterStopwords(words: seq<string>, stopText: string): (r: seq<string>)
    ensures forall w :: multiset(r)[w] == if w in UpperStop(stopText) then 0 else multiset(words)[w]
    ensures r == Without(words, StopPositions(words, UpperStop(stopText)))
  {
    KeepNonStopOccurrences(words, UpperStop(stopText));
    WithoutStopPositions(words, UpperStop(stopText));
    KeepNonStop(words, UpperStop(stopText))
  }

  /** `filter_stopwords` keeps the order of the words: filtering a concatenation filters each
      part, and a single word stays exactly when it is no stop word. With the occurrence count
      of `FilterStopwords`, the kept words are the non-stop words in input order. */
  lemma FilterStopwordsInOrder(a: seq<string>, b: seq<string>, w: string, stopText: string)
    ensures FilterStopwords(a + b, stopText) == FilterStopwords(a, stopText) + FilterStopwords(b, stopText)
    ensures FilterStopwords([w], stopText) == if w in UpperStop(stopText) then [] else [w]
  {
    KeepNonStopAppend(a, b, UpperStop(stopText));
  }

  // ---------------------------------------------------------------------------------------
  // map_leet

  /** `MAPPING`: ten upper-case letters become look-alike characters; every other character is
      left alone by `translate`. */
  function Leet(c: char): (r: char)
    ensures r != c <==> c in "ABCINORSTZ"
    ensures 'A' <= c <= 'Z' ==> Unleet(r) == c
  {
    match c
    case 'A' => '4'
    case 'B' => '8'
    case 'C' => '('
    case 'I' => '1'
    case 'N' => '\U{0418}'
    case 'O' => '0'
    case 'R' => '\U{042F}'
    case 'S' => '5'
    case 'T' => '7'
    case 'Z' => '2'
    case _ => c
  }

  /** The way back from a look-alike character to its letter. */
  function Unleet(c: char): (r: char)
    ensures r != c ==> r in "ABCINORSTZ"
  {
    match c
    case '4' => 'A'
    case '8' => 'B'
    case '(' => 'C'
    case '1' => 'I'
    case '\U{0418}' => 'N'
    case '0' => 'O'
    case '\U{042F}' => 'R'
    case '5' => 'S'
    case '7' => 'T'
    case '2' => 'Z'
    case _ => c
  }

  /** On upper-case letters the replacement can be undone, so no two of them are merged. */
  lemma LeetUndone(c: char)
    requires 'A' <= c <= 'Z'
    ensures Unleet(Leet(c)) == c
  {
  }

  function LeetWord(w: string): (r: string)
    ensures |r| == |w| && forall i :: 0 <= i < |w| ==> r[i] == Leet(w[i])
  {
    seq(|w|, i requires 0 <= i < |w| => Leet(w[i]))
  }

  function UnleetWord(w: string): (r: string)
    ensures |r| == |w| && forall i :: 0 <= i < |w| ==> r[i] == Unleet(w[i])
  {
    seq(|w|, i requires 0 <= i < |w| => Unleet(w[i]))
  }

  /** `map_leet`: every word translated character by character. */
  function MapLeet(ws: seq<string>): (r: seq<string>)
    ensures |r| == |ws| && forall i :: 0 <= i < |ws| ==> r[i] == LeetWord(ws[i])
  {
    seq(|ws|, i requires 0 <= i < |ws| => LeetWord(ws[i]))
  }

  /** Words of upper-case letters only. */
  predicate UpperWords(ws: seq<string>)
  {
    forall i, j :: 0 <= i < |ws| && 0 <= j < |ws[i]| ==> 'A' <= ws[i][j] <= 'Z'
  }

  /** Translating words of upper-case letters loses nothing: each word comes back. So equal
      translated words were equal words, and the pairs counted after `map_leet` are the pairs
      of the words before it, renamed. */
  lemma LeetRoundTrip(ws: seq<string>)
    requires UpperWords(ws)
    ensures forall i :: 0 <= i < |ws| ==> UnleetWord(MapLeet(ws)[i]) == ws[i]
  {
    forall i | 0 <= i < |ws| ensures UnleetWord(MapLeet(ws)[i]) == ws[i] {
      forall j | 0 <= j < |ws[i]| ensures UnleetWord(MapLeet(ws)[i])[j] == ws[i][j] {
        LeetUndone(ws[i][j]);
      }
    }
  }

  // ---------------------------------------------------------------------------------------
  // count_2gram

  /** A row of `two_grams`: a word and the word after it. */
  type Pair = (string, string)

  /** `np.stack((words[:-1], words[1:]), axis=-1)`: every word with its successor, in order. */
  function Bigrams(ws: seq<string>): (r: seq<Pair>)
    ensures |r| == if |ws| < 2 then 0 else |ws| - 1
    ensures forall i :: 0 <= i < |r| ==> r[i] == (ws[i], ws[i + 1])
  {
    if |ws| < 2 then [] else seq(|ws| - 1, i requires 0 <= i < |ws| - 1 => (ws[i], ws[i + 1]))
  }

  /** The order `np.unique(..., axis=0)` gives rows: by first word, then by second word. */
  predicate PairLess(a: Pair, b: Pair)
  {
    LexLess(a.0, b.0) || (a.0 == b.0 && LexLess(a.1, b.1))
  }

  lemma PairIrreflexive(a: Pair)
    ensures !PairLess(a, a)
  {
    LexAsymmetric(a.0, a.0);
    LexAsymmetric(a.1, a.1);
  }

  lemma PairTotal(a: Pair, b: Pair)
    requires a != b
    ensures PairLess(a, b) || PairLess(b, a)
  {
    if a.0 != b.0 {
      LexTotal(a.0, b.0);
    } else {
      LexTotal(a.1, b.1);
    }
  }

  lemma PairTransitive(a: Pair, b: Pair, c: Pair)
    requires PairLess(a, b) && PairLess(b, c)
    ensures PairLess(a, c)
  {
    if LexLess(a.0, b.0) && LexLess(b.0, c.0) {
      LexTransitive(a.0, b.0, c.0);
    } else if a.0 == b.0 && b.0 == c.0 {
      LexTransitive(a.1, b.1, c.1);
    }
  }

  /** Distinct pairs in increasing order, each counted at least once: the shape of what
      `np.unique` returns. */
  predicate Increasing(es: seq<Entry<Pair>>)
  {
    && (forall i, j :: 0 <= i < j < |es| ==> PairLess(es[i].0, es[j].0))
    && (forall i :: 0 <= i < |es| ==> es[i].1 > 0)
  }

  /** `x` comes before every pair listed in `es`. */
  predicate Below(x: Pair, es: seq<Entry<Pair>>)
  {
    forall i :: 0 <= i < |es| ==> PairLess(x, es[i].0)
  }

  /** The count listed for `q`, 0 when it is not listed. */
  function Lookup(es: seq<Entry<Pair>>, q: Pair): nat
  {
    if es == [] then 0 else if es[0].0 == q then es[0].1 else Lookup(es[1..], q)
  }

  lemma {:induction false} LookupBelow(x: Pair, es: seq<Entry<Pair>>)
    requires Below(x, es)
    ensures Lookup(es, x) == 0
  {
    if es != [] {
      PairIrreflexive(x);
      LookupBelow(x, es[1..]);
    }
  }

  lemma ConsIncreasing(e: Entry<Pair>, es: seq<Entry<Pair>>)
    requires Increasing(es) && Below(e.0, es) && e.1 > 0
    ensures Increasing([e] + es)
  {
  }

  /** One more occurrence of `p` in the increasing list of counted pairs: its count goes up by
      one, or it is inserted in its place with count 1; every other count stays. */
  function InsertPair(p: Pair, es: seq<Entry<Pair>>): (r: seq<Entry<Pair>>)
    requires Increasing(es)
    ensures Increasing(r)
    ensures forall q :: Lookup(r, q) == Lookup(es, q) + if q == p then 1 else 0
    ensures forall x :: Below(x, es) && PairLess(x, p) ==> Below(x, r)
  {
    if es == [] then [(p, 1)]
    else if es[0].0 == p then
      LookupBelow(p, es[1..]);
      ConsIncreasing((p, es[0].1 + 1), es[1..]);
      [(p, es[0].1 + 1)] + es[1..]
    else if PairLess(p, es[0].0) then
      forall i | 0 <= i < |es| ensures PairLess(p, es[i].0) {
        if i > 0 {
          PairTransitive(p, es[0].0, es[i].0);
        }
      }
      LookupBelow(p, es);
      ConsIncreasing((p, 1), es);
      [(p, 1)] + es
    else
      PairTotal(p, es[0].0);
      var rest := InsertPair(p, es[1..]);
      ConsIncreasing(es[0], rest);
      [es[0]] + rest
  }

  /** `np.unique(two_grams, axis=0, return_counts=True)`, zipped: every distinct pair once,
      in increasing order, with its number of occurrences. */
  function Unique(bs: seq<Pair>): (r: seq<Entry<Pair>>)
    ensures Increasing(r)
    ensures forall q :: Lookup(r, q) == multiset(bs)[q]
  {
    if bs == [] then []
    else
      var n := |bs| - 1;
      assert bs == bs[..n] + [bs[n]];
      InsertPair(bs[n], Unique(bs[..n]))
  }

  /** In an increasing list the count listed for a pair is the one at its position. */
  lemma {:induction false} LookupAt(es: seq<Entry<Pair>>, i: nat)
    requires Increasing(es) && i < |es|
    ensures Lookup(es, es[i].0) == es[i].1
  {
    if i > 0 {
      PairIrreflexive(es[i].0);
      LookupAt(es[1..], i - 1);
    }
  }

  lemma {:induction false} LookupMentions(es: seq<Entry<Pair>>, q: Pair)
    requires Lookup(es, q) > 0
    ensures Mentions(es, q)
  {
    if es[0].0 != q {
      LookupMentions(es[1..], q);
      var i :| 0 <= i < |es[1..]| && es[1..][i].0 == q;
      assert es[i + 1].0 == q;
    }
  }

  /** The rows of `np.unique` list the table of the counted pairs, each entry once. */
  lemma UniqueEnumerates(bs: seq<Pair>)
    ensures Enumerates(Unique(bs), Count(bs))
  {
    var u := Unique(bs);
    var t := Count(bs);
    CountIsOccurrences(bs);
    forall i, j | 0 <= i < j < |u| ensures u[i].0 != u[j].0 {
      PairIrreflexive(u[i].0);
    }
    forall i | 0 <= i < |u| ensures u[i].0 in t && t[u[i].0] == u[i].1 {
      LookupAt(u, i);
      assert multiset(bs)[u[i].0] > 0;
    }
    forall k | k in t ensures Mentions(u, k) {
      assert multiset(bs)[k] > 0;
      LookupMentions(u, k);
    }
    EnumeratesOfUnique(u, t);
  }

  /** `a` is printed before `b`: it is more frequent, or as frequent and the smaller pair. */
  predicate Before(a: Entry<Pair>, b: Entry<Pair>)
  {
    a.1 > b.1 || (a.1 == b.1 && PairLess(a.0, b.0))
  }

  /** Most frequent first, and pairs with the same count in increasing order: what the stable
      `sorted(..., reverse=True)` makes of the increasing rows of `np.unique`. */
  predicate Ordered(es: seq<Entry<Pair>>)
  {
    forall i, j :: 0 <= i < j < |es| ==> Before(es[i], es[j])
  }

  lemma ConsOrdered(x: Entry<Pair>, rest: seq<Entry<Pair>>)
    requires Ordered(rest) && forall j :: 0 <= j < |rest| ==> Before(x, rest[j])
    ensures Ordered([x] + rest)
  {
  }

  /** The head of an ordered list comes before the rest of it and before `e`, so before any
      rearrangement of the two. */
  lemma HeadBefore(s: seq<Entry<Pair>>, e: Entry<Pair>, rest: seq<Entry<Pair>>)
    requires Ordered(s) && s != [] && Before(s[0], e)
    requires multiset(rest) == multiset(s[1..]) + multiset{e}
    ensures forall j :: 0 <= j < |rest| ==> Before(s[0], rest[j])
  {
    forall j | 0 <= j < |rest| ensures Before(s[0], rest[j]) {
      assert rest[j] in multiset(rest);
      if rest[j] != e {
        assert rest[j] in multiset(s[1..]);
        var k :| 0 <= k < |s[1..]| && s[1..][k] == rest[j];
        assert s[k + 1] == rest[j];
      }
    }
  }

  /** Inserting a pair that comes after every listed pair keeps the order: it goes after every
      entry with a count at least as large. */
  lemma {:induction false} InsertDescOrdered(e: Entry<Pair>, s: seq<Entry<Pair>>)
    requires Ordered(s) && forall i :: 0 <= i < |s| ==> PairLess(s[i].0, e.0)
    ensures NonIncreasing(s) && Ordered(InsertDesc(e, s))
  {
    if s != [] && s[0].1 >= e.1 {
      InsertDescOrdered(e, s[1..]);
      HeadBefore(s, e, InsertDesc(e, s[1..]));
      ConsOrdered(s[0], InsertDesc(e, s[1..]));
    }
  }

  /** Every row sorted from the ones before the last row of increasing rows comes before it. */
  lemma BelowLast(es: seq<Entry<Pair>>, n: nat, front: seq<Entry<Pair>>)
    requires Increasing(es) && n == |es| - 1 && front == SortDesc(es[..n])
    ensures Increasing(es[..n])
    ensures forall i :: 0 <= i < |front| ==> PairLess(front[i].0, es[n].0)
  {
    forall i | 0 <= i < |front| ensures PairLess(front[i].0, es[n].0) {
      assert front[i] in multiset(es[..n]);
      var k :| 0 <= k < n && es[..n][k] == front[i];
    }
  }

  /** The stable sort by decreasing count of increasing rows is `Ordered`. */
  lemma {:induction false} SortDescOrdered(es: seq<Entry<Pair>>)
    requires Increasing(es)
    ensures Ordered(SortDesc(es))
  {
    if es != [] {
      var n := |es| - 1;
      var front := SortDesc(es[..n]);
      BelowLast(es, n, front);
      SortDescOrdered(es[..n]);
      InsertDescOrdered(es[n], front);
    }
  }

  /** `count_2gram`: every pair of adjacent words with its number of occurrences, each pair
      once, most frequent first, and pairs with equal counts in increasing order. */
  function CountBigrams(words: seq<string>): (r: seq<Entry<Pair>>)
    ensures IsRanking(r, Count(Bigrams(words)))
    ensures Ordered(r)
  {
    var bs := Bigrams(words);
    UniqueEnumerates(bs);
    SortDescOrdered(Unique(bs));
    SortDesc(Unique(bs))
  }

  lemma BeforeAsymmetric(a: Entry<Pair>, b: Entry<Pair>)
    ensures !(Before(a, b) && Before(b, a))
  {
    if a.1 == b.1 && PairLess(a.0, b.0) && PairLess(b.0, a.0) {
      PairTransitive(a.0, b.0, a.0);
      PairIrreflexive(a.0);
    }
  }

  /** The row order leaves no choice: two ordered lists of the same rows are equal, so
      `CountBigrams` is the only ordered ranking of the bigram counts. */
  lemma {:induction false} OrderedRowsUnique(x: seq<Entry<Pair>>, y: seq<Entry<Pair>>)
    requires Ordered(x) && Ordered(y) && multiset(x) == multiset(y)
    ensures x == y
  {
    if x != [] {
      assert y != [] by {
        assert x[0] in multiset(y);
      }
      if x[0] != y[0] {
        assert x[0] in multiset(y) && y[0] in multiset(x);
        var i :| 0 <= i < |y| && y[i] == x[0];
        var j :| 0 <= j < |x| && x[j] == y[0];
        BeforeAsymmetric(x[0], y[0]);
        assert false;
      }
      assert x == [x[0]] + x[1..] && y == [y[0]] + y[1..];
      assert multiset(x) == multiset{x[0]} + multiset(x[1..]);
      assert multiset(y) == multiset{y[0]} + multiset(y[1..]);
      forall e ensures multiset(x[1..])[e] == multiset(y[1..])[e] {
        assert multiset(x)[e] == multiset(y)[e];
      }
      OrderedRowsUnique(x[1..], y[1..]);
    }
  }

  // ---------------------------------------------------------------------------------------
  // the script

  /** `sys.argv[1]` with no argument. */
  const INDEX_ERROR := "IndexError: list index out of range"
  /** `open` of a missing file. */
  const FILE_NOT_FOUND := "FileNotFoundError: [Errno 2] No such file or directory"
  /** A text with no word: `np.array([])` holds floats, and the string operations that follow
      refuse it. */
  const NOT_STRINGS := "TypeError"

  lemma {:induction false} KeepLongUpper(ws: seq<string>)
    requires UpperWords(ws)
    ensures UpperWords(KeepLong(ws))
  {
    if ws != [] {
      var n := |ws| - 1;
      assert UpperWords(ws[..n]);
      KeepLongUpper(ws[..n]);
    }
  }

  /** The words of a text as `characters_to_words` finds them, defined on the text directly:
      the text cut at every non-letter, upper-cased, the pieces of at least two letters kept. */
  function TextWords(text: string): (r: seq<string>)
    ensures UpperWords(r)
  {
    var ps := Split(text, NonAlpha);
    forall i, j | 0 <= i < |UpperAll(ps)| && 0 <= j < |UpperAll(ps)[i]|
      ensures 'A' <= UpperAll(ps)[i][j] <= 'Z'
    {
      assert !Separates(NonAlpha, ps[i][j]);
    }
    KeepLongUpper(UpperAll(ps));
    KeepLong(UpperAll(ps))
  }

  /** Padding, normalizing and cutting at spaces finds exactly the words of `TextWords`. */
  lemma WordsOfText(text: string)
    ensures CharactersToWords(Normalized(Padded(text))) == TextWords(text)
  {
    NormalizedPadded(text);
    PaddedWords(Normalized(text));
    NormalizedPieces(text);
  }

  /** The script: read the file named by the first argument, find its words, drop the stop
      words, translate them, count the pairs of adjacent words and print the first five. A
      missing argument or file, or a text without a single word, raises. Otherwise the rows
      printed are a correct top 5 of the pair counts, in the order described by `Ordered`. */
  method Run(args: seq<string>, fs: map<string, string>) returns (out: Outcome<seq<Entry<Pair>>>)
    ensures out.Done? <==>
      |args| >= 2 && args[1] in fs && STOP_WORDS_PATH in fs && TextWords(fs[args[1]]) != []
    ensures out.Panic? ==>
      out.reason == (if |args| < 2 then INDEX_ERROR
                     else if args[1] !in fs || STOP_WORDS_PATH !in fs then FILE_NOT_FOUND
                     else NOT_STRINGS)
    ensures out.Done? ==>
      var ws := MapLeet(FilterStopwords(TextWords(fs[args[1]]), fs[STOP_WORDS_PATH]));
      IsTop(out.value, Count(Bigrams(ws)), 5) && Ordered(out.value) &&
      out.value == Truncate(CountBigrams(ws), 5)
  {
    if |args| < 2 {
      return Panic(INDEX_ERROR);
    }
    if args[1] !in fs {
      return Panic(FILE_NOT_FOUND);
    }
    var padded := Padded(fs[args[1]]);
    var characters := new char[|padded|](i requires 0 <= i < |padded| => padded[i]);
    assert characters[..] == padded;
    var upper := Normalize(characters);
    var words := CharactersToWords(upper);
    WordsOfText(fs[args[1]]);
    if STOP_WORDS_PATH !in fs {
      return Panic(FILE_NOT_FOUND);
    }
    if words == [] {
      return Panic(NOT_STRINGS);
    }
    words := FilterStopwords(words, fs[STOP_WORDS_PATH]);
    words := MapLeet(words);
    var pairCounts := CountBigrams(words);
    TopOfRanking(pairCounts, Count(Bigrams(words)), 5);
    out := Done(Truncate(pairCounts, 5));
  }
}

=== FILE: wrappers.dfy ===
/** Optional values and the two ways a run of the word-frequency programs can stop early. */
module Wrappers {

  datatype Option<+T> = None | Some(value: T)

  /** The result of an operation that may abort the whole process: a Rust `panic!`, an
      `unwrap()` on `None`/`Err`, or an uncaught Java exception. */
  datatype Outcome<+T> = Done(value: T) | Panic(reason: string)

  /** What a Rust `main` that returns the error of a failed `File::open` (with `?`) reports for
      a missing file. */
  const NOT_FOUND := "No such file or directory (os error 2)"

  /** The message of a panic from `unwrap()` on an `Err`, up to the error's own description. */
  const UNWRAP_ERR := "called `Result::unwrap()` on an `Err` value"
}
